=== FILE: README.md ===
# Parkir Plus — a verified model of the parking-lot core

Parkir Plus is a parking-lot system. An Express/Sequelize backend keeps five tables:
- parking sessions (`transaksi`);
- vehicles (`kendaraan`), keyed by plate;
- parking categories (`jenis_parkir`);
- areas with a capacity (`arf`);
- users and an activity log.

Next.js screens let the operator (*petugas*) check vehicles in and out, and let the owner and the admin read revenue and activity reports.

This project models that core in Dafny:

- **Backend state** is one `Database.Db` class. Each table is a `map` from id to record, and each table keeps its own next auto-increment id. `Db.Valid()` collects the invariants the controllers preserve:
  - ids lie below their counter;
  - plates and usernames are unique;
  - every session refers to an existing vehicle, category and area;
  - each vehicle has at most one open session.
- **Controllers** (`TransaksiController`, `ArfController`, `KendaraanController`, `JenisParkirController`, `UserController`, `LogController`) are methods that `modify` the database. Each returns the HTTP reply, built by the `Response` envelope functions. Request bodies use `Js.Field` (`Undefined | Null | Val`), so JavaScript's `x || d` and `x !== undefined ? x : d` are modelled exactly. `AuthMiddleware` and `ErrorHandler` are pure case splits.
- **Model files** (`TransaksiModel`, `ArfModel`, …) hold the records, their enums and defaults, and which columns are nullable.
- **Screens whose handlers change state** are classes: the check-out and check-in screens, the auth store, the admin dashboard, the transaction list, the log page, the owner page and the revenue chart. Each screen records the requests it sends, so a contract can say which request went out or that none did. Server answers are parameters (`Client.Answer`).
- **Pure selectors and aggregations** are functions with lemmas. Examples: the tariff table and the fare formula, area and category selection, the revenue sums and per-day buckets, and the registration validators.
- **Time** is integer milliseconds since the epoch, read as UTC. `Calendar` converts between day numbers and civil dates.

## Model

| member | source | states |
|---|---|---|
| TransaksiModel.StatusName | backend/src/models/Transaksi.js:62-65 | every payment status has one of the five ENUM labels |
| TransaksiModel.ParseStatus | backend/src/models/Transaksi.js:62-65 | exactly the five ENUM labels denote a status, and the label of the parsed status is the input |
| TransaksiModel.StatusRoundTrip | backend/src/models/Transaksi.js:62-65 | parsing the label of any status gives that status back |
| TransaksiModel.ParseMetode | backend/src/models/Transaksi.js:58-61 | only "tunai" and "qris" are payment methods, and the parsed method's label is the input |
| TransaksiModel.NewTransaksi | backend/src/models/Transaksi.js:7-65 | a created row is open, has no duration, tariff, total or method, and takes the default status `belum_bayar`; the references and entry time are the given ones |
| TransaksiController.BilledHours | backend/src/controllers/transaksiController.js:245-246 | `Math.ceil(ms / 3600000)`: the result h satisfies (h-1) hours < elapsed <= h hours, for negative elapsed times too |
| TransaksiController.BilledHoursFacts | backend/src/controllers/transaksiController.js:244-246 | 0 ms bills 0 hours, up to one hour bills 1, n hours plus 1 ms bills n+1, a non-positive stay bills at most 0 and a positive stay at least 1 |
| TransaksiController.BilledHoursMonotone | backend/src/controllers/transaksiController.js:244-246 | a longer stay never bills fewer hours |
| TransaksiController.ExitTime | backend/src/controllers/transaksiController.js:241-242 | `waktu_keluar ? new Date(waktu_keluar) : new Date()`: a truthy exit time sent is used, a missing one or 0 gives now |
| TransaksiController.OpenedSession | backend/src/controllers/transaksiController.js:183-189 | the new session is open, `belum_bayar`, for the found vehicle and given category, area = the id when truthy else null, entry = the given time when truthy, else now (a sent 0 is falsy and gives now) |
| TransaksiController.ParkedWhenActive | backend/src/controllers/transaksiController.js:171-180 | an open session of the vehicle carrying the plate means the plate counts as parked |
| TransaksiController.NotParkedUnlessActive | backend/src/controllers/transaksiController.js:159-180 | with unique plates, a plate whose vehicle has no open session (or that no vehicle carries) is not parked |
| TransaksiController.OpenKeepsOnePerVehicle | backend/src/controllers/transaksiController.js:171-189 | adding an open session for a vehicle without one keeps at most one open session per vehicle |
| TransaksiController.FindOrRegisterVehicle | backend/src/controllers/transaksiController.js:158-168 | the result carries the plate; an existing vehicle leaves the table unchanged, otherwise exactly one plate-only vehicle of the given kind is added under the next id |
| TransaksiController.CheckIn | backend/src/controllers/transaksiController.js:103-217 | 201 iff plate and category are truthy, the category exists, a truthy area exists and accepts kind 2→motor / other→mobil, and the plate is not parked; 400 for missing inputs, 404 for an unknown category; every refusal changes nothing; success adds exactly the opened session, and a new vehicle only under the upper-cased plate |
| TransaksiController.Admit | backend/src/controllers/transaksiController.js:158-194 | after the checks: 201 exactly when the upper-cased plate is not parked, storing one open session for the found or newly registered vehicle; otherwise 400 with nothing written |
| TransaksiController.StoreSession | backend/src/controllers/transaksiController.js:183-189 | the open session is stored under the next id and nothing else changes; at most one open session per vehicle still holds |
| TransaksiController.ClosedSession | backend/src/controllers/transaksiController.js:241-256 | closed at the exit time, duration = billed hours × 60, tariff = total = the caller's amount or 0 (no recomputation), the stored method is the one whose label is `metode_pembayaran || 'tunai'` (cash when falsy), status lunas, references and entry unchanged |
| TransaksiController.StoredStayCoversElapsed | backend/src/controllers/transaksiController.js:244-251 | the stored minutes are a multiple of 60, cover the elapsed time and exceed it by less than an hour |
| TransaksiController.CloseKeepsOnePerVehicle | backend/src/controllers/transaksiController.js:249-256 | closing a session keeps at most one open session per vehicle |
| TransaksiController.CheckOut | backend/src/controllers/transaksiController.js:221-266 | 404 for an unknown id, 400 for a closed session; a method label outside the ENUM makes the update fail in the database (a rejection the error handler answers with 500); all three leave the table unchanged; otherwise only that session becomes `ClosedSession` and 200 |
| TransaksiController.UpdatePaymentStatus | backend/src/controllers/transaksiController.js:278-303 | a label outside the five ENUM values is 400 before lookup, an unknown id 404; otherwise only the status field of that session changes, to the given label |
| TransaksiController.DeleteTransaksi | backend/src/controllers/transaksiController.js:315-331 | 404 when missing, 400 and no change for a session with an exit time, otherwise exactly that session is removed |
| TransaksiController.GetTransaksiById | backend/src/controllers/transaksiController.js:42-58 | 404 for an unknown id, otherwise 200 with that row |
| TransaksiController.MatchingRows | backend/src/controllers/transaksiController.js:11-20 | exactly the rows whose status equals a truthy filter character for character (all rows without one), each with its stored value, ordered by id descending |
| TransaksiController.GetAllTransaksi | backend/src/controllers/transaksiController.js:7-38 | one page of the matching rows (offset (page-1)·limit, at most limit rows), total = all matches, pages = ceil(total/limit) |
| TransaksiController.OpenKeysForPlate | backend/src/controllers/transaksiController.js:69-84 | exactly the open sessions whose vehicle carries the plate, largest id first (at most one exists, see OpenKeysAtMostOne, so the source's entry-time order is not observable) |
| TransaksiController.OpenKeysFindParked | backend/src/controllers/transaksiController.js:69-88 | the lookup finds something iff the plate is parked |
| TransaksiController.OpenKeysAtMostOne | backend/src/controllers/transaksiController.js:69-84 | with unique plates and one open session per vehicle, a plate has at most one open session |
| TransaksiController.SamePlateSameSession | backend/src/controllers/transaksiController.js:69-84 | two open sessions for the same plate are the same session |
| TransaksiController.GetAktifTransaksi | backend/src/controllers/transaksiController.js:61-99 | 400 without a plate, 404 iff the upper-cased plate is not parked, otherwise exactly one open session of that plate |
| Database.Db.constructor | backend/src/models/Transaksi.js:8-12 | every table starts empty with its auto-increment counter at 1, and the invariants hold |
| Database.FirstMatch | backend/src/controllers/transaksiController.js:159-161 | `findOne`: the smallest key in range whose row matches, or none when no row in range matches |
| Database.KeysDesc | backend/src/controllers/transaksiController.js:20 | `ORDER BY id DESC`: exactly the matching keys, strictly decreasing |
| Database.KeysAsc | backend/src/controllers/userController.js:18-23 | listing without an order: exactly the matching keys, strictly increasing |
| Database.ListDesc | backend/src/controllers/kendaraanController.js:17-21 | exactly the matching rows with their keys, each once, largest key first |
| Database.Page | backend/src/controllers/transaksiController.js:8-19 | `LIMIT/OFFSET`: at most `limit` rows, empty past the end, else the slice starting at (page-1)·limit |
| Database.TotalPages | backend/src/controllers/transaksiController.js:36 | `Math.ceil(count/limit)`: the smallest n with count <= n·limit |
| Database.PageCovers | backend/src/controllers/transaksiController.js:8-36 | every row appears on page i/limit+1 at position i%limit, and that page is within the page count |
| Response.SuccessResponse | backend/src/utils/responseFormatter.js:2-8 | `success: true`, status default 200, message default "Success", data passed through (null when absent) |
| Response.ErrorResponse | backend/src/utils/responseFormatter.js:10-16 | `success: false`, status default 400, message default "Error", the `errors` key present iff errors is given |
| Response.PaginatedResponse | backend/src/utils/responseFormatter.js:18-29 | `success: true`; total, page and pages passed through (defaults 0, 1, 1); perPage = length of the data sent |
| Response.Fail | backend/src/utils/responseFormatter.js:10-16 | the three-argument error reply: given status and message, no `errors` key |
| Response.Ok | backend/src/utils/responseFormatter.js:2-8 | the success reply with the given status, data and message |
| AuthMiddleware.BearerToken | backend/src/middleware/authMiddleware.js:5-7 | the token, when found, is non-empty and space-free; no header gives no token |
| AuthMiddleware.BearerRoundTrip | backend/src/middleware/authMiddleware.js:5 | the header "Bearer <t>" yields exactly t for any non-empty space-free t |
| AuthMiddleware.VerifyToken | backend/src/middleware/authMiddleware.js:3-24 | `next` with the decoded claims iff a token is present and verifies; a missing token is 401 "Token not provided", any other refusal 401 |
| AuthMiddleware.VerifyRole | backend/src/middleware/authMiddleware.js:26-44 | `next` iff a user is attached and their role is listed; no user 401, unlisted role 403 |
| AuthMiddleware.GuardChain | backend/src/middleware/authMiddleware.js:3-44 | the chained guards admit exactly a verifying token with a listed role; a verified token with the wrong role is 403, everything else 401 |
| ErrorHandler.Reshape | backend/src/middleware/errorHandler.js:13-16 | one {field, message} item per error, in order, with its path and message |
| ErrorHandler.Handle | backend/src/middleware/errorHandler.js:1-48 | the handler itself throws exactly for a unique-constraint error without an `errors` array |
| ErrorHandler.KnownNamesFixStatus | backend/src/middleware/errorHandler.js:10-40 | ValidationError, unique and foreign-key errors give 400; the two token errors give 401 |
| ErrorHandler.KnownNamesIgnoreOwnFields | backend/src/middleware/errorHandler.js:10-40 | for a recognised name the error's own statusCode and message do not affect the reply |
| ErrorHandler.UnknownNameDefaults | backend/src/middleware/errorHandler.js:5-7 | any other error keeps a truthy statusCode and message, else 500 and "Internal Server Error", and its errors or null |
| ErrorHandler.ValidationItemsKept | backend/src/middleware/errorHandler.js:10-17 | a validation error's items reach the client one for one with their paths |
| ErrorHandler.AsyncHandler | backend/src/middleware/errorHandler.js:50-52 | a resolved controller sends its own reply; a rejection never does, and goes to the error handler |
| ArfModel.NewArea | backend/src/models/Arf.js:4-26 | a stored area keeps its name and capacity and takes the defaults: supported list `['mobil']`, status `aktif` |
| ArfController.OccupancyOf | backend/src/controllers/arfController.js:122-133 | occupied = number of open sessions in that area, remaining = max(0, kapasitas - occupied), never negative |
| ArfController.OccupancyRows | backend/src/controllers/arfController.js:107-134 | exactly the `aktif` areas the filter keeps (no or unparseable list: always; otherwise no filter or the list names it), each once, in key order, each with its occupancy entry |
| ArfController.GetAreaOccupancy | backend/src/controllers/arfController.js:103-137 | 200 with exactly the occupancy rows |
| ArfController.OccupiedAfterOpen | backend/src/controllers/arfController.js:121-123 | storing a new open session in an area raises its occupancy by one |
| ArfController.OccupiedAfterClose | backend/src/controllers/arfController.js:121-123 | closing an open session of an area lowers its occupancy by one |
| ArfController.FirstBadArea | backend/src/controllers/arfController.js:93-96 | finds an `aktif` area whose non-empty list text does not parse, or none exists |
| ArfController.AreasForJenis | backend/src/controllers/arfController.js:85-97 | exactly the `aktif` areas whose parsed list names the kind, in key order; areas without a list are excluded |
| ArfController.GetAreaByJenisParkir | backend/src/controllers/arfController.js:78-100 | 400 without a kind; rejects (500 through the error handler) iff some active area holds unparseable list text; otherwise 200 with `AreasForJenis` |
| ArfController.ByJenisWithinOccupancy | backend/src/controllers/arfController.js:93-119 | an area the by-kind listing keeps is also kept by the occupancy filter for that kind |
| ArfController.NoListFiltersDisagree | backend/src/controllers/arfController.js:94-111 | an area without a list is in the occupancy report but never in the by-kind listing |
| ArfController.CreateAreaAsWritten | backend/src/controllers/arfController.js:35-51 | a missing name or falsy capacity (0 included) is 400; past the guard the insert fails because `nama_area` is never set |
| ArfController.CreateAreaAsWrittenNeverCreates | backend/src/controllers/arfController.js:38-48 | as written, every create request ends in the guard's 400 or the error handler's 500: no area is ever created |
| ArfController.CreatedArea | backend/src/controllers/arfController.js:42-48 | the intended row: the request's non-empty name, its non-zero capacity, the default list, status defaulting to `aktif` |
| ArfController.CreateArea | backend/src/controllers/arfController.js:35-51 | the guard's 400 changes nothing; otherwise exactly one row `CreatedArea` is added under the next id with 201 |
| ArfController.UpdatedArea | backend/src/controllers/arfController.js:64-70 | capacity and status are replaced only by truthy values, the name and kind list never change |
| ArfController.UpdatedAreaIdempotent | backend/src/controllers/arfController.js:64-70 | applying the same update twice equals applying it once |
| ArfController.UpdateKeepsCapacityNonZero | backend/src/controllers/arfController.js:67 | an update cannot set a non-zero capacity to 0 |
| ArfController.UpdateArea | backend/src/controllers/arfController.js:54-75 | 404 and no change for an unknown id, otherwise only that row becomes `UpdatedArea` |
| ArfController.DeleteArea | backend/src/controllers/arfController.js:140-161 | 404 when missing, 400 and no change while any session (open or closed) refers to the area, otherwise exactly that area is removed |
| KendaraanModel.PlateOnly | backend/src/models/Kendaraan.js:10-30 | a vehicle known by plate and kind only: the nullable colour, year and model are NULL |
| KendaraanController.Column | backend/src/controllers/kendaraanController.js:68-74 | a body field reaches a nullable column as its value when sent and as NULL otherwise |
| KendaraanController.GetAllKendaraan | backend/src/controllers/kendaraanController.js:6-27 | one page of exactly the vehicles whose plate contains a truthy search text literally (all without one), id descending, total counting every match |
| KendaraanController.CreatedKendaraan | backend/src/controllers/kendaraanController.js:68-74 | the stored row has the sent plate and columns; a falsy year is stored as NULL |
| KendaraanController.CreateKendaraan | backend/src/controllers/kendaraanController.js:51-77 | 400 without a plate, 400 for an exactly equal registered plate (no case folding), both changing nothing; 201 iff neither, adding exactly `CreatedKendaraan` under the next id; plates stay unique |
| KendaraanController.UpdatedKendaraan | backend/src/controllers/kendaraanController.js:101-107 | each column is replaced only by a truthy value and kept otherwise |
| KendaraanController.EmptyUpdateKeepsRow | backend/src/controllers/kendaraanController.js:101-107 | an update of falsy fields leaves the row unchanged |
| KendaraanController.UpdatedKendaraanIdempotent | backend/src/controllers/kendaraanController.js:101-107 | applying the same update twice equals applying it once |
| KendaraanController.UpdateKendaraan | backend/src/controllers/kendaraanController.js:80-112 | 404 when missing; 400 and no change when a new, different plate is held by another vehicle (keeping the same plate is allowed); otherwise only that row becomes `UpdatedKendaraan`; plates stay unique |
| KendaraanController.DeleteKendaraan | backend/src/controllers/kendaraanController.js:115-136 | 404 when missing, 400 and no change while any session belongs to the vehicle, otherwise exactly that vehicle is removed |
| JenisParkirModel.NewJenisParkir | backend/src/models/JenisParkir.js:10-34 | a category stored with a name alone has no description and 0 for capacity, hourly price and entry price |
| JenisParkirController.CreatedJenis | backend/src/controllers/jenisParkirController.js:57-63 | the stored row has the sent name and description (NULL when missing); each number is the sent value when truthy and 0 otherwise |
| JenisParkirController.CreatedFromNameIsDefault | backend/src/controllers/jenisParkirController.js:57-63 | a body with only the name stores exactly the model's default row |
| JenisParkirController.CreateJenisParkir | backend/src/controllers/jenisParkirController.js:48-68 | 400 and no change without a name; otherwise exactly `CreatedJenis` is added under the next id with 201 |
| JenisParkirController.UpdatedJenis | backend/src/controllers/jenisParkirController.js:83-89 | the name is replaced only by a truthy value; description and numbers are replaced by any defined value (null and 0 included) and kept when undefined |
| JenisParkirController.UpdateCanSetZero | backend/src/controllers/jenisParkirController.js:87 | an update can set the hourly price to 0 |
| JenisParkirController.EmptyUpdateKeepsJenis | backend/src/controllers/jenisParkirController.js:83-89 | an update with every field missing leaves the row unchanged |
| JenisParkirController.UpdatedJenisIdempotent | backend/src/controllers/jenisParkirController.js:83-89 | applying the same update twice equals applying it once |
| JenisParkirController.UpdateJenisParkir | backend/src/controllers/jenisParkirController.js:71-96 | 404 and no change for an unknown id, otherwise only that row becomes `UpdatedJenis` |
| JenisParkirController.DeleteJenisParkir | backend/src/controllers/jenisParkirController.js:99-120 | 404 when missing, 400 and no change while any session uses the category, otherwise exactly that category is removed |
| UserModel.ParseRole | backend/src/models/User.js:38-41 | exactly the five ENUM labels denote a role, and the parsed role's label is the input |
| UserModel.Public | backend/src/controllers/userController.js:34-36 | the public view carries every column of the row except the password |
| UserController.ValidatorItem | backend/src/models/User.js:14-32 | a failed validator is reported against its attribute |
| UserController.FailedValidators | backend/src/models/User.js:14-32 | reports `len` iff a username being saved is outside 3–50 characters and `isEmail` iff a non-null e-mail fails the check, nothing else |
| UserController.DuplicateEmailReply | backend/src/middleware/errorHandler.js:20-23 | a duplicate e-mail reaches the client as 400 "email sudah digunakan" |
| UserController.ValidationFailureReply | backend/src/middleware/errorHandler.js:5-7 | a failed model validator reaches the client as a 500 |
| UserController.PublicRows | backend/src/controllers/userController.js:17-23 | one password-free view per listed row, in order |
| UserController.GetAllUsers | backend/src/controllers/userController.js:8-28 | one page of exactly the accounts whose role equals a truthy role filter character for character, id descending, passwords excluded, total counting every match |
| UserController.GetUserById | backend/src/controllers/userController.js:31-43 | 404 for an unknown id, otherwise the account without its password |
| UserController.CreatedUser | backend/src/controllers/userController.js:64-74 | the inserted row: the sent username, the hash of the password, the name, e-mail and phone as sent, role defaulting to operator, active flag defaulting to true |
| UserController.CreateUser | backend/src/controllers/userController.js:46-84 | 400 for a missing username, password or name; 400 for a taken username; then a failed validator, a role outside the ENUM or a taken e-mail (compared exactly) rejects the insert; any refusal stores nothing; a request past all of these is answered 201, which adds exactly `CreatedUser` and answers without the password |
| UserController.Merged | backend/src/controllers/userController.js:105-111 | username and password never change; name, e-mail, phone and role are replaced only by truthy values, the active flag by any defined value |
| UserController.KeptRoleIsValid | backend/src/controllers/userController.js:109 | without a new role the merged label is the current, valid role |
| UserController.UpdateUser | backend/src/controllers/userController.js:95-124 | 404 for an unknown id; a truthy e-mail that fails `isEmail` is rejected; then a merged role outside the ENUM is rejected, and a merged e-mail another account holds (compared exactly) is rejected as a duplicate; any refusal changes nothing; a request past all of these is answered 200, replacing only that row by `Merged` and answering without the password |
| UserController.DeleteUser | backend/src/controllers/userController.js:135-151 | the caller's own id is 400 before any lookup, then 404 for an unknown id, both changing nothing; otherwise exactly that account is removed |
| UserController.ResetPassword | backend/src/controllers/userController.js:162-179 | 400 without a new password, 404 for an unknown id, both changing nothing; otherwise only that account's password changes, to the new password's hash |
| LogAktivitasModel.NewLog | backend/src/models/LogAktivitas.js:11-26 | a new entry keeps the (nullable) user and the description, and its action time is the creation time |
| LogController.Joined | backend/src/controllers/logAktivitasController.js:20-25 | a listed entry carries its user's columns iff its user id is set and names an account |
| LogController.JoinedLogs | backend/src/controllers/logAktivitasController.js:10-25 | exactly the entries of the user a sent `user_id` names (any sent value is non-empty query text and so filters, "0" included), all entries without one, each with its stored value, each once, id descending |
| LogController.MatchingLogs | backend/src/controllers/logAktivitasController.js:10-26 | exactly the filtered entries, each once (pairwise different ids, so the total counts matching entries), ordered by action time descending |
| LogController.SortedKeepsRows | backend/src/controllers/logAktivitasController.js:19 | ordering by action time neither loses nor invents rows |
| LogController.ReorderKeepsIdsApart | backend/src/controllers/logAktivitasController.js:19 | reordering rows whose ids differ lists each id once, so sorting adds no duplicate entry |
| LogController.GetAllLogs | backend/src/controllers/logAktivitasController.js:6-31 | one sorted page (newest first) of the filtered entries, total counting every match, pages = ceil(total/limit) |
| LogController.PageSorted | backend/src/controllers/logAktivitasController.js:17-19 | a page of a newest-first listing is newest-first |
| LogController.CreateLog | backend/src/controllers/logAktivitasController.js:34-47 | 400 without a description; a truthy user id naming no account is the foreign-key 400; any refusal stores nothing; every other request is answered 201 and adds exactly one entry stamped now, a falsy user id stored as NULL |
| LogController.Kept | backend/src/controllers/logAktivitasController.js:56-62 | the survivors of a purge are exactly the entries at or after the threshold, unchanged |
| LogController.PurgeSplits | backend/src/controllers/logAktivitasController.js:56-64 | removed entries plus kept entries account for the whole table |
| LogController.ClearLogs | backend/src/controllers/logAktivitasController.js:50-65 | threshold = now minus `days_old` days (30 by default); exactly the entries strictly older are deleted and their number is reported |
| CheckoutPage.TarifOf | frontend/src/app/dashboard/petugas/checkout/page.tsx:33-38 | every category's follow-on hourly rate is positive and at most its first-hour rate, and equal to it only for motorcycles |
| CheckoutPage.TarifRanksBySize | frontend/src/app/dashboard/petugas/checkout/page.tsx:33-38 | motorcycle < car < truck < bus, both for the first hour and for every further hour |
| CheckoutPage.GetTarifKey | frontend/src/app/dashboard/petugas/checkout/page.tsx:41-48 | the key is "motor" exactly when the lower-cased name contains "motor"; any key other than the "mobil" fallback occurs in the lower-cased name |
| CheckoutPage.UnknownNameIsMobil | frontend/src/app/dashboard/petugas/checkout/page.tsx:41-48 | a name containing none of the four keys is billed as a car |
| CheckoutPage.TarifKeyIgnoresCase | frontend/src/app/dashboard/petugas/checkout/page.tsx:41-48 | upper-casing the category name does not change its key |
| CheckoutPage.KeyNameRoundTrip | frontend/src/app/dashboard/petugas/checkout/page.tsx:41-48 | each of the four key names classifies as itself |
| CheckoutPage.MuatanIsMobil | frontend/src/app/dashboard/petugas/checkout/page.tsx:41-48 | the cargo-car category "Parkir Mobil Muatan" is billed at the car rate |
| CheckoutPage.Fare | frontend/src/app/dashboard/petugas/checkout/page.tsx:171-176 | the fare is the first-hour rate plus the follow-on rate for every further hour; the one-hour special case agrees with it |
| CheckoutPage.FareStep | frontend/src/app/dashboard/petugas/checkout/page.tsx:171-176 | one more billed hour adds exactly the follow-on rate |
| CheckoutPage.FareMonotone | frontend/src/app/dashboard/petugas/checkout/page.tsx:171-176 | from one hour on a longer stay never costs less, and never less than the first-hour rate |
| CheckoutPage.FareZeroHours | frontend/src/app/dashboard/petugas/checkout/page.tsx:164-176 | a stay of zero billed hours costs first-hour minus follow-on rate: never negative, and zero only for a motorcycle |
| CheckoutPage.ScreenFareFacts | frontend/src/app/dashboard/petugas/checkout/page.tsx:164-176 | the computed fare is the first-hour rate for any stay up to an hour, at least that for any positive stay, never lower for a later exit, and first-hour minus follow-on at the moment of entry |
| CheckoutPage.CashBox | frontend/src/app/dashboard/petugas/checkout/page.tsx:604-708 | the cash box exists only while a session is selected, for cash, after a fare is computed (so not after a check-out, which keeps the preview but clears the selection); the change is amount minus fare, and the "Uang tidak cukup!" warning shows exactly when the amount is short |
| CheckoutPage.ChangeColourMatchesWarning | frontend/src/app/dashboard/petugas/checkout/page.tsx:687-695 | the change is shown green exactly when the short-payment warning is absent |
| CheckoutPage.DetailOf | frontend/src/app/dashboard/petugas/checkout/page.tsx:119-128 | a listed session keeps its id and entry time, keeps a non-empty plate, and shows "-" for any missing text |
| CheckoutPage.Listed | frontend/src/app/dashboard/petugas/checkout/page.tsx:119-128 | the list has one entry per session of the answer, each transformed in place |
| CheckoutPage.CheckOutCallAsWritten | frontend/src/app/dashboard/petugas/checkout/page.tsx:202-213 | as written: a request goes out whenever a session is selected and a fare computed, carrying the selected id and the computed total, whichever session that total was computed for |
| CheckoutPage.AsWrittenChargesWrongSession | frontend/src/app/dashboard/petugas/checkout/page.tsx:202-213 | a motorcycle previewed at 2000, then a bus selected (picked from the list, or auto-selected as the only hit of a second search): the bus is closed at 2000 instead of its own 15000 |
| CheckoutPage.CheckOutCallFor | frontend/src/app/dashboard/petugas/checkout/page.tsx:202-213 | corrected: a request goes out exactly when the preview is of the selected session, with that session's id and previewed total |
| CheckoutPage.CorrectedChargesPreviewedSession | frontend/src/app/dashboard/petugas/checkout/page.tsx:156-213 | a confirmed request charges the selected session exactly the fare the screen computed for it |
| CheckoutPage.ScreenTotalIsStored | backend/src/controllers/transaksiController.js:241-256 | the amount and method the screen sends are what check-out stores as tariff, total and method; the exit time is the server's clock |
| CheckoutPage.BackendLookupListsOne | backend/src/controllers/transaksiController.js:61-100 | a plate of two or more characters sent upper-cased finds a session exactly when that vehicle is parked, and then exactly one, listed under that plate |
| CheckoutPage.CheckoutScreen.constructor | frontend/src/app/dashboard/petugas/checkout/page.tsx:56-66 | the screen opens with an empty form, cash selected, nothing listed, selected or computed |
| CheckoutPage.CheckoutScreen.HandleSearchPlat | frontend/src/app/dashboard/petugas/checkout/page.tsx:102-154 | shorter than two characters only records the text; otherwise the upper-cased plate is looked up, a hit lists the sessions and selects a single one, an empty answer or a failure clears list and selection and sets the matching message |
| CheckoutPage.CheckoutScreen.Select | frontend/src/app/dashboard/petugas/checkout/page.tsx:574-577 | clicking a listed session selects it and clears the error; the selection stays one of the listed sessions |
| CheckoutPage.CheckoutScreen.HandleHitung | frontend/src/app/dashboard/petugas/checkout/page.tsx:156-200 | without a selection only the error is set; otherwise the preview is the selected session priced at the current time, and the error clears |
| CheckoutPage.CheckoutScreen.Cancel | frontend/src/app/dashboard/petugas/checkout/page.tsx:826-829 | "Batal" drops the preview |
| CheckoutPage.CheckoutScreen.HandleCheckOut | frontend/src/app/dashboard/petugas/checkout/page.tsx:202-234 | as written: without a selection or without a preview nothing is sent; otherwise the request `CheckOutCallAsWritten` builds (the selected id with the previewed total, whichever session it was previewed for) is recorded, success resets the form but keeps the preview for printing, a rejection shows the server's message or "Gagal check-out" |
| CheckInPage.SkipRun | frontend/src/app/dashboard/petugas/page.tsx:46 | skipping a run outside [a-z0-9] never lengthens the text, leaves it empty or starting inside [a-z0-9], and shortens it when it starts outside |
| CheckInPage.CollapseSlugged | frontend/src/app/dashboard/petugas/page.tsx:46 | after collapsing, only [a-z0-9] and single "_" remain; the result is empty only for empty input and starts with "_" exactly when the input starts outside [a-z0-9] |
| CheckInPage.SlugShaped | frontend/src/app/dashboard/petugas/page.tsx:46 | collapsing and stripping one edge "_" at each end leaves a well-formed key: no double "_", none at either end |
| CheckInPage.MapNamaJenisToKey | frontend/src/app/dashboard/petugas/page.tsx:39-47 | every key is well-formed; a name containing "motor" maps to "motor", and otherwise one containing "muatan" to "mobil_muatan" |
| CheckInPage.CargoCarKey | frontend/src/app/dashboard/petugas/page.tsx:39-47 | "Parkir Mobil Muatan" maps to "mobil_muatan" although it also contains "mobil" |
| CheckInPage.NoAlphanumericsEmptyKey | frontend/src/app/dashboard/petugas/page.tsx:39-47 | a name with no letter or digit gives the empty key |
| CheckInPage.FindAreaForJenis | frontend/src/app/dashboard/petugas/page.tsx:256-286 | a cargo car gets an area named "outdoor", found exactly when one exists; any other kind gets an area supporting it, found exactly when one exists, and one also named for the kind whenever such an area exists |
| CheckInPage.FindJenisForArea | frontend/src/app/dashboard/petugas/page.tsx:288-299 | a non-empty kind comes only from an area whose list is exactly that one kind, and an area with exactly one kind always yields it |
| CheckInPage.AreaAndKindAgree | frontend/src/app/dashboard/petugas/page.tsx:256-299 | choosing an area with a single kind fills in that kind, and the area choice for that kind then finds an area supporting it |
| CheckInPage.FilteredArfList | frontend/src/app/dashboard/petugas/page.tsx:174-189 | with no kind chosen every area is offered; otherwise the parse fails exactly when some list is non-empty text that is not an array (empty text lists no kind), and the offered areas are exactly those supporting the lower-cased kind (for "vip": supporting motor or car, or named "vip") |
| CheckInPage.PickedAreaIsOffered | frontend/src/app/dashboard/petugas/page.tsx:174-189 | the area the form picks for a kind is among the areas the dropdown offers for it |
| CheckInPage.LastWith | frontend/src/app/dashboard/petugas/page.tsx:150-155 | the row found has the id and is in the list, and none is found exactly when no row has the id |
| CheckInPage.LeastId | frontend/src/app/dashboard/petugas/page.tsx:157 | a finite non-empty set of ids has a least element |
| CheckInPage.Override | frontend/src/app/dashboard/petugas/page.tsx:150-155 | after writing rows over a map keyed by id, each id holds its last written row, otherwise its old value, and every key names its own row |
| CheckInPage.ValuesAscending | frontend/src/app/dashboard/petugas/page.tsx:157 | the listed rows are the map's values, in strictly ascending id order, with every key listed |
| CheckInPage.IdsOf | frontend/src/app/dashboard/petugas/page.tsx:150-157 | the id set is exactly the ids the rows carry |
| CheckInPage.MergeAreas | frontend/src/app/dashboard/petugas/page.tsx:112-157 | the merged list is in strictly ascending id order, each row is the server's last row for its id or else the fallback's, every id from either side is listed, and every fallback id survives |
| CheckInPage.MergeOfNothingIsFallback | frontend/src/app/dashboard/petugas/page.tsx:112-157 | with no server rows every merged row is one of the four fallback areas |
| CheckInPage.JenisId | frontend/src/app/dashboard/petugas/page.tsx:366-372 | the category id sent is never 0, is 2 exactly for "motor" and 6 exactly for "mobil_muatan" |
| CheckInPage.ScreenKindAgainstBackend | backend/src/controllers/transaksiController.js:132-152 | categories 2, 1 and 6 are checked by the backend as motor, car and car, so a cargo car is checked as a car |
| CheckInPage.PickedAreaAccepted | backend/src/controllers/transaksiController.js:132-152 | an area the screen picks for a motorcycle or car passes the backend's area-kind check |
| CheckInPage.CallPassesPresenceGuard | backend/src/controllers/transaksiController.js:118-121 | a request from a form with a plate always passes the backend's plate-and-category presence check |
| CheckInPage.AreaWithId | frontend/src/app/dashboard/petugas/page.tsx:310 | the area found is listed and its id is the parsed value; none is found exactly when no listed id equals the parsed value |
| CheckInPage.FirstSupporting | frontend/src/app/dashboard/petugas/page.tsx:95-99 | the area found is listed and supports the kind; none is found exactly when no listed area supports it |
| CheckInPage.AreaIdFor | frontend/src/app/dashboard/petugas/page.tsx:348-359 | the form's area id is used when present; otherwise an id is found exactly when an area exists for the kind, and it is that area's id |
| CheckInPage.ReceiptArea | frontend/src/app/dashboard/petugas/page.tsx:392-403 | a receipt area is a non-empty name of a listed area whose id is the form's |
| CheckInPage.CheckInScreen.constructor | frontend/src/app/dashboard/petugas/page.tsx:55-68 | the screen opens with an empty form and no areas |
| CheckInPage.CheckInScreen.FetchArf | frontend/src/app/dashboard/petugas/page.tsx:85-166 | on success the area list is the merge of server rows over the fallback, in id order; on failure it is the fallback; every fallback id is listed; with a kind but no area chosen, the first area supporting the kind is filled in; the error and submit flag clear |
| CheckInPage.CheckInScreen.PreselectArea | frontend/src/app/dashboard/petugas/page.tsx:91-103 | with no area chosen but a kind chosen, the id of the first area supporting the kind is filled in; otherwise the area choice is kept |
| CheckInPage.CheckInScreen.HandleInputChange | frontend/src/app/dashboard/petugas/page.tsx:301-332 | choosing an area sets it and fills in its only kind (or clears the kind); choosing a kind sets it and fills in an area for it when one exists; a plate is stored as typed; the error always clears |
| CheckInPage.CheckInScreen.Submission | frontend/src/app/dashboard/petugas/page.tsx:334-386 | a request exists exactly when plate and kind are filled and an area id can be found, and carries the upper-cased plate and the kind's category id |
| CheckInPage.CheckInScreen.HandleCheckIn | frontend/src/app/dashboard/petugas/page.tsx:334-423 | a form that cannot be submitted shows why and sends nothing; otherwise the request is recorded, success prints the receipt and resets the form, a failure shows the server's message or the fallback |
| CheckInPage.CheckInScreen.SendCheckIn | frontend/src/app/dashboard/petugas/page.tsx:362-418 | the request is recorded; success shows the receipt of the upper-cased plate and resets the form; no answer shows the server's message or the fallback and keeps the form |
| OwnerPage.DaysBack | frontend/src/app/dashboard/owner/page.tsx:145-162 | a preset starts fewer than 30 days back |
| OwnerPage.DatesWindow | frontend/src/app/dashboard/owner/page.tsx:133-142 | a custom range is refused with "Tanggal mulai tidak boleh setelah tanggal selesai" exactly when the end date comes before the start date; otherwise it spans the start date's day to the end date's day |
| OwnerPage.ResolveRange | frontend/src/app/dashboard/owner/page.tsx:115-165 | a preset spans from DaysBack days before today to today; a custom range with an end missing, or with an end that is not a real date, gives the matching message; otherwise it is the range between the two dates; every window is non-empty |
| OwnerPage.PresetCoversDays | frontend/src/app/dashboard/owner/page.tsx:145-165 | the today, 7-day, 15-day and 30-day presets cover exactly today and the 0, 6, 14 or 29 days before it |
| OwnerPage.CustomCoversDates | frontend/src/app/dashboard/owner/page.tsx:116-142 | a custom range that resolves covers exactly the dates from its start to its end, both included |
| OwnerPage.InWindowByDay | frontend/src/app/dashboard/owner/page.tsx:167-170 | a transaction is in the window exactly when the day it entered on is one of the window's days |
| OwnerPage.StatsOf | frontend/src/app/dashboard/owner/page.tsx:167-198 | transactions and vehicles in count the rows in the window, vehicles out those that have left (never more than came in), and revenue is the positive amounts of the paid rows in the window |
| OwnerPage.PaymentSummaryOf | frontend/src/app/dashboard/owner/page.tsx:232-252 | cash and QRIS are the positive amounts of the paid rows in the window with that method, never negative |
| OwnerPage.MethodsWithinRevenue | frontend/src/app/dashboard/owner/page.tsx:173-252 | cash plus QRIS never exceed the window's paid revenue |
| OwnerPage.OrDash | frontend/src/app/dashboard/owner/page.tsx:261-263 | a missing or empty text shows as "-", a present one as itself |
| OwnerPage.RecentRowOf | frontend/src/app/dashboard/owner/page.tsx:258-267 | a recent row keeps the id and entry time; it shows "Tunai" exactly for cash and "QRIS" otherwise, even with no method |
| OwnerPage.RecentOf | frontend/src/app/dashboard/owner/page.tsx:255-257 | the recent list holds twenty rows, or every row when there are fewer, newest entry first |
| OwnerPage.RecentAreNewest | frontend/src/app/dashboard/owner/page.tsx:255-257 | every transaction in the window is shown, or entered no later than the last one shown |
| OwnerPage.RecentComesFromRange | frontend/src/app/dashboard/owner/page.tsx:255-268 | every recent row comes from a transaction in the window |
| OwnerPage.RevenueOnDay | frontend/src/app/dashboard/owner/page.tsx:207-218 | a day's revenue is the positive amounts of the paid transactions that entered on that day, never negative |
| OwnerPage.Last7Days | frontend/src/app/dashboard/owner/page.tsx:200-229 | the chart has seven bars, oldest first and ending today, each the paid revenue of its day over all transactions received, whatever range is selected |
| OwnerPage.DaysAddUp | frontend/src/app/dashboard/owner/page.tsx:200-229 | bars for consecutive days add up to the paid revenue of those days |
| OwnerPage.ChartTotalIsWeekRevenue | frontend/src/app/dashboard/owner/page.tsx:200-229 | the seven bars add up to the paid revenue of the last seven days, which never exceeds the paid revenue of everything received |
| OwnerPage.DateFields | frontend/src/app/dashboard/owner/page.tsx:492-495 | the date the Apply button reads from an accepted text exists |
| OwnerPage.ValidDateApplies | frontend/src/app/dashboard/owner/page.tsx:90-97 | a text the fetch accepts as a date is accepted by the Apply button too, as the same date |
| OwnerPage.ApplyError | frontend/src/app/dashboard/owner/page.tsx:487-506 | "Pilih tanggal mulai dan selesai" when a date is missing, "Tanggal tidak valid" when one is not a real calendar date, "Tanggal mulai tidak boleh setelah tanggal selesai" exactly when the start is after the end; none only for two real dates in order |
| OwnerPage.AppliedRangeResolves | frontend/src/app/dashboard/owner/page.tsx:90-142 | a range Apply accepts, from two dates the fetch also reads, resolves to a window at every instant |
| OwnerPage.Listing | frontend/src/app/dashboard/owner/page.tsx:109-113 | a paginated answer's items are the list; an error gives nothing; a success body with data gives an empty list (it is not an array), and one without data gives nothing |
| OwnerPage.OwnerScreen.constructor | frontend/src/app/dashboard/owner/page.tsx:45-65 | the screen opens on the 30-day preset with no dates, nothing applied and zero figures |
| OwnerPage.OwnerScreen.LoadPersisted | frontend/src/app/dashboard/owner/page.tsx:296-313 | a stored range with both ends becomes the applied custom range and fills the date inputs; anything else changes nothing |
| OwnerPage.OwnerScreen.SelectRange | frontend/src/app/dashboard/owner/page.tsx:416-463 | a range button changes only the selected range |
| OwnerPage.OwnerScreen.SetDates | frontend/src/app/dashboard/owner/page.tsx:468-479 | the date inputs change only the typed dates |
| OwnerPage.OwnerScreen.ApplyCustom | frontend/src/app/dashboard/owner/page.tsx:482-527 | the message is `ApplyError` of the typed dates, mirrored as the error; without one the typed range is applied, stored and selected, and every later fetch resolves it; with one nothing else changes |
| OwnerPage.OwnerScreen.ClearCustom | frontend/src/app/dashboard/owner/page.tsx:531-547 | Clear returns to the 30-day preset with nothing typed, applied or stored, and no message |
| OwnerPage.OwnerScreen.FetchDashboardData | frontend/src/app/dashboard/owner/page.tsx:100-277 | a failure shows the server's message or "Gagal memuat data dashboard" and keeps the figures; a range that does not resolve shows its message; otherwise all four figures are recomputed for the window |
| Calendar.DaysInYear | frontend/src/app/dashboard/owner/page.tsx:90-97 | a year has 365 or 366 days |
| Calendar.DaysInMonth | frontend/src/app/dashboard/owner/page.tsx:90-97 | a month has 28 to 31 days |
| Calendar.YearStep | frontend/src/app/dashboard/owner/page.tsx:90-97 | consecutive years start a year's length apart |
| Calendar.YearStartOrder | frontend/src/app/dashboard/owner/page.tsx:90-97 | later years start later, by at least 365 days per year |
| Calendar.YearStartBound | frontend/src/app/dashboard/owner/page.tsx:90-97 | a year from 1970 on starts at most 366 days per year after the epoch |
| Calendar.MonthStart | frontend/src/app/dashboard/owner/page.tsx:90-97 | the days before a month are never negative |
| Calendar.MonthsFillYear | frontend/src/app/dashboard/owner/page.tsx:90-97 | the twelve months make up the year |
| Calendar.MonthStartOrder | frontend/src/app/dashboard/owner/page.tsx:90-97 | later months start later within a year |
| Calendar.DayNumber | frontend/src/app/dashboard/owner/page.tsx:133-135 | the day number of a date lies within its year's span of days |
| Calendar.YearUp | frontend/src/app/dashboard/owner/grafik-pendapatan/page.tsx:133 | the year found holds the day |
| Calendar.YearDown | frontend/src/app/dashboard/owner/grafik-pendapatan/page.tsx:133 | the year found holds the day |
| Calendar.MonthUp | frontend/src/app/dashboard/owner/grafik-pendapatan/page.tsx:133 | the month found holds the day of the year |
| Calendar.DateOfDay | frontend/src/app/dashboard/owner/grafik-pendapatan/page.tsx:133-135 | the date of a day number exists and has that day number |
| Calendar.YearOfDayUnique | frontend/src/app/dashboard/owner/grafik-pendapatan/page.tsx:133-135 | a day number has exactly one year |
| Calendar.MonthOfDayUnique | frontend/src/app/dashboard/owner/grafik-pendapatan/page.tsx:133-135 | a day of a year has exactly one month |
| Calendar.DateOfDayNumber | frontend/src/app/dashboard/owner/grafik-pendapatan/page.tsx:133-135 | every existing date is the date of its own day number, so dates and day numbers are inverse |
| Calendar.DateOfDayInjective | frontend/src/app/dashboard/owner/grafik-pendapatan/page.tsx:133-135 | distinct day numbers fall on distinct dates |
| Calendar.DayNumberOrder | frontend/src/app/dashboard/owner/page.tsx:137-139 | one date comes before another exactly when its day number is smaller |
| Calendar.NextDay | frontend/src/app/dashboard/owner/grafik-pendapatan/page.tsx:133 | the next day's date is one day number on |
| Calendar.WithinDays | frontend/src/app/dashboard/owner/page.tsx:167-170 | an instant lies between midnight of one day and the last millisecond of another exactly when its day lies between them |
| Calendar.DayBounds | frontend/src/app/dashboard/owner/page.tsx:147-164 | a day's first and last millisecond belong to that day |
| Calendar.NumberOf | frontend/src/app/dashboard/owner/page.tsx:92 | a part reads as a number exactly when it is all digits, and the number is never negative |
| Calendar.DateParts | frontend/src/app/dashboard/owner/page.tsx:90-94 | a date string has a year, month and day only when it splits into three numeric parts, none negative |
| Calendar.IsValidDateString | frontend/src/app/dashboard/owner/page.tsx:90-97 | a string is accepted exactly when it is non-empty, has three numeric parts, and names a date that exists and that Date reads back unchanged; the year is then at least 100 |
| Calendar.ParseDate | frontend/src/app/dashboard/owner/page.tsx:90-97 | an accepted string names an existing date from year 100 on |
| Calendar.Pad2 | frontend/src/app/dashboard/owner/grafik-pendapatan/page.tsx:14-15 | a padded number is all digits, at least two of them, and exactly two below 100 |
| Calendar.FormatISO | frontend/src/app/dashboard/owner/grafik-pendapatan/page.tsx:12-17 | the key is the year, "-", two digits, "-", two digits |
| Calendar.Pad2Value | frontend/src/app/dashboard/owner/grafik-pendapatan/page.tsx:14-15 | a padded number below 100 reads back as itself |
| Calendar.YearValue | frontend/src/app/dashboard/owner/grafik-pendapatan/page.tsx:13 | a written year reads back as the year |
| Calendar.FormatParses | frontend/src/app/dashboard/owner/grafik-pendapatan/page.tsx:12-17 | reading a formatted date back gives the date |
| Calendar.FormatIsValidDateString | frontend/src/app/dashboard/owner/grafik-pendapatan/page.tsx:12-17 | a date a Date can hold is written as a string the owner's date check accepts, naming the same date |
| Calendar.FormatISOInjective | frontend/src/app/dashboard/owner/grafik-pendapatan/page.tsx:12-17 | distinct dates have distinct keys |
| Calendar.DayKeyInjective | frontend/src/app/dashboard/owner/grafik-pendapatan/page.tsx:118-141 | the keys of two days are equal only for the same day, so the map groups by day |
| Calendar.PartsOf | frontend/src/app/dashboard/owner/page.tsx:90-94 | a digits-only "Y-M-D" string splits into its three values |
| Calendar.February31Refused | frontend/src/app/dashboard/owner/page.tsx:90-97 | "2026-02-31" is refused |
| Calendar.LeapDayAccepted | frontend/src/app/dashboard/owner/page.tsx:90-97 | for a four-digit year from 1970 on, "YYYY-02-29" is accepted exactly when the year is a leap year |
| Calendar.TwoDigitYearRefused | frontend/src/app/dashboard/owner/page.tsx:90-97 | "0099-01-01" is refused, because Date reads a year below 100 as 19xx |
| RevenueChartPage.RangeDays | frontend/src/app/dashboard/owner/grafik-pendapatan/page.tsx:104 | a preset covers 7, 30 or 90 days |
| RevenueChartPage.ChartWindow | frontend/src/app/dashboard/owner/grafik-pendapatan/page.tsx:74-109 | a preset covers the given number of days ending today; a custom range is used only when a stored range has two date texts naming existing dates, and then it spans from the start's day to the end's day |
| RevenueChartPage.SameRangeAsDashboard | frontend/src/app/dashboard/owner/grafik-pendapatan/page.tsx:79-98 | a stored range the owner's dashboard accepts gives the chart the same days |
| RevenueChartPage.AmountWhereNone | frontend/src/app/dashboard/owner/grafik-pendapatan/page.tsx:120-129 | with nothing selected the amounts add up to 0 |
| RevenueChartPage.AmountWhereUnion | frontend/src/app/dashboard/owner/grafik-pendapatan/page.tsx:120-129 | the amounts of two disjoint selections add up to those of their union |
| RevenueChartPage.DayAmountStep | frontend/src/app/dashboard/owner/grafik-pendapatan/page.tsx:120-129 | one more transaction changes a day's amount by its own amount exactly when it is counted on that day |
| RevenueChartPage.BuildRevenueMap | frontend/src/app/dashboard/owner/grafik-pendapatan/page.tsx:118-129 | the map holds, under each day's key, the sum of the paid transactions entered that day within the range; every key belongs to a day of the range |
| RevenueChartPage.BuildChart | frontend/src/app/dashboard/owner/grafik-pendapatan/page.tsx:131-142 | one bar per day from the first to the last day, in order, each the map's amount for that day's key, 0 when absent |
| RevenueChartPage.BarsAddUp | frontend/src/app/dashboard/owner/grafik-pendapatan/page.tsx:118-142 | the bars of consecutive days add up to the counted amounts of those days |
| RevenueChartPage.ChartCoversRevenue | frontend/src/app/dashboard/owner/grafik-pendapatan/page.tsx:118-142 | the bars add up to the amounts of all the counted transactions, so none is lost or counted twice |
| RevenueChartPage.RevenueChartScreen.constructor | frontend/src/app/dashboard/owner/grafik-pendapatan/page.tsx:33-35 | the chart opens on 7 days, with no error and no bars |
| RevenueChartPage.RevenueChartScreen.SelectRange | frontend/src/app/dashboard/owner/grafik-pendapatan/page.tsx:301-312 | a range button changes only the selected range |
| RevenueChartPage.RevenueChartScreen.OnRangeApplied | frontend/src/app/dashboard/owner/grafik-pendapatan/page.tsx:155-171 | an applied custom range switches the chart to it |
| RevenueChartPage.RevenueChartScreen.OnRangeCleared | frontend/src/app/dashboard/owner/grafik-pendapatan/page.tsx:174-191 | a cleared custom range sends a chart showing it back to 7 days, and leaves any other choice alone |
| RevenueChartPage.RevenueChartScreen.FetchRevenueData | frontend/src/app/dashboard/owner/grafik-pendapatan/page.tsx:60-152 | a failure shows the server's message or the fallback; otherwise each bar is one day of the range in order, carrying the paid revenue entered on that day, and an unusable custom range gives no bars |
| AdminPage.AdminStatsOf | frontend/src/app/dashboard/admin/page.tsx:56-72 | the counters keep the service's vehicle and area totals, count the rows received, add the positive amounts of the paid rows, count the rows literally "belum_bayar" and those with no exit time (each at most the rows received), with 0 users and 99 health |
| AdminPage.PendingAndPaidApart | frontend/src/app/dashboard/admin/page.tsx:62-69 | pending and paid rows together are at most all rows |
| AdminPage.UnpaidIsNotPending | frontend/src/app/dashboard/admin/page.tsx:69 | a row stored as "unpaid" is neither counted as pending nor shown with the paid badge |
| AdminPage.PaidBadgeOfStoredStatus | frontend/src/app/dashboard/admin/page.tsx:400 | of the statuses the backend stores, the badge is green exactly for "lunas" and "paid" |
| AdminPage.ShownAmount | frontend/src/app/dashboard/admin/page.tsx:409 | the amount shown is a non-zero total, else the tariff, else 0 |
| AdminPage.AdminScreen.constructor | frontend/src/app/dashboard/admin/page.tsx:18-30 | the screen opens with zero counters, health 100, no rows and no error |
| AdminPage.AdminScreen.FetchDashboardData | frontend/src/app/dashboard/admin/page.tsx:45-72 | the counters are recomputed from what the three service calls returned and the rows are kept |
| AuthStore.Store.constructor | frontend/src/stores/authStore.ts:29-33 | the store starts signed out, not loading, without an error, and consistent |
| AuthStore.Store.Login | frontend/src/stores/authStore.ts:35-41 | login holds the user and the token, signs in and clears the error, leaving the loading flag |
| AuthStore.Store.Logout | frontend/src/stores/authStore.ts:43-49 | logout drops the user and the token, signs out and clears the error, leaving the loading flag |
| AuthStore.Store.SetError | frontend/src/stores/authStore.ts:51 | only the error changes, and a consistent store stays consistent |
| AuthStore.Store.SetLoading | frontend/src/stores/authStore.ts:53 | only the loading flag changes, and a consistent store stays consistent |
| AuthStore.Store.ClearError | frontend/src/stores/authStore.ts:55 | only the error clears, and a consistent store stays consistent |
| AuthStore.Store.Restore | frontend/src/stores/authStore.ts:57-64 | hydration restores exactly the saved user, token and signed-in flag, and keeps the loading flag and error |
| DashboardPage.Redirect | frontend/src/app/dashboard/page.tsx:12-43 | nothing is pushed until signed in with a user; then admin goes to the admin dashboard, operator and petugas to the petugas one, manager and owner to theirs, and any other role to the login screen |
| DashboardPage.KnownRolesReachDashboard | frontend/src/app/dashboard/page.tsx:17-41 | every role the backend can assign leads to a dashboard route, never to the login screen |
| Client.FailureMessage | frontend/src/app/dashboard/petugas/checkout/page.tsx:229-230 | a rejection shows the server's non-empty message, otherwise the screen's fallback text |
| Database.RowsOf | backend/src/controllers/transaksiController.js:7-39 | one row per key, in the keys' order |
| TransaksiView.ViewOf | backend/src/controllers/transaksiController.js:7-39 | a listed row keeps the stored id, entry and exit times and total, never carries "biaya", and its status text parses back to the stored status |
| TransaksiView.PositiveAmount | frontend/src/app/dashboard/owner/page.tsx:179-186 | a row adds its total only when that is a positive number, otherwise nothing |
| TransaksiView.SumWhere | frontend/src/app/dashboard/owner/page.tsx:176-186 | a sum of positive amounts is never negative |
| TransaksiView.CountWhere | frontend/src/app/dashboard/owner/page.tsx:188-191 | a count never exceeds the rows |
| TransaksiView.SumWhereMonotone | frontend/src/app/dashboard/owner/page.tsx:176-186 | summing over a weaker condition never gives less |
| TransaksiView.SumWhereDisjoint | frontend/src/app/dashboard/owner/page.tsx:232-252 | sums over two disjoint parts of a condition add up to at most the sum over the condition |
| TransaksiView.SumWhereNone | frontend/src/app/dashboard/owner/page.tsx:207-218 | a sum over a condition nothing meets is 0 |
| TransaksiView.SumWhereUnion | frontend/src/app/dashboard/owner/page.tsx:207-218 | sums over two disjoint conditions add up to the sum over either of them |
| TransaksiView.CountWhereMonotone | frontend/src/app/dashboard/owner/page.tsx:188-191 | counting under a weaker condition never gives less |
| TransaksiView.CountWhereDisjoint | frontend/src/app/dashboard/admin/page.tsx:62-70 | rows meeting one of two exclusive conditions are never more than all rows |
| TransaksiView.CountWhereSplit | frontend/src/app/dashboard/owner/page.tsx:188-191 | the rows meeting a condition and those failing it make up all rows |
| TransaksiView.Keep | frontend/src/app/dashboard/owner/page.tsx:167-170 | the kept rows are exactly the rows meeting the condition, as many as are counted |
| TransaksiView.SumOfKept | frontend/src/app/dashboard/owner/page.tsx:167-186 | summing over the kept rows is summing over the rows meeting both conditions |
| TransaksiView.CountOfKept | frontend/src/app/dashboard/owner/page.tsx:167-191 | counting among the kept rows is counting the rows meeting both conditions |
| TransaksiPage.StatusLabel | frontend/src/app/dashboard/transaksi/page.tsx:275-276 | the label is one of three; "Lunas" exactly for "paid" and "lunas", "Pending" exactly for "pending" |
| TransaksiPage.ColorMatchesLabel | frontend/src/app/dashboard/transaksi/page.tsx:99-111 | the badge is green, yellow or red exactly when the label is "Lunas", "Pending" or "Belum Bayar" |
| TransaksiPage.StoredStatusLabel | frontend/src/app/dashboard/transaksi/page.tsx:275-276 | of the statuses the backend stores, "Lunas" is shown exactly for lunas and paid, and "Belum Bayar" exactly for belum_bayar and unpaid |
| TransaksiPage.PaidPlusUnpaid | frontend/src/app/dashboard/transaksi/page.tsx:175-181 | the paid and unpaid cards add up to the rows shown |
| TransaksiPage.PaymentRequestMarksPaid | frontend/src/app/dashboard/transaksi/page.tsx:84-92 | the confirm-payment status "lunas" passes the backend's status check, and the updated row shows as paid, without the action |
| TransaksiPage.PaidFilterMissesLunas | frontend/src/app/dashboard/transaksi/page.tsx:160 | a row stored as "lunas", which check-out and the confirm action store, never matches the "Lunas" filter, because that filter sends "paid" |
| TransaksiPage.PaginationField | backend/src/utils/responseFormatter.js:23-28 | the pagination object has exactly the keys total, page, pages and perPage |
| TransaksiPage.OrOne | frontend/src/app/dashboard/transaksi/page.tsx:68 | a missing or zero page count reads as 1, any other value as itself |
| TransaksiPage.TotalPagesAsWrittenIsOne | frontend/src/app/dashboard/transaksi/page.tsx:68 | as written, the page count is 1 whatever the reply says, because it reads a key the backend does not send |
| TransaksiPage.NextStuckAsWritten | frontend/src/app/dashboard/transaksi/page.tsx:68 | with 45 matching rows (three pages of 20), the page count as written is 1 and "next" from page 1 stays on page 1 |
| TransaksiPage.TotalPagesOfListing | backend/src/controllers/transaksiController.js:7-39 | corrected: reading "pages" gives the number of pages of matching rows, at least 1, and the last page starts within the rows |
| TransaksiPage.NextReachesSecondPage | frontend/src/app/dashboard/transaksi/page.tsx:332 | corrected: with 45 matching rows the count is 3 and "next" from page 1 goes to page 2 |
| TransaksiPage.PrevPage | frontend/src/app/dashboard/transaksi/page.tsx:306 | "previous" goes one page back but never below page 1 |
| TransaksiPage.NextPage | frontend/src/app/dashboard/transaksi/page.tsx:332 | "next" goes one page on but never past the last page |
| TransaksiPage.PageButtonsStayInRange | frontend/src/app/dashboard/transaksi/page.tsx:306-333 | both buttons keep a page within 1 to the page count |
| TransaksiPage.TransaksiScreen.constructor | frontend/src/app/dashboard/transaksi/page.tsx:28-35 | the screen opens on page 1 of 1 with no rows, no search, the "all" filter and no dialog |
| TransaksiPage.TransaksiScreen.Query | frontend/src/app/dashboard/transaksi/page.tsx:60-63 | a fetch asks for the current page, 20 rows and the search, and sends a status exactly when the filter is not "all" |
| TransaksiPage.TransaksiScreen.FetchTransaksi | frontend/src/app/dashboard/transaksi/page.tsx:57-76 | the query is recorded; a 200 reply replaces the rows, and the page count with the as-written `totalPages || 1`, which is always 1; a failure empties the rows, any other reply changes nothing |
| TransaksiPage.TransaksiScreen.SetSearch | frontend/src/app/dashboard/transaksi/page.tsx:144-147 | typing a search sets it and returns to page 1 |
| TransaksiPage.TransaksiScreen.SetFilter | frontend/src/app/dashboard/transaksi/page.tsx:153-156 | choosing a filter sets it and returns to page 1 |
| TransaksiPage.TransaksiScreen.Prev | frontend/src/app/dashboard/transaksi/page.tsx:306 | the page becomes the previous page, staying in range |
| TransaksiPage.TransaksiScreen.Next | frontend/src/app/dashboard/transaksi/page.tsx:332 | the page becomes the next page, staying in range |
| TransaksiPage.TransaksiScreen.OpenPayment | frontend/src/app/dashboard/transaksi/page.tsx:283-288 | only an unpaid row with an amount opens the dialog, with that row selected |
| TransaksiPage.TransaksiScreen.HandlePayment | frontend/src/app/dashboard/transaksi/page.tsx:84-97 | with a row selected, a "lunas" request for it is recorded; success closes the dialog and clears the selection, failure raises "Gagal memproses pembayaran"; the refetch after a success is a separate `FetchTransaksi` call |
| LogPage.LogsOf | frontend/src/services/logService.ts:32-40 | a failed call reads as no entries with total 0; a listing reads as its entries and its total |
| LogPage.ShownTotal | frontend/src/app/dashboard/log-aktivitas/page.tsx:40 | the total shown is the reply's non-zero total, otherwise the number of entries |
| LogPage.UserIds | frontend/src/app/dashboard/log-aktivitas/page.tsx:42-43 | the active users are exactly the distinct non-zero user ids of the entries, never more than the entries |
| LogPage.LowercaseMethodCounts | frontend/src/app/dashboard/log-aktivitas/page.tsx:44 | the method match ignores case: a description "put" counts as a change |
| LogPage.StatsOf | frontend/src/app/dashboard/log-aktivitas/page.tsx:39-47 | the counters are the shown total, the number of distinct users and the number of entries naming DELETE, POST, PUT or PATCH, the last two never more than the entries |
| LogPage.Search | frontend/src/app/dashboard/log-aktivitas/page.tsx:70-76 | the search keeps exactly the entries whose user's full name, username or description contains the term, ignoring case |
| LogPage.EmptySearchKeepsAll | frontend/src/app/dashboard/log-aktivitas/page.tsx:70-76 | an empty search keeps every entry, in order |
| LogPage.LogPages | frontend/src/app/dashboard/log-aktivitas/page.tsx:78 | the page count is the least number of pages of 20 that holds the filtered entries |
| LogPage.EntryOnItsPage | frontend/src/app/dashboard/log-aktivitas/page.tsx:78-80 | entry i of the filtered list is shown on page i / 20 + 1, which exists |
| LogPage.DisplayName | frontend/src/app/dashboard/log-aktivitas/page.tsx:86 | an entry's name is the full name, else the username, else "User" and its id or "-", and never empty |
| LogPage.NameCount | frontend/src/app/dashboard/log-aktivitas/page.tsx:84-88 | a name's count never exceeds the entries |
| LogPage.CountNames | frontend/src/app/dashboard/log-aktivitas/page.tsx:84-88 | every name met is counted once in first-met order, with exactly its number of entries, at least 1; a name not met has none |
| LogPage.NamesOf | frontend/src/app/dashboard/log-aktivitas/page.tsx:89 | the names of the entries, in order |
| LogPage.HitsOfDistinct | frontend/src/app/dashboard/log-aktivitas/page.tsx:84-89 | a name occurs at most once in a list without repeats |
| LogPage.HitsNone | frontend/src/app/dashboard/log-aktivitas/page.tsx:84-89 | a name not in a list occurs there zero times |
| LogPage.CountsForStep | frontend/src/app/dashboard/log-aktivitas/page.tsx:84-88 | one more entry adds one to the counts of the names it matches |
| LogPage.CountsForDistinct | frontend/src/app/dashboard/log-aktivitas/page.tsx:84-89 | distinct names never account for more entries than there are |
| LogPage.CountsForEmpty | frontend/src/app/dashboard/log-aktivitas/page.tsx:84-88 | with no entries every name counts 0 |
| LogPage.TotalIsCountsFor | frontend/src/app/dashboard/log-aktivitas/page.tsx:84-89 | the listed counts add up to the counts of their names |
| LogPage.EntriesOf | frontend/src/app/dashboard/log-aktivitas/page.tsx:89 | one pair per counted name, in first-met order, with its count (the engine's integer-like-keys-first order is under Left out) |
| LogPage.TopFive | frontend/src/app/dashboard/log-aktivitas/page.tsx:89 | at most five pairs, most entries first, each one of the counted pairs |
| LogPage.TopFiveAreLargest | frontend/src/app/dashboard/log-aktivitas/page.tsx:89 | every pair is in the top five or has no more entries than the fifth |
| LogPage.NameInTopOrBelow | frontend/src/app/dashboard/log-aktivitas/page.tsx:89 | every counted name is in the top five or has no more entries than the fifth |
| LogPage.TopFiveDistinct | frontend/src/app/dashboard/log-aktivitas/page.tsx:89 | no name appears twice in the top five |
| LogPage.TopFiveCounts | frontend/src/app/dashboard/log-aktivitas/page.tsx:89 | the top five keep each name's own entry count, at least 1 |
| LogPage.TopFiveCoversAll | frontend/src/app/dashboard/log-aktivitas/page.tsx:89 | every name with entries is in the top five or has no more entries than the fifth |
| LogPage.TopUsers | frontend/src/app/dashboard/log-aktivitas/page.tsx:83-90 | at most five names, most entries first, each with its own entry count, no name twice, together never more than the entries, and every other name has no more entries than the fifth |
| LogPage.LogScreen.constructor | frontend/src/app/dashboard/log-aktivitas/page.tsx:15-20 | the screen opens on page 1 with no entries, zero counters, no search and no error |
| LogPage.LogScreen.Shown | frontend/src/app/dashboard/log-aktivitas/page.tsx:79-80 | a page shows at most 20 entries, all of them kept by the search |
| LogPage.LogScreen.FetchLogs | frontend/src/app/dashboard/log-aktivitas/page.tsx:33-54 | the entries and the three counters come from the reply, and the search and page stay |
| LogPage.LogScreen.SetSearch | frontend/src/app/dashboard/log-aktivitas/page.tsx:213-216 | typing a search sets it and returns to page 1 |
| LogPage.LogScreen.Prev | frontend/src/app/dashboard/log-aktivitas/page.tsx:276-282 | with more than one page, "previous" goes one page back but not below 1; otherwise nothing changes |
| LogPage.LogScreen.Next | frontend/src/app/dashboard/log-aktivitas/page.tsx:276-308 | with more than one page, "next" goes one page on but not past the last; otherwise nothing changes |
| LogPage.LogScreen.GoTo | frontend/src/app/dashboard/log-aktivitas/page.tsx:288-296 | a numbered button goes to its page |
| RegisterPage.IndexOf | frontend/src/app/register/page.tsx:146 | the first position of the character, or -1 exactly when it does not occur |
| RegisterPage.LastIndexOf | frontend/src/app/register/page.tsx:146 | the last position of the character, or -1 exactly when it does not occur |
| RegisterPage.ShapedIsPattern | frontend/src/app/register/page.tsx:144-148 | a string accepted by looking at its first "@" and last "." matches the email pattern |
| RegisterPage.PatternIsShaped | frontend/src/app/register/page.tsx:144-148 | a string matching the email pattern has its "@" first and its final "." last, so the decision accepts it |
| RegisterPage.EmailShapedIsPattern | frontend/src/app/register/page.tsx:144-148 | the email decision accepts exactly the strings the pattern matches |
| RegisterPage.EmailNeedsTwoLetterTld | frontend/src/app/register/page.tsx:146 | "a@b.c" is refused and "a@b.co" accepted |
| RegisterPage.NamaLengkapError | frontend/src/app/register/page.tsx:87-90 | the full name passes exactly at 3 characters or more; empty shows "Nama lengkap wajib diisi", shorter shows "Nama minimal 3 karakter" |
| RegisterPage.UsernameError | frontend/src/app/register/page.tsx:113-120 | the username passes exactly at 3 or more characters, all letters, digits or underscore; each broken rule shows its own message, in order |
| RegisterPage.EmailError | frontend/src/app/register/page.tsx:143-148 | the email passes exactly when it matches the pattern; empty shows "Email wajib diisi", otherwise "Email tidak valid" |
| RegisterPage.PasswordError | frontend/src/app/register/page.tsx:190-193 | the password passes exactly at 6 characters or more, with the matching message otherwise |
| RegisterPage.ConfirmError | frontend/src/app/register/page.tsx:216-220 | the confirmation passes exactly when it is filled and equal to the password, with the matching message otherwise |
| RegisterPage.ValidFormMatches | frontend/src/app/register/page.tsx:19-27 | a form passing every rule has a matching confirmation and lengths of 3, 3 and 6 or more, so the submit handler's own check never refuses it |
| RegisterPage.RegisterFailure | frontend/src/app/register/page.tsx:39-44 | a reply that does not sign in shows "Registration failed" without a response, the server's message or "Registrasi gagal" for a refusal, and the server's message or "Registrasi gagal. Silakan coba lagi." for an error status; never empty |
| RegisterPage.OnSubmit | frontend/src/app/register/page.tsx:19-48 | a mismatched confirmation only sets "Password tidak cocok"; otherwise the registration is sent, a signing reply logs the user in and leads to /dashboard, any other shows its failure text; loading always ends off |
| RegisterPage.HandleSubmit | frontend/src/app/register/page.tsx:78 | the field rules run first; the registration is sent exactly when every rule passes |
| SetupDatabase.TrimAll | backend/setup-database.js:37 | one trimmed piece per piece, in order |
| SetupDatabase.PieceFree | backend/setup-database.js:36-37 | a part of a text without ";" has no ";" either |
| SetupDatabase.KeptCons | backend/setup-database.js:35-38 | the first piece, trimmed, comes first among the kept ones when it passes the filter |
| SetupDatabase.TrimAllCons | backend/setup-database.js:37 | trimming a list trims its head and then its tail |
| SetupDatabase.FilterCons | backend/setup-database.js:38 | filtering a list filters its head and then its tail |
| SetupDatabase.Statements | backend/setup-database.js:35-38 | never more statements than pieces of the split; each is non-empty, does not start with "--", holds no ";", and neither starts nor ends with white space |
| SetupDatabase.StatementsAreKept | backend/setup-database.js:35-38 | the statements are exactly the trimmed pieces of the split that pass the filter, in order |
| SetupDatabase.StatementThenRest | backend/setup-database.js:35-44 | the schema's first chunk is executed first when it passes the filter, and the statements of the rest follow in order |
| SetupDatabase.CommentNotExecutable | backend/setup-database.js:37-38 | a chunk opening with "--" still opens with it after trimming, so the filter drops it |
| SetupDatabase.CommentHidesStatement | backend/setup-database.js:35-38 | a chunk opening with a comment line is dropped whole, with any statement written after the comment in that chunk |
| SetupDatabase.BlankChunkSkipped | backend/setup-database.js:35-38 | a chunk of white space only is skipped |
| Js.StrOr | backend/src/middleware/errorHandler.js:6 | `value || fallback` on a string keeps the value exactly when it is present and non-empty, else gives the fallback |
| Js.IntOr | backend/src/middleware/errorHandler.js:5 | `value || fallback` on a number keeps the value exactly when it is present and non-zero, else gives the fallback |
| Js.IfDefined | backend/src/controllers/jenisParkirController.js:85-88 | `x !== undefined ? x : current` keeps the current value for a missing field, clears it for null, and takes a given value |
| Js.ToUpper | frontend/src/app/dashboard/petugas/checkout/page.tsx:112 | same length, each character upper-cased in place |
| Js.ToLower | frontend/src/app/dashboard/petugas/checkout/page.tsx:42 | same length, each character lower-cased in place |
| Js.UpperIdempotent | frontend/src/app/dashboard/petugas/checkout/page.tsx:112 | upper-casing an already upper-cased plate changes nothing |
| Js.UpperEmpty | frontend/src/app/dashboard/petugas/checkout/page.tsx:112 | an upper-cased plate is empty exactly when the typed plate is |
| Js.IncludesAt | frontend/src/app/dashboard/petugas/checkout/page.tsx:43 | a text holding the part at some position includes it |
| Js.IncludesLength | frontend/src/app/dashboard/petugas/checkout/page.tsx:43 | a part a text includes is no longer than the text |
| Js.Split | backend/setup-database.js:36 | splitting always yields at least one piece |
| Js.SplitPiecesFree | backend/setup-database.js:36 | no piece of a split holds the separator |
| Js.SplitNoSep | backend/setup-database.js:36 | a text without the separator splits into itself alone |
| Js.SplitAfter | backend/setup-database.js:36 | a text "a;b" with no ";" in a splits into a followed by the pieces of b |
| Js.SplitJoin | backend/setup-database.js:36 | joining the pieces back with the separator gives the original text |
| Js.TrimStart | backend/setup-database.js:37 | drops exactly the leading white space: the result is a suffix that does not start with white space, and everything dropped is white space |
| Js.TrimEnd | backend/setup-database.js:37 | drops exactly the trailing white space: the result is a prefix that does not end with white space, and everything dropped is white space |
| Js.Trim | backend/setup-database.js:37 | the result is a part of the text that neither starts nor ends with white space |
| Js.TrimIdempotent | backend/setup-database.js:37 | trimming twice is trimming once |
| Js.CeilDiv | frontend/src/app/dashboard/petugas/checkout/page.tsx:169 | `Math.ceil(a / b)` for a positive divisor: the least q with a <= q * b |
| Js.Max | frontend/src/app/dashboard/transaksi/page.tsx:306 | `Math.max`: at least both arguments and equal to one of them |
| Js.Min | frontend/src/app/dashboard/transaksi/page.tsx:332 | `Math.min`: at most both arguments and equal to one of them |
| Js.DigitPrefix | frontend/src/app/dashboard/petugas/checkout/page.tsx:672 | the length of the longest run of digits that opens the text |
| Js.ParseInt | frontend/src/app/dashboard/petugas/checkout/page.tsx:672 | `parseInt` on a text without a sign yields a number exactly when the text opens with a digit |
| Js.NatToStringValue | frontend/src/app/dashboard/petugas/page.tsx:310 | the decimal text of a number reads back as that number |
| Js.ParseIntOfNat | frontend/src/app/dashboard/petugas/page.tsx:310 | `parseInt` of the decimal text of a natural number gives that number |
| Js.DigitPrefixAll | frontend/src/app/dashboard/petugas/checkout/page.tsx:672 | a text made only of digits is read whole |
| Js.NatToString | frontend/src/app/dashboard/petugas/page.tsx:310 | a natural number is written as a non-empty run of digits |
| Js.IntToString | frontend/src/app/dashboard/petugas/page.tsx:310 | an integer is written as its digits, with a leading "-" when negative |
| Js.ParseSigned | frontend/src/app/dashboard/petugas/page.tsx:310 | `parseInt` on a text that does not open with "-" yields a number exactly when the text opens with a digit |
| Js.ParseSignedOfInt | frontend/src/app/dashboard/petugas/page.tsx:310 | `parseInt` of the decimal text of any integer gives that integer, so an id survives the round trip through a form field |
| Js.Find | frontend/src/app/dashboard/petugas/page.tsx:310 | `Array.prototype.find`: nothing exactly when no element matches; otherwise a matching element with no matching element before it |
| Js.Filter | frontend/src/app/dashboard/admin/page.tsx:69 | `Array.prototype.filter`: keeps no more elements than it is given, only matching ones, and every matching one; everything when all match, nothing when none does |
| Js.FilterCount | frontend/src/app/dashboard/owner/page.tsx:167 | a matching value is kept exactly as often as it occurs, any other value not at all |
| Js.FilterConcat | frontend/src/app/dashboard/owner/page.tsx:167 | filtering keeps the order: the filter of two parts in sequence is the two filtered parts in sequence |
| Js.SumConcat | frontend/src/app/dashboard/admin/page.tsx:63-68 | the sum of two lists joined is the sum of their sums |
| Sorting.InsertDesc | backend/src/controllers/logAktivitasController.js:19 | inserting keeps every element and adds exactly the new one |
| Sorting.InsertDescSorted | backend/src/controllers/logAktivitasController.js:19 | inserting into a list sorted newest first keeps it sorted |
| Sorting.SortDesc | backend/src/controllers/logAktivitasController.js:19 | `ORDER BY key DESC`: the result is sorted by descending key and is a permutation of the input |
| Sorting.SortDescSameElements | backend/src/controllers/logAktivitasController.js:19 | an element is in the sorted list exactly when it is in the input |
| Sorting.SortDescHeadIsMax | frontend/src/app/dashboard/owner/page.tsx:255-257 | the first element after sorting has a key at least that of every input element |

## Left out

- Network, database I/O and the HTTP framework. A controller is one atomic method on the `Db` object, and calls are sequential. Concurrent requests are not modelled, including two check-ins racing past the open-session guard.
- The fire-and-forget activity-log writes after controller actions, and the request-logging middleware: a failure in them never changes the reply.
- JWT signing and verification, and bcrypt hashing: opaque functions passed in as parameters.
- Clocks: "now" is a parameter of every operation that reads it. The 5-minute and 30-second refresh timers, and the `setTimeout` that clears messages, are not modelled.
- Time zones and daylight saving. Dates are computed in UTC, where the screens use the browser's local time, and `toLocaleString`/`toLocaleDateString` labels are not modelled.
- Floating point. Amounts (`DECIMAL` columns, `Number(...)` conversions) are integers, and `Math.ceil` is exact integer ceiling division.
- Column length limits: `no_polisi` 20, `nama_area` 100, `nama_jenis` 50, `deskripsi_aksi` 255, `status` 20. The username length 3–50 is modelled.
- Database collation: the database is created with `utf8mb4_unicode_ci` (backend/setup-database.js:17). That collation compares text without regard to case or trailing spaces, and it equates some accented letters with plain ones. The model compares text exactly, character by character. Every member that compares stored text to request text is affected, and each is listed below by name.
- UserController.UsernameTaken and KendaraanController.PlateTaken: the duplicate checks use the database's `findOne`, which under that collation also finds case variants ("b 1 a" for "B 1 A"). The model finds only the exact text.
- UserController.EmailTaken: the e-mail column is unique (backend/src/models/User.js:26-29), and under that collation the unique index also refuses a case variant of a stored e-mail. The model counts an e-mail as taken only when another account holds the exact same text.
- UserController.CreateUser: it inherits EmailTaken's exact comparison. An e-mail differing from a stored one only in case is stored by the model, whereas the database refuses the insert.
- UserController.UpdateUser: it inherits EmailTaken's exact comparison for the merged e-mail, in the same way as CreateUser.
- UserController.RoleFilter: `where.role = role` is compared in SQL under that collation, so `role=ADMIN` lists the admin accounts. The model keeps only the exact label, so it lists none.
- UserController.GetAllUsers: it inherits RoleFilter's exact comparison.
- TransaksiController.StatusFilter: `where.status_pembayaran = status` is compared under that collation, so `status=LUNAS` lists the paid sessions. The model keeps only the exact label.
- TransaksiController.MatchingRows: it inherits StatusFilter's exact comparison.
- TransaksiController.GetAllTransaksi: it inherits StatusFilter's exact comparison, as well as the page range noted below.
- KendaraanController.PlateSearch: `Op.like` with `%search%` is modelled as literal containment. In the database, `%` and `_` inside the search text are wildcards (`search=B_1` matches "BX1"), and matching ignores case under that collation. The model treats both characters literally and compares case exactly.
- KendaraanController.GetAllKendaraan: it inherits PlateSearch's literal, case-exact containment.
- KendaraanController.CreateKendaraan: its duplicate check uses PlateTaken's exact comparison. Under the collation, `findOne({where: {no_polisi}})` and the unique index also refuse "b 1 a" beside "B 1 A", whereas the model stores it.
- KendaraanController.UpdateKendaraan: the change check uses JavaScript's exact `!==`, which the model follows, but the duplicate lookup uses PlateTaken's exact comparison. So changing "B 1 A" to "b 1 a" makes the source's `findOne` find the vehicle itself and answer 400, whereas the model allows the change.
- TransaksiController.PlateParked: a plate counts as parked only when a vehicle with an open session carries exactly that text. The source's include `where: {no_polisi: ...}` also matches case and trailing-space variants.
- TransaksiController.FindOrRegisterVehicle: it reuses only a vehicle whose plate is exactly the upper-cased request plate. The source's `findOne` also finds a variant ("B 1 A " for "B 1 A", or a "b 1 a" created through the vehicle endpoint), whereas the model registers a second vehicle.
- TransaksiController.Admit: its parked test (PlateParked) and its vehicle reuse (FindOrRegisterVehicle) both compare exactly.
- TransaksiController.CheckIn: it inherits Admit's exact comparisons. With "B 1 A" parked, a check-in of "B 1 A " is answered 400 by the source but admitted with 201 by the model.
- TransaksiController.OpenKeysForPlate: it keeps the sessions whose plate is exactly the upper-cased request text.
- TransaksiController.GetAktifTransaksi: it inherits OpenKeysForPlate's exact comparison. With "B 1 A" parked, "B 1 A " gives 200 in the source but 404 in the model.
- CheckoutPage.BackendLookupListsOne: it states the lookup's result in the model's terms, that is, with the exact plate comparison above.
- ArfController.OccupancyRows: it keeps the areas whose status is exactly "aktif". The source's `where: {status: 'aktif'}` (arfController.js:107) also returns an area saved as "Aktif" or "aktif ". The status column is free text (STRING(20)) that updateArea stores verbatim.
- ArfController.GetAreaOccupancy: it inherits OccupancyRows' exact status test.
- ArfController.FirstBadArea: it scans only the areas whose status is exactly "aktif". The query at arfController.js:87 also returns case and trailing-space variants, whose list text the source parses as well.
- ArfController.AreasForJenis: it tests the status exactly, unlike the `where` at arfController.js:87.
- ArfController.GetAreaByJenisParkir: it inherits the exact status test of FirstBadArea and AreasForJenis.
- The action the foreign keys take when a referenced user is deleted.
- The `nama_arf`, `lokasi` and `harga_per_jam` values of an area request: they are not attributes of the area record, so Sequelize drops them, and the model does not store them either.
- Parsing in `getAreaByJenisParkir`: the supported-type column is read as JSON text. If the database driver hands back an already-parsed array, `JSON.parse` would throw; that driver-dependent path is not modelled.
- The 304 "not modified" answers the browser may give to repeated GETs.
- UI rendering: QR codes, the printed receipt HTML, colours and the dashboard layout. The owner's range-picker events are method calls.
- `backend/database/schema.sql` is not part of this model. `SetupDatabase` models how the file's text is split into statements, not its contents, nor the connection and the loop that executes them.
- The check-in screen's own tariff table (`petugas/page.tsx:33-36`) is only shown on screen. Fares are modelled from the check-out screen's table.
- CheckInPage.MergeAreas: an API row replaces the fallback row with the same id whole. The source spreads the fields, so a field missing from the API row would keep its fallback value.
- Operations outside the parking core, such as tariff administration (`tarifParkirController.js`), login and registration endpoints, diagnostic scripts and the debug pages: they are not part of this model.
- Js.ToUpper: only the ASCII letters a-z are upper-cased, and the length is kept. JavaScript's `toUpperCase` maps all of Unicode and can change the length ("ß" becomes "SS"), so plates, category names and log searches with non-ASCII letters are not modelled.
- Js.ToLower: only the ASCII letters A-Z are lower-cased. JavaScript's `toLowerCase` also lower-cases non-ASCII letters, which the model leaves unchanged.
- TransaksiController.GetAllTransaksi: requires `page >= 1` and `limit >= 1`. Query values outside that range are not modelled: `limit=0` makes `Math.ceil(count/0)` Infinity, which is sent as null, and `page <= 0` gives a negative OFFSET, which the database refuses with a 500. The query text echoed back as `page` is modelled as the number it names. The screens always send a page from 1 and a fixed limit.
- KendaraanController.GetAllKendaraan: the same `page >= 1` and `limit >= 1` requirement, for the same reason.
- UserController.GetAllUsers: the same `page >= 1` and `limit >= 1` requirement, for the same reason.
- LogController.GetAllLogs: the same `page >= 1` and `limit >= 1` requirement, for the same reason.
- Database.Page: requires `page >= 1` and `limit >= 1`, the range every listing above passes it.
- Database.TotalPages: requires `limit >= 1`; the Infinity of a zero limit is not modelled.
- LogController.JoinedLogs: a sent `user_id` is modelled as the number its text names. An empty `user_id=`, which is falsy and lists everything, and text naming no number are not modelled.
- TransaksiController.ExitTime: request times arrive as milliseconds. A text that `new Date` cannot read (an Invalid Date) is not modelled, and neither is a non-string payment method.
- AuthMiddleware.VerifyToken: the 401 for a token that fails verification also carries the library's `error.message` in the source. The library's messages are not modelled, so the reply has only the status and message.
- Calendar.NumberOf: reads only plain digit strings. JavaScript's `Number` also reads text such as " 5", "+5" or "1e1", which the date inputs of the screens never produce.
- RegisterPage.RegisterFailure: a success reply whose `data` is null would make the source throw a TypeError, caught as a generic failure. That path is not modelled.
- LogPage.EntriesOf: it lists the names in first-met order. `Object.entries` lists integer-like keys (a purely numeric username) first, in ascending order. This can change which of several users tied at the fifth place TopFive keeps, but not the property TopFiveAreLargest states.
- Sorting.SortDesc: its contracts state order and permutation, not stability. Entries with equal action times may appear in any order, as they may from the database.

## Findings

| source | as written | input that shows it | evidently intended | confidence | as-written member | corrected member |
|---|---|---|---|---|---|---|
| backend/src/controllers/arfController.js:41-47 | `createArea` passes `nama_arf` to `Arf.create`, but the model's non-null column is `nama_area`, so every create that passes the guard fails Sequelize's not-null validation and answers 500 | `{nama_arf: "Area A", kapasitas: 10}` | store the request's name as `nama_area` and answer 201 with the new area | high; not executed | ArfController.CreateAreaAsWrittenNeverCreates | ArfController.CreateArea |
| frontend/src/app/dashboard/transaksi/page.tsx:68 | the list page reads `pagination.totalPages`, but the paginated envelope's key is `pages`, so the page count is always 1 and "next" never leaves page 1 | 45 matching transactions, 20 per page | read `pages`: three pages, and "next" from page 1 reaches page 2 | high; not executed | TransaksiPage.NextStuckAsWritten | TransaksiPage.NextReachesSecondPage |
| frontend/src/app/dashboard/petugas/checkout/page.tsx:202-213 | check-out sends the selected session's id with the previewed `total_bayar`, and neither picking another session from the list nor a new search that auto-selects its only hit clears the preview | search a motorcycle plate and compute (2000), then search a bus plate, whose only session is selected automatically, and confirm | charge the selected session its own fare: the button needs a preview of that session | medium; not executed | CheckoutPage.AsWrittenChargesWrongSession | CheckoutPage.CorrectedChargesPreviewedSession |

=== FILE: admin_page.dfy ===
/**
 * The administrator's dashboard (frontend/src/app/dashboard/admin/page.tsx):
 * counters over the recent transactions, a paid badge per row and the
 * amount shown for it. The vehicle and area totals and the recent rows
 * arrive through a dashboard service that answers 0 or [] when its call
 * fails, so they are parameters here.
 */
module AdminPage {
  import opened Js
  import opened TransaksiModel
  import opened TransaksiView

  datatype AdminStats = AdminStats(
    totalVehicles: int, totalAreas: int, totalUsers: int, todayTransactions: int,
    totalRevenue: int, pendingPayments: int, activeParking: int, systemHealth: int)

  predicate IsBelumBayar(t: TxView) { t.statusPembayaran == "belum_bayar" }
  predicate StillParked(t: TxView) { t.waktuKeluar.None? }

  /**
   * The counters: rows received, the positive amounts of the paid ones,
   * the rows literally `belum_bayar` (not `unpaid` or `pending`), and the
   * rows with no exit time.
   */
  function AdminStatsOf(vehicles: int, areas: int, rows: seq<TxView>): (s: AdminStats)
    ensures s.totalVehicles == vehicles && s.totalAreas == areas && s.totalUsers == 0 && s.systemHealth == 99
    ensures s.todayTransactions == |rows|
    ensures 0 <= s.pendingPayments <= s.todayTransactions && 0 <= s.activeParking <= s.todayTransactions
    ensures s.totalRevenue >= 0
    ensures s.totalRevenue == SumWhere(rows, IsLunas)
    ensures s.pendingPayments == CountWhere(rows, IsBelumBayar) && s.activeParking == CountWhere(rows, StillParked)
  {
    AdminStats(vehicles, areas, 0, |rows|, SumWhere(rows, IsLunas),
               CountWhere(rows, IsBelumBayar), CountWhere(rows, StillParked), 99)
  }

  /** Pending and paid rows are different rows: together they are at most all of them. */
  lemma PendingAndPaidApart(vehicles: int, areas: int, rows: seq<TxView>)
    ensures AdminStatsOf(vehicles, areas, rows).pendingPayments + CountWhere(rows, IsLunas) <= |rows|
  {
    CountWhereDisjoint(rows, IsBelumBayar, IsLunas);
  }

  /** A row whose status is `unpaid` is not counted as pending. */
  lemma UnpaidIsNotPending(t: TxView)
    requires t.statusPembayaran == "unpaid"
    ensures AdminStatsOf(0, 0, [t]).pendingPayments == 0
    ensures !PaidBadge(t.statusPembayaran)
  {
    assert [t][1..] == [];
  }

  /** `['lunas','sudah_bayar','paid'].includes(status)`: the green badge. */
  predicate PaidBadge(status: string)
  {
    status in ["lunas", "sudah_bayar", "paid"]
  }

  /** For a status the backend stores, the badge is green exactly for `lunas` and `paid`. */
  lemma PaidBadgeOfStoredStatus(s: StatusPembayaran)
    ensures PaidBadge(StatusName(s)) <==> s == Lunas || s == Paid
  {
  }

  /** `Number(t.total_bayar) || Number(t.tarif_parkir) || 0`. */
  function ShownAmount(t: TxView): (a: int)
    ensures t.totalBayar.Some? && t.totalBayar.value != 0 ==> a == t.totalBayar.value
    ensures !(t.totalBayar.Some? && t.totalBayar.value != 0) && t.tarifParkir.Some? ==> a == t.tarifParkir.value
    ensures !(t.totalBayar.Some? && t.totalBayar.value != 0) && t.tarifParkir.None? ==> a == 0
  {
    if t.totalBayar.Some? && t.totalBayar.value != 0 then t.totalBayar.value
    else if t.tarifParkir.Some? && t.tarifParkir.value != 0 then t.tarifParkir.value
    else 0
  }

  /** The dashboard's state. */
  class AdminScreen {
    var stats: AdminStats
    var transactions: seq<TxView>
    var error: Option<string>

    constructor()
      ensures stats == AdminStats(0, 0, 0, 0, 0, 0, 0, 100) && transactions == [] && error.None?
    {
      stats := AdminStats(0, 0, 0, 0, 0, 0, 0, 100);
      transactions := [];
      error := None;
    }

    /** `fetchDashboardData` with what the three service calls returned. */
    method FetchDashboardData(vehicles: int, areas: int, rows: seq<TxView>)
      modifies this
      ensures stats == AdminStatsOf(vehicles, areas, rows) && transactions == rows && error.None?
    {
      error := None;
      stats := AdminStatsOf(vehicles, areas, rows);
      transactions := rows;
    }
  }
}

=== FILE: arf_controller.dfy ===
/**
 * The parking-area endpoints (backend/src/controllers/arfController.js):
 * occupancy per active area, the areas that accept one parking kind,
 * creating, updating and deleting an area.
 *
 * The controller reads and writes `nama_arf`, `lokasi` and `harga_per_jam`,
 * which the Arf model does not declare; Sequelize drops them, so they never
 * reach a stored row. Creation is modelled twice: as written (it never
 * sets the declared `nama_area` and always fails) and as evidently meant
 * (it stores the request's name as `nama_area`).
 */
module ArfController {
  import opened Js
  import opened Response
  import opened ErrorHandler
  import opened TransaksiModel
  import opened ArfModel
  import opened Database

  /** The body of a create or update request. */
  datatype AreaBody = AreaBody(namaArf: Field<string>, lokasi: Field<string>, kapasitas: Field<int>,
                               hargaPerJam: Field<int>, status: Field<string>)

  /** An area row as a listing returns it. */
  datatype AreaRow = AreaRow(id: int, area: Area)

  /** One entry of the occupancy report. */
  datatype Occupancy = Occupancy(idArf: int, namaArea: string, kapasitas: int, occupied: int,
                                 remaining: int, supported: Supported, status: string)

  const Aktif := "aktif"

  // --------------------------------------------------------------- occupancy

  /** The open sessions parked in area `id`. */
  function OpenIn(t: map<int, Transaksi>, id: int): set<int>
  {
    set i | i in t && t[i].idArf == Some(id) && t[i].Open()
  }

  /**
   * The occupancy filter: an area without a list, or whose list is text
   * that does not parse, is always kept; otherwise it is kept when there
   * is no filter or its list names the kind.
   */
  predicate OccupancyKeeps(s: Supported, jenis: Field<string>)
  {
    match s
    case NoList => true
    case List(kinds) => !Truthy(jenis) || jenis.value in kinds
    case Unparsable(_) => true
  }

  /** The report entry for one area. */
  function OccupancyOf(id: int, a: Area, t: map<int, Transaksi>): (o: Occupancy)
    ensures o.idArf == id && o.occupied == |OpenIn(t, id)| && o.kapasitas == a.kapasitas
    ensures o.remaining >= 0
    ensures o.remaining == (if o.kapasitas >= o.occupied then o.kapasitas - o.occupied else 0)
  {
    var occupied := |OpenIn(t, id)|;
    Occupancy(id, a.namaArea, a.kapasitas, occupied, Max(0, a.kapasitas - occupied), a.supported, a.status)
  }

  /** The report entries for the active areas the filter keeps, in key order. */
  function OccupancyRows(a: map<int, Area>, next: int, t: map<int, Transaksi>, jenis: Field<string>): (rows: seq<Occupancy>)
    requires KeysBelow(a, next)
    ensures forall x :: 0 <= x < |rows| ==>
      rows[x].idArf in a && a[rows[x].idArf].status == Aktif && OccupancyKeeps(a[rows[x].idArf].supported, jenis)
      && rows[x] == OccupancyOf(rows[x].idArf, a[rows[x].idArf], t)
    ensures forall x, y :: 0 <= x < y < |rows| ==> rows[x].idArf < rows[y].idArf
    ensures forall id :: id in a && a[id].status == Aktif && OccupancyKeeps(a[id].supported, jenis) ==>
      exists x :: 0 <= x < |rows| && rows[x].idArf == id
  {
    var ks := KeysAsc(a, next, (s: Area) => s.status == Aktif && OccupancyKeeps(s.supported, jenis));
    var rows := OccupancyList(ks, a, t);
    assert forall id :: id in ks ==> exists x :: 0 <= x < |rows| && rows[x].idArf == id by {
      forall id | id in ks ensures exists x :: 0 <= x < |rows| && rows[x].idArf == id {
        var x :| 0 <= x < |ks| && ks[x] == id;
        assert rows[x].idArf == id;
      }
    }
    rows
  }

  /** The report entries for the areas `ks`, in that order. */
  function OccupancyList(ks: seq<int>, a: map<int, Area>, t: map<int, Transaksi>): (rows: seq<Occupancy>)
    requires forall x :: 0 <= x < |ks| ==> ks[x] in a
    ensures |rows| == |ks|
    ensures forall x :: 0 <= x < |ks| ==> rows[x] == OccupancyOf(ks[x], a[ks[x]], t) && rows[x].idArf == ks[x]
  {
    seq(|ks|, x requires 0 <= x < |ks| => OccupancyOf(ks[x], a[ks[x]], t))
  }

  /**
   * `getAreaOccupancy`: one entry per active area the filter keeps, in key
   * order, each counting the open sessions parked there.
   */
  function GetAreaOccupancy(db: Db, jenis: Field<string>): (r: Reply<seq<Occupancy>>)
    reads db
    requires db.Valid()
    ensures r.status == 200 && r.body.SuccessBody?
    ensures r.body.data == Some(OccupancyRows(db.areas, db.nextAreaId, db.transaksi, jenis))
  {
    Ok(200, Some(OccupancyRows(db.areas, db.nextAreaId, db.transaksi, jenis)), "Area occupancy retrieved")
  }

  /** Parking a new session in area `id` raises its occupancy by one. */
  lemma OccupiedAfterOpen(t: map<int, Transaksi>, n: int, s: Transaksi, id: int)
    requires n !in t && s.Open() && s.idArf == Some(id)
    ensures |OpenIn(t[n := s], id)| == |OpenIn(t, id)| + 1
  {
    assert OpenIn(t[n := s], id) == OpenIn(t, id) + {n};
  }

  /** Closing an open session of area `id` lowers its occupancy by one. */
  lemma OccupiedAfterClose(t: map<int, Transaksi>, n: int, c: Transaksi, id: int)
    requires n in t && t[n].Open() && t[n].idArf == Some(id) && !c.Open()
    ensures |OpenIn(t[n := c], id)| == |OpenIn(t, id)| - 1
  {
    assert OpenIn(t[n := c], id) == OpenIn(t, id) - {n};
  }

  // ---------------------------------------------------------- areas by kind

  /** Text in the list column that `JSON.parse` rejects (the empty text is falsy and never parsed). */
  predicate BadText(s: Supported)
  {
    s.Unparsable? && s.raw != ""
  }

  /** The by-kind filter: only a parsed list that names the kind keeps an area. */
  predicate ByJenisKeeps(s: Supported, jenis: string)
  {
    s.List? && jenis in s.kinds
  }

  /** Some active area holds list text that does not parse. */
  function FirstBadArea(a: map<int, Area>, next: int): (r: Option<int>)
    requires KeysBelow(a, next)
    ensures r.Some? ==> r.value in a && a[r.value].status == Aktif && BadText(a[r.value].supported)
    ensures r.None? ==> forall id :: id in a && a[id].status == Aktif ==> !BadText(a[id].supported)
  {
    FirstMatch(a, 1, next, (s: Area) => s.status == Aktif && BadText(s.supported))
  }

  /** The active areas whose list names `jenis`, in key order. */
  function AreasForJenis(a: map<int, Area>, next: int, jenis: string): (rows: seq<AreaRow>)
    requires KeysBelow(a, next)
    ensures forall x :: 0 <= x < |rows| ==>
      rows[x].id in a && rows[x].area == a[rows[x].id] && rows[x].area.status == Aktif
      && ByJenisKeeps(rows[x].area.supported, jenis)
    ensures forall x, y :: 0 <= x < y < |rows| ==> rows[x].id < rows[y].id
    ensures forall id :: id in a && a[id].status == Aktif && ByJenisKeeps(a[id].supported, jenis) ==>
      exists x :: 0 <= x < |rows| && rows[x].id == id
  {
    var ks := KeysAsc(a, next, (s: Area) => s.status == Aktif && ByJenisKeeps(s.supported, jenis));
    var rows := seq(|ks|, x requires 0 <= x < |ks| => AreaRow(ks[x], a[ks[x]]));
    assert forall id :: id in ks ==> exists x :: 0 <= x < |rows| && rows[x].id == id by {
      forall id | id in ks ensures exists x :: 0 <= x < |rows| && rows[x].id == id {
        var x :| 0 <= x < |ks| && ks[x] == id;
        assert rows[x].id == id;
      }
    }
    rows
  }

  /**
   * `getAreaByJenisParkir`: 400 without a kind; an active area whose list
   * text does not parse makes `JSON.parse` throw (the engine's message is
   * `parseError`), which the error handler turns into a 500; otherwise
   * the active areas whose list names the kind, in key order.
   */
  function GetAreaByJenisParkir(db: Db, jenis: Field<string>, parseError: string): (r: Settled<seq<AreaRow>>)
    reads db
    requires db.Valid()
    ensures !Truthy(jenis) ==> r == Resolved(Fail(400, "Jenis parkir harus diisi"))
    ensures r.Rejected? <==> Truthy(jenis) && exists id :: id in db.areas && db.areas[id].status == Aktif && BadText(db.areas[id].supported)
    ensures r.Rejected? ==> r.err.name == "SyntaxError" && AsyncHandler(r) == HandlerSent(HandlerReply(500, if parseError == "" then "Internal Server Error" else parseError, NullErrors))
    ensures Truthy(jenis) && r.Resolved? ==> r.reply == Ok(200, Some(AreasForJenis(db.areas, db.nextAreaId, jenis.value)), "Area retrieved")
  {
    if !Truthy(jenis) then Resolved(Fail(400, "Jenis parkir harus diisi"))
    else if FirstBadArea(db.areas, db.nextAreaId).Some? then
      var err := Thrown("SyntaxError", Undefined, Val(parseError), None);
      UnknownNameDefaults(err);
      Rejected(err)
    else
      Resolved(Ok(200, Some(AreasForJenis(db.areas, db.nextAreaId, jenis.value)), "Area retrieved"))
  }

  /**
   * An area both filters see: whatever the by-kind listing returns, the
   * occupancy report for the same kind lists too.
   */
  lemma ByJenisWithinOccupancy(s: Supported, jenis: string)
    requires ByJenisKeeps(s, jenis)
    ensures OccupancyKeeps(s, Val(jenis))
  {
  }

  /** An area without a list is reported by occupancy but never by the by-kind listing. */
  lemma NoListFiltersDisagree(jenis: string)
    ensures OccupancyKeeps(NoList, Val(jenis)) && !ByJenisKeeps(NoList, jenis)
  {
  }

  // ----------------------------------------------------------------- create

  const CreateGuardMessage := "Nama area dan kapasitas wajib diisi"

  /** What Sequelize throws when `nama_area`, declared NOT NULL, is missing. */
  const NameNotNull: Thrown :=
    Thrown("SequelizeValidationError", Undefined, Val("notNull Violation: Arf.nama_area cannot be null"),
           Some([ErrorItem(Some("nama_area"), "Arf.nama_area cannot be null")]))

  /** The creation guard: a truthy name and a non-zero capacity. */
  predicate CreateGuard(body: AreaBody)
  {
    Truthy(body.namaArf) && TruthyInt(body.kapasitas)
  }

  /**
   * `createArea` as written: past the guard it builds the row from
   * `nama_arf`, which Arf does not declare, so `nama_area` is null and the
   * insert is rejected before anything is stored.
   */
  function CreateAreaAsWritten(body: AreaBody): (r: Settled<AreaRow>)
    ensures !CreateGuard(body) ==> r == Resolved(Fail(400, CreateGuardMessage))
    ensures CreateGuard(body) ==> r == Rejected(NameNotNull)
  {
    if !CreateGuard(body) then Resolved(Fail(400, CreateGuardMessage))
    else Rejected(NameNotNull)
  }

  /**
   * No request ever creates an area through the code as written: the
   * client sees either the guard's 400 or the error handler's 500.
   */
  lemma CreateAreaAsWrittenNeverCreates(body: AreaBody)
    ensures var sent := AsyncHandler(CreateAreaAsWritten(body));
      (sent.ControllerReply? && sent.reply.status == 400)
      || (sent.HandlerSent? && sent.handled.status == 500
          && sent.handled.message == "notNull Violation: Arf.nama_area cannot be null")
  {
    if CreateGuard(body) {
      assert !KnownName(NameNotNull.name);
      UnknownNameDefaults(NameNotNull);
    }
  }

  /** The row creation evidently means to store: the request's name, the default list. */
  function CreatedArea(body: AreaBody): (a: Area)
    requires CreateGuard(body)
    ensures a.namaArea == body.namaArf.value && a.namaArea != ""
    ensures a.kapasitas == body.kapasitas.value && a.kapasitas != 0
    ensures a.supported == DefaultSupported
    ensures a.status == (if Truthy(body.status) then body.status.value else DefaultStatus)
  {
    Area(body.namaArf.value, body.kapasitas.value, DefaultSupported, StrOr(body.status, DefaultStatus))
  }

  /**
   * `createArea` with the name stored as `nama_area`: the guard's 400, or
   * a new row under the next key and 201.
   */
  method CreateArea(db: Db, body: AreaBody) returns (r: Reply<AreaRow>)
    requires db.Valid()
    modifies db`areas, db`nextAreaId
    ensures db.Valid()
    ensures !CreateGuard(body) ==>
      r == Fail(400, CreateGuardMessage) && db.areas == old(db.areas) && db.nextAreaId == old(db.nextAreaId)
    ensures CreateGuard(body) ==>
      old(db.nextAreaId) !in old(db.areas)
      && db.areas == old(db.areas)[old(db.nextAreaId) := CreatedArea(body)]
      && db.nextAreaId == old(db.nextAreaId) + 1
      && r == Ok(201, Some(AreaRow(old(db.nextAreaId), CreatedArea(body))), "Area berhasil ditambahkan")
  {
    if !CreateGuard(body) {
      return Fail(400, CreateGuardMessage);
    }
    var id := db.nextAreaId;
    var a := CreatedArea(body);
    db.areas := db.areas[id := a];
    db.nextAreaId := id + 1;
    r := Ok(201, Some(AreaRow(id, a)), "Area berhasil ditambahkan");
  }

  // ----------------------------------------------------------------- update

  /**
   * The row `updateArea` saves: capacity and status are replaced only by
   * truthy values; the name and the kind list are never touched (the
   * request's `nama_arf` is not a column).
   */
  function UpdatedArea(a: Area, body: AreaBody): (u: Area)
    ensures u.namaArea == a.namaArea && u.supported == a.supported
    ensures u.kapasitas == (if TruthyInt(body.kapasitas) then body.kapasitas.value else a.kapasitas)
    ensures u.status == (if Truthy(body.status) then body.status.value else a.status)
  {
    a.(kapasitas := if TruthyInt(body.kapasitas) then body.kapasitas.value else a.kapasitas,
       status := StrOr(body.status, a.status))
  }

  /** Sending the same update twice stores what sending it once does. */
  lemma UpdatedAreaIdempotent(a: Area, body: AreaBody)
    ensures UpdatedArea(UpdatedArea(a, body), body) == UpdatedArea(a, body)
  {
  }

  /** A non-zero capacity stays non-zero: an update cannot set it to 0. */
  lemma UpdateKeepsCapacityNonZero(a: Area, body: AreaBody)
    requires a.kapasitas != 0
    ensures UpdatedArea(a, body).kapasitas != 0
  {
  }

  /** `updateArea`: 404 for an unknown id, otherwise the row becomes `UpdatedArea`. */
  method UpdateArea(db: Db, id: int, body: AreaBody) returns (r: Reply<AreaRow>)
    requires db.Valid()
    modifies db`areas
    ensures db.Valid()
    ensures id !in old(db.areas) ==> r == Fail(404, "Area tidak ditemukan") && db.areas == old(db.areas)
    ensures id in old(db.areas) ==>
      var u := UpdatedArea(old(db.areas)[id], body);
      db.areas == old(db.areas)[id := u] && r == Ok(200, Some(AreaRow(id, u)), "Area berhasil diupdate")
  {
    if id !in db.areas {
      return Fail(404, "Area tidak ditemukan");
    }
    var u := UpdatedArea(db.areas[id], body);
    db.areas := db.areas[id := u];
    r := Ok(200, Some(AreaRow(id, u)), "Area berhasil diupdate");
  }

  // ----------------------------------------------------------------- delete

  /** Some session, open or closed, was parked in area `id`. */
  predicate AreaHasHistory(t: map<int, Transaksi>, id: int)
  {
    exists i | i in t :: t[i].idArf == Some(id)
  }

  /**
   * `deleteArea`: 404 for an unknown id, 400 while any session refers to
   * the area, otherwise the row is removed.
   */
  method DeleteArea(db: Db, id: int) returns (r: Reply<AreaRow>)
    requires db.Valid()
    modifies db`areas
    ensures db.Valid()
    ensures id !in old(db.areas) ==> r == Fail(404, "Area tidak ditemukan") && db.areas == old(db.areas)
    ensures id in old(db.areas) && AreaHasHistory(db.transaksi, id) ==>
      r == Fail(400, "Tidak dapat menghapus area yang memiliki riwayat transaksi") && db.areas == old(db.areas)
    ensures id in old(db.areas) && !AreaHasHistory(db.transaksi, id) ==>
      r == Ok(200, None, "Area berhasil dihapus") && db.areas == old(db.areas) - {id}
  {
    if id !in db.areas {
      return Fail(404, "Area tidak ditemukan");
    }
    if AreaHasHistory(db.transaksi, id) {
      return Fail(400, "Tidak dapat menghapus area yang memiliki riwayat transaksi");
    }
    db.areas := db.areas - {id};
    r := Ok(200, None, "Area berhasil dihapus");
  }
}

=== FILE: arf_model.dfy ===
/**
 * A parking area (backend/src/models/Arf.js): its name, its capacity,
 * the list of parking kinds it accepts (a JSON column, `['mobil']` by
 * default) and its status ("aktif" by default).
 */
module ArfModel {
  import opened Js

  /**
   * The JSON column `jenis_parkir_yang_didukung`: SQL NULL, a list of
   * kind names, or stored text that is not a JSON array (kept verbatim).
   */
  datatype Supported = NoList | List(kinds: seq<string>) | Unparsable(raw: string)

  datatype Area = Area(namaArea: string, kapasitas: int, supported: Supported, status: string)

  const DefaultSupported: Supported := List(["mobil"])
  const DefaultStatus := "aktif"

  /** The row stored for a name and a capacity when the other columns take their defaults. */
  function NewArea(namaArea: string, kapasitas: int): (a: Area)
    ensures a.namaArea == namaArea && a.kapasitas == kapasitas
    ensures a.supported == List(["mobil"]) && a.status == "aktif"
  {
    Area(namaArea, kapasitas, DefaultSupported, DefaultStatus)
  }
}

=== FILE: auth_middleware.dfy ===
/**
 * The two route guards (backend/src/middleware/authMiddleware.js):
 * `verifyToken` reads a bearer token from the Authorization header and
 * attaches the decoded claims, `verifyRole` admits only the listed roles.
 * JWT signature checking is a parameter: a function from the token text
 * to the decoded claims, or `None` when `jwt.verify` throws.
 */
module AuthMiddleware {
  import opened Js

  /** The decoded token payload the rest of the backend reads as `req.user`. */
  datatype Claims = Claims(idUser: int, username: string, role: string)

  /** A guard either calls `next()` (with the user attached) or answers with a status. */
  datatype Verdict = Next(user: Claims) | Deny(status: int, message: string)

  /**
   * `req.headers.authorization?.split(' ')[1]`, with `!token` folded in:
   * the second space-separated piece when there is one and it is not empty.
   */
  function BearerToken(header: Option<string>): (t: Option<string>)
    ensures t.Some? ==> t.value != "" && ' ' !in t.value
    ensures header.None? ==> t.None?
  {
    if header.None? then None
    else
      var parts := Split(header.value, ' ');
      SplitPiecesFree(header.value, ' ');
      if |parts| >= 2 && parts[1] != "" then Some(parts[1]) else None
  }

  /** A header "Bearer <token>" with a token free of spaces yields exactly that token. */
  lemma {:induction false} BearerRoundTrip(token: string)
    requires token != "" && ' ' !in token
    ensures BearerToken(Some("Bearer " + token)) == Some(token)
  {
    var h := "Bearer " + token;
    assert h == "Bearer" + [' '] + token;
    SplitNoSep(token, ' ');
    SplitAfter("Bearer", token, ' ');
    assert Split(h, ' ') == ["Bearer", token];
  }

  /**
   * `verifyToken`: 401 "Token not provided" without a token, 401 "Invalid
   * or expired token" when verification fails, otherwise `next()` with the
   * decoded claims as `req.user`.
   */
  function VerifyToken(header: Option<string>, verify: string -> Option<Claims>): (v: Verdict)
    ensures v.Next? <==> BearerToken(header).Some? && verify(BearerToken(header).value).Some?
    ensures v.Next? ==> v.user == verify(BearerToken(header).value).value
    ensures v.Deny? ==> v.status == 401
    ensures BearerToken(header).None? ==> v == Deny(401, "Token not provided")
  {
    var token := BearerToken(header);
    if token.None? then Deny(401, "Token not provided")
    else
      var decoded := verify(token.value);
      if decoded.None? then Deny(401, "Invalid or expired token")
      else Next(decoded.value)
  }

  /**
   * `verifyRole(...allowed)`: 401 when no user is attached, 403 when the
   * user's role is not listed, otherwise `next()`.
   */
  function VerifyRole(allowed: seq<string>, user: Option<Claims>): (v: Verdict)
    ensures v.Next? <==> user.Some? && user.value.role in allowed
    ensures v.Next? ==> v.user == user.value
    ensures user.None? ==> v == Deny(401, "Unauthorized")
    ensures user.Some? && user.value.role !in allowed ==> v == Deny(403, "Forbidden - Insufficient permissions")
  {
    if user.None? then Deny(401, "Unauthorized")
    else if user.value.role !in allowed then Deny(403, "Forbidden - Insufficient permissions")
    else Next(user.value)
  }

  /** The usual route chain: the token guard, then the role guard on whatever it attached. */
  function Guard(header: Option<string>, verify: string -> Option<Claims>, allowed: seq<string>): Verdict
  {
    var v := VerifyToken(header, verify);
    if v.Deny? then v else VerifyRole(allowed, Some(v.user))
  }

  /**
   * A guarded route is reached exactly when the header carries a token that
   * verifies to claims whose role is allowed; a verified token with the
   * wrong role is 403, everything else 401.
   */
  lemma GuardChain(header: Option<string>, verify: string -> Option<Claims>, allowed: seq<string>)
    ensures Guard(header, verify, allowed).Next? <==>
      BearerToken(header).Some? && verify(BearerToken(header).value).Some?
      && verify(BearerToken(header).value).value.role in allowed
    ensures Guard(header, verify, allowed).Deny? ==>
      Guard(header, verify, allowed).status == (if VerifyToken(header, verify).Next? then 403 else 401)
  {
  }
}

=== FILE: auth_store.dfy ===
/**
 * The frontend's session store (frontend/src/stores/authStore.ts): the
 * signed-in user, the token, a loading flag and an error text, changed by
 * five actions, with the user, the token and the signed-in flag kept in
 * the browser's storage under `auth-storage`.
 */
module AuthStore {
  import opened Js

  /** The user record the backend returns at login or registration. */
  datatype AuthUser = AuthUser(
    idUser: int,
    username: string,
    namaLengkap: string,
    email: string,
    role: string,
    statusAktif: bool)

  /** What `partialize` keeps across page loads. */
  datatype Persisted = Persisted(user: Option<AuthUser>, token: Option<string>, isAuthenticated: bool)

  class Store {
    var user: Option<AuthUser>
    var token: Option<string>
    var isLoading: bool
    var error: Option<string>
    var isAuthenticated: bool

    /** Signed in exactly when a user and a token are held. */
    predicate Consistent()
      reads this
    {
      isAuthenticated <==> user.Some? && token.Some?
    }

    /** The store starts signed out, not loading, without an error. */
    constructor()
      ensures user.None? && token.None? && !isLoading && error.None? && !isAuthenticated
      ensures Consistent()
    {
      user := None;
      token := None;
      isLoading := false;
      error := None;
      isAuthenticated := false;
    }

    /** `login`: holds the user and the token, clears the error; the loading flag is untouched. */
    method Login(u: AuthUser, t: string)
      modifies this
      ensures user == Some(u) && token == Some(t) && isAuthenticated && error.None?
      ensures isLoading == old(isLoading)
      ensures Consistent()
    {
      user := Some(u);
      token := Some(t);
      isAuthenticated := true;
      error := None;
    }

    /** `logout`: drops the user and the token, clears the error; the loading flag is untouched. */
    method Logout()
      modifies this
      ensures user.None? && token.None? && !isAuthenticated && error.None?
      ensures isLoading == old(isLoading)
      ensures Consistent()
    {
      user := None;
      token := None;
      isAuthenticated := false;
      error := None;
    }

    /** `setError`: replaces the error and nothing else. */
    method SetError(e: Option<string>)
      modifies this
      ensures error == e
      ensures user == old(user) && token == old(token) && isLoading == old(isLoading) && isAuthenticated == old(isAuthenticated)
      ensures old(Consistent()) ==> Consistent()
    {
      error := e;
    }

    /** `setLoading`: replaces the loading flag and nothing else. */
    method SetLoading(loading: bool)
      modifies this
      ensures isLoading == loading
      ensures user == old(user) && token == old(token) && error == old(error) && isAuthenticated == old(isAuthenticated)
      ensures old(Consistent()) ==> Consistent()
    {
      isLoading := loading;
    }

    /** `clearError`: clears the error and nothing else. */
    method ClearError()
      modifies this
      ensures error.None?
      ensures user == old(user) && token == old(token) && isLoading == old(isLoading) && isAuthenticated == old(isAuthenticated)
      ensures old(Consistent()) ==> Consistent()
    {
      error := None;
    }

    /** `partialize`: the part of the state written to storage. */
    function Saved(): Persisted
      reads this
    {
      Persisted(user, token, isAuthenticated)
    }

    /**
     * Hydration: the saved fields are merged over the current state; the
     * loading flag and the error are never saved, so they keep their values.
     */
    method Restore(p: Persisted)
      modifies this
      ensures Saved() == p
      ensures isLoading == old(isLoading) && error == old(error)
    {
      user := p.user;
      token := p.token;
      isAuthenticated := p.isAuthenticated;
    }
  }
}

=== FILE: calendar.dfy ===
/**
 * The proleptic Gregorian calendar that JavaScript's `Date` uses, in the
 * terms the dashboard screens need: real calendar dates, the number of
 * the day a date falls on (day 0 is 1 January 1970), the date of a day
 * number, the `YYYY-MM-DD` strings the screens read and write, and the
 * millisecond window of a day. Local time is taken to be UTC.
 */
module Calendar {
  import opened Js

  const DayMs := 24 * 60 * 60 * 1000

  /** The largest distance from the epoch, in days, that a `Date` can hold (8.64e15 ms). */
  const MaxDays := 100000000

  datatype Date = Date(year: int, month: int, day: int)

  predicate IsLeap(y: int)
  {
    y % 4 == 0 && (y % 100 != 0 || y % 400 == 0)
  }

  function DaysInYear(y: int): (n: int)
    ensures n == 365 || n == 366
  {
    if IsLeap(y) then 366 else 365
  }

  function DaysInMonth(y: int, m: int): (n: int)
    ensures 28 <= n <= 31
  {
    if m == 2 then (if IsLeap(y) then 29 else 28)
    else if m == 4 || m == 6 || m == 9 || m == 11 then 30
    else 31
  }

  /** A date that exists: a month 1..12 and a day within that month. */
  predicate Valid(d: Date)
  {
    1 <= d.month <= 12 && 1 <= d.day <= DaysInMonth(d.year, d.month)
  }

  // --------------------------------------------------------- day numbers

  /** The day number of 1 January of year `y`. */
  function YearStart(y: int): int
    decreases if y >= 1970 then y - 1970 else 1970 - y
  {
    if y == 1970 then 0
    else if y > 1970 then YearStart(y - 1) + DaysInYear(y - 1)
    else YearStart(y + 1) - DaysInYear(y)
  }

  /** Consecutive years are a year's length apart. */
  lemma YearStep(y: int)
    ensures YearStart(y + 1) == YearStart(y) + DaysInYear(y)
  {
  }

  /** Later years start later, by at least a year per year. */
  lemma {:induction false} YearStartOrder(a: int, b: int)
    requires a < b
    ensures YearStart(a + 1) <= YearStart(b)
    ensures YearStart(b) - YearStart(a) >= 365 * (b - a)
    decreases b - a
  {
    YearStep(a);
    if a + 1 < b {
      YearStartOrder(a + 1, b);
    }
  }

  /** Years from 1970 on start at most 366 days per year after the epoch. */
  lemma {:induction false} YearStartBound(y: int)
    requires y >= 1970
    ensures 0 <= YearStart(y) <= 366 * (y - 1970)
    decreases y - 1970
  {
    if y > 1970 {
      YearStartBound(y - 1);
    }
  }

  /** Days in year `y` before the first of month `m` (`m == 13`: the whole year). */
  function MonthStart(y: int, m: int): (n: int)
    requires 1 <= m <= 13
    ensures n >= 0
    decreases m
  {
    if m == 1 then 0 else MonthStart(y, m - 1) + DaysInMonth(y, m - 1)
  }

  /** The twelve months make up the year. */
  lemma MonthsFillYear(y: int)
    ensures MonthStart(y, 13) == DaysInYear(y)
  {
  }

  /** Later months start later within a year. */
  lemma {:induction false} MonthStartOrder(y: int, a: int, b: int)
    requires 1 <= a < b <= 13
    ensures MonthStart(y, a + 1) <= MonthStart(y, b)
    decreases b - a
  {
    if a + 1 < b {
      MonthStartOrder(y, a + 1, b);
    }
  }

  /** The number of the day a valid date falls on. */
  function DayNumber(d: Date): (n: int)
    requires Valid(d)
    ensures YearStart(d.year) <= n < YearStart(d.year + 1)
  {
    MonthStartOrder(d.year, d.month, 13);
    MonthsFillYear(d.year);
    YearStep(d.year);
    YearStart(d.year) + MonthStart(d.year, d.month) + d.day - 1
  }

  /** Walks up from year `y` to the year holding day `n`. */
  function YearUp(y: int, n: int): (r: int)
    requires YearStart(y) <= n
    ensures YearStart(r) <= n < YearStart(r + 1)
    decreases n - YearStart(y)
  {
    YearStep(y);
    if n < YearStart(y + 1) then y else YearUp(y + 1, n)
  }

  /** Walks down from year `y` to the year holding day `n`. */
  function YearDown(y: int, n: int): (r: int)
    requires n < YearStart(y + 1)
    ensures YearStart(r) <= n < YearStart(r + 1)
    decreases YearStart(y + 1) - n
  {
    YearStep(y);
    if YearStart(y) <= n then y else YearDown(y - 1, n)
  }

  /** Walks up from month `m` to the month holding day `k` of year `y`. */
  function MonthUp(y: int, m: int, k: int): (r: int)
    requires 1 <= m <= 12 && MonthStart(y, m) <= k < MonthStart(y, 13)
    ensures 1 <= r <= 12 && MonthStart(y, r) <= k < MonthStart(y, r + 1)
    decreases 12 - m
  {
    if m == 12 || k < MonthStart(y, m + 1) then m else MonthUp(y, m + 1, k)
  }

  /** The date day number `n` falls on: the inverse of `DayNumber`. */
  function DateOfDay(n: int): (d: Date)
    ensures Valid(d) && DayNumber(d) == n
  {
    var y := if n >= 0 then YearUp(1970, n) else YearDown(1969, n);
    MonthsFillYear(y);
    YearStep(y);
    var k := n - YearStart(y);
    var m := MonthUp(y, 1, k);
    Date(y, m, k - MonthStart(y, m) + 1)
  }

  /** A day number has one year, the one whose span holds it. */
  lemma YearOfDayUnique(a: int, b: int, n: int)
    requires YearStart(a) <= n < YearStart(a + 1) && YearStart(b) <= n < YearStart(b + 1)
    ensures a == b
  {
    if a < b { YearStartOrder(a, b); }
    if b < a { YearStartOrder(b, a); }
  }

  /** A day of a year has one month, the one whose span holds it. */
  lemma MonthOfDayUnique(y: int, a: int, b: int, k: int)
    requires 1 <= a <= 12 && 1 <= b <= 12
    requires MonthStart(y, a) <= k < MonthStart(y, a + 1) && MonthStart(y, b) <= k < MonthStart(y, b + 1)
    ensures a == b
  {
    if a < b { MonthStartOrder(y, a, b); }
    if b < a { MonthStartOrder(y, b, a); }
  }

  /** Where a valid date lies: in its year's span, and within that year in its month's span. */
  lemma DateSpans(d: Date)
    requires Valid(d)
    ensures YearStart(d.year) <= DayNumber(d) < YearStart(d.year + 1)
    ensures var k := DayNumber(d) - YearStart(d.year);
      MonthStart(d.year, d.month) <= k < MonthStart(d.year, d.month + 1)
      && d.day == k - MonthStart(d.year, d.month) + 1
  {
    assert MonthStart(d.year, d.month + 1) == MonthStart(d.year, d.month) + DaysInMonth(d.year, d.month);
  }

  /** Every valid date is the date of its day number: the two are inverse. */
  lemma DateOfDayNumber(d: Date)
    requires Valid(d)
    ensures DateOfDay(DayNumber(d)) == d
  {
    var n := DayNumber(d);
    var e := DateOfDay(n);
    DateSpans(d);
    DateSpans(e);
    YearOfDayUnique(d.year, e.year, n);
    MonthOfDayUnique(d.year, d.month, e.month, n - YearStart(d.year));
  }

  /** Distinct day numbers fall on distinct dates. */
  lemma DateOfDayInjective(a: int, b: int)
    requires DateOfDay(a) == DateOfDay(b)
    ensures a == b
  {
  }

  /** Calendar order: year, then month, then day. */
  predicate Before(a: Date, b: Date)
  {
    a.year < b.year
    || (a.year == b.year && a.month < b.month)
    || (a.year == b.year && a.month == b.month && a.day < b.day)
  }

  /** A date in an earlier year has a smaller day number. */
  lemma EarlierYearFirst(a: Date, b: Date)
    requires Valid(a) && Valid(b) && a.year < b.year
    ensures DayNumber(a) < DayNumber(b)
  {
    YearStartOrder(a.year, b.year);
  }

  /** Within a year, a date in an earlier month has a smaller day number. */
  lemma EarlierMonthFirst(a: Date, b: Date)
    requires Valid(a) && Valid(b) && a.year == b.year && a.month < b.month
    ensures DayNumber(a) < DayNumber(b)
  {
    var y := a.year;
    assert MonthStart(y, a.month + 1) == MonthStart(y, a.month) + DaysInMonth(y, a.month);
    MonthStartOrder(y, a.month, b.month);
  }

  /** Day numbers follow calendar order exactly. */
  lemma DayNumberOrder(a: Date, b: Date)
    requires Valid(a) && Valid(b)
    ensures Before(a, b) <==> DayNumber(a) < DayNumber(b)
  {
    if a.year < b.year {
      EarlierYearFirst(a, b);
    } else if b.year < a.year {
      EarlierYearFirst(b, a);
    } else if a.month < b.month {
      EarlierMonthFirst(a, b);
    } else if b.month < a.month {
      EarlierMonthFirst(b, a);
    }
  }

  /** The next day's date is one day number on. */
  lemma NextDay(n: int)
    ensures DayNumber(DateOfDay(n + 1)) == DayNumber(DateOfDay(n)) + 1
  {
  }

  // ------------------------------------------------------ instants and days

  /** The local day an instant (milliseconds since the epoch) falls on. */
  function DayOf(t: int): int
  {
    t / DayMs
  }

  /** The first millisecond of a day: `setHours(0, 0, 0, 0)`. */
  function DayStartMs(n: int): int
  {
    n * DayMs
  }

  /** The last millisecond of a day: `setHours(23, 59, 59, 999)`. */
  function DayEndMs(n: int): int
  {
    n * DayMs + DayMs - 1
  }

  /** An instant lies between the start of day `a` and the end of day `b` exactly when its day does. */
  lemma WithinDays(t: int, a: int, b: int)
    ensures DayStartMs(a) <= t <= DayEndMs(b) <==> a <= DayOf(t) <= b
  {
    var n := DayOf(t);
    assert n * DayMs <= t < n * DayMs + DayMs;
    if a <= n { assert a * DayMs <= n * DayMs; }
    if n < a { assert n * DayMs + DayMs <= a * DayMs; }
    if n <= b { assert n * DayMs <= b * DayMs; }
    if b < n { assert b * DayMs + DayMs <= n * DayMs; }
  }

  /** A day's first and last millisecond belong to that day. */
  lemma DayBounds(n: int)
    ensures DayOf(DayStartMs(n)) == n && DayOf(DayEndMs(n)) == n
  {
  }

  // ------------------------------------------------------- date strings

  /**
   * `Number(part)` for a part of a date string: the value of a string of
   * decimal digits (`Number('')` is 0); anything else is taken as NaN.
   */
  function NumberOf(part: string): (r: Option<int>)
    ensures r.Some? ==> r.value >= 0
    ensures r.Some? <==> forall i :: 0 <= i < |part| ==> IsDigit(part[i])
  {
    if forall i :: 0 <= i < |part| ==> IsDigit(part[i]) then Some(DigitsValue(part)) else None
  }

  /** `s.split('-').map(Number)` read as a year, a month and a day, when it has three numeric parts. */
  function DateParts(s: string): (r: Option<Date>)
    ensures r.Some? ==> r.value.year >= 0 && r.value.month >= 0 && r.value.day >= 0
  {
    var parts := Split(s, '-');
    if |parts| != 3 then None
    else
      var y, m, d := NumberOf(parts[0]), NumberOf(parts[1]), NumberOf(parts[2]);
      if y.Some? && m.Some? && d.Some? then Some(Date(y.value, m.value, d.value)) else None
  }

  /**
   * `new Date(y, m - 1, d)` gives back the same year, month and day: the
   * date exists, its year is not one of 0..99 (which `Date` reads as
   * 1900..1999), and it lies within the range a `Date` can hold.
   */
  predicate JsDateExact(d: Date)
  {
    Valid(d) && !(0 <= d.year <= 99) && -MaxDays <= DayNumber(d) <= MaxDays
  }

  /** `isValidDateString`: a non-empty `Y-M-D` string naming a date that exists. */
  function IsValidDateString(s: string): (ok: bool)
    ensures ok <==> s != "" && DateParts(s).Some? && JsDateExact(DateParts(s).value)
    ensures ok ==> DateParts(s).value.year >= 100
  {
    if s == "" then false
    else
      var p := DateParts(s);
      p.Some? && JsDateExact(p.value)
  }

  /** The date a valid date string names. */
  function ParseDate(s: string): (d: Date)
    requires IsValidDateString(s)
    ensures Valid(d) && d.year >= 100
  {
    DateParts(s).value
  }

  /** `String(n).padStart(2, '0')`. */
  function Pad2(n: nat): (s: string)
    ensures |s| >= 2 && forall i :: 0 <= i < |s| ==> IsDigit(s[i])
    ensures n < 100 ==> |s| == 2
  {
    var digits := NatToString(n);
    assert n < 100 ==> |NatToString(n / 10)| == 1;
    if |digits| < 2 then "0" + digits else digits
  }

  /** `formatISOLocal`: the year, then the zero-padded month and day, joined by "-". */
  function FormatISO(d: Date): (s: string)
    requires Valid(d)
    ensures |s| == |IntToString(d.year)| + 6
    ensures s[|s| - 6] == '-' && s[|s| - 3] == '-'
    ensures forall i :: |s| - 5 <= i < |s| && i != |s| - 3 ==> IsDigit(s[i])
  {
    var mm, dd := Pad2(d.month), Pad2(d.day);
    var s := IntToString(d.year) + "-" + mm + "-" + dd;
    assert s[|s| - 5] == mm[0] && s[|s| - 4] == mm[1];
    assert s[|s| - 2] == dd[0] && s[|s| - 1] == dd[1];
    s
  }

  /** A padded number reads back as the number. */
  lemma Pad2Value(n: nat)
    requires n < 100
    ensures NumberOf(Pad2(n)) == Some(n)
  {
    var digits := NatToString(n);
    NatToStringValue(n);
    if |digits| < 2 {
      var p := "0" + digits;
      assert |digits| == 1 && p == ['0', digits[0]];
      assert p[..1] == "0" && digits[..0] == "";
      assert DigitsValue("0") == 0;
      assert DigitsValue(p) == DigitsValue(digits);
    }
  }

  /** A year written out reads back as the year. */
  lemma YearValue(y: nat)
    ensures NumberOf(IntToString(y)) == Some(y)
  {
    var s := IntToString(y);
    assert s == NatToString(y);
    assert forall i :: 0 <= i < |s| ==> IsDigit(s[i]);
    NatToStringValue(y);
  }

  /** Reading a formatted date back gives the date. */
  lemma FormatParses(d: Date)
    requires Valid(d) && d.year >= 0
    ensures DateParts(FormatISO(d)) == Some(d)
  {
    var y, mm, dd := IntToString(d.year), Pad2(d.month), Pad2(d.day);
    assert y == NatToString(d.year);
    assert FormatISO(d) == y + "-" + mm + "-" + dd;
    PartsOf(y, mm, dd);
    YearValue(d.year);
    Pad2Value(d.month);
    Pad2Value(d.day);
  }

  /** A date the screens can hold is written as a string `isValidDateString` accepts. */
  lemma FormatIsValidDateString(d: Date)
    requires JsDateExact(d) && d.year >= 0
    ensures IsValidDateString(FormatISO(d)) && ParseDate(FormatISO(d)) == d
  {
    FormatParses(d);
  }

  /** Distinct dates are written differently, so the strings can key a map by date. */
  lemma FormatISOInjective(a: Date, b: Date)
    requires Valid(a) && Valid(b) && FormatISO(a) == FormatISO(b)
    ensures a == b
  {
    var s := FormatISO(a);
    var ya, yb := IntToString(a.year), IntToString(b.year);
    assert |ya| == |yb|;
    assert s[..|ya|] == ya;
    assert s[..|yb|] == yb;
    ParseSignedOfInt(a.year);
    ParseSignedOfInt(b.year);
    assert s[|s| - 5..|s| - 3] == Pad2(a.month) == Pad2(b.month);
    assert s[|s| - 2..] == Pad2(a.day) == Pad2(b.day);
    Pad2Value(a.month);
    Pad2Value(b.month);
    Pad2Value(a.day);
    Pad2Value(b.day);
  }

  /** `formatISOLocal` of the dates of two days is the same string only for the same day. */
  lemma DayKeyInjective(m: int, n: int)
    requires FormatISO(DateOfDay(m)) == FormatISO(DateOfDay(n))
    ensures m == n
  {
    FormatISOInjective(DateOfDay(m), DateOfDay(n));
  }

  /** A string of digits holds no `-`. */
  lemma DigitsNoDash(t: string)
    requires forall i :: 0 <= i < |t| ==> IsDigit(t[i])
    ensures '-' !in t
  {
    assert forall i :: 0 <= i < |t| ==> t[i] != '-';
  }

  /** Three separator-free parts joined by the separator split back into those three parts. */
  lemma SplitThree(y: string, m: string, d: string, c: char)
    requires c !in y && c !in m && c !in d
    ensures Split(y + [c] + m + [c] + d, c) == [y, m, d]
  {
    assert y + [c] + m + [c] + d == y + [c] + (m + [c] + d);
    SplitAfter(y, m + [c] + d, c);
    SplitAfter(m, d, c);
    SplitNoSep(d, c);
  }

  /** The parts of a `Y-M-D` string written with digits only. */
  lemma PartsOf(y: string, m: string, d: string)
    requires forall i :: 0 <= i < |y| ==> IsDigit(y[i])
    requires forall i :: 0 <= i < |m| ==> IsDigit(m[i])
    requires forall i :: 0 <= i < |d| ==> IsDigit(d[i])
    ensures DateParts(y + "-" + m + "-" + d) == Some(Date(DigitsValue(y), DigitsValue(m), DigitsValue(d)))
  {
    DigitsNoDash(y);
    DigitsNoDash(m);
    DigitsNoDash(d);
    SplitThree(y, m, d, '-');
    assert Split(y + "-" + m + "-" + d, '-') == [y, m, d];
  }

  /** The value of one decimal digit. */
  function DigitValue(c: char): int
  {
    c as int - '0' as int
  }

  /** Reading one more digit: ten times the value so far, plus the digit. */
  lemma DigitsStep(s: string, n: int)
    requires 0 < n <= |s| && forall i :: 0 <= i < |s| ==> IsDigit(s[i])
    ensures DigitsValue(s[..n]) == 10 * DigitsValue(s[..n - 1]) + DigitValue(s[n - 1])
  {
    assert s[..n][..n - 1] == s[..n - 1];
  }

  /** Two digits read as a number. */
  lemma TwoDigits(s: string)
    requires |s| == 2 && IsDigit(s[0]) && IsDigit(s[1])
    ensures DigitsValue(s) == 10 * DigitValue(s[0]) + DigitValue(s[1])
  {
    DigitsStep(s, 1);
    DigitsStep(s, 2);
    assert s[..0] == [] && s[..2] == s;
  }

  /** Four digits read as a number. */
  lemma FourDigits(s: string)
    requires |s| == 4 && forall i :: 0 <= i < 4 ==> IsDigit(s[i])
    ensures DigitsValue(s) == 1000 * DigitValue(s[0]) + 100 * DigitValue(s[1]) + 10 * DigitValue(s[2]) + DigitValue(s[3])
  {
    DigitsStep(s, 1);
    DigitsStep(s, 2);
    DigitsStep(s, 3);
    DigitsStep(s, 4);
    assert s[..0] == [] && s[..4] == s;
  }

  /** A `YYYY-MM-DD` string of digits read as its three numbers. */
  lemma DigitsDate(y: string, m: string, d: string)
    requires |y| == 4 && forall i :: 0 <= i < 4 ==> IsDigit(y[i])
    requires |m| == 2 && IsDigit(m[0]) && IsDigit(m[1])
    requires |d| == 2 && IsDigit(d[0]) && IsDigit(d[1])
    ensures DateParts(y + "-" + m + "-" + d) ==
      Some(Date(1000 * DigitValue(y[0]) + 100 * DigitValue(y[1]) + 10 * DigitValue(y[2]) + DigitValue(y[3]),
                10 * DigitValue(m[0]) + DigitValue(m[1]), 10 * DigitValue(d[0]) + DigitValue(d[1])))
  {
    PartsOf(y, m, d);
    FourDigits(y);
    TwoDigits(m);
    TwoDigits(d);
  }

  /** 31 February does not exist, so its string is refused. */
  lemma February31Refused()
    ensures !IsValidDateString("2026-02-31")
  {
    DigitsDate("2026", "02", "31");
    assert "2026" + "-" + "02" + "-" + "31" == "2026-02-31";
  }

  /** The value of a four-digit year string. */
  function YearDigits(y: string): int
    requires |y| == 4
  {
    1000 * DigitValue(y[0]) + 100 * DigitValue(y[1]) + 10 * DigitValue(y[2]) + DigitValue(y[3])
  }

  /** A `YYYY-MM-DD` string of digits is accepted exactly when the date it names can be held. */
  lemma DigitsDateString(y: string, m: string, d: string)
    requires |y| == 4 && forall i :: 0 <= i < 4 ==> IsDigit(y[i])
    requires |m| == 2 && IsDigit(m[0]) && IsDigit(m[1])
    requires |d| == 2 && IsDigit(d[0]) && IsDigit(d[1])
    ensures IsValidDateString(y + "-" + m + "-" + d) <==>
      JsDateExact(Date(YearDigits(y), 10 * DigitValue(m[0]) + DigitValue(m[1]), 10 * DigitValue(d[0]) + DigitValue(d[1])))
  {
    DigitsDate(y, m, d);
  }

  /** 29 February of a year from 1970 to 9999 can be held exactly when the year is a leap year. */
  lemma LeapDayHeld(y: int)
    requires 1970 <= y <= 9999
    ensures JsDateExact(Date(y, 2, 29)) <==> IsLeap(y)
  {
    if IsLeap(y) {
      YearStartBound(y + 1);
    }
  }

  /**
   * For a four-digit year from 1970 on, "YYYY-02-29" is accepted exactly
   * when the year is a leap year ("2024-02-29" is, "2026-02-29" is not).
   */
  lemma LeapDayAccepted(y: string)
    requires |y| == 4 && forall i :: 0 <= i < 4 ==> IsDigit(y[i])
    requires YearDigits(y) >= 1970
    ensures IsValidDateString(y + "-" + "02" + "-" + "29") <==> IsLeap(YearDigits(y))
  {
    DigitsDateString(y, "02", "29");
    assert YearDigits(y) <= 9999;
    LeapDayHeld(YearDigits(y));
  }

  /** A year below 100 is read by `Date` as 19xx, so the string is refused. */
  lemma TwoDigitYearRefused()
    ensures !IsValidDateString("0099-01-01")
  {
    DigitsDate("0099", "01", "01");
    assert "0099" + "-" + "01" + "-" + "01" == "0099-01-01";
  }
}

=== FILE: checkin_page.dfy ===
/**
 * The operator's check-in screen
 * (frontend/src/app/dashboard/petugas/page.tsx): turning category names
 * into form keys, picking an area for a kind and a kind for an area, the
 * area dropdown filtered by kind, loading the areas over a built-in
 * fallback list, and the check-in form with its validation and the
 * request it sends. Server answers are parameters; the clock is `now`.
 */
module CheckInPage {
  import opened Js
  import JenisParkirModel
  import opened Response
  import opened Client
  import opened ArfModel
  import opened ArfController
  import opened TransaksiController

  // ------------------------------------------------------- category keys

  predicate IsSlugChar(c: char) { 'a' <= c <= 'z' || '0' <= c <= '9' }

  /** Drops the leading characters outside [a-z0-9]. */
  function SkipRun(s: string): (r: string)
    ensures |r| <= |s|
    ensures r == "" || IsSlugChar(r[0])
    ensures |s| > 0 && !IsSlugChar(s[0]) ==> |r| < |s|
    decreases |s|
  {
    if |s| == 0 || IsSlugChar(s[0]) then s else SkipRun(s[1..])
  }

  /** `replace(/[^a-z0-9]+/g, '_')`: each maximal run outside [a-z0-9] becomes one "_". */
  function Collapse(s: string): string
    decreases |s|
  {
    if |s| == 0 then ""
    else if IsSlugChar(s[0]) then [s[0]] + Collapse(s[1..])
    else "_" + Collapse(SkipRun(s))
  }

  /** Only [a-z0-9] and "_", and never two "_" in a row. */
  predicate Slugged(r: string)
  {
    (forall i :: 0 <= i < |r| ==> IsSlugChar(r[i]) || r[i] == '_')
    && forall i :: 0 <= i < |r| - 1 ==> IsSlugChar(r[i]) || IsSlugChar(r[i + 1])
  }

  /** The collapsed text is slugged, and starts with "_" exactly when the input starts outside [a-z0-9]. */
  lemma {:induction false} CollapseSlugged(s: string)
    ensures Slugged(Collapse(s))
    ensures Collapse(s) == "" <==> s == ""
    ensures s != "" ==> (IsSlugChar(Collapse(s)[0]) <==> IsSlugChar(s[0]))
    decreases |s|
  {
    if |s| > 0 {
      if IsSlugChar(s[0]) {
        CollapseSlugged(s[1..]);
      } else {
        CollapseSlugged(SkipRun(s));
      }
    }
  }

  /** `replace(/^_|_$/g, '')`: one "_" off the front, then one off the back. */
  function StripEdges(r: string): string
  {
    var a := if |r| > 0 && r[0] == '_' then r[1..] else r;
    if |a| > 0 && a[|a| - 1] == '_' then a[..|a| - 1] else a
  }

  /** A well-formed key: slugged, and neither starting nor ending with "_". */
  predicate KeyShaped(k: string)
  {
    Slugged(k) && (k != "" ==> IsSlugChar(k[0]) && IsSlugChar(k[|k| - 1]))
  }

  /** The slug of a lower-cased name is a well-formed key. */
  lemma SlugShaped(lower: string)
    ensures KeyShaped(StripEdges(Collapse(lower)))
  {
    var r := Collapse(lower);
    CollapseSlugged(lower);
    var a := if |r| > 0 && r[0] == '_' then r[1..] else r;
    assert Slugged(a);
    assert a != "" ==> IsSlugChar(a[0]);
    var k := StripEdges(r);
    assert k == if |a| > 0 && a[|a| - 1] == '_' then a[..|a| - 1] else a;
    if |a| > 0 && a[|a| - 1] == '_' {
      assert |a| >= 2 ==> IsSlugChar(a[|a| - 2]);
    }
  }

  /**
   * `mapNamaJenisToKey`: "motor", then "mobil_muatan" (tested before
   * "mobil"), "mobil", "vip", by substring of the lower-cased name;
   * otherwise the name's slug. Every key is well-formed.
   */
  function MapNamaJenisToKey(name: string): (k: string)
    ensures KeyShaped(k)
    ensures Includes(ToLower(name), "motor") ==> k == "motor"
    ensures !Includes(ToLower(name), "motor") && Includes(ToLower(name), "muatan") ==> k == "mobil_muatan"
  {
    var lower := ToLower(name);
    if Includes(lower, "motor") then "motor"
    else if Includes(lower, "muatan") then "mobil_muatan"
    else if Includes(lower, "mobil") then "mobil"
    else if Includes(lower, "vip") then "vip"
    else SlugShaped(lower); StripEdges(Collapse(lower))
  }

  /** A name naming a cargo car maps to "mobil_muatan" although it also names a car. */
  lemma CargoCarKey()
    ensures MapNamaJenisToKey(JenisParkirModel.CargoName) == "mobil_muatan"
  {
    JenisParkirModel.CargoNameWords();
    IncludesAt(ToLower(JenisParkirModel.CargoName), "muatan", 13);
  }

  /** Text without any [a-z0-9] contains no word that starts with one. */
  lemma NoWordWithoutAlnum(s: string, w: string)
    requires forall i :: 0 <= i < |s| ==> !IsSlugChar(s[i])
    requires |w| > 0 && IsSlugChar(w[0])
    ensures !Includes(s, w)
  {
    forall i | 0 <= i <= |s| - |w| ensures !OccursAt(s, w, i) {
      assert s[i..i + |w|][0] == s[i];
    }
  }

  /** A name with no letter or digit gives the empty key. */
  lemma NoAlphanumericsEmptyKey(name: string)
    requires forall i :: 0 <= i < |name| ==> !IsSlugChar(LowerChar(name[i]))
    ensures MapNamaJenisToKey(name) == ""
  {
    var lower := ToLower(name);
    assert forall i :: 0 <= i < |lower| ==> !IsSlugChar(lower[i]);
    NoWordWithoutAlnum(lower, "motor");
    NoWordWithoutAlnum(lower, "muatan");
    NoWordWithoutAlnum(lower, "mobil");
    NoWordWithoutAlnum(lower, "vip");
    if |lower| > 0 {
      SkipRunAll(lower);
      assert Collapse(lower) == "_";
    }
  }

  lemma {:induction false} SkipRunAll(s: string)
    requires forall i :: 0 <= i < |s| ==> !IsSlugChar(s[i])
    ensures SkipRun(s) == ""
    decreases |s|
  {
    if |s| > 0 {
      SkipRunAll(s[1..]);
    }
  }

  // --------------------------------------------------- area and kind choice

  /** The area's list is an array naming `jenis`. */
  predicate Supports(a: Occupancy, jenis: string)
  {
    a.supported.List? && jenis in a.supported.kinds
  }

  /** The lower-cased area name contains `word`. */
  predicate NamedFor(a: Occupancy, word: string)
  {
    Includes(ToLower(a.namaArea), word)
  }

  /**
   * `findAreaForJenis`: a cargo car gets the first area named "outdoor";
   * any other kind the first area supporting it whose name contains the
   * kind, else the first area supporting it.
   */
  function FindAreaForJenis(arfList: seq<Occupancy>, jenis: string): (r: Option<Occupancy>)
    ensures r.Some? ==> r.value in arfList
    ensures jenis == "mobil_muatan" ==>
      (r.Some? ==> NamedFor(r.value, "outdoor"))
      && (r.None? <==> forall x :: 0 <= x < |arfList| ==> !NamedFor(arfList[x], "outdoor"))
    ensures jenis != "mobil_muatan" ==>
      (r.Some? ==> Supports(r.value, jenis))
      && (r.None? <==> forall x :: 0 <= x < |arfList| ==> !Supports(arfList[x], jenis))
    ensures jenis != "mobil_muatan" && (exists x :: 0 <= x < |arfList| && Supports(arfList[x], jenis) && NamedFor(arfList[x], jenis)) ==>
      r.Some? && NamedFor(r.value, jenis)
  {
    if jenis == "mobil_muatan" then Find(arfList, (a: Occupancy) => NamedFor(a, "outdoor"))
    else
      var preferred := Find(arfList, (a: Occupancy) => Supports(a, jenis) && NamedFor(a, jenis));
      if preferred.Some? then preferred else Find(arfList, (a: Occupancy) => Supports(a, jenis))
  }

  /** `findJenisForArea`: the area's only kind, or "" when it has none, several, or no list. */
  function FindJenisForArea(area: Option<Occupancy>): (k: string)
    ensures k != "" ==> area.Some? && area.value.supported == List([k])
    ensures area.Some? && area.value.supported.List? && |area.value.supported.kinds| == 1 ==>
      k == area.value.supported.kinds[0]
  {
    if area.None? || !area.value.supported.List? then ""
    else if |area.value.supported.kinds| == 1 then area.value.supported.kinds[0]
    else ""
  }

  /**
   * Choosing an area that supports a single kind fills in that kind, and
   * the area choice for that kind then finds an area supporting it.
   */
  lemma AreaAndKindAgree(arfList: seq<Occupancy>, x: int, k: string)
    requires 0 <= x < |arfList| && arfList[x].supported == List([k]) && k != "" && k != "mobil_muatan"
    ensures FindJenisForArea(Some(arfList[x])) == k
    ensures var a := FindAreaForJenis(arfList, k); a.Some? && Supports(a.value, k)
  {
    assert Supports(arfList[x], k);
  }

  /** The parsed list the dropdown filter reads: the array, or none. */
  function ListedKinds(a: Occupancy): seq<string>
  {
    if a.supported.List? then a.supported.kinds else []
  }

  /** The dropdown filter for a chosen kind (already lower-cased). */
  predicate DropdownKeeps(a: Occupancy, chosen: string)
  {
    if Includes(chosen, "vip") then "motor" in ListedKinds(a) || "mobil" in ListedKinds(a) || NamedFor(a, "vip")
    else chosen in ListedKinds(a)
  }

  /**
   * `filteredArfList`: every area while no kind is chosen; otherwise the
   * areas the chosen kind may use; `JSON.parse` throws (`None`) on a list
   * stored as text that is not an array, while empty text lists no kind.
   */
  function FilteredArfList(arfList: seq<Occupancy>, jenisParkir: string): (r: Option<seq<Occupancy>>)
    ensures jenisParkir == "" ==> r == Some(arfList)
    ensures jenisParkir != "" ==>
      (r.None? <==> exists x :: 0 <= x < |arfList| && BadText(arfList[x].supported))
    ensures jenisParkir != "" && r.Some? && !Includes(ToLower(jenisParkir), "vip") ==>
      forall a :: a in r.value <==> a in arfList && Supports(a, ToLower(jenisParkir))
    ensures jenisParkir != "" && r.Some? && Includes(ToLower(jenisParkir), "vip") ==>
      forall a :: a in r.value <==> a in arfList && (Supports(a, "motor") || Supports(a, "mobil") || NamedFor(a, "vip"))
  {
    if jenisParkir == "" then Some(arfList)
    else if exists x :: 0 <= x < |arfList| && BadText(arfList[x].supported) then None
    else
      var chosen := ToLower(jenisParkir);
      var r := Filter(arfList, (a: Occupancy) => DropdownKeeps(a, chosen));
      assert forall a :: a in arfList ==> exists x :: 0 <= x < |arfList| && arfList[x] == a;
      Some(r)
  }

  /** The area the form picks for a kind is one the dropdown offers for it. */
  lemma PickedAreaIsOffered(arfList: seq<Occupancy>, jenis: string)
    requires jenis != "" && jenis != "mobil_muatan" && ToLower(jenis) == jenis && !Includes(jenis, "vip")
    requires forall x :: 0 <= x < |arfList| ==> !BadText(arfList[x].supported)
    requires FindAreaForJenis(arfList, jenis).Some?
    ensures FilteredArfList(arfList, jenis).Some?
    ensures FindAreaForJenis(arfList, jenis).value in FilteredArfList(arfList, jenis).value
  {
  }

  // ------------------------------------------------------------ area list

  /** The four areas the screen knows without the server. */
  const RequiredAreas: seq<Occupancy> := [
    Occupancy(6, "Area Outdoor", 81, 0, 81, List(["motor", "mobil", "mobil_muatan"]), "aktif"),
    Occupancy(7, "Area VIP", 90, 0, 90, List(["motor", "mobil"]), "aktif"),
    Occupancy(8, "Area Motor Depan", 150, 0, 150, List(["motor"]), "aktif"),
    Occupancy(9, "Area Mobil Basement", 129, 0, 129, List(["mobil"]), "aktif")]

  /** The last row in `rows` with id `id`. */
  function LastWith(rows: seq<Occupancy>, id: int): (r: Option<Occupancy>)
    ensures r.Some? ==> r.value in rows && r.value.idArf == id
    ensures r.None? <==> forall x :: 0 <= x < |rows| ==> rows[x].idArf != id
    decreases |rows|
  {
    if |rows| == 0 then None
    else if rows[|rows| - 1].idArf == id then Some(rows[|rows| - 1])
    else
      assert forall x :: 0 <= x < |rows| - 1 ==> rows[..|rows| - 1][x] == rows[x];
      LastWith(rows[..|rows| - 1], id)
  }

  /** The merged row for an id: the server's last row for it, else the fallback's. */
  function MergedRow(required: seq<Occupancy>, api: seq<Occupancy>, id: int): Option<Occupancy>
  {
    if LastWith(api, id).Some? then LastWith(api, id) else LastWith(required, id)
  }

  /** A finite non-empty set of ids has a least element. */
  lemma {:induction false} LeastId(s: set<int>, w: int) returns (m: int)
    requires w in s
    ensures m in s && forall k :: k in s ==> m <= k
    decreases |s|
  {
    if forall k :: k in s ==> w <= k {
      m := w;
    } else {
      var k :| k in s && k < w;
      var t := s - {w};
      m := LeastId(t, k);
      forall j | j in s ensures m <= j {
        if j != w { assert j in t; }
      }
    }
  }

  /** The server's rows, later ones winning, written over `m` one by one. */
  method Override(m: map<int, Occupancy>, rows: seq<Occupancy>) returns (r: map<int, Occupancy>)
    requires forall id :: id in m ==> m[id].idArf == id
    ensures forall id :: id in r <==> id in m || LastWith(rows, id).Some?
    ensures forall id :: id in r ==> r[id] == if LastWith(rows, id).Some? then LastWith(rows, id).value else m[id]
    ensures forall id :: id in r ==> r[id].idArf == id
  {
    r := m;
    var i := 0;
    while i < |rows|
      invariant 0 <= i <= |rows|
      invariant forall id :: id in r <==> id in m || LastWith(rows[..i], id).Some?
      invariant forall id :: id in r ==> r[id] == if LastWith(rows[..i], id).Some? then LastWith(rows[..i], id).value else m[id]
      invariant forall id :: id in r ==> r[id].idArf == id
    {
      assert rows[..i + 1][..i] == rows[..i];
      r := r[rows[i].idArf := rows[i]];
      i := i + 1;
    }
    assert rows[..i] == rows;
  }

  /**
   * Midway through listing `m` in id order: `list` holds the rows of the
   * ids already taken, ascending and all below the ids still in `rest`.
   */
  ghost predicate Listing(m: map<int, Occupancy>, rest: set<int>, list: seq<Occupancy>)
  {
    rest <= m.Keys
    && (forall x :: 0 <= x < |list| ==> list[x].idArf in m && list[x] == m[list[x].idArf] && list[x].idArf !in rest)
    && (forall x, y :: 0 <= x < y < |list| ==> list[x].idArf < list[y].idArf)
    && (forall x, k :: 0 <= x < |list| && k in rest ==> list[x].idArf < k)
    && (forall id :: id in m ==> id in rest || exists x :: 0 <= x < |list| && list[x].idArf == id)
  }

  /** Taking the least id still left keeps the listing in order. */
  lemma TakeLeast(m: map<int, Occupancy>, rest: set<int>, list: seq<Occupancy>, k: int)
    requires forall id :: id in m ==> m[id].idArf == id
    requires Listing(m, rest, list)
    requires k in rest && forall j :: j in rest ==> k <= j
    ensures Listing(m, rest - {k}, list + [m[k]])
  {
    var after := list + [m[k]];
    assert after[|list|] == m[k];
    forall x | 0 <= x < |list| ensures after[x] == list[x] {}
    forall id | id in m ensures id in rest - {k} || exists x :: 0 <= x < |after| && after[x].idArf == id {
      if id == k {
        assert after[|list|].idArf == id;
      } else if id !in rest {
        var x :| 0 <= x < |list| && list[x].idArf == id;
        assert after[x].idArf == id;
      }
    }
  }

  /** `Object.values` of a map keyed by id: its rows in ascending id order. */
  method ValuesAscending(m: map<int, Occupancy>) returns (list: seq<Occupancy>)
    requires forall id :: id in m ==> m[id].idArf == id
    ensures forall x, y :: 0 <= x < y < |list| ==> list[x].idArf < list[y].idArf
    ensures forall x :: 0 <= x < |list| ==> list[x].idArf in m && list[x] == m[list[x].idArf]
    ensures forall id :: id in m ==> id in IdsOf(list)
  {
    var rest := m.Keys;
    list := [];
    while exists w :: w in rest
      invariant Listing(m, rest, list)
      decreases |rest|
    {
      var w :| w in rest;
      var least := LeastId(rest, w);
      var k :| k in rest && forall j :: j in rest ==> k <= j;
      TakeLeast(m, rest, list, k);
      list := list + [m[k]];
      rest := rest - {k};
    }
  }

  /** The ids a list of rows carries. */
  function IdsOf(rows: seq<Occupancy>): (ids: set<int>)
    ensures forall x :: 0 <= x < |rows| ==> rows[x].idArf in ids
    ensures forall id :: id in ids ==> exists x :: 0 <= x < |rows| && rows[x].idArf == id
  {
    set x | 0 <= x < |rows| :: rows[x].idArf
  }

  /**
   * `fetchArf`'s merge: the fallback rows by id, overridden by the
   * server's rows for the same id, listed by `Object.values` in ascending
   * id order. Every fallback id survives.
   */
  method MergeAreas(required: seq<Occupancy>, api: seq<Occupancy>) returns (list: seq<Occupancy>)
    ensures forall x, y :: 0 <= x < y < |list| ==> list[x].idArf < list[y].idArf
    ensures forall x :: 0 <= x < |list| ==> MergedRow(required, api, list[x].idArf) == Some(list[x])
    ensures forall id :: MergedRow(required, api, id).Some? ==> id in IdsOf(list)
    ensures IdsOf(required) <= IdsOf(list)
  {
    var finalMap := Override(map[], required);
    finalMap := Override(finalMap, api);
    list := ValuesAscending(finalMap);
    forall id | id in IdsOf(required) ensures id in IdsOf(list) {
      assert LastWith(required, id).Some?;
    }
  }

  /** Without server rows the merge is the fallback list, in id order. */
  lemma MergeOfNothingIsFallback(list: seq<Occupancy>, id: int)
    requires forall x :: 0 <= x < |list| ==> MergedRow(RequiredAreas, [], list[x].idArf) == Some(list[x])
    requires 0 <= id < |list|
    ensures list[id] in RequiredAreas
  {
  }

  // ----------------------------------------------------------- check-in form

  /** The category id check-in sends: 2 for a motorcycle, 6 for a cargo car, otherwise 1. */
  function JenisId(jenis: string): (id: int)
    ensures id != 0
    ensures id == 2 <==> jenis == "motor"
    ensures id == 6 <==> jenis == "mobil_muatan"
  {
    if jenis == "motor" then 2 else if jenis == "mobil_muatan" then 6 else 1
  }

  /**
   * The kind the backend checks the area against agrees with the screen
   * for motorcycles and cars; a cargo car is checked as a car.
   */
  lemma ScreenKindAgainstBackend()
    ensures KindKey(JenisId("motor")) == "motor"
    ensures KindKey(JenisId("mobil")) == "mobil"
    ensures KindKey(JenisId("mobil_muatan")) == "mobil"
  {
  }

  /** An area the screen picks for a motorcycle or a car passes the backend's kind check. */
  lemma PickedAreaAccepted(a: Occupancy, k: string)
    requires (k == "motor" || k == "mobil") && Supports(a, k)
    ensures AreaAccepts(a.supported, KindKey(JenisId(k)))
  {
  }

  /** The receipt's kind label. */
  function JenisDisplay(jenis: string): string
  {
    if jenis == "motor" then "Motor" else if jenis == "mobil_muatan" then "Mobil Muatan" else "Mobil"
  }

  /** The check-in request the screen sends. */
  datatype CheckInCall = CheckInCall(nomorPlat: string, idJenisParkir: int, idArf: Option<int>)

  /** The body the backend receives for a call: no entry time, so the server's clock. */
  function RequestOf(call: CheckInCall): CheckInRequest
  {
    CheckInRequest(Val(call.nomorPlat), Val(call.idJenisParkir),
                   if call.idArf.Some? then Val(call.idArf.value) else Undefined, Undefined)
  }

  /** A call the form sends always passes the backend's plate-and-category guard. */
  lemma CallPassesPresenceGuard(plate: string, jenis: string, idArf: Option<int>)
    requires plate != ""
    ensures var req := RequestOf(CheckInCall(ToUpper(plate), JenisId(jenis), idArf));
      Truthy(req.nomorPlat) && TruthyInt(req.idJenisParkir)
  {
    UpperEmpty(plate);
  }

  /** The receipt the screen prints. */
  datatype Struk = Struk(nomorTransaksi: string, nomorPlat: string, jenisParkir: string, waktuMasuk: int,
                         areaParkir: Option<string>)

  /** `id_transaksi || 'TRX' + Date.now()`. */
  function NomorTransaksi(id: int, now: int): string
  {
    if id != 0 then IntToString(id) else "TRX" + IntToString(now)
  }

  /** `arfList.find(a => a.id_arf === parseInt(value))`: the first listed area with that id. */
  function AreaWithId(arfList: seq<Occupancy>, value: string): (r: Option<Occupancy>)
    ensures r.Some? ==> r.value in arfList && ParseSigned(value) == Some(r.value.idArf)
    ensures r.None? <==> forall x :: 0 <= x < |arfList| ==> ParseSigned(value) != Some(arfList[x].idArf)
  {
    Find(arfList, (a: Occupancy) => ParseSigned(value) == Some(a.idArf))
  }

  /** The first listed area supporting `jenis`, which the auto-select effect fills in. */
  function FirstSupporting(arfList: seq<Occupancy>, jenis: string): (r: Option<Occupancy>)
    ensures r.Some? ==> r.value in arfList && Supports(r.value, jenis)
    ensures r.None? <==> forall x :: 0 <= x < |arfList| ==> !Supports(arfList[x], jenis)
  {
    Find(arfList, (a: Occupancy) => Supports(a, jenis))
  }

  /**
   * The area id a submission uses: the form's, else the id of the area
   * chosen for the kind; none when neither exists.
   */
  function AreaIdFor(arfList: seq<Occupancy>, jenis: string, idArf: string): (r: Option<string>)
    ensures idArf != "" ==> r == Some(idArf)
    ensures idArf == "" ==> (r.None? <==> FindAreaForJenis(arfList, jenis).None?)
    ensures idArf == "" && r.Some? ==>
      ParseSigned(r.value) == Some(FindAreaForJenis(arfList, jenis).value.idArf)
  {
    if idArf != "" then Some(idArf)
    else
      var chosen := FindAreaForJenis(arfList, jenis);
      if chosen.None? then None
      else
        ParseSignedOfInt(chosen.value.idArf);
        Some(IntToString(chosen.value.idArf))
  }

  /** The receipt's area: the listed area with the form's id, when it has a name. */
  function ReceiptArea(arfList: seq<Occupancy>, idArf: string): (r: Option<string>)
    ensures r.Some? ==> r.value != "" && exists x :: (0 <= x < |arfList| && arfList[x].namaArea == r.value
      && ParseSigned(idArf) == Some(arfList[x].idArf))
  {
    var found := AreaWithId(arfList, idArf);
    if found.Some? && found.value.namaArea != "" then Some(found.value.namaArea) else None
  }

  datatype FormField = PlatField | JenisField | AreaField

  class CheckInScreen {
    var nomorPlat: string
    var jenisParkir: string
    var idArf: string
    var arfList: seq<Occupancy>
    var error: Option<string>
    var success: Option<string>
    var submitAttempted: bool
    var struk: Option<Struk>
    /** The check-in requests sent, in order. */
    var checkIns: seq<CheckInCall>

    /** The screen as it opens: an empty form and no areas yet. */
    constructor()
      ensures nomorPlat == "" && jenisParkir == "" && idArf == "" && arfList == []
      ensures error == None && success == None && !submitAttempted && struk == None && checkIns == []
    {
      nomorPlat, jenisParkir, idArf, arfList := "", "", "", [];
      error, success, submitAttempted, struk, checkIns := None, None, false, None, [];
    }

    /**
     * `fetchArf` and the effect that follows a new area list: the server's
     * occupancy rows merged over the fallback areas, or the fallback areas
     * alone when the call fails; then, with no area chosen but a kind
     * chosen, the first area supporting the kind is filled in.
     */
    method FetchArf(answer: Answer<seq<Occupancy>>)
      modifies this`arfList, this`idArf, this`error, this`submitAttempted
      ensures !answer.Resolves() ==> arfList == RequiredAreas
      ensures answer.Resolves() ==>
        var rows := if answer.reply.body.SuccessBody? && answer.reply.body.data.Some? then answer.reply.body.data.value else [];
        (forall x, y :: 0 <= x < y < |arfList| ==> arfList[x].idArf < arfList[y].idArf)
        && (forall x :: 0 <= x < |arfList| ==> MergedRow(RequiredAreas, rows, arfList[x].idArf) == Some(arfList[x]))
      ensures IdsOf(RequiredAreas) <= IdsOf(arfList)
      ensures old(idArf) == "" && jenisParkir != "" && FirstSupporting(arfList, jenisParkir).Some? ==>
        idArf == IntToString(FirstSupporting(arfList, jenisParkir).value.idArf)
      ensures !(old(idArf) == "" && jenisParkir != "" && FirstSupporting(arfList, jenisParkir).Some?) ==>
        idArf == old(idArf)
      ensures error == None && !submitAttempted
    {
      if answer.Resolves() {
        var rows := if answer.reply.body.SuccessBody? && answer.reply.body.data.Some? then answer.reply.body.data.value else [];
        arfList := MergeAreas(RequiredAreas, rows);
      } else {
        arfList := RequiredAreas;
      }
      PreselectArea();
      error, submitAttempted := None, false;
    }

    /** The effect on a new area list: with no area chosen but a kind chosen, the first area supporting the kind. */
    method PreselectArea()
      modifies this`idArf
      ensures old(idArf) == "" && jenisParkir != "" && FirstSupporting(arfList, jenisParkir).Some? ==>
        idArf == IntToString(FirstSupporting(arfList, jenisParkir).value.idArf)
      ensures !(old(idArf) == "" && jenisParkir != "" && FirstSupporting(arfList, jenisParkir).Some?) ==>
        idArf == old(idArf)
    {
      if |arfList| > 0 && idArf == "" && jenisParkir != "" {
        var chosen := FirstSupporting(arfList, jenisParkir);
        if chosen.Some? {
          idArf := IntToString(chosen.value.idArf);
        }
      }
    }

    /**
     * `handleInputChange`: choosing an area fills in its only kind (or
     * clears the kind); choosing a kind fills in an area for it when there
     * is one; any change clears the error.
     */
    method HandleInputChange(name: FormField, value: string)
      modifies this`nomorPlat, this`jenisParkir, this`idArf, this`error
      ensures error == None
      ensures name == PlatField ==> nomorPlat == value && jenisParkir == old(jenisParkir) && idArf == old(idArf)
      ensures name == AreaField ==> idArf == value && nomorPlat == old(nomorPlat)
      ensures name == AreaField && value != "" ==> jenisParkir == FindJenisForArea(AreaWithId(arfList, value))
      ensures name == AreaField && value == "" ==> jenisParkir == old(jenisParkir)
      ensures name == JenisField ==> jenisParkir == value && nomorPlat == old(nomorPlat)
      ensures name == JenisField && value != "" && FindAreaForJenis(arfList, value).Some? ==>
        idArf == IntToString(FindAreaForJenis(arfList, value).value.idArf)
      ensures name == JenisField && (value == "" || FindAreaForJenis(arfList, value).None?) ==> idArf == old(idArf)
    {
      error := None;
      match name {
        case AreaField =>
          if value != "" {
            jenisParkir := FindJenisForArea(AreaWithId(arfList, value));
          }
          idArf := value;
        case JenisField =>
          jenisParkir := value;
          if value != "" {
            var chosen := FindAreaForJenis(arfList, value);
            if chosen.Some? {
              idArf := IntToString(chosen.value.idArf);
            }
          }
        case PlatField =>
          nomorPlat := value;
      }
    }

    /** The form as it stands cannot be submitted; `message` says why. */
    predicate Refused(message: string)
      reads this
    {
      if nomorPlat == "" then message == "Nomor plat harus diisi"
      else if jenisParkir == "" then message == "Jenis kendaraan harus dipilih"
      else (AreaIdFor(arfList, jenisParkir, idArf).None?
            && message == "Tidak ada area parkir yang tersedia untuk " + jenisParkir)
    }

    /** The request the form as it stands sends, when it passes its checks. */
    function Submission(): (c: Option<CheckInCall>)
      reads this
      ensures c.Some? <==> nomorPlat != "" && jenisParkir != "" && AreaIdFor(arfList, jenisParkir, idArf).Some?
      ensures c.Some? ==> c.value.nomorPlat == ToUpper(nomorPlat) && c.value.idJenisParkir == JenisId(jenisParkir)
    {
      if nomorPlat == "" || jenisParkir == "" then None
      else
        var areaId := AreaIdFor(arfList, jenisParkir, idArf);
        if areaId.None? then None
        else Some(CheckInCall(ToUpper(nomorPlat), JenisId(jenisParkir), ParseSigned(areaId.value)))
    }

    /**
     * `handleCheckIn`: refuses an empty plate, no kind, or no area to be
     * found; otherwise sends the upper-cased plate, the kind's category id
     * and the area id, and on success shows the receipt and resets the
     * form.
     */
    method HandleCheckIn(answer: Answer<TransaksiRow>, now: int)
      modifies this`nomorPlat, this`jenisParkir, this`idArf, this`error, this`success, this`submitAttempted,
               this`struk, this`checkIns
      ensures submitAttempted && arfList == old(arfList)
      ensures old(Submission()).None? ==>
        error.Some? && (var message := error.value; old(Refused(message))) && checkIns == old(checkIns) && struk == old(struk)
        && nomorPlat == old(nomorPlat) && jenisParkir == old(jenisParkir) && idArf == old(idArf)
      ensures old(Submission()).Some? ==> checkIns == old(checkIns) + [old(Submission()).value]
      ensures old(Submission()).Some? && answer.Succeeds() && answer.reply.body.SuccessBody? && answer.reply.body.data.Some? ==>
        (var row := answer.reply.body.data.value;
         struk == Some(Struk(NomorTransaksi(row.id, now), ToUpper(old(nomorPlat)), JenisDisplay(old(jenisParkir)),
                             row.row.waktuMasuk, ReceiptArea(arfList, old(idArf))))
         && success == Some("Check-in berhasil!") && error == None
         && nomorPlat == "" && jenisParkir == "" && idArf == "")
      ensures old(Submission()).Some? && !answer.Resolves() ==>
        error == Some(FailureMessage(answer, "Gagal check-in. Silakan coba lagi.")) && struk == old(struk)
        && nomorPlat == old(nomorPlat) && jenisParkir == old(jenisParkir) && idArf == old(idArf)
    {
      var call := Submission();
      submitAttempted := true;
      if nomorPlat == "" {
        error := Some("Nomor plat harus diisi");
        return;
      }
      if jenisParkir == "" {
        error := Some("Jenis kendaraan harus dipilih");
        return;
      }
      var areaId := AreaIdFor(arfList, jenisParkir, idArf);
      if areaId.None? {
        error := Some("Tidak ada area parkir yang tersedia untuk " + jenisParkir);
        return;
      }
      SendCheckIn(call.value, answer, now);
    }

    /** The request of a form that passed its checks, and what its answer does to the screen. */
    method SendCheckIn(call: CheckInCall, answer: Answer<TransaksiRow>, now: int)
      modifies this`nomorPlat, this`jenisParkir, this`idArf, this`error, this`success, this`struk, this`checkIns
      ensures checkIns == old(checkIns) + [call]
      ensures answer.Succeeds() && answer.reply.body.SuccessBody? && answer.reply.body.data.Some? ==>
        (var row := answer.reply.body.data.value;
         struk == Some(Struk(NomorTransaksi(row.id, now), ToUpper(old(nomorPlat)), JenisDisplay(old(jenisParkir)),
                             row.row.waktuMasuk, ReceiptArea(arfList, old(idArf))))
         && success == Some("Check-in berhasil!") && error == None
         && nomorPlat == "" && jenisParkir == "" && idArf == "")
      ensures !answer.Resolves() ==>
        error == Some(FailureMessage(answer, "Gagal check-in. Silakan coba lagi.")) && struk == old(struk)
        && nomorPlat == old(nomorPlat) && jenisParkir == old(jenisParkir) && idArf == old(idArf)
    {
      error := None;
      checkIns := checkIns + [call];
      if answer.Succeeds() {
        if answer.reply.body.SuccessBody? && answer.reply.body.data.Some? {
          var row := answer.reply.body.data.value;
          struk := Some(Struk(NomorTransaksi(row.id, now), ToUpper(nomorPlat), JenisDisplay(jenisParkir),
                              row.row.waktuMasuk, ReceiptArea(arfList, idArf)));
          success := Some("Check-in berhasil!");
          nomorPlat, jenisParkir, idArf := "", "", "";
        } else {
          error := Some("Gagal check-in. Silakan coba lagi.");
        }
      } else if !answer.Resolves() {
        error := Some(FailureMessage(answer, "Gagal check-in. Silakan coba lagi."));
      }
    }
  }
}

=== FILE: checkout_page.dfy ===
/**
 * The operator's check-out screen
 * (frontend/src/app/dashboard/petugas/checkout/page.tsx): the screen's own
 * tariff table and category classifier, the fare for a stay, the cash box
 * with change and the short-payment warning, and the screen state that the
 * plate search, the fare computation and the check-out confirmation
 * update. Server answers are parameters; the clock is `now` (milliseconds).
 */
module CheckoutPage {
  import opened Js
  import JenisParkirModel
  import opened Response
  import opened Client
  import opened TransaksiModel
  import opened TransaksiController
  import opened Database

  /** One row of the tariff table: the first hour, and every further hour. */
  datatype Tarif = Tarif(pertama: int, lanjutan: int)

  datatype TarifKey = Motor | Mobil | Truk | Bus

  /** The table's key names. */
  function KeyName(k: TarifKey): string
  {
    match k
    case Motor => "motor"
    case Mobil => "mobil"
    case Truk => "truk"
    case Bus => "bus"
  }

  /** The screen's tariff table, in rupiah. */
  function TarifOf(k: TarifKey): (t: Tarif)
    ensures 0 < t.lanjutan <= t.pertama
    ensures k == Motor <==> t.lanjutan == t.pertama
  {
    match k
    case Motor => Tarif(2000, 2000)
    case Mobil => Tarif(5000, 4000)
    case Truk => Tarif(10000, 5000)
    case Bus => Tarif(15000, 7500)
  }

  /** Larger vehicles never pay less, for the first hour or for any further one. */
  lemma TarifRanksBySize()
    ensures TarifOf(Motor).pertama < TarifOf(Mobil).pertama < TarifOf(Truk).pertama < TarifOf(Bus).pertama
    ensures TarifOf(Motor).lanjutan < TarifOf(Mobil).lanjutan < TarifOf(Truk).lanjutan < TarifOf(Bus).lanjutan
  {
  }

  // ------------------------------------------------------------ classifier

  /**
   * `getTarifKey`: the first of "motor", "mobil", "truk", "bus" that occurs
   * in the lower-cased category name, and "mobil" when none does.
   */
  function GetTarifKey(jenisParkir: string): (k: TarifKey)
    ensures k == Motor <==> Includes(ToLower(jenisParkir), "motor")
    ensures k != Mobil ==> Includes(ToLower(jenisParkir), KeyName(k))
  {
    var lower := ToLower(jenisParkir);
    if Includes(lower, "motor") then Motor
    else if Includes(lower, "mobil") then Mobil
    else if Includes(lower, "truk") then Truk
    else if Includes(lower, "bus") then Bus
    else Mobil
  }

  /** A name containing none of the four keys falls back to "mobil". */
  lemma UnknownNameIsMobil(jenisParkir: string)
    requires forall k: TarifKey :: !Includes(ToLower(jenisParkir), KeyName(k))
    ensures GetTarifKey(jenisParkir) == Mobil
  {
    assert KeyName(Motor) == "motor" && KeyName(Truk) == "truk" && KeyName(Bus) == "bus";
  }

  /** Lower-casing after upper-casing is lower-casing. */
  lemma LowerOfUpper(s: string)
    ensures ToLower(ToUpper(s)) == ToLower(s)
  {
  }

  /** The classifier ignores letter case. */
  lemma TarifKeyIgnoresCase(jenisParkir: string)
    ensures GetTarifKey(ToUpper(jenisParkir)) == GetTarifKey(jenisParkir)
  {
    LowerOfUpper(jenisParkir);
  }

  /** Each key name classifies as itself. */
  lemma KeyNameRoundTrip(k: TarifKey)
    ensures GetTarifKey(KeyName(k)) == k
  {
    var n := KeyName(k);
    assert ToLower(n) == n;
    assert OccursAt(n, n, 0);
    if k == Mobil {
      assert n[..5] != "motor";
    }
  }

  /** "Parkir Mobil Muatan" (the cargo-car category) is billed as a car. */
  lemma MuatanIsMobil()
    ensures GetTarifKey(JenisParkirModel.CargoName) == Mobil
  {
    JenisParkirModel.CargoNameWords();
    IncludesAt(ToLower(JenisParkirModel.CargoName), "mobil", 7);
  }

  // ------------------------------------------------------------------ fare

  /**
   * The fare for `hours` billed hours: the first hour at `pertama` and each
   * further hour at `lanjutan`. The code's special case for one hour is the
   * same straight line.
   */
  function Fare(t: Tarif, hours: int): (f: int)
    ensures f == t.pertama + (hours - 1) * t.lanjutan
  {
    if hours == 1 then t.pertama else t.pertama + (hours - 1) * t.lanjutan
  }

  /** Every started hour after the first adds the follow-on rate. */
  lemma FareStep(t: Tarif, hours: int)
    ensures Fare(t, hours + 1) == Fare(t, hours) + t.lanjutan
  {
  }

  /** From one hour on, a longer stay never costs less, and never less than the first hour. */
  lemma FareMonotone(t: Tarif, h1: int, h2: int)
    requires t.lanjutan >= 0 && 1 <= h1 <= h2
    ensures t.pertama <= Fare(t, h1) <= Fare(t, h2)
  {
    MulMono(0, h1 - 1, t.lanjutan + 1);
    MulMono(h1 - 1, h2 - 1, t.lanjutan + 1);
  }

  /** Zero billed hours costs `pertama - lanjutan`: nothing for a motorcycle. */
  lemma FareZeroHours(k: TarifKey)
    ensures Fare(TarifOf(k), 0) == TarifOf(k).pertama - TarifOf(k).lanjutan
    ensures Fare(TarifOf(k), 0) >= 0
    ensures Fare(TarifOf(k), 0) == 0 <==> k == Motor
  {
  }

  /** The fare the screen computes for a session entered at `masuk`, at time `now`. */
  function ScreenFare(jenisParkir: string, masuk: int, now: int): int
  {
    Fare(TarifOf(GetTarifKey(jenisParkir)), BilledHours(now - masuk))
  }

  /**
   * The screen's fare: the first hour's rate for any stay up to an hour,
   * never less than that for any positive stay, never lower for a later
   * exit, and `pertama - lanjutan` at the very moment of entry.
   */
  lemma ScreenFareFacts(jenisParkir: string, masuk: int, now1: int, now2: int)
    requires masuk < now1 <= now2
    ensures var t := TarifOf(GetTarifKey(jenisParkir));
      ScreenFare(jenisParkir, masuk, masuk) == t.pertama - t.lanjutan
      && (now1 - masuk <= HourMs ==> ScreenFare(jenisParkir, masuk, now1) == t.pertama)
      && t.pertama <= ScreenFare(jenisParkir, masuk, now1) <= ScreenFare(jenisParkir, masuk, now2)
  {
    BilledHoursFacts(now1 - masuk, 0);
    BilledHoursFacts(0, 0);
    BilledHoursMonotone(now1 - masuk, now2 - masuk);
    var t := TarifOf(GetTarifKey(jenisParkir));
    FareMonotone(t, BilledHours(now1 - masuk), BilledHours(now2 - masuk));
  }

  // -------------------------------------------------------------- cash box

  /** What the cash box shows. */
  datatype CashPanel = CashPanel(showsChange: bool, change: int, changeGreen: bool, warning: bool)

  /**
   * The cash box: it sits in the selected session's panel, so it is present
   * only while a session is selected, for cash, once a fare is computed
   * (after a check-out the preview stays but the selection is gone); the
   * change line appears once an amount is typed and the fare is non-zero,
   * and the "Uang tidak cukup!" warning appears exactly when the amount is
   * short.
   */
  function CashBox(selected: bool, metode: MetodePembayaran, total: Option<int>, paid: Option<int>): (p: Option<CashPanel>)
    ensures p.Some? <==> selected && metode == Tunai && total.Some?
    ensures p.Some? ==> (p.value.warning <==> paid.Some? && paid.value < total.value)
    ensures p.Some? ==> (p.value.showsChange <==> paid.Some? && total.value != 0)
    ensures p.Some? && paid.Some? ==> p.value.change == paid.value - total.value
  {
    if !selected || metode != Tunai || total.None? then None
    else
      var change := if paid.Some? then paid.value - total.value else 0;
      Some(CashPanel(paid.Some? && total.value != 0, change, change >= 0, paid.Some? && paid.value < total.value))
  }

  /** The change is shown green exactly when there is no short-payment warning. */
  lemma ChangeColourMatchesWarning(total: int, paid: int)
    ensures var p := CashBox(true, Tunai, Some(total), Some(paid)).value;
      p.changeGreen <==> !p.warning
  {
  }

  // ---------------------------------------------------------- screen state

  /** A session as the screen lists it. */
  datatype Detail = Detail(idTransaksi: int, nomorPlat: string, jenisParkir: string, waktuMasuk: int,
                           areaParkir: string, tarifPerJam: int, tarifAwal: int)

  /** The computed check-out the preview shows. */
  datatype Computed = Computed(detail: Detail, waktuKeluar: int, durasi: int, totalBayar: int)

  /** The check-out request the screen sends: `PUT /transaksi/:id/checkout`. */
  datatype CheckOutCall = CheckOutCall(idTransaksi: int, totalBayar: int, metode: MetodePembayaran)

  /** A looked-up session as the screen keeps it, with "-" for a missing text. */
  function DetailOf(v: AktifView): (d: Detail)
    ensures d.idTransaksi == v.idTransaksi && d.waktuMasuk == v.waktuMasuk
    ensures v.nomorPlat != "" ==> d.nomorPlat == v.nomorPlat
    ensures d.nomorPlat != "" && d.jenisParkir != "" && d.areaParkir != ""
  {
    Detail(v.idTransaksi, if v.nomorPlat != "" then v.nomorPlat else "-",
           if v.jenisParkir != "" then v.jenisParkir else "-", v.waktuMasuk,
           if v.areaParkir != "" then v.areaParkir else "-", 2000, 5000)
  }

  /** The sessions a lookup answer carries, when it counts as a hit. */
  function Payload(a: Answer<seq<AktifView>>): Option<seq<AktifView>>
  {
    if !a.Succeeds() then None
    else if a.reply.body.SuccessBody? then a.reply.body.data
    else None
  }

  /** The lookup's sessions in the screen's shape. */
  function Listed(rows: seq<AktifView>): (ds: seq<Detail>)
    ensures |ds| == |rows|
    ensures forall x :: 0 <= x < |rows| ==> ds[x] == DetailOf(rows[x])
  {
    seq(|rows|, x requires 0 <= x < |rows| => DetailOf(rows[x]))
  }

  /** The preview `handleHitung` builds for session `d` at time `now`. */
  function Priced(d: Detail, now: int): Computed
  {
    Computed(d, now, BilledHours(now - d.waktuMasuk), ScreenFare(d.jenisParkir, d.waktuMasuk, now))
  }

  /**
   * The request `handleCheckOut` sends as written: the selected session's
   * id with the previewed total, whichever session the preview was
   * computed for.
   */
  function CheckOutCallAsWritten(selected: Option<Detail>, hitung: Option<Computed>, metode: MetodePembayaran): (r: Option<CheckOutCall>)
    ensures r.Some? <==> selected.Some? && hitung.Some?
    ensures r.Some? ==> r.value == CheckOutCall(selected.value.idTransaksi, hitung.value.totalBayar, metode)
  {
    if selected.None? || hitung.None? then None
    else Some(CheckOutCall(selected.value.idTransaksi, hitung.value.totalBayar, metode))
  }

  /**
   * A preview of one session confirmed after another was selected closes
   * the selected one at the other's fare: session 2 (a bus, one hour) is
   * sent the 2000 of session 1 (a motorcycle) instead of its own 15000.
   */
  lemma AsWrittenChargesWrongSession()
    ensures var a := Detail(1, "B 1 A", "motor", 0, "A", 2000, 5000);
      var b := Detail(2, "B 2 B", "bus", 0, "A", 2000, 5000);
      var call := CheckOutCallAsWritten(Some(b), Some(Priced(a, HourMs)), Tunai);
      call == Some(CheckOutCall(2, 2000, Tunai)) && ScreenFare(b.jenisParkir, b.waktuMasuk, HourMs) == 15000
  {
    HourFare(Motor);
    HourFare(Bus);
  }

  /** A one-hour stay entered at time 0 is billed its kind's first-hour fare. */
  lemma HourFare(k: TarifKey)
    ensures ScreenFare(KeyName(k), 0, HourMs) == Fare(TarifOf(k), 1)
  {
    KeyNameRoundTrip(k);
    BilledHoursFacts(HourMs, 0);
  }

  /**
   * The request a confirmation sends: only when the preview is of the
   * selected session, and then that session with its previewed total.
   */
  function CheckOutCallFor(selected: Option<Detail>, hitung: Option<Computed>, metode: MetodePembayaran): (r: Option<CheckOutCall>)
    ensures r.Some? <==> selected.Some? && hitung.Some? && hitung.value.detail.idTransaksi == selected.value.idTransaksi
    ensures r.Some? ==> r.value == CheckOutCall(hitung.value.detail.idTransaksi, hitung.value.totalBayar, metode)
  {
    if selected.None? || hitung.None? || hitung.value.detail.idTransaksi != selected.value.idTransaksi then None
    else Some(CheckOutCall(selected.value.idTransaksi, hitung.value.totalBayar, metode))
  }

  /** A confirmed preview charges the session it was computed for, at its own fare. */
  lemma CorrectedChargesPreviewedSession(selected: Detail, d: Detail, now: int, metode: MetodePembayaran)
    requires CheckOutCallFor(Some(selected), Some(Priced(d, now)), metode).Some?
    ensures var call := CheckOutCallFor(Some(selected), Some(Priced(d, now)), metode).value;
      call.idTransaksi == selected.idTransaksi == d.idTransaksi
      && call.totalBayar == ScreenFare(d.jenisParkir, d.waktuMasuk, now)
  {
  }

  /** The check-out request body the backend receives for a call: no exit time, the amount, the method. */
  function RequestOf(call: CheckOutCall): CheckOutRequest
  {
    CheckOutRequest(Undefined, Val(call.totalBayar), Val(MetodeName(call.metode)))
  }

  /**
   * The amount and method the screen sends are what check-out stores; the
   * exit time is the server's clock, not the one the fare was computed at.
   */
  lemma ScreenTotalIsStored(t: Transaksi, call: CheckOutCall, serverNow: int)
    ensures var c := ClosedSession(t, RequestOf(call), serverNow);
      c.totalBayar == Some(call.totalBayar) && c.tarifParkir == Some(call.totalBayar)
      && c.metodePembayaran == Some(call.metode) && c.waktuKeluar == Some(serverNow)
  {
    MetodeRoundTrip(call.metode);
  }

  /**
   * A plate of two or more characters sent upper-cased finds, through
   * `getAktifTransaksi`, exactly the parked vehicle's one open session,
   * listed under that plate.
   */
  lemma BackendLookupListsOne(db: Db, value: string)
    requires db.Valid() && |value| >= 2
    ensures var a := Answered(GetAktifTransaksi(db, Val(ToUpper(value))));
      (Payload(a).Some? <==> PlateParked(db.transaksi, db.kendaraan, ToUpper(value)))
      && (Payload(a).Some? ==> |Payload(a).value| == 1 && Listed(Payload(a).value)[0].nomorPlat == ToUpper(value))
  {
    UpperIdempotent(value);
    UpperEmpty(value);
    var r := GetAktifTransaksi(db, Val(ToUpper(value)));
    assert r.status == 200 ==> r.body.Success();
  }

  class CheckoutScreen {
    var nomorPlat: string
    var metode: MetodePembayaran
    var uangDibayar: Option<int>
    var transaksiList: seq<Detail>
    var selected: Option<Detail>
    var hitung: Option<Computed>
    var showPreview: bool
    var error: Option<string>
    var success: Option<string>
    /** The plates sent to `GET /transaksi/aktif`, in order. */
    var searches: seq<string>
    /** The check-out requests sent, in order. */
    var checkOuts: seq<CheckOutCall>

    /** The selection, when there is one, is one of the listed sessions. */
    ghost predicate SelectionListed()
      reads this
    {
      selected.Some? ==> selected.value in transaksiList
    }

    /** The screen as it opens: empty form, cash, nothing selected or computed. */
    constructor()
      ensures nomorPlat == "" && metode == Tunai && uangDibayar == None
      ensures transaksiList == [] && selected == None && hitung == None && !showPreview
      ensures error == None && success == None && searches == [] && checkOuts == []
      ensures SelectionListed()
    {
      nomorPlat, metode, uangDibayar := "", Tunai, None;
      transaksiList, selected, hitung, showPreview := [], None, None, false;
      error, success, searches, checkOuts := None, None, [], [];
    }

    /**
     * `handleSearchPlat`: records the typed plate; from two characters on
     * it looks the plate up upper-cased. A hit lists the sessions and
     * selects the only one; an empty answer or a failure clears the list
     * and the selection and shows why.
     */
    method HandleSearchPlat(value: string, answer: Answer<seq<AktifView>>)
      modifies this
      ensures nomorPlat == value
      ensures metode == old(metode) && uangDibayar == old(uangDibayar) && hitung == old(hitung)
      ensures showPreview == old(showPreview) && success == old(success) && checkOuts == old(checkOuts)
      ensures |value| < 2 ==>
        searches == old(searches) && transaksiList == old(transaksiList)
        && selected == old(selected) && error == old(error)
      ensures |value| >= 2 ==> searches == old(searches) + [ToUpper(value)]
      ensures |value| >= 2 && Payload(answer).Some? ==>
        transaksiList == Listed(Payload(answer).value) && error == old(error)
        && selected == (if |transaksiList| == 1 then Some(transaksiList[0]) else old(selected))
      ensures |value| >= 2 && answer.Resolves() && Payload(answer).None? ==>
        transaksiList == [] && selected == None && error == Some("Tidak ada transaksi aktif untuk nomor plat ini")
      ensures |value| >= 2 && !answer.Resolves() ==>
        transaksiList == [] && selected == None
        && error == Some(FailureMessage(answer, "Gagal mencari transaksi aktif"))
      ensures |value| >= 2 && (Payload(answer).None? || |Payload(answer).value| == 1) ==> SelectionListed()
    {
      nomorPlat := value;
      if |value| < 2 {
        return;
      }
      searches := searches + [ToUpper(value)];
      var rows := Payload(answer);
      if rows.Some? {
        transaksiList := Listed(rows.value);
        if |transaksiList| == 1 {
          selected := Some(transaksiList[0]);
        }
      } else if answer.Resolves() {
        transaksiList, selected := [], None;
        error := Some("Tidak ada transaksi aktif untuk nomor plat ini");
      } else {
        error := Some(FailureMessage(answer, "Gagal mencari transaksi aktif"));
        transaksiList, selected := [], None;
      }
    }

    /** Clicking a listed session selects it and clears the error. */
    method Select(x: int)
      requires 0 <= x < |transaksiList|
      modifies this`selected, this`error
      ensures selected == Some(transaksiList[x]) && error == None
      ensures SelectionListed()
    {
      selected := Some(transaksiList[x]);
      error := None;
    }

    /**
     * `handleHitung`: without a selection only the error is set; otherwise
     * the preview shows the selected session priced at `now`.
     */
    method HandleHitung(now: int)
      modifies this`hitung, this`showPreview, this`error
      ensures selected.None? ==>
        error == Some("Pilih transaksi terlebih dahulu") && hitung == old(hitung) && showPreview == old(showPreview)
      ensures selected.Some? ==>
        hitung == Some(Priced(selected.value, now)) && showPreview && error == None
        && hitung.value.totalBayar == ScreenFare(selected.value.jenisParkir, selected.value.waktuMasuk, now)
    {
      if selected.None? {
        error := Some("Pilih transaksi terlebih dahulu");
        return;
      }
      hitung := Some(Priced(selected.value, now));
      showPreview := true;
      error := None;
    }

    /** "Batal": drops the preview. */
    method Cancel()
      modifies this`hitung, this`showPreview
      ensures hitung == None && !showPreview
    {
      hitung, showPreview := None, false;
    }

    /**
     * `handleCheckOut`: nothing without a selection and a preview; otherwise
     * the selected session's id goes out with the previewed total, even when
     * the preview was computed for an earlier selection (the as-written
     * guard of `CheckOutCallAsWritten`); on success the form resets (the
     * preview stays for printing); a failure shows the server's message.
     */
    method HandleCheckOut(answer: Answer<TransaksiRow>)
      modifies this
      ensures hitung == old(hitung) && showPreview == old(showPreview)
      ensures transaksiList == old(transaksiList) && searches == old(searches)
      ensures var call := CheckOutCallAsWritten(old(selected), old(hitung), old(metode));
        (call.None? ==>
          checkOuts == old(checkOuts) && nomorPlat == old(nomorPlat) && metode == old(metode)
          && uangDibayar == old(uangDibayar) && selected == old(selected)
          && error == old(error) && success == old(success))
        && (call.Some? ==> checkOuts == old(checkOuts) + [call.value])
        && (call.Some? && answer.Succeeds() ==>
          success == Some("Check-out berhasil!") && nomorPlat == "" && metode == Tunai
          && uangDibayar == None && selected == None && error == None)
        && (call.Some? && answer.Resolves() && !answer.Succeeds() ==>
          nomorPlat == old(nomorPlat) && metode == old(metode) && uangDibayar == old(uangDibayar)
          && selected == old(selected) && error == old(error) && success == old(success))
        && (call.Some? && !answer.Resolves() ==>
          error == Some(FailureMessage(answer, "Gagal check-out"))
          && nomorPlat == old(nomorPlat) && metode == old(metode) && uangDibayar == old(uangDibayar)
          && selected == old(selected) && success == old(success))
      ensures old(SelectionListed()) ==> SelectionListed()
    {
      var call := CheckOutCallAsWritten(selected, hitung, metode);
      if call.None? {
        return;
      }
      checkOuts := checkOuts + [call.value];
      if answer.Succeeds() {
        success := Some("Check-out berhasil!");
        nomorPlat, metode, uangDibayar := "", Tunai, None;
        selected, error := None, None;
      } else if !answer.Resolves() {
        error := Some(FailureMessage(answer, "Gagal check-out"));
      }
    }
  }
}

=== FILE: client.dfy ===
/**
 * How the frontend screens see a call to the backend through axios: the
 * server's reply, or no reply at all. axios resolves the call for a 2xx
 * status and rejects it otherwise, in which case the screens show the
 * reply's `message` when there is one and a fixed text when there is not.
 */
module Client {
  import opened Js
  import opened Response

  datatype Answer<T> = Answered(reply: Reply<T>) | NoResponse
  {
    /** axios resolves the call (2xx) instead of throwing. */
    predicate Resolves() { Answered? && 200 <= reply.status < 300 }

    /** A resolved call whose body says `success: true`. */
    predicate Succeeds() { Resolves() && reply.body.Success() }
  }

  /** `err.response?.data?.message || fallback` in a catch block. */
  function FailureMessage<T>(a: Answer<T>, fallback: string): (m: string)
    ensures a.Answered? && a.reply.body.message != "" ==> m == a.reply.body.message
    ensures a.NoResponse? || a.reply.body.message == "" ==> m == fallback
    ensures m != "" || fallback == ""
  {
    if a.Answered? && a.reply.body.message != "" then a.reply.body.message else fallback
  }
}

=== FILE: dashboard_page.dfy ===
/**
 * The `/dashboard` entry screen (frontend/src/app/dashboard/page.tsx): once
 * the session is signed in it sends the user on to the dashboard of their
 * role, and to the login screen for a role it does not know.
 */
module DashboardPage {
  import opened Js
  import opened UserModel
  import opened AuthStore

  const AdminRoute := "/dashboard/admin"
  const PetugasRoute := "/dashboard/petugas"
  const ManagerRoute := "/dashboard/manager"
  const OwnerRoute := "/dashboard/owner"
  const LoginRoute := "/login"

  /** The route the effect pushes, if it pushes one. */
  function Redirect(isAuthenticated: bool, user: Option<AuthUser>): (r: Option<string>)
    ensures !isAuthenticated || user.None? ==> r.None?
    ensures isAuthenticated && user.Some? ==> r.Some?
    ensures r == Some(AdminRoute) <==> isAuthenticated && user.Some? && user.value.role == "admin"
    ensures r == Some(PetugasRoute) <==> isAuthenticated && user.Some? && user.value.role in {"operator", "petugas"}
    ensures r == Some(ManagerRoute) <==> isAuthenticated && user.Some? && user.value.role == "manager"
    ensures r == Some(OwnerRoute) <==> isAuthenticated && user.Some? && user.value.role == "owner"
    ensures r == Some(LoginRoute) <==>
              isAuthenticated && user.Some? && user.value.role !in {"admin", "operator", "manager", "owner", "petugas"}
  {
    if !isAuthenticated || user.None? then None
    else match user.value.role
      case "admin" => Some(AdminRoute)
      case "operator" => Some(PetugasRoute)
      case "manager" => Some(ManagerRoute)
      case "owner" => Some(OwnerRoute)
      case "petugas" => Some(PetugasRoute)
      case _ => Some(LoginRoute)
  }

  /** Every role the backend can assign leads to a dashboard, never back to the login screen. */
  lemma KnownRolesReachDashboard(u: AuthUser, role: Role)
    requires u.role == RoleName(role)
    ensures var r := Redirect(true, Some(u));
            r.Some? && r.value != LoginRoute && StartsWith(r.value, "/dashboard/")
  {
    var r := Redirect(true, Some(u));
    match role
    case Admin => assert r.value == AdminRoute;
    case Operator => assert r.value == PetugasRoute;
    case Manager => assert r.value == ManagerRoute;
    case Owner => assert r.value == OwnerRoute;
    case Petugas => assert r.value == PetugasRoute;
  }
}

=== FILE: database.dfy ===
/**
 * The MySQL database behind the Sequelize models, as the controllers see
 * it: one map per table from primary key to row, plus the next key the
 * table's AUTO_INCREMENT will hand out. The invariants the controllers
 * keep are stated here over the maps, together with the lookups
 * (`findByPk`, `findOne`), the `ORDER BY ... DESC` listing and the
 * `LIMIT`/`OFFSET` paging that several controllers share.
 */
module Database {
  import opened Js
  import opened TransaksiModel
  import opened KendaraanModel
  import opened ArfModel
  import opened JenisParkirModel
  import opened UserModel
  import opened LogAktivitasModel

  // ------------------------------------------------------------ invariants

  /** AUTO_INCREMENT: every stored key is positive and below the next key. */
  predicate KeysBelow<R>(m: map<int, R>, next: int)
  {
    1 <= next && forall id :: id in m ==> 1 <= id < next
  }

  /** `no_polisi` is UNIQUE. */
  predicate PlatesUnique(k: map<int, Kendaraan>)
  {
    forall i, j :: i in k && j in k && k[i].noPolisi == k[j].noPolisi ==> i == j
  }

  /** `username` is UNIQUE. */
  predicate UsernamesUnique(u: map<int, User>)
  {
    forall i, j :: i in u && j in u && u[i].username == u[j].username ==> i == j
  }

  /** `email` is UNIQUE among the non-null values. */
  predicate EmailsUnique(u: map<int, User>)
  {
    forall i, j :: i in u && j in u && u[i].email.Some? && u[i].email == u[j].email ==> i == j
  }

  /** Every transaction's vehicle, category and (when set) area exist. */
  predicate TransaksiRefsValid(t: map<int, Transaksi>, k: map<int, Kendaraan>,
                               j: map<int, JenisParkir>, a: map<int, Area>)
  {
    forall id :: id in t ==>
      t[id].idKendaraan in k && t[id].idJenisParkir in j && (t[id].idArf.Some? ==> t[id].idArf.value in a)
  }

  /** A vehicle is parked at most once: no two open transactions share a vehicle. */
  predicate OneOpenPerVehicle(t: map<int, Transaksi>)
  {
    forall i, j :: i in t && j in t && t[i].Open() && t[j].Open() && t[i].idKendaraan == t[j].idKendaraan ==> i == j
  }

  // --------------------------------------------------------------- lookups

  /**
   * `findOne({ where })` in primary-key order: the smallest key in
   * `[lo, hi)` whose row satisfies `p`.
   */
  function FirstMatch<R>(m: map<int, R>, lo: int, hi: int, p: R -> bool): (r: Option<int>)
    ensures r.Some? ==> lo <= r.value < hi && r.value in m && p(m[r.value])
    ensures r.Some? ==> forall id :: lo <= id < r.value && id in m ==> !p(m[id])
    ensures r.None? ==> (forall id :: lo <= id < hi && id in m ==> !p(m[id]))
    decreases hi - lo
  {
    if lo >= hi then None
    else if lo in m && p(m[lo]) then Some(lo)
    else FirstMatch(m, lo + 1, hi, p)
  }

  /**
   * `findAll({ where, order: [[pk, 'DESC']] })`: the keys below `hi` whose
   * rows satisfy `keep`, largest key first.
   */
  function KeysDesc<R>(m: map<int, R>, hi: int, keep: R -> bool): (ks: seq<int>)
    ensures forall x :: 0 <= x < |ks| ==> ks[x] in m && ks[x] < hi && keep(m[ks[x]])
    ensures forall x, y :: 0 <= x < y < |ks| ==> ks[x] > ks[y]
    ensures (forall id :: 1 <= id < hi && id in m && keep(m[id]) ==> id in ks)
    decreases hi
  {
    if hi <= 1 then []
    else
      var rest := KeysDesc(m, hi - 1, keep);
      if hi - 1 in m && keep(m[hi - 1]) then [hi - 1] + rest else rest
  }

  /**
   * `findAll({ where })` without an `order`: the keys below `hi` whose rows
   * satisfy `keep`, in primary-key order.
   */
  function KeysAsc<R>(m: map<int, R>, hi: int, keep: R -> bool): (ks: seq<int>)
    ensures forall x :: 0 <= x < |ks| ==> ks[x] in m && ks[x] < hi && keep(m[ks[x]])
    ensures forall x, y :: 0 <= x < y < |ks| ==> ks[x] < ks[y]
    ensures (forall id :: 1 <= id < hi && id in m && keep(m[id]) ==> id in ks)
    decreases hi
  {
    if hi <= 1 then []
    else
      var rest := KeysAsc(m, hi - 1, keep);
      if hi - 1 in m && keep(m[hi - 1]) then rest + [hi - 1] else rest
  }

  /** A row together with its primary key, as a listing returns it. */
  datatype Keyed<R> = Keyed(id: int, row: R)

  /**
   * `findAll({ where, order: [[pk, 'DESC']] })` returning the rows: every
   * row below `hi` that `keep` accepts, each once, largest key first.
   */
  function ListDesc<R>(m: map<int, R>, hi: int, keep: R -> bool): (rows: seq<Keyed<R>>)
    ensures forall x :: 0 <= x < |rows| ==> rows[x].id in m && rows[x].row == m[rows[x].id] && keep(rows[x].row)
    ensures forall x, y :: 0 <= x < y < |rows| ==> rows[x].id > rows[y].id
    ensures forall id :: 1 <= id < hi && id in m && keep(m[id]) ==> exists x :: 0 <= x < |rows| && rows[x].id == id
  {
    var ks := KeysDesc(m, hi, keep);
    var rows := seq(|ks|, x requires 0 <= x < |ks| => Keyed(ks[x], m[ks[x]]));
    assert forall id :: id in ks ==> exists x :: 0 <= x < |rows| && rows[x].id == id by {
      forall id | id in ks ensures exists x :: 0 <= x < |rows| && rows[x].id == id {
        var x :| 0 <= x < |ks| && ks[x] == id;
        assert rows[x].id == id;
      }
    }
    rows
  }

  /** The rows for a sequence of keys. */
  function RowsOf<R>(m: map<int, R>, ks: seq<int>): (rows: seq<R>)
    requires forall x :: 0 <= x < |ks| ==> ks[x] in m
    ensures |rows| == |ks| && forall x :: 0 <= x < |ks| ==> rows[x] == m[ks[x]]
  {
    seq(|ks|, x requires 0 <= x < |ks| => m[ks[x]])
  }

  // ---------------------------------------------------------------- paging

  /**
   * `LIMIT limit OFFSET (page - 1) * limit`: the rows of one page.
   */
  function Page<T>(rows: seq<T>, page: int, limit: int): (r: seq<T>)
    requires page >= 1 && limit >= 1
    ensures |r| <= limit
    ensures (page - 1) * limit >= |rows| ==> r == []
    ensures (page - 1) * limit < |rows| ==>
      r == rows[(page - 1) * limit .. Min((page - 1) * limit + limit, |rows|)]
  {
    var offset := (page - 1) * limit;
    if offset >= |rows| then [] else rows[offset .. Min(offset + limit, |rows|)]
  }

  /** `Math.ceil(count / limit)`. */
  function TotalPages(count: nat, limit: int): (n: int)
    requires limit >= 1
    ensures n >= 0
    ensures (n - 1) * limit < count <= n * limit
  {
    CeilDiv(count, limit)
  }

  /**
   * The pages partition the rows: row `i` is item `i % limit` of page
   * `i / limit + 1`, and that page number is at most `TotalPages`.
   */
  lemma PageCovers<T>(rows: seq<T>, limit: int, i: int)
    requires limit >= 1 && 0 <= i < |rows|
    ensures 1 <= i / limit + 1 <= TotalPages(|rows|, limit)
    ensures |Page(rows, i / limit + 1, limit)| > i % limit
    ensures Page(rows, i / limit + 1, limit)[i % limit] == rows[i]
  {
    var p := i / limit;
    assert p * limit + i % limit == i;
    var n := TotalPages(|rows|, limit);
    if n <= p {
      MulLeft(n, p, limit);
      assert false;
    }
  }

  lemma MulLeft(a: int, b: int, c: int)
    requires a <= b && c >= 1
    ensures a * c <= b * c
  {
  }

  // ----------------------------------------------------------------- state

  class Db {
    var transaksi: map<int, Transaksi>
    var nextTransaksiId: int
    var kendaraan: map<int, Kendaraan>
    var nextKendaraanId: int
    var jenisParkir: map<int, JenisParkir>
    var nextJenisParkirId: int
    var areas: map<int, Area>
    var nextAreaId: int
    var users: map<int, User>
    var nextUserId: int
    var logs: map<int, LogEntry>
    var nextLogId: int

    /** The invariants every controller operation keeps. */
    ghost predicate Valid()
      reads this
    {
      KeysBelow(transaksi, nextTransaksiId) && KeysBelow(kendaraan, nextKendaraanId)
      && KeysBelow(jenisParkir, nextJenisParkirId) && KeysBelow(areas, nextAreaId)
      && KeysBelow(users, nextUserId) && KeysBelow(logs, nextLogId)
      && PlatesUnique(kendaraan) && UsernamesUnique(users) && EmailsUnique(users)
      && TransaksiRefsValid(transaksi, kendaraan, jenisParkir, areas)
      && OneOpenPerVehicle(transaksi)
    }

    /** An empty database. */
    constructor ()
      ensures Valid()
      ensures transaksi == map[] && kendaraan == map[] && jenisParkir == map[]
      ensures areas == map[] && users == map[] && logs == map[]
      ensures nextTransaksiId == 1 && nextKendaraanId == 1 && nextJenisParkirId == 1
      ensures nextAreaId == 1 && nextUserId == 1 && nextLogId == 1
    {
      transaksi, kendaraan, jenisParkir, areas, users, logs := map[], map[], map[], map[], map[], map[];
      nextTransaksiId, nextKendaraanId, nextJenisParkirId, nextAreaId, nextUserId, nextLogId := 1, 1, 1, 1, 1, 1;
    }
  }
}

=== FILE: error_handler.dfy ===
/**
 * The Express error handler and the wrapper that routes a controller's
 * rejected promise to it (backend/src/middleware/errorHandler.js).
 * A thrown error is described by its `name`, optional `statusCode`,
 * `message` and `errors` list; the reply is the status and the body
 * `{ success: false, message, errors }`.
 */
module ErrorHandler {
  import opened Js
  import Response

  /** One item of a Sequelize error's `errors` array. */
  datatype ErrorItem = ErrorItem(path: Option<string>, message: string)

  datatype Thrown = Thrown(name: string, statusCode: Field<int>, message: Field<string>,
                           errors: Option<seq<ErrorItem>>)

  /** A validation item reshaped as `{ field, message }`. */
  datatype FieldItem = FieldItem(field: Option<string>, message: string)

  /**
   * The `errors` member of the body: `null`, left out (`undefined` is
   * dropped by JSON), the thrown error's own array, or the reshaped
   * validation items.
   */
  datatype ErrorsOut = NullErrors | Omitted | RawErrors(items: seq<ErrorItem>) | FieldErrors(fields: seq<FieldItem>)

  datatype HandlerReply = HandlerReply(status: int, message: string, errors: ErrorsOut)

  const ValidationName := "ValidationError"
  const UniqueName := "SequelizeUniqueConstraintError"
  const ForeignKeyName := "SequelizeForeignKeyConstraintError"
  const JwtName := "JsonWebTokenError"
  const ExpiredName := "TokenExpiredError"

  predicate KnownName(name: string)
  {
    name == ValidationName || name == UniqueName || name == ForeignKeyName || name == JwtName || name == ExpiredName
  }

  /** `err.errors?.map(e => ({ field: e.path, message: e.message }))`. */
  function Reshape(items: seq<ErrorItem>): (fields: seq<FieldItem>)
    ensures |fields| == |items|
    ensures forall k :: 0 <= k < |items| ==> fields[k] == FieldItem(items[k].path, items[k].message)
  {
    seq(|items|, k requires 0 <= k < |items| => FieldItem(items[k].path, items[k].message))
  }

  /** `${err.errors[0]?.path}`: the first item's path, or "undefined". */
  function FirstPathText(items: seq<ErrorItem>): string
  {
    if |items| > 0 && items[0].path.Some? then items[0].path.value else "undefined"
  }

  /**
   * The reply the handler sends, or `None` when the handler itself throws:
   * a unique-constraint error without an `errors` array makes
   * `err.errors[0]` a TypeError.
   */
  function Handle(err: Thrown): (r: Option<HandlerReply>)
    ensures r.None? <==> (err.name == UniqueName && err.errors.None?)
  {
    var defaultErrors := if err.errors.Some? then RawErrors(err.errors.value) else NullErrors;
    if err.name == ValidationName then
      Some(HandlerReply(400, "Validation Error",
                        if err.errors.Some? then FieldErrors(Reshape(err.errors.value)) else Omitted))
    else if err.name == UniqueName then
      if err.errors.None? then None
      else Some(HandlerReply(400, FirstPathText(err.errors.value) + " sudah digunakan", defaultErrors))
    else if err.name == ForeignKeyName then
      Some(HandlerReply(400, "Data reference tidak valid", defaultErrors))
    else if err.name == JwtName then
      Some(HandlerReply(401, "Invalid token", defaultErrors))
    else if err.name == ExpiredName then
      Some(HandlerReply(401, "Token expired", defaultErrors))
    else
      Some(HandlerReply(IntOr(err.statusCode, 500), StrOr(err.message, "Internal Server Error"), defaultErrors))
  }

  /**
   * The five recognised error names fix the status whatever `statusCode`
   * the error carries: 400 for validation, unique and foreign-key errors,
   * 401 for the two token errors.
   */
  lemma KnownNamesFixStatus(err: Thrown)
    requires KnownName(err.name) && (err.name == UniqueName ==> err.errors.Some?)
    ensures Handle(err).Some?
    ensures Handle(err).value.status == (if err.name == JwtName || err.name == ExpiredName then 401 else 400)
  {
  }

  /**
   * For a recognised name the error's own `statusCode` and `message` are
   * ignored: two such errors that differ only there get the same reply.
   */
  lemma KnownNamesIgnoreOwnFields(e1: Thrown, e2: Thrown)
    requires KnownName(e1.name) && e1.name == e2.name && e1.errors == e2.errors
    ensures Handle(e1) == Handle(e2)
  {
  }

  /**
   * Any other error keeps its own `statusCode` and `message` when they are
   * truthy and falls back to 500 and "Internal Server Error" otherwise.
   */
  lemma UnknownNameDefaults(err: Thrown)
    requires !KnownName(err.name)
    ensures Handle(err).Some?
    ensures Handle(err).value.status == (if TruthyInt(err.statusCode) then err.statusCode.value else 500)
    ensures Handle(err).value.message == (if Truthy(err.message) then err.message.value else "Internal Server Error")
    ensures Handle(err).value.errors == (if err.errors.Some? then RawErrors(err.errors.value) else NullErrors)
  {
  }

  /** A validation error's items reach the client one for one, path and message kept. */
  lemma ValidationItemsKept(err: Thrown, k: int)
    requires err.name == ValidationName && err.errors.Some? && 0 <= k < |err.errors.value|
    ensures Handle(err).Some? && Handle(err).value.errors.FieldErrors?
    ensures |Handle(err).value.errors.fields| == |err.errors.value|
    ensures Handle(err).value.errors.fields[k].field == err.errors.value[k].path
  {
  }

  /** How a controller wrapped by `asyncHandler` settles. */
  datatype Settled<T> = Resolved(reply: Response.Reply<T>) | Rejected(err: Thrown)

  /** What the client receives: the controller's reply, the handler's reply, or nothing (the handler threw). */
  datatype Sent<T> = ControllerReply(reply: Response.Reply<T>) | HandlerSent(handled: HandlerReply) | NoReply

  /** `asyncHandler(fn)`: a rejection is passed to `next`, that is, to the error handler. */
  function AsyncHandler<T>(s: Settled<T>): (r: Sent<T>)
    ensures s.Resolved? ==> r == ControllerReply(s.reply)
    ensures s.Rejected? ==> !r.ControllerReply?
    ensures s.Rejected? && Handle(s.err).Some? ==> r == HandlerSent(Handle(s.err).value)
  {
    match s
    case Resolved(reply) => ControllerReply(reply)
    case Rejected(err) => if Handle(err).Some? then HandlerSent(Handle(err).value) else NoReply
  }
}

=== FILE: jenis_parkir_controller.dfy ===
/**
 * The parking-category endpoints
 * (backend/src/controllers/jenisParkirController.js): create with zero
 * defaults, an update that tells a missing field from a falsy one, and a
 * delete refused while any session uses the category.
 */
module JenisParkirController {
  import opened Js
  import opened Response
  import opened TransaksiModel
  import opened JenisParkirModel
  import opened Database

  /** The body of a create or update request. */
  datatype JenisBody = JenisBody(namaJenis: Field<string>, deskripsi: Field<string>, kapasitas: Field<int>,
                                 hargaPerJam: Field<int>, hargaAwal: Field<int>)

  // ----------------------------------------------------------------- create

  /**
   * The row `createJenisParkir` stores: the description as sent (NULL when
   * missing), each number as sent when truthy and 0 otherwise.
   */
  function CreatedJenis(body: JenisBody): (j: JenisParkir)
    requires Truthy(body.namaJenis)
    ensures j.namaJenis == body.namaJenis.value
    ensures j.deskripsi == (if body.deskripsi.Val? then Some(body.deskripsi.value) else None)
    ensures j.kapasitas.Some? && j.hargaPerJam.Some? && j.hargaAwal.Some?
    ensures j.kapasitas.value == (if TruthyInt(body.kapasitas) then body.kapasitas.value else 0)
    ensures j.hargaPerJam.value == (if TruthyInt(body.hargaPerJam) then body.hargaPerJam.value else 0)
    ensures j.hargaAwal.value == (if TruthyInt(body.hargaAwal) then body.hargaAwal.value else 0)
  {
    JenisParkir(body.namaJenis.value, IfDefined(body.deskripsi, None),
                Some(IntOr(body.kapasitas, 0)), Some(IntOr(body.hargaPerJam, 0)), Some(IntOr(body.hargaAwal, 0)))
  }

  /** A body carrying only the name stores the model's defaults. */
  lemma CreatedFromNameIsDefault(name: string)
    requires name != ""
    ensures CreatedJenis(JenisBody(Val(name), Undefined, Undefined, Undefined, Undefined)) == NewJenisParkir(name)
  {
  }

  /** `createJenisParkir`: 400 without a name, otherwise a new row and 201. */
  method CreateJenisParkir(db: Db, body: JenisBody) returns (r: Reply<Keyed<JenisParkir>>)
    requires db.Valid()
    modifies db`jenisParkir, db`nextJenisParkirId
    ensures db.Valid()
    ensures !Truthy(body.namaJenis) ==>
      r == Fail(400, "Nama jenis wajib diisi")
      && db.jenisParkir == old(db.jenisParkir) && db.nextJenisParkirId == old(db.nextJenisParkirId)
    ensures Truthy(body.namaJenis) ==>
      old(db.nextJenisParkirId) !in old(db.jenisParkir)
      && db.jenisParkir == old(db.jenisParkir)[old(db.nextJenisParkirId) := CreatedJenis(body)]
      && db.nextJenisParkirId == old(db.nextJenisParkirId) + 1
      && r == Ok(201, Some(Keyed(old(db.nextJenisParkirId), CreatedJenis(body))), "Jenis parkir berhasil ditambahkan")
  {
    if !Truthy(body.namaJenis) {
      return Fail(400, "Nama jenis wajib diisi");
    }
    var id := db.nextJenisParkirId;
    var j := CreatedJenis(body);
    db.jenisParkir := db.jenisParkir[id := j];
    db.nextJenisParkirId := id + 1;
    r := Ok(201, Some(Keyed(id, j)), "Jenis parkir berhasil ditambahkan");
  }

  // ----------------------------------------------------------------- update

  /**
   * The row `updateJenisParkir` saves: the name is replaced only by a
   * truthy value; the description and the numbers by anything defined, so
   * 0 and null can be set.
   */
  function UpdatedJenis(j: JenisParkir, body: JenisBody): (u: JenisParkir)
    ensures u.namaJenis == (if Truthy(body.namaJenis) then body.namaJenis.value else j.namaJenis)
    ensures body.deskripsi.Undefined? ==> u.deskripsi == j.deskripsi
    ensures !body.deskripsi.Undefined? ==> u.deskripsi == (if body.deskripsi.Val? then Some(body.deskripsi.value) else None)
    ensures body.kapasitas.Undefined? ==> u.kapasitas == j.kapasitas
    ensures !body.kapasitas.Undefined? ==> u.kapasitas == (if body.kapasitas.Val? then Some(body.kapasitas.value) else None)
    ensures body.hargaPerJam.Undefined? ==> u.hargaPerJam == j.hargaPerJam
    ensures !body.hargaPerJam.Undefined? ==> u.hargaPerJam == (if body.hargaPerJam.Val? then Some(body.hargaPerJam.value) else None)
    ensures body.hargaAwal.Undefined? ==> u.hargaAwal == j.hargaAwal
    ensures !body.hargaAwal.Undefined? ==> u.hargaAwal == (if body.hargaAwal.Val? then Some(body.hargaAwal.value) else None)
  {
    JenisParkir(StrOr(body.namaJenis, j.namaJenis), IfDefined(body.deskripsi, j.deskripsi),
                IfDefined(body.kapasitas, j.kapasitas), IfDefined(body.hargaPerJam, j.hargaPerJam),
                IfDefined(body.hargaAwal, j.hargaAwal))
  }

  /** Unlike creation, an update can store a zero price. */
  lemma UpdateCanSetZero(j: JenisParkir, body: JenisBody)
    requires body.hargaPerJam == Val(0)
    ensures UpdatedJenis(j, body).hargaPerJam == Some(0)
  {
  }

  /** A body with every field missing leaves the row as it was. */
  lemma EmptyUpdateKeepsJenis(j: JenisParkir)
    ensures UpdatedJenis(j, JenisBody(Undefined, Undefined, Undefined, Undefined, Undefined)) == j
  {
  }

  /** Sending the same update twice stores what sending it once does. */
  lemma UpdatedJenisIdempotent(j: JenisParkir, body: JenisBody)
    ensures UpdatedJenis(UpdatedJenis(j, body), body) == UpdatedJenis(j, body)
  {
  }

  /** `updateJenisParkir`: 404 for an unknown id, otherwise the row becomes `UpdatedJenis`. */
  method UpdateJenisParkir(db: Db, id: int, body: JenisBody) returns (r: Reply<Keyed<JenisParkir>>)
    requires db.Valid()
    modifies db`jenisParkir
    ensures db.Valid()
    ensures id !in old(db.jenisParkir) ==>
      r == Fail(404, "Jenis parkir tidak ditemukan") && db.jenisParkir == old(db.jenisParkir)
    ensures id in old(db.jenisParkir) ==>
      var u := UpdatedJenis(old(db.jenisParkir)[id], body);
      db.jenisParkir == old(db.jenisParkir)[id := u] && r == Ok(200, Some(Keyed(id, u)), "Jenis parkir berhasil diupdate")
  {
    if id !in db.jenisParkir {
      return Fail(404, "Jenis parkir tidak ditemukan");
    }
    var u := UpdatedJenis(db.jenisParkir[id], body);
    db.jenisParkir := db.jenisParkir[id := u];
    r := Ok(200, Some(Keyed(id, u)), "Jenis parkir berhasil diupdate");
  }

  // ----------------------------------------------------------------- delete

  /** Some session, open or closed, uses category `id`. */
  predicate JenisInUse(t: map<int, Transaksi>, id: int)
  {
    exists i | i in t :: t[i].idJenisParkir == id
  }

  /**
   * `deleteJenisParkir`: 404 for an unknown id, 400 while any session uses
   * the category, otherwise the row is removed.
   */
  method DeleteJenisParkir(db: Db, id: int) returns (r: Reply<Keyed<JenisParkir>>)
    requires db.Valid()
    modifies db`jenisParkir
    ensures db.Valid()
    ensures id !in old(db.jenisParkir) ==>
      r == Fail(404, "Jenis parkir tidak ditemukan") && db.jenisParkir == old(db.jenisParkir)
    ensures id in old(db.jenisParkir) && JenisInUse(db.transaksi, id) ==>
      r == Fail(400, "Tidak dapat menghapus jenis parkir yang sudah digunakan") && db.jenisParkir == old(db.jenisParkir)
    ensures id in old(db.jenisParkir) && !JenisInUse(db.transaksi, id) ==>
      r == Ok(200, None, "Jenis parkir berhasil dihapus") && db.jenisParkir == old(db.jenisParkir) - {id}
  {
    if id !in db.jenisParkir {
      return Fail(404, "Jenis parkir tidak ditemukan");
    }
    if JenisInUse(db.transaksi, id) {
      return Fail(400, "Tidak dapat menghapus jenis parkir yang sudah digunakan");
    }
    db.jenisParkir := db.jenisParkir - {id};
    r := Ok(200, None, "Jenis parkir berhasil dihapus");
  }
}

=== FILE: jenis_parkir_model.dfy ===
/**
 * A parking category (backend/src/models/JenisParkir.js): its name, an
 * optional description, and capacity, hourly price and entry price, each
 * nullable with default 0.
 */
module JenisParkirModel {
  import opened Js

  datatype JenisParkir = JenisParkir(
    namaJenis: string,
    deskripsi: Option<string>,
    kapasitas: Option<int>,
    hargaPerJam: Option<int>,
    hargaAwal: Option<int>)

  /** The row stored for a name alone: the three numbers default to 0. */
  function NewJenisParkir(namaJenis: string): (j: JenisParkir)
    ensures j.namaJenis == namaJenis && j.deskripsi.None?
    ensures j.kapasitas == Some(0) && j.hargaPerJam == Some(0) && j.hargaAwal == Some(0)
  {
    JenisParkir(namaJenis, None, Some(0), Some(0), Some(0))
  }

  /** The cargo-car category's name, as the category scripts create it. */
  const CargoName: string := "Parkir Mobil Muatan"

  /** The cargo-car name lower-cased. */
  lemma CargoNameLower()
    ensures ToLower(CargoName) == "parkir mobil muatan"
  {
  }

  /** The lower-cased cargo-car name names a car and a load, not a motorcycle. */
  lemma CargoNameWords()
    ensures !Includes(ToLower(CargoName), "motor")
    ensures OccursAt(ToLower(CargoName), "mobil", 7) && OccursAt(ToLower(CargoName), "muatan", 13)
  {
    CargoNameLower();
    NoMotorInCargo("parkir mobil muatan");
  }

  lemma NoMotorInCargo(lower: string)
    requires lower == "parkir mobil muatan"
    ensures !Includes(lower, "motor")
  {
    forall i | 0 <= i <= |lower| - 5 ensures !OccursAt(lower, "motor", i) {
      assert lower[i..i + 5][2] == lower[i + 2];
      assert lower[i..i + 5][0] == lower[i];
    }
  }
}

=== FILE: js.dfy ===
/**
 * The JavaScript built-ins that the parking system's code leans on,
 * restated over Dafny values: missing/null/present request fields and
 * their truthiness, ASCII case mapping, `String.prototype.includes`,
 * `startsWith`, `split` and `trim`, `parseInt` on digit strings,
 * `Math.ceil` of an integer division, and a few sums.
 */
module Js {

  datatype Option<+T> = None | Some(value: T)

  /**
   * A field of a request body or of a JSON object: absent (`undefined`),
   * present but `null`, or present with a value. Keeping the first two
   * apart is what separates `x || old` from `x !== undefined ? x : old`.
   */
  datatype Field<+T> = Undefined | Null | Val(value: T)

  /** JS truthiness of a string field: `undefined`, `null` and "" are falsy. */
  predicate Truthy(f: Field<string>) { f.Val? && f.value != "" }

  /** JS truthiness of a number field: `undefined`, `null` and 0 are falsy. */
  predicate TruthyInt(f: Field<int>) { f.Val? && f.value != 0 }

  /** `f || fallback` for a string field. */
  function StrOr(f: Field<string>, fallback: string): (r: string)
    ensures Truthy(f) ==> r == f.value
    ensures !Truthy(f) ==> r == fallback
  {
    if Truthy(f) then f.value else fallback
  }

  /** `f || fallback` for a number field. */
  function IntOr(f: Field<int>, fallback: int): (r: int)
    ensures TruthyInt(f) ==> r == f.value
    ensures !TruthyInt(f) ==> r == fallback
  {
    if TruthyInt(f) then f.value else fallback
  }

  /** `f !== undefined ? f : current` for a nullable column: `null` clears it. */
  function IfDefined<T>(f: Field<T>, current: Option<T>): (r: Option<T>)
    ensures f.Undefined? ==> r == current
    ensures f.Null? ==> r == None
    ensures f.Val? ==> r == Some(f.value)
  {
    match f
    case Undefined => current
    case Null => None
    case Val(v) => Some(v)
  }

  // ---------------------------------------------------------------- case

  function UpperChar(c: char): char
  {
    if 'a' <= c <= 'z' then (c as int - 32) as char else c
  }

  function LowerChar(c: char): char
  {
    if 'A' <= c <= 'Z' then (c as int + 32) as char else c
  }

  /** `toUpperCase()` on the ASCII letters. */
  function ToUpper(s: string): (r: string)
    ensures |r| == |s|
    ensures forall i :: 0 <= i < |s| ==> r[i] == UpperChar(s[i])
  {
    seq(|s|, i requires 0 <= i < |s| => UpperChar(s[i]))
  }

  /** `toLowerCase()` on the ASCII letters. */
  function ToLower(s: string): (r: string)
    ensures |r| == |s|
    ensures forall i :: 0 <= i < |s| ==> r[i] == LowerChar(s[i])
  {
    seq(|s|, i requires 0 <= i < |s| => LowerChar(s[i]))
  }

  /** Upper-casing twice is upper-casing once. */
  lemma UpperIdempotent(s: string)
    ensures ToUpper(ToUpper(s)) == ToUpper(s)
  {
  }

  /** Upper-casing never empties a string nor turns "" into something. */
  lemma UpperEmpty(s: string)
    ensures ToUpper(s) == "" <==> s == ""
  {
  }

  // ---------------------------------------------------------- substrings

  /** `s.startsWith(p)`. */
  predicate StartsWith(s: string, p: string)
  {
    |p| <= |s| && s[..|p|] == p
  }

  /** `part` occurs in `s` starting at position `i`. */
  predicate OccursAt(s: string, part: string, i: int)
  {
    0 <= i <= |s| - |part| && s[i..i + |part|] == part
  }

  /** `s.includes(part)`: `part` occurs at some position of `s`. */
  predicate Includes(s: string, part: string)
  {
    exists i | 0 <= i <= |s| - |part| :: OccursAt(s, part, i)
  }

  /** Showing one occurrence is enough to establish `Includes`. */
  lemma IncludesAt(s: string, part: string, i: int)
    requires OccursAt(s, part, i)
    ensures Includes(s, part)
  {
  }

  /** A string that contains `part` is at least as long as `part`. */
  lemma IncludesLength(s: string, part: string)
    requires Includes(s, part)
    ensures |part| <= |s|
  {
  }

  // ---------------------------------------------------------- split/join

  /** `s.split(sep)` for a one-character separator. */
  function Split(s: string, sep: char): (parts: seq<string>)
    ensures |parts| >= 1
    decreases |s|
  {
    if |s| == 0 then [""]
    else
      var rest := Split(s[1..], sep);
      if s[0] == sep then [""] + rest
      else [[s[0]] + rest[0]] + rest[1..]
  }

  /** `parts.join(sep)`. */
  function Join(parts: seq<string>, sep: char): string
    decreases |parts|
  {
    if |parts| == 0 then ""
    else if |parts| == 1 then parts[0]
    else parts[0] + [sep] + Join(parts[1..], sep)
  }

  /** No piece of a split holds the separator. */
  lemma {:induction false} SplitPiecesFree(s: string, sep: char)
    ensures forall k :: 0 <= k < |Split(s, sep)| ==> sep !in Split(s, sep)[k]
    decreases |s|
  {
    if |s| > 0 {
      SplitPiecesFree(s[1..], sep);
      var rest := Split(s[1..], sep);
      if s[0] != sep {
        assert sep !in rest[0];
        assert sep !in [s[0]] + rest[0];
      }
    }
  }

  /** A string without the separator splits into itself. */
  lemma {:induction false} SplitNoSep(a: string, sep: char)
    requires sep !in a
    ensures Split(a, sep) == [a]
    decreases |a|
  {
    if |a| > 0 {
      assert sep !in a[1..];
      SplitNoSep(a[1..], sep);
      assert [a[0]] + a[1..] == a;
    }
  }

  /** A first piece without the separator comes off whole. */
  lemma {:induction false} SplitAfter(a: string, b: string, sep: char)
    requires sep !in a
    ensures Split(a + [sep] + b, sep) == [a] + Split(b, sep)
    decreases |a|
  {
    var s := a + [sep] + b;
    if |a| == 0 {
      assert s == [sep] + b;
      assert s[1..] == b;
    } else {
      assert sep !in a[1..];
      SplitAfter(a[1..], b, sep);
      assert s[1..] == a[1..] + [sep] + b;
      assert [a[0]] + a[1..] == a;
    }
  }

  /** Joining the pieces of a split with the separator gives the string back. */
  lemma {:induction false} SplitJoin(s: string, sep: char)
    ensures Join(Split(s, sep), sep) == s
    decreases |s|
  {
    if |s| > 0 {
      SplitJoin(s[1..], sep);
      var rest := Split(s[1..], sep);
      if s[0] == sep {
        assert Split(s, sep) == [""] + rest;
        assert ([""] + rest)[1..] == rest;
        assert s == [s[0]] + s[1..];
      } else {
        var parts := Split(s, sep);
        assert parts[0] == [s[0]] + rest[0];
        assert parts[1..] == rest[1..];
        if |rest| == 1 {
          assert s == [s[0]] + rest[0];
        } else {
          assert Join(rest, sep) == rest[0] + [sep] + Join(rest[1..], sep);
          assert s == [s[0]] + s[1..];
        }
      }
    }
  }

  // ---------------------------------------------------------------- trim

  /**
   * The characters `String.prototype.trim` removes: the white space and
   * line terminators of the ECMAScript grammar, which are the Unicode
   * space separators (Zs) plus tab, vertical tab, form feed, the
   * byte-order mark, line feed, carriage return, and U+2028/U+2029.
   */
  predicate IsSpace(c: char)
  {
    c == ' ' || c == '\t' || c == '\n' || c == '\r' || c == '\U{B}' || c == '\U{C}'
    || c == '\U{A0}' || c == '\U{1680}' || ('\U{2000}' <= c <= '\U{200A}')
    || c == '\U{2028}' || c == '\U{2029}' || c == '\U{202F}' || c == '\U{205F}'
    || c == '\U{3000}' || c == '\U{FEFF}'
  }

  function TrimStart(s: string): (r: string)
    ensures |r| <= |s| && r == s[|s| - |r|..]
    ensures r == "" || !IsSpace(r[0])
    ensures forall i :: 0 <= i < |s| - |r| ==> IsSpace(s[i])
  {
    if |s| > 0 && IsSpace(s[0]) then TrimStart(s[1..]) else s
  }

  function TrimEnd(s: string): (r: string)
    ensures |r| <= |s| && r == s[..|r|]
    ensures r == "" || !IsSpace(r[|r| - 1])
    ensures forall i :: |r| <= i < |s| ==> IsSpace(s[i])
  {
    if |s| > 0 && IsSpace(s[|s| - 1]) then TrimEnd(s[..|s| - 1]) else s
  }

  /** `s.trim()`: a contiguous piece of `s` with no space at either end. */
  function Trim(s: string): (r: string)
    ensures Includes(s, r)
    ensures r == "" || (!IsSpace(r[0]) && !IsSpace(r[|r| - 1]))
  {
    var t := TrimStart(s);
    var r := TrimEnd(t);
    assert OccursAt(s, r, |s| - |t|);
    r
  }

  /** Trimming twice is trimming once. */
  lemma TrimIdempotent(s: string)
    ensures Trim(Trim(s)) == Trim(s)
  {
    var r := Trim(s);
    assert TrimStart(r) == r;
    assert TrimEnd(r) == r;
  }

  // ------------------------------------------------------------- numbers

  /** `Math.ceil(a / b)` for a positive divisor, with `a` of either sign. */
  function CeilDiv(a: int, b: int): (q: int)
    requires b > 0
    ensures (q - 1) * b < a <= q * b
  {
    var f := (-a) / b;
    assert (-a) == f * b + (-a) % b;
    -f
  }

  /** `Math.max(a, b)`. */
  function Max(a: int, b: int): (m: int)
    ensures m >= a && m >= b && (m == a || m == b)
  {
    if a >= b then a else b
  }

  /** `Math.min(a, b)`. */
  function Min(a: int, b: int): (m: int)
    ensures m <= a && m <= b && (m == a || m == b)
  {
    if a <= b then a else b
  }

  predicate IsDigit(c: char) { '0' <= c <= '9' }

  /** Length of the longest prefix of decimal digits. */
  function DigitPrefix(s: string): (n: nat)
    ensures n <= |s|
    ensures forall i :: 0 <= i < n ==> IsDigit(s[i])
    ensures n == |s| || !IsDigit(s[n])
  {
    if |s| > 0 && IsDigit(s[0]) then 1 + DigitPrefix(s[1..]) else 0
  }

  /** The value of a string of decimal digits. */
  function DigitsValue(s: string): (v: nat)
    requires forall i :: 0 <= i < |s| ==> IsDigit(s[i])
    decreases |s|
  {
    if |s| == 0 then 0
    else
      assert IsDigit(s[|s| - 1]);
      10 * DigitsValue(s[..|s| - 1]) + (s[|s| - 1] as int - '0' as int)
  }

  /**
   * `parseInt(s, 10)` for strings without leading white space or sign:
   * the value of the leading digits, or `None` (NaN) when `s` does not
   * start with a digit.
   */
  function ParseInt(s: string): (r: Option<nat>)
    ensures r.Some? <==> (|s| > 0 && IsDigit(s[0]))
  {
    var n := DigitPrefix(s);
    if n == 0 then None else Some(DigitsValue(s[..n]))
  }

  /** The decimal spelling of a natural number, without leading zeros. */
  function NatToString(n: nat): (s: string)
    ensures |s| >= 1
    ensures forall i :: 0 <= i < |s| ==> IsDigit(s[i])
    decreases n
  {
    var d := ['0' + (n % 10) as char];
    if n < 10 then d else NatToString(n / 10) + d
  }

  /** Reading back a number's decimal spelling gives the number. */
  lemma {:induction false} NatToStringValue(n: nat)
    ensures DigitsValue(NatToString(n)) == n
    decreases n
  {
    var s := NatToString(n);
    if n >= 10 {
      NatToStringValue(n / 10);
      assert s[..|s| - 1] == NatToString(n / 10);
    }
  }

  /** `parseInt(String(n))` is `n`. */
  lemma ParseIntOfNat(n: nat)
    ensures ParseInt(NatToString(n)) == Some(n)
  {
    var s := NatToString(n);
    assert DigitPrefix(s) == |s| by { DigitPrefixAll(s); }
    assert s[..|s|] == s;
    NatToStringValue(n);
  }

  lemma {:induction false} DigitPrefixAll(s: string)
    requires forall i :: 0 <= i < |s| ==> IsDigit(s[i])
    ensures DigitPrefix(s) == |s|
    decreases |s|
  {
    if |s| > 0 {
      DigitPrefixAll(s[1..]);
    }
  }

  /** `String(n)` for any integer: a minus sign before the digits of a negative one. */
  function IntToString(n: int): (s: string)
    ensures |s| >= 1
    ensures n >= 0 ==> s == NatToString(n)
    ensures n < 0 ==> s == "-" + NatToString(-n)
  {
    if n >= 0 then NatToString(n) else "-" + NatToString(-n)
  }

  /** `parseInt(s, 10)` allowing one leading minus sign. */
  function ParseSigned(s: string): (r: Option<int>)
    ensures |s| > 0 && s[0] != '-' ==> (r.Some? <==> IsDigit(s[0]))
  {
    if |s| > 0 && s[0] == '-' then
      var m := ParseInt(s[1..]);
      if m.Some? then var v: int := m.value; Some(-v) else None
    else
      var m := ParseInt(s);
      if m.Some? then Some(m.value) else None
  }

  /** `parseInt(String(n))` is `n` for every integer. */
  lemma ParseSignedOfInt(n: int)
    ensures ParseSigned(IntToString(n)) == Some(n)
  {
    if n >= 0 {
      ParseIntOfNat(n);
      assert IsDigit(NatToString(n)[0]);
    } else {
      var s := IntToString(n);
      assert s[1..] == NatToString(-n);
      ParseIntOfNat(-n);
    }
  }

  // ------------------------------------------------------------- arrays

  /** `s.find(p)`: the first element satisfying `p`, if any. */
  function Find<T(==)>(s: seq<T>, p: T -> bool): (r: Option<T>)
    ensures r.None? <==> forall x :: 0 <= x < |s| ==> !p(s[x])
    ensures r.Some? ==> p(r.value) && exists x :: 0 <= x < |s| && s[x] == r.value && forall y :: 0 <= y < x ==> !p(s[y])
    decreases |s|
  {
    if |s| == 0 then None
    else if p(s[0]) then Some(s[0])
    else
      var r := Find(s[1..], p);
      assert forall x :: 1 <= x < |s| ==> s[x] == s[1..][x - 1];
      if r.Some? then
        var x :| 0 <= x < |s[1..]| && s[1..][x] == r.value && forall y :: 0 <= y < x ==> !p(s[1..][y]);
        assert s[x + 1] == r.value;
        r
      else r
  }

  /**
   * `s.filter(p)`: the elements satisfying `p`; all of `s` when every
   * element passes, nothing when none does. `FilterCount` states that each
   * kept value occurs as often as in `s`, `FilterConcat` that the order of
   * `s` is kept.
   */
  function Filter<T(==)>(s: seq<T>, p: T -> bool): (r: seq<T>)
    ensures |r| <= |s|
    ensures forall x :: 0 <= x < |r| ==> p(r[x]) && r[x] in s
    ensures forall x :: 0 <= x < |s| && p(s[x]) ==> s[x] in r
    ensures (forall x :: 0 <= x < |s| ==> p(s[x])) ==> r == s
    ensures (forall x :: 0 <= x < |s| ==> !p(s[x])) ==> r == []
    decreases |s|
  {
    if |s| == 0 then []
    else
      assert forall x :: 1 <= x < |s| ==> s[x] == s[1..][x - 1];
      if p(s[0]) then [s[0]] + Filter(s[1..], p) else Filter(s[1..], p)
  }

  /** A value passing `p` is kept as often as it occurs; any other value is dropped. */
  lemma {:induction false} FilterCount<T>(s: seq<T>, p: T -> bool, v: T)
    ensures multiset(Filter(s, p))[v] == (if p(v) then multiset(s)[v] else 0)
    decreases |s|
  {
    if |s| > 0 {
      assert s == [s[0]] + s[1..];
      FilterCount(s[1..], p, v);
    }
  }

  /**
   * Filtering keeps the order: filtering two parts one after the other
   * gives the filtered parts one after the other.
   */
  lemma {:induction false} FilterConcat<T>(a: seq<T>, b: seq<T>, p: T -> bool)
    ensures Filter(a + b, p) == Filter(a, p) + Filter(b, p)
    decreases |a|
  {
    if |a| > 0 {
      assert (a + b)[0] == a[0];
      assert (a + b)[1..] == a[1..] + b;
      FilterConcat(a[1..], b, p);
    } else {
      assert a + b == b;
    }
  }

  /** Sum of a sequence of integers. */
  function Sum(s: seq<int>): int
    decreases |s|
  {
    if |s| == 0 then 0 else s[0] + Sum(s[1..])
  }

  /** Summing a concatenation sums the two parts. */
  lemma {:induction false} SumConcat(a: seq<int>, b: seq<int>)
    ensures Sum(a + b) == Sum(a) + Sum(b)
    decreases |a|
  {
    if |a| > 0 {
      assert (a + b)[0] == a[0];
      assert (a + b)[1..] == a[1..] + b;
      SumConcat(a[1..], b);
    } else {
      assert a + b == b;
    }
  }
}

=== FILE: kendaraan_controller.dfy ===
/**
 * The vehicle endpoints (backend/src/controllers/kendaraanController.js):
 * the paged listing with a plate search, and create, update and delete
 * guarded by the unique plate and by the vehicle's transaction history.
 * Unlike check-in, these endpoints compare plates exactly as sent.
 */
module KendaraanController {
  import opened Js
  import opened Response
  import opened TransaksiModel
  import opened KendaraanModel
  import opened Database

  /** The body of a create or update request. */
  datatype KendaraanBody = KendaraanBody(noPolisi: Field<string>, jenisKendaraan: Field<string>, warna: Field<string>,
                                         tahunPembuatan: Field<int>, tipeKendaraan: Field<string>)

  /** A body field passed straight to `create`: a missing or null value is stored as NULL. */
  function Column<T>(f: Field<T>): (o: Option<T>)
    ensures o.Some? <==> f.Val?
    ensures f.Val? ==> o.value == f.value
  {
    if f.Val? then Some(f.value) else None
  }

  /** Some vehicle already carries `plate`. */
  predicate PlateTaken(k: map<int, Kendaraan>, plate: string)
  {
    exists i | i in k :: k[i].noPolisi == plate
  }

  // ---------------------------------------------------------------- listing

  /** The listing's search: none, or the plate contains the search text. */
  predicate PlateSearch(search: Field<string>, v: Kendaraan)
  {
    !Truthy(search) || Includes(v.noPolisi, search.value)
  }

  /**
   * `getAllKendaraan`: one page of the vehicles the search keeps, newest
   * key first; the pagination counts every vehicle it keeps.
   */
  function GetAllKendaraan(db: Db, page: int, limit: int, search: Field<string>): (r: Reply<Keyed<Kendaraan>>)
    reads db
    requires page >= 1 && limit >= 1
    ensures r.status == 200 && r.body.PageBody? && |r.body.items| <= limit
    ensures var all := ListDesc(db.kendaraan, db.nextKendaraanId, (v: Kendaraan) => PlateSearch(search, v));
      r.body.items == Page(all, page, limit)
      && r.body.pagination == Pagination(|all|, page, TotalPages(|all|, limit), |r.body.items|)
  {
    var all := ListDesc(db.kendaraan, db.nextKendaraanId, (v: Kendaraan) => PlateSearch(search, v));
    PaginatedResponse(Some(200), Some(Page(all, page, limit)), Some(|all|), Some(page),
                      Some(TotalPages(|all|, limit)), Some("Data kendaraan retrieved"))
  }

  // ----------------------------------------------------------------- create

  /** The row `createKendaraan` stores; a falsy year is stored as NULL. */
  function CreatedKendaraan(body: KendaraanBody): (v: Kendaraan)
    requires Truthy(body.noPolisi)
    ensures v.noPolisi == body.noPolisi.value
    ensures v.jenisKendaraan == Column(body.jenisKendaraan) && v.warna == Column(body.warna)
    ensures v.tahunPembuatan == (if TruthyInt(body.tahunPembuatan) then Some(body.tahunPembuatan.value) else None)
    ensures v.tipeKendaraan == Column(body.tipeKendaraan)
  {
    Kendaraan(body.noPolisi.value, Column(body.jenisKendaraan), Column(body.warna),
              if TruthyInt(body.tahunPembuatan) then Some(body.tahunPembuatan.value) else None,
              Column(body.tipeKendaraan))
  }

  /**
   * `createKendaraan`: 400 without a plate, 400 when the plate is already
   * registered (exact comparison), otherwise a new row and 201.
   */
  method CreateKendaraan(db: Db, body: KendaraanBody) returns (r: Reply<Keyed<Kendaraan>>)
    requires db.Valid()
    modifies db`kendaraan, db`nextKendaraanId
    ensures db.Valid()
    ensures !Truthy(body.noPolisi) ==> r == Fail(400, "No. polisi wajib diisi")
    ensures Truthy(body.noPolisi) && PlateTaken(old(db.kendaraan), body.noPolisi.value) ==>
      r == Fail(400, "Nomor polisi sudah terdaftar")
    ensures r.status != 201 ==> db.kendaraan == old(db.kendaraan) && db.nextKendaraanId == old(db.nextKendaraanId)
    ensures r.status == 201 <==> Truthy(body.noPolisi) && !PlateTaken(old(db.kendaraan), body.noPolisi.value)
    ensures r.status == 201 ==>
      old(db.nextKendaraanId) !in old(db.kendaraan)
      && db.kendaraan == old(db.kendaraan)[old(db.nextKendaraanId) := CreatedKendaraan(body)]
      && db.nextKendaraanId == old(db.nextKendaraanId) + 1
      && r == Ok(201, Some(Keyed(old(db.nextKendaraanId), CreatedKendaraan(body))), "Kendaraan berhasil ditambahkan")
  {
    if !Truthy(body.noPolisi) {
      return Fail(400, "No. polisi wajib diisi");
    }
    if PlateTaken(db.kendaraan, body.noPolisi.value) {
      return Fail(400, "Nomor polisi sudah terdaftar");
    }
    var id := db.nextKendaraanId;
    var v := CreatedKendaraan(body);
    db.kendaraan := db.kendaraan[id := v];
    db.nextKendaraanId := id + 1;
    r := Ok(201, Some(Keyed(id, v)), "Kendaraan berhasil ditambahkan");
  }

  // ----------------------------------------------------------------- update

  /** The row `updateKendaraan` saves: each column is replaced only by a truthy value. */
  function UpdatedKendaraan(v: Kendaraan, body: KendaraanBody): (u: Kendaraan)
    ensures u.noPolisi == StrOr(body.noPolisi, v.noPolisi)
    ensures u.jenisKendaraan == (if Truthy(body.jenisKendaraan) then Some(body.jenisKendaraan.value) else v.jenisKendaraan)
    ensures u.warna == (if Truthy(body.warna) then Some(body.warna.value) else v.warna)
    ensures u.tahunPembuatan == (if TruthyInt(body.tahunPembuatan) then Some(body.tahunPembuatan.value) else v.tahunPembuatan)
    ensures u.tipeKendaraan == (if Truthy(body.tipeKendaraan) then Some(body.tipeKendaraan.value) else v.tipeKendaraan)
  {
    Kendaraan(StrOr(body.noPolisi, v.noPolisi),
              if Truthy(body.jenisKendaraan) then Some(body.jenisKendaraan.value) else v.jenisKendaraan,
              if Truthy(body.warna) then Some(body.warna.value) else v.warna,
              if TruthyInt(body.tahunPembuatan) then Some(body.tahunPembuatan.value) else v.tahunPembuatan,
              if Truthy(body.tipeKendaraan) then Some(body.tipeKendaraan.value) else v.tipeKendaraan)
  }

  /** A body of falsy fields leaves the row as it was. */
  lemma EmptyUpdateKeepsRow(v: Kendaraan, body: KendaraanBody)
    requires !Truthy(body.noPolisi) && !Truthy(body.jenisKendaraan) && !Truthy(body.warna)
    requires !TruthyInt(body.tahunPembuatan) && !Truthy(body.tipeKendaraan)
    ensures UpdatedKendaraan(v, body) == v
  {
  }

  /** Sending the same update twice stores what sending it once does. */
  lemma UpdatedKendaraanIdempotent(v: Kendaraan, body: KendaraanBody)
    ensures UpdatedKendaraan(UpdatedKendaraan(v, body), body) == UpdatedKendaraan(v, body)
  {
  }

  /** The update's plate guard: a new, different plate must not be registered already. */
  predicate PlateClash(k: map<int, Kendaraan>, v: Kendaraan, plate: Field<string>)
  {
    Truthy(plate) && plate.value != v.noPolisi && PlateTaken(k, plate.value)
  }

  /**
   * `updateKendaraan`: 404 for an unknown id, 400 when the plate would
   * collide with another vehicle's, otherwise the row becomes
   * `UpdatedKendaraan`; plates stay unique either way.
   */
  method UpdateKendaraan(db: Db, id: int, body: KendaraanBody) returns (r: Reply<Keyed<Kendaraan>>)
    requires db.Valid()
    modifies db`kendaraan
    ensures db.Valid()
    ensures id !in old(db.kendaraan) ==> r == Fail(404, "Kendaraan tidak ditemukan") && db.kendaraan == old(db.kendaraan)
    ensures id in old(db.kendaraan) && PlateClash(old(db.kendaraan), old(db.kendaraan)[id], body.noPolisi) ==>
      r == Fail(400, "Nomor polisi sudah digunakan oleh kendaraan lain") && db.kendaraan == old(db.kendaraan)
    ensures id in old(db.kendaraan) && !PlateClash(old(db.kendaraan), old(db.kendaraan)[id], body.noPolisi) ==>
      var u := UpdatedKendaraan(old(db.kendaraan)[id], body);
      db.kendaraan == old(db.kendaraan)[id := u] && r == Ok(200, Some(Keyed(id, u)), "Kendaraan berhasil diupdate")
  {
    if id !in db.kendaraan {
      return Fail(404, "Kendaraan tidak ditemukan");
    }
    var v := db.kendaraan[id];
    if PlateClash(db.kendaraan, v, body.noPolisi) {
      return Fail(400, "Nomor polisi sudah digunakan oleh kendaraan lain");
    }
    var u := UpdatedKendaraan(v, body);
    db.kendaraan := db.kendaraan[id := u];
    r := Ok(200, Some(Keyed(id, u)), "Kendaraan berhasil diupdate");
  }

  // ----------------------------------------------------------------- delete

  /** Some session, open or closed, belongs to vehicle `id`. */
  predicate VehicleHasHistory(t: map<int, Transaksi>, id: int)
  {
    exists i | i in t :: t[i].idKendaraan == id
  }

  /**
   * `deleteKendaraan`: 404 for an unknown id, 400 while any session
   * belongs to the vehicle, otherwise the row is removed.
   */
  method DeleteKendaraan(db: Db, id: int) returns (r: Reply<Keyed<Kendaraan>>)
    requires db.Valid()
    modifies db`kendaraan
    ensures db.Valid()
    ensures id !in old(db.kendaraan) ==> r == Fail(404, "Kendaraan tidak ditemukan") && db.kendaraan == old(db.kendaraan)
    ensures id in old(db.kendaraan) && VehicleHasHistory(db.transaksi, id) ==>
      r == Fail(400, "Tidak dapat menghapus kendaraan yang memiliki riwayat transaksi") && db.kendaraan == old(db.kendaraan)
    ensures id in old(db.kendaraan) && !VehicleHasHistory(db.transaksi, id) ==>
      r == Ok(200, None, "Kendaraan berhasil dihapus") && db.kendaraan == old(db.kendaraan) - {id}
  {
    if id !in db.kendaraan {
      return Fail(404, "Kendaraan tidak ditemukan");
    }
    if VehicleHasHistory(db.transaksi, id) {
      return Fail(400, "Tidak dapat menghapus kendaraan yang memiliki riwayat transaksi");
    }
    db.kendaraan := db.kendaraan - {id};
    r := Ok(200, None, "Kendaraan berhasil dihapus");
  }
}

=== FILE: kendaraan_model.dfy ===
/**
 * A registered vehicle (backend/src/models/Kendaraan.js): its licence
 * plate, which the database keeps unique, and optional descriptive columns.
 */
module KendaraanModel {
  import opened Js

  datatype Kendaraan = Kendaraan(
    noPolisi: string,
    jenisKendaraan: Option<string>,
    warna: Option<string>,
    tahunPembuatan: Option<int>,
    tipeKendaraan: Option<string>)

  /** A vehicle known only by its plate and kind, as check-in registers it. */
  function PlateOnly(noPolisi: string, jenisKendaraan: string): (k: Kendaraan)
    ensures k.noPolisi == noPolisi && k.jenisKendaraan == Some(jenisKendaraan)
    ensures k.warna.None? && k.tahunPembuatan.None? && k.tipeKendaraan.None?
  {
    Kendaraan(noPolisi, Some(jenisKendaraan), None, None, None)
  }
}

=== FILE: log_aktivitas_model.dfy ===
/**
 * An activity-log entry (backend/src/models/LogAktivitas.js): the acting
 * user (nullable), a description, and the time of the action, which
 * defaults to the moment the row is created.
 */
module LogAktivitasModel {
  import opened Js

  datatype LogEntry = LogEntry(idUser: Option<int>, deskripsiAksi: string, waktuAksi: int)

  /** The row created at time `now` for a user and a description. */
  function NewLog(idUser: Option<int>, deskripsiAksi: string, now: int): (e: LogEntry)
    ensures e.idUser == idUser && e.deskripsiAksi == deskripsiAksi && e.waktuAksi == now
  {
    LogEntry(idUser, deskripsiAksi, now)
  }
}

=== FILE: log_controller.dfy ===
/**
 * The activity-log endpoints
 * (backend/src/controllers/logAktivitasController.js): the paged listing,
 * newest action first and optionally for one user; creating an entry;
 * and the retention purge of entries older than a number of days.
 */
module LogController {
  import opened Js
  import opened Response
  import opened ErrorHandler
  import opened UserModel
  import opened LogAktivitasModel
  import opened Database
  import opened Sorting

  /** The user columns a listing row carries. */
  datatype UserBrief = UserBrief(idUser: int, username: string, namaLengkap: string)

  /** A listing row: the entry with its user, when it has one. */
  datatype LogRow = LogRow(id: int, entry: LogEntry, user: Option<UserBrief>)

  /** The body `clearLogs` answers with. */
  datatype Deleted = Deleted(deleted: nat)

  const DayMs := 24 * 60 * 60 * 1000

  // ---------------------------------------------------------------- listing

  /**
   * The listing's user filter. `user_id` arrives as query text, and any
   * non-empty text is truthy, "0" included: a sent `Val(n)` (the text
   * naming `n`) keeps only the entries of user `n`, so `user_id=0` keeps
   * none of the entries with a user; an absent one keeps everything.
   */
  predicate UserFilter(userId: Field<int>, e: LogEntry)
  {
    !userId.Val? || e.idUser == Some(userId.value)
  }

  /** A row joined with its user (a LEFT JOIN: no user when the id is null or unknown). */
  function Joined(k: Keyed<LogEntry>, users: map<int, User>): (r: LogRow)
    ensures r.id == k.id && r.entry == k.row
    ensures r.user.Some? <==> k.row.idUser.Some? && k.row.idUser.value in users
  {
    var u := k.row.idUser;
    LogRow(k.id, k.row,
           if u.Some? && u.value in users
           then Some(UserBrief(u.value, users[u.value].username, users[u.value].namaLengkap))
           else None)
  }

  /** The action time a listing sorts by. */
  function ActionTime(r: LogRow): int
  {
    r.entry.waktuAksi
  }

  /** The matching entries joined with their users, newest key first. */
  function JoinedLogs(logs: map<int, LogEntry>, next: int, users: map<int, User>, userId: Field<int>): (rows: seq<LogRow>)
    ensures forall x :: 0 <= x < |rows| ==>
      rows[x].id in logs && rows[x].entry == logs[rows[x].id] && UserFilter(userId, rows[x].entry)
    ensures forall x, y :: 0 <= x < y < |rows| ==> rows[x].id > rows[y].id
    ensures forall id :: 1 <= id < next && id in logs && UserFilter(userId, logs[id]) ==>
      exists x :: 0 <= x < |rows| && rows[x].id == id
  {
    var keyed := ListDesc(logs, next, (e: LogEntry) => UserFilter(userId, e));
    var rows := seq(|keyed|, x requires 0 <= x < |keyed| => Joined(keyed[x], users));
    assert forall x :: 0 <= x < |rows| ==> rows[x].id == keyed[x].id;
    rows
  }

  /** Every entry the filter keeps, newest action first. */
  function MatchingLogs(db: Db, userId: Field<int>): (rows: seq<LogRow>)
    reads db
    ensures SortedDesc(rows, ActionTime)
    ensures forall x :: 0 <= x < |rows| ==>
      rows[x].id in db.logs && rows[x].entry == db.logs[rows[x].id] && UserFilter(userId, rows[x].entry)
    ensures forall x, y :: 0 <= x < y < |rows| ==> rows[x].id != rows[y].id
    ensures forall id :: 1 <= id < db.nextLogId && id in db.logs && UserFilter(userId, db.logs[id]) ==>
      exists x :: 0 <= x < |rows| && rows[x].id == id
  {
    var joined := JoinedLogs(db.logs, db.nextLogId, db.users, userId);
    var rows := SortDesc(joined, ActionTime);
    SortedKeepsRows(joined, rows);
    ReorderKeepsIdsApart(joined, rows);
    rows
  }

  /** Any reordering of the joined rows, such as the sort by action time, keeps each row and each id. */
  lemma SortedKeepsRows(joined: seq<LogRow>, rows: seq<LogRow>)
    requires multiset(rows) == multiset(joined)
    ensures forall x :: 0 <= x < |rows| ==> rows[x] in joined
    ensures forall y :: 0 <= y < |joined| ==> exists x :: 0 <= x < |rows| && rows[x].id == joined[y].id
  {
    forall x | 0 <= x < |rows| ensures rows[x] in joined {
      assert rows[x] in multiset(rows);
    }
    forall y | 0 <= y < |joined| ensures exists x :: 0 <= x < |rows| && rows[x].id == joined[y].id {
      assert joined[y] in multiset(joined);
      var x :| 0 <= x < |rows| && rows[x] == joined[y];
    }
  }

  /** Any reordering of rows with pairwise different ids lists each id once. */
  lemma ReorderKeepsIdsApart(joined: seq<LogRow>, rows: seq<LogRow>)
    requires multiset(rows) == multiset(joined)
    requires forall x, y :: 0 <= x < y < |joined| ==> joined[x].id != joined[y].id
    ensures forall x, y :: 0 <= x < y < |rows| ==> rows[x].id != rows[y].id
  {
    DistinctPermutation(joined, rows);
    forall x, y | 0 <= x < y < |rows| ensures rows[x].id != rows[y].id {
      assert rows[x] in multiset(joined) && rows[y] in multiset(joined);
      var i :| 0 <= i < |joined| && joined[i] == rows[x];
      var j :| 0 <= j < |joined| && joined[j] == rows[y];
      assert i != j;
    }
  }

  /**
   * `getAllLogs`: one page of the matching entries, newest first; the
   * pagination counts every matching entry.
   */
  function GetAllLogs(db: Db, page: int, limit: int, userId: Field<int>): (r: Reply<LogRow>)
    reads db
    requires page >= 1 && limit >= 1
    ensures r.status == 200 && r.body.PageBody? && |r.body.items| <= limit
    ensures SortedDesc(r.body.items, ActionTime)
    ensures var all := MatchingLogs(db, userId);
      r.body.items == Page(all, page, limit)
      && r.body.pagination == Pagination(|all|, page, TotalPages(|all|, limit), |r.body.items|)
  {
    var all := MatchingLogs(db, userId);
    PageSorted(all, page, limit);
    PaginatedResponse(Some(200), Some(Page(all, page, limit)), Some(|all|), Some(page),
                      Some(TotalPages(|all|, limit)), Some("Logs retrieved"))
  }

  /** A page of a sorted listing is sorted. */
  lemma PageSorted(all: seq<LogRow>, page: int, limit: int)
    requires page >= 1 && limit >= 1 && SortedDesc(all, ActionTime)
    ensures SortedDesc(Page(all, page, limit), ActionTime)
  {
    var lo := (page - 1) * limit;
    if lo < |all| {
      SortedSlice(all, ActionTime, lo, Min(lo + limit, |all|));
    }
  }

  // ----------------------------------------------------------------- create

  /** What MySQL throws when `id_user` names no account. */
  const UnknownUser: Thrown :=
    Thrown("SequelizeForeignKeyConstraintError", Undefined, Val("Cannot add or update a child row: a foreign key constraint fails"), None)

  /**
   * `createLog`: 400 without a description; a truthy `id_user` that names
   * no account violates the foreign key (the handler's 400 "Data
   * reference tidak valid"); otherwise a new entry stamped `now`, with a
   * falsy `id_user` stored as NULL, and 201.
   */
  method CreateLog(db: Db, idUser: Field<int>, deskripsi: Field<string>, now: int) returns (r: Settled<Keyed<LogEntry>>)
    requires db.Valid()
    modifies db`logs, db`nextLogId
    ensures db.Valid()
    ensures !Truthy(deskripsi) ==> r == Resolved(Fail(400, "Deskripsi aksi wajib diisi"))
    ensures Truthy(deskripsi) && TruthyInt(idUser) && idUser.value !in db.users ==>
      r == Rejected(UnknownUser)
      && AsyncHandler(r) == HandlerSent(HandlerReply(400, "Data reference tidak valid", NullErrors))
    ensures Truthy(deskripsi) && !(TruthyInt(idUser) && idUser.value !in old(db.users)) ==>
      r.Resolved? && r.reply.status == 201
    ensures !(r.Resolved? && r.reply.status == 201) ==> db.logs == old(db.logs) && db.nextLogId == old(db.nextLogId)
    ensures r.Resolved? && r.reply.status == 201 ==>
      Truthy(deskripsi)
      && var e := NewLog(if TruthyInt(idUser) then Some(idUser.value) else None, deskripsi.value, now);
      old(db.nextLogId) !in old(db.logs)
      && db.logs == old(db.logs)[old(db.nextLogId) := e] && db.nextLogId == old(db.nextLogId) + 1
      && r.reply == Ok(201, Some(Keyed(old(db.nextLogId), e)), "Log berhasil dibuat")
  {
    if !Truthy(deskripsi) {
      return Resolved(Fail(400, "Deskripsi aksi wajib diisi"));
    }
    if TruthyInt(idUser) && idUser.value !in db.users {
      return Rejected(UnknownUser);
    }
    var e := NewLog(if TruthyInt(idUser) then Some(idUser.value) else None, deskripsi.value, now);
    var id := db.nextLogId;
    db.logs := db.logs[id := e];
    db.nextLogId := id + 1;
    r := Resolved(Ok(201, Some(Keyed(id, e)), "Log berhasil dibuat"));
  }

  // ------------------------------------------------------------------ purge

  /** The purge threshold: `days` days before `now` (30 when the body has none). */
  function Threshold(daysOld: Option<int>, now: int): int
  {
    now - (if daysOld.Some? then daysOld.value else 30) * DayMs
  }

  /** The entries that survive a purge at `threshold`: those at or after it. */
  function Kept(logs: map<int, LogEntry>, threshold: int): (m: map<int, LogEntry>)
    ensures forall id :: id in m <==> id in logs && logs[id].waktuAksi >= threshold
    ensures forall id :: id in m ==> m[id] == logs[id]
  {
    map id | id in logs && logs[id].waktuAksi >= threshold :: logs[id]
  }

  /** The entries a purge at `threshold` removes: those strictly before it. */
  function Removed(logs: map<int, LogEntry>, threshold: int): set<int>
  {
    set id | id in logs && logs[id].waktuAksi < threshold
  }

  /** The removed and the kept entries split the table. */
  lemma PurgeSplits(logs: map<int, LogEntry>, threshold: int)
    ensures |Removed(logs, threshold)| + |Kept(logs, threshold).Keys| == |logs.Keys|
  {
    var kept := Kept(logs, threshold).Keys;
    var removed := Removed(logs, threshold);
    assert logs.Keys == kept + removed;
    assert kept * removed == {};
  }

  /**
   * `clearLogs`: removes exactly the entries strictly older than the
   * threshold and reports how many went.
   */
  method ClearLogs(db: Db, daysOld: Option<int>, now: int) returns (r: Reply<Deleted>)
    requires db.Valid()
    modifies db`logs
    ensures db.Valid()
    ensures var t := Threshold(daysOld, now);
      db.logs == Kept(old(db.logs), t)
      && var n := |old(db.logs).Keys| - |db.logs.Keys|;
      n >= 0 && n == |Removed(old(db.logs), t)|
      && r == Ok(200, Some(Deleted(n)), NatToString(n) + " log records berhasil dihapus")
  {
    var t := Threshold(daysOld, now);
    var removed := Removed(db.logs, t);
    PurgeSplits(db.logs, t);
    db.logs := Kept(db.logs, t);
    r := Ok(200, Some(Deleted(|removed|)), NatToString(|removed|) + " log records berhasil dihapus");
  }
}

=== FILE: log_page.dfy ===
/**
 * The activity-log screen (frontend/src/app/dashboard/log-aktivitas/page.tsx):
 * the latest hundred entries with three counters, a text search, pages of
 * twenty and the five users with the most entries.
 */
module LogPage {
  import opened Js
  import opened Response
  import opened Client
  import opened Database
  import opened Sorting
  import opened LogAktivitasModel
  import opened LogController

  const ItemsPerPage := 20
  const FetchLimit := 100

  // ------------------------------------------------------------ the counters

  /** What `logService.getLogs(100)` hands back: the rows and `pagination.total`. */
  datatype Logs = Logs(rows: seq<LogRow>, total: Option<int>)

  /** The reply's body, or `{ data: [], pagination: { total: 0 } }` when the call fails. */
  function LogsOf(a: Answer<LogRow>): (l: Logs)
    ensures !a.Resolves() ==> l == Logs([], Some(0))
    ensures a.Resolves() && a.reply.body.PageBody? ==> l == Logs(a.reply.body.items, Some(a.reply.body.pagination.total))
  {
    if !a.Resolves() then Logs([], Some(0))
    else if a.reply.body.PageBody? then Logs(a.reply.body.items, Some(a.reply.body.pagination.total))
    else Logs([], None)
  }

  /** `logsRes.pagination?.total || logRows.length`. */
  function ShownTotal(l: Logs): (n: int)
    ensures l.total.Some? && l.total.value != 0 ==> n == l.total.value
    ensures l.total.None? || l.total.value == 0 ==> n == |l.rows|
  {
    if l.total.Some? && l.total.value != 0 then l.total.value else |l.rows|
  }

  /** The truthy `id_user` of an entry, if any. */
  predicate HasUser(r: LogRow, u: int)
  {
    r.entry.idUser == Some(u) && u != 0
  }

  /** `new Set(logRows.map(l => l.id_user).filter(Boolean))`. */
  function UserIds(rows: seq<LogRow>): (ids: set<int>)
    ensures |ids| <= |rows|
    ensures forall u :: u in ids <==> exists i :: 0 <= i < |rows| && HasUser(rows[i], u)
    decreases |rows|
  {
    if |rows| == 0 then {}
    else
      var rest := UserIds(rows[1..]);
      assert forall u :: (exists i :: 0 <= i < |rows| && HasUser(rows[i], u))
                         <==> HasUser(rows[0], u) || (exists i :: 0 <= i < |rows[1..]| && HasUser(rows[1..][i], u)) by {
        forall u ensures (exists i :: 0 <= i < |rows| && HasUser(rows[i], u))
                         ==> HasUser(rows[0], u) || (exists i :: 0 <= i < |rows[1..]| && HasUser(rows[1..][i], u)) {
          if exists i :: 0 <= i < |rows| && HasUser(rows[i], u) {
            var i :| 0 <= i < |rows| && HasUser(rows[i], u);
            if i > 0 {
              assert rows[1..][i - 1] == rows[i];
            }
          }
        }
      }
      var mine := if rows[0].entry.idUser.Some? && rows[0].entry.idUser.value != 0 then {rows[0].entry.idUser.value} else {};
      assert |mine| <= 1;
      mine + rest
  }

  /** `/DELETE|POST|PUT|PATCH/i.test(deskripsi_aksi)`, over ASCII letters. */
  predicate Modifies(r: LogRow)
  {
    var u := ToUpper(r.entry.deskripsiAksi);
    Includes(u, "DELETE") || Includes(u, "POST") || Includes(u, "PUT") || Includes(u, "PATCH")
  }

  /** The match ignores case: a description written `put` counts. */
  lemma LowercaseMethodCounts(r: LogRow)
    requires r.entry.deskripsiAksi == "put"
    ensures Modifies(r)
  {
    var u := ToUpper(r.entry.deskripsiAksi);
    assert u == "PUT";
    IncludesAt(u, "PUT", 0);
  }

  datatype LogStats = LogStats(total: int, activeUsers: int, modifiedTables: int)

  /** The three counters. */
  function StatsOf(l: Logs): (s: LogStats)
    ensures s.total == ShownTotal(l)
    ensures 0 <= s.activeUsers <= |l.rows| && s.activeUsers == |UserIds(l.rows)|
    ensures 0 <= s.modifiedTables <= |l.rows| && s.modifiedTables == |Filter(l.rows, Modifies)|
  {
    LogStats(ShownTotal(l), |UserIds(l.rows)|, |Filter(l.rows, Modifies)|)
  }

  // ------------------------------------------------------------ the search

  /** The search keeps an entry whose user's full name, username or description contains the term, ignoring case. */
  predicate Matches(term: string, r: LogRow)
  {
    var q := ToLower(term);
    (r.user.Some? && Includes(ToLower(r.user.value.namaLengkap), q))
    || (r.user.Some? && Includes(ToLower(r.user.value.username), q))
    || Includes(ToLower(r.entry.deskripsiAksi), q)
  }

  function Search(rows: seq<LogRow>, term: string): (r: seq<LogRow>)
    ensures forall x :: 0 <= x < |r| ==> Matches(term, r[x]) && r[x] in rows
    ensures forall x :: 0 <= x < |rows| && Matches(term, rows[x]) ==> rows[x] in r
  {
    Filter(rows, (e: LogRow) => Matches(term, e))
  }

  /** An empty search keeps every entry, in order. */
  lemma {:induction false} EmptySearchKeepsAll(rows: seq<LogRow>)
    ensures Search(rows, "") == rows
    decreases |rows|
  {
    if |rows| > 0 {
      IncludesAt(ToLower(rows[0].entry.deskripsiAksi), ToLower(""), 0);
      EmptySearchKeepsAll(rows[1..]);
      assert rows == [rows[0]] + rows[1..];
    }
  }

  // ------------------------------------------------------------ the pages

  /** `Math.ceil(filteredLogs.length / itemsPerPage)`. */
  function LogPages(n: nat): (p: nat)
    ensures (p - 1) * ItemsPerPage < n <= p * ItemsPerPage
  {
    CeilDiv(n, ItemsPerPage)
  }

  /** Entry `i` of the filtered list is shown on page `i / 20 + 1`, which exists. */
  lemma EntryOnItsPage(filtered: seq<LogRow>, i: int)
    requires 0 <= i < |filtered|
    ensures var p := i / ItemsPerPage + 1;
            1 <= p <= LogPages(|filtered|)
            && i - (p - 1) * ItemsPerPage < |Page(filtered, p, ItemsPerPage)|
            && Page(filtered, p, ItemsPerPage)[i - (p - 1) * ItemsPerPage] == filtered[i]
  {
    var p := i / ItemsPerPage + 1;
    var n := LogPages(|filtered|);
    assert (p - 1) * ItemsPerPage <= i < p * ItemsPerPage;
    assert (p - 1) * ItemsPerPage < n * ItemsPerPage;
  }

  // ------------------------------------------------------------ the top users

  /** `nama_lengkap || username || 'User ' + (id_user || '-')`. */
  function DisplayName(r: LogRow): (n: string)
    ensures n != ""
  {
    if r.user.Some? && r.user.value.namaLengkap != "" then r.user.value.namaLengkap
    else if r.user.Some? && r.user.value.username != "" then r.user.value.username
    else "User " + (if r.entry.idUser.Some? && r.entry.idUser.value != 0 then IntToString(r.entry.idUser.value) else "-")
  }

  /** How many entries carry the name. */
  function NameCount(rows: seq<LogRow>, name: string): (n: nat)
    ensures n <= |rows|
    decreases |rows|
  {
    if |rows| == 0 then 0
    else NameCount(rows[..|rows| - 1], name) + (if DisplayName(rows[|rows| - 1]) == name then 1 else 0)
  }

  /** Counting one more entry adds one for its own name and nothing for the others. */
  lemma NameCountStep(rows: seq<LogRow>, i: int)
    requires 0 <= i < |rows|
    ensures forall n :: NameCount(rows[..i + 1], n) == NameCount(rows[..i], n) + (if DisplayName(rows[i]) == n then 1 else 0)
  {
    assert rows[..i + 1][..i] == rows[..i];
  }

  /** Appending a name not yet listed keeps the list free of repeats. */
  lemma DistinctAppend(order: seq<string>, name: string)
    requires Distinct(order) && name !in order
    ensures Distinct(order + [name])
  {
  }

  datatype UserCount = UserCount(name: string, count: int)

  function CountOf(e: UserCount): int { e.count }

  /**
   * The `forEach` that counts entries per name; `order` lists the names in
   * the order they were first met, as the keys of the counts object.
   */
  method CountNames(rows: seq<LogRow>) returns (counts: map<string, int>, order: seq<string>)
    ensures Distinct(order)
    ensures forall n :: n in counts <==> n in order
    ensures forall n :: n in counts ==> counts[n] == NameCount(rows, n) && counts[n] >= 1
    ensures forall n :: n !in counts ==> NameCount(rows, n) == 0
  {
    counts := map[];
    order := [];
    var i := 0;
    while i < |rows|
      invariant 0 <= i <= |rows|
      invariant Distinct(order)
      invariant forall n :: n in counts <==> n in order
      invariant forall n :: n in counts ==> counts[n] == NameCount(rows[..i], n) && counts[n] >= 1
      invariant forall n :: n !in counts ==> NameCount(rows[..i], n) == 0
    {
      var name := DisplayName(rows[i]);
      NameCountStep(rows, i);
      if name in counts {
        counts := counts[name := counts[name] + 1];
      } else {
        DistinctAppend(order, name);
        counts := counts[name := 1];
        order := order + [name];
      }
      i := i + 1;
    }
    assert rows[..i] == rows;
  }

  function NamesOf(es: seq<UserCount>): (ns: seq<string>)
    ensures |ns| == |es| && forall k :: 0 <= k < |es| ==> ns[k] == es[k].name
  {
    seq(|es|, k requires 0 <= k < |es| => es[k].name)
  }

  function Total(es: seq<UserCount>): int
    decreases |es|
  {
    if |es| == 0 then 0 else es[0].count + Total(es[1..])
  }

  /** How many of the names are `x`. */
  function Hits(names: seq<string>, x: string): nat
    decreases |names|
  {
    if |names| == 0 then 0 else (if names[0] == x then 1 else 0) + Hits(names[1..], x)
  }

  lemma {:induction false} HitsOfDistinct(names: seq<string>, x: string)
    requires Distinct(names)
    ensures Hits(names, x) <= 1
    decreases |names|
  {
    if |names| > 0 {
      var rest := names[1..];
      assert Distinct(rest) by {
        forall i, j | 0 <= i < j < |rest| ensures rest[i] != rest[j] {
          assert rest[i] == names[i + 1] && rest[j] == names[j + 1];
        }
      }
      HitsOfDistinct(rest, x);
      if names[0] == x {
        HitsNone(rest, x);
      }
    }
  }

  lemma {:induction false} HitsNone(names: seq<string>, x: string)
    requires x !in names
    ensures Hits(names, x) == 0
    decreases |names|
  {
    if |names| > 0 {
      assert names[1..] <= names[1..];
      assert forall k :: 0 <= k < |names[1..]| ==> names[1..][k] == names[k + 1];
      HitsNone(names[1..], x);
    }
  }

  /** The entries of each name, added up over a list of names. */
  function CountsFor(rows: seq<LogRow>, names: seq<string>): int
    decreases |names|
  {
    if |names| == 0 then 0 else NameCount(rows, names[0]) + CountsFor(rows, names[1..])
  }

  lemma {:induction false} CountsForStep(rows: seq<LogRow>, names: seq<string>)
    requires |rows| > 0
    ensures CountsFor(rows, names) == CountsFor(rows[..|rows| - 1], names) + Hits(names, DisplayName(rows[|rows| - 1]))
    decreases |names|
  {
    if |names| > 0 {
      CountsForStep(rows, names[1..]);
    }
  }

  /** Distinct names never account for more entries than there are. */
  lemma {:induction false} CountsForDistinct(rows: seq<LogRow>, names: seq<string>)
    requires Distinct(names)
    ensures CountsFor(rows, names) <= |rows|
    decreases |rows|
  {
    if |rows| == 0 {
      CountsForEmpty(rows, names);
    } else {
      CountsForStep(rows, names);
      CountsForDistinct(rows[..|rows| - 1], names);
      HitsOfDistinct(names, DisplayName(rows[|rows| - 1]));
    }
  }

  lemma {:induction false} CountsForEmpty(rows: seq<LogRow>, names: seq<string>)
    requires |rows| == 0
    ensures CountsFor(rows, names) == 0
    decreases |names|
  {
    if |names| > 0 {
      CountsForEmpty(rows, names[1..]);
    }
  }

  /** Entries whose counts are those of their names add up to the counts of those names. */
  lemma {:induction false} TotalIsCountsFor(rows: seq<LogRow>, es: seq<UserCount>)
    requires forall k :: 0 <= k < |es| ==> es[k].count == NameCount(rows, es[k].name)
    ensures Total(es) == CountsFor(rows, NamesOf(es))
    decreases |es|
  {
    if |es| > 0 {
      TotalIsCountsFor(rows, es[1..]);
      assert NamesOf(es)[1..] == NamesOf(es[1..]);
    }
  }

  /**
   * `Object.entries(counts)`: the names in first-met order with their
   * counts. JavaScript lists integer-like keys first, in ascending order,
   * so a purely numeric name would come earlier there; this reordering is
   * not modelled and can change which of several tied names `TopFive` keeps.
   */
  function EntriesOf(counts: map<string, int>, order: seq<string>): (es: seq<UserCount>)
    requires forall k :: 0 <= k < |order| ==> order[k] in counts
    ensures |es| == |order|
    ensures forall k :: 0 <= k < |es| ==> es[k] == UserCount(order[k], counts[order[k]])
  {
    seq(|order|, k requires 0 <= k < |order| => UserCount(order[k], counts[order[k]]))
  }

  /** `.sort((a, b) => b[1] - a[1]).slice(0, 5)`. */
  function TopFive(es: seq<UserCount>): (top: seq<UserCount>)
    ensures |top| == Min(5, |es|)
    ensures forall i, j :: 0 <= i < j < |top| ==> top[i].count >= top[j].count
    ensures forall i :: 0 <= i < |top| ==> top[i] in es
  {
    var s := SortDesc(es, CountOf);
    forall i | 0 <= i < Min(5, |es|) ensures s[i] in es {
      SortDescSameElements(es, CountOf, s[i]);
    }
    s[..Min(5, |es|)]
  }

  /** Every entry either makes the top five or has no more than the fifth. */
  lemma TopFiveAreLargest(es: seq<UserCount>, e: UserCount)
    requires e in es
    ensures var top := TopFive(es);
            e in top || (|top| == 5 && e.count <= top[4].count)
  {
    var s := SortDesc(es, CountOf);
    SortDescSameElements(es, CountOf, e);
    var j :| 0 <= j < |s| && s[j] == e;
    if j >= Min(5, |es|) {
      assert s[4] == TopFive(es)[4];
    } else {
      assert TopFive(es)[j] == e;
    }
  }

  /** The name of entry `k` is among the top five names, or its count is at most the fifth's. */
  lemma NameInTopOrBelow(es: seq<UserCount>, k: int)
    requires 0 <= k < |es|
    ensures var top := TopFive(es);
            es[k].name in NamesOf(top) || (|top| == 5 && es[k].count <= top[4].count)
  {
    var top := TopFive(es);
    TopFiveAreLargest(es, es[k]);
    if es[k] in top {
      var x :| 0 <= x < |top| && top[x] == es[k];
      assert NamesOf(top)[x] == es[k].name;
    }
  }

  /** The names of entries without repeated names stay apart in the top five. */
  lemma TopFiveDistinct(es: seq<UserCount>)
    requires Distinct(NamesOf(es))
    ensures Distinct(NamesOf(TopFive(es)))
  {
    var s := SortDesc(es, CountOf);
    assert Distinct(es) by {
      forall i, j | 0 <= i < j < |es| ensures es[i] != es[j] {
        assert NamesOf(es)[i] != NamesOf(es)[j];
      }
    }
    DistinctPermutation(es, s);
    var top := TopFive(es);
    forall i, j | 0 <= i < j < |top| ensures NamesOf(top)[i] != NamesOf(top)[j] {
      assert top[i] == s[i] && top[j] == s[j];
      assert s[i] != s[j];
      SortDescSameElements(es, CountOf, s[i]);
      SortDescSameElements(es, CountOf, s[j]);
      var a :| 0 <= a < |es| && es[a] == s[i];
      var b :| 0 <= b < |es| && es[b] == s[j];
      if a < b {
        assert NamesOf(es)[a] != NamesOf(es)[b];
      } else {
        assert NamesOf(es)[b] != NamesOf(es)[a];
      }
    }
  }

  /** The top five keep the counts their entries carry. */
  lemma TopFiveCounts(rows: seq<LogRow>, es: seq<UserCount>)
    requires forall k :: 0 <= k < |es| ==> es[k].count == NameCount(rows, es[k].name) && es[k].count >= 1
    ensures var top := TopFive(es);
            forall i :: 0 <= i < |top| ==> top[i].count == NameCount(rows, top[i].name) && top[i].count >= 1
  {
    var top := TopFive(es);
    forall i | 0 <= i < |top| ensures top[i].count == NameCount(rows, top[i].name) && top[i].count >= 1 {
      var k :| 0 <= k < |es| && es[k] == top[i];
    }
  }

  /** Every name with entries is in the top five or has no more entries than the fifth. */
  lemma TopFiveCoversAll(rows: seq<LogRow>, es: seq<UserCount>)
    requires forall k :: 0 <= k < |es| ==> es[k].count == NameCount(rows, es[k].name)
    requires forall n :: NameCount(rows, n) > 0 ==> n in NamesOf(es)
    ensures var top := TopFive(es);
            forall n :: NameCount(rows, n) > 0 ==>
              n in NamesOf(top) || (|top| == 5 && NameCount(rows, n) <= top[4].count)
  {
    var top := TopFive(es);
    forall n | NameCount(rows, n) > 0 ensures n in NamesOf(top) || (|top| == 5 && NameCount(rows, n) <= top[4].count) {
      var k :| 0 <= k < |es| && NamesOf(es)[k] == n;
      NameInTopOrBelow(es, k);
    }
  }

  /**
   * `topUsers`: at most five names, most entries first, each with its own
   * entry count, no name twice, and never more entries than there are.
   */
  method TopUsers(rows: seq<LogRow>) returns (top: seq<UserCount>)
    ensures |top| <= 5
    ensures forall i, j :: 0 <= i < j < |top| ==> top[i].count >= top[j].count
    ensures forall i :: 0 <= i < |top| ==> top[i].count == NameCount(rows, top[i].name) && top[i].count >= 1
    ensures Distinct(NamesOf(top))
    ensures Total(top) <= |rows|
    ensures forall n :: NameCount(rows, n) > 0 ==>
              n in NamesOf(top) || (|top| == 5 && NameCount(rows, n) <= top[4].count)
  {
    var counts, order := CountNames(rows);
    var es := EntriesOf(counts, order);
    assert NamesOf(es) == order;
    top := TopFive(es);
    TopFiveCounts(rows, es);
    TopFiveDistinct(es);
    TopFiveCoversAll(rows, es);
    TotalIsCountsFor(rows, top);
    CountsForDistinct(rows, NamesOf(top));
  }

  // ------------------------------------------------------------ the screen

  /** The screen's state; the page stays at 1 or more. */
  class LogScreen {
    var logs: seq<LogRow>
    var stats: LogStats
    var error: Option<string>
    var searchTerm: string
    var currentPage: int

    predicate Valid()
      reads this
    {
      currentPage >= 1
    }

    constructor()
      ensures Valid() && logs == [] && stats == LogStats(0, 0, 0) && error.None? && searchTerm == "" && currentPage == 1
    {
      logs := [];
      stats := LogStats(0, 0, 0);
      error := None;
      searchTerm := "";
      currentPage := 1;
    }

    /** The entries the search keeps. */
    function Filtered(): seq<LogRow>
      reads this
    {
      Search(logs, searchTerm)
    }

    /** The entries of the current page. */
    function Shown(): (r: seq<LogRow>)
      reads this
      requires Valid()
      ensures |r| <= ItemsPerPage
      ensures forall x :: 0 <= x < |r| ==> r[x] in Filtered()
    {
      Page(Filtered(), currentPage, ItemsPerPage)
    }

    /** `fetchLogs` with the answer to `GET /logs?limit=100`. */
    method FetchLogs(answer: Answer<LogRow>)
      requires Valid()
      modifies this
      ensures Valid()
      ensures logs == LogsOf(answer).rows && stats == StatsOf(LogsOf(answer)) && error.None?
      ensures searchTerm == old(searchTerm) && currentPage == old(currentPage)
    {
      error := None;
      var l := LogsOf(answer);
      logs := l.rows;
      stats := StatsOf(l);
    }

    /** Typing a search term goes back to page 1. */
    method SetSearch(term: string)
      modifies this
      ensures Valid() && searchTerm == term && currentPage == 1
      ensures logs == old(logs) && stats == old(stats) && error == old(error)
    {
      searchTerm := term;
      currentPage := 1;
    }

    /** The previous-page button, shown only when there is more than one page. */
    method Prev()
      requires Valid()
      modifies this
      ensures Valid()
      ensures LogPages(|Filtered()|) > 1 ==> currentPage == Max(1, old(currentPage) - 1)
      ensures LogPages(|Filtered()|) <= 1 ==> currentPage == old(currentPage)
      ensures logs == old(logs) && stats == old(stats) && error == old(error) && searchTerm == old(searchTerm)
    {
      if LogPages(|Filtered()|) > 1 {
        currentPage := Max(1, currentPage - 1);
      }
    }

    /** The next-page button, shown only when there is more than one page. */
    method Next()
      requires Valid()
      modifies this
      ensures Valid()
      ensures LogPages(|Filtered()|) > 1 ==> currentPage == Min(LogPages(|Filtered()|), old(currentPage) + 1)
      ensures LogPages(|Filtered()|) <= 1 ==> currentPage == old(currentPage)
      ensures old(currentPage) <= LogPages(|Filtered()|) ==> currentPage <= LogPages(|Filtered()|)
      ensures logs == old(logs) && stats == old(stats) && error == old(error) && searchTerm == old(searchTerm)
    {
      if LogPages(|Filtered()|) > 1 {
        currentPage := Min(LogPages(|Filtered()|), currentPage + 1);
      }
    }

    /** A numbered page button; one is shown for each page from 1 to the page count. */
    method GoTo(p: int)
      requires 1 <= p <= LogPages(|Filtered()|)
      modifies this
      ensures Valid() && currentPage == p
      ensures logs == old(logs) && stats == old(stats) && error == old(error) && searchTerm == old(searchTerm)
    {
      currentPage := p;
    }
  }
}

=== FILE: owner_page.dfy ===
/**
 * The owner's dashboard (frontend/src/app/dashboard/owner/page.tsx): it
 * loads the transactions, keeps those whose entry time falls in the chosen
 * range of days (a preset counted back from today, or a custom range the
 * owner applies and the browser keeps), and shows their totals, the paid
 * revenue per payment method, the newest twenty of them and the paid
 * revenue of each of the last seven days.
 *
 * Instants are milliseconds since the epoch and days are `Calendar` day
 * numbers; the browser's time zone is taken to be UTC.
 */
module OwnerPage {
  import opened Js
  import opened Response
  import opened Client
  import opened Calendar
  import opened Sorting
  import opened TransaksiModel
  import opened TransaksiView

  datatype RangeChoice = Today | Days7 | Days15 | Days30 | Custom

  /** The custom range as applied and as stored under `owner-applied-range`; a missing end is "". */
  datatype AppliedRange = AppliedRange(start: string, end: string)

  /** An inclusive range of day numbers. */
  datatype Window = Window(firstDay: int, lastDay: int)

  datatype Resolved = RangeError(message: string) | InRange(window: Window)

  const MsgApplyFirst := "Silakan pilih dan terapkan rentang tanggal kustom terlebih dahulu"
  const MsgCustomInvalid := "Tanggal kustom tidak valid"
  const MsgStartAfterEnd := "Tanggal mulai tidak boleh setelah tanggal selesai"
  const MsgLoadFailed := "Gagal memuat data dashboard"
  const MsgPickBoth := "Pilih tanggal mulai dan selesai"
  const MsgApplyInvalid := "Tanggal tidak valid"

  /** How many days before today a preset starts; anything else counts as the 30-day default. */
  function DaysBack(c: RangeChoice): (n: nat)
    ensures n < 30
  {
    match c
    case Today => 0
    case Days7 => 6
    case Days15 => 14
    case _ => 29
  }

  // ------------------------------------------------------------ the range

  /**
   * The custom range between two existing dates: midnight of the start up
   * to the last millisecond of the end, refused when the first comes after
   * the second.
   */
  function DatesWindow(s: Date, e: Date): (r: Resolved)
    requires Valid(s) && Valid(e)
    ensures r == RangeError(MsgStartAfterEnd) <==> Before(e, s)
    ensures r.RangeError? ==> r == RangeError(MsgStartAfterEnd)
    ensures r.InRange? ==> r.window == Window(DayNumber(s), DayNumber(e)) && r.window.firstDay <= r.window.lastDay
  {
    var a, b := DayNumber(s), DayNumber(e);
    DayNumberOrder(e, s);
    WithinDays(DayStartMs(a), a, b);
    if DayStartMs(a) > DayEndMs(b) then RangeError(MsgStartAfterEnd) else InRange(Window(a, b))
  }

  /**
   * The window a fetch filters by: for a preset, midnight `DaysBack` days
   * ago up to the end of today; for the custom range, the range between its
   * dates, or the message the screen shows.
   */
  function ResolveRange(choice: RangeChoice, applied: Option<AppliedRange>, now: int): (r: Resolved)
    ensures choice != Custom ==> r == InRange(Window(DayOf(now) - DaysBack(choice), DayOf(now)))
    ensures choice == Custom && (applied.None? || applied.value.start == "" || applied.value.end == "")
            ==> r == RangeError(MsgApplyFirst)
    ensures choice == Custom && applied.Some? && applied.value.start != "" && applied.value.end != ""
            && !(IsValidDateString(applied.value.start) && IsValidDateString(applied.value.end))
            ==> r == RangeError(MsgCustomInvalid)
    ensures choice == Custom && applied.Some? && IsValidDateString(applied.value.start) && IsValidDateString(applied.value.end)
            ==> r == DatesWindow(ParseDate(applied.value.start), ParseDate(applied.value.end))
    ensures r.InRange? ==> r.window.firstDay <= r.window.lastDay
  {
    if choice == Custom then
      if applied.None? || applied.value.start == "" || applied.value.end == "" then RangeError(MsgApplyFirst)
      else if !IsValidDateString(applied.value.start) || !IsValidDateString(applied.value.end) then RangeError(MsgCustomInvalid)
      else DatesWindow(ParseDate(applied.value.start), ParseDate(applied.value.end))
    else
      InRange(Window(DayOf(now) - DaysBack(choice), DayOf(now)))
  }

  /** A preset covers today and the days before it: 1, 7, 15 or 30 days in all. */
  lemma PresetCoversDays(choice: RangeChoice, now: int, d: int)
    requires choice != Custom
    ensures ResolveRange(choice, None, now).InRange?
    ensures var w := ResolveRange(choice, None, now).window;
            var span := match choice case Today => 1 case Days7 => 7 case Days15 => 15 case _ => 30;
            (w.firstDay <= d <= w.lastDay <==> d <= DayOf(now) && DayOf(now) - d < span)
            && w.lastDay - w.firstDay + 1 == span
  {
  }

  /** A custom range that resolves covers exactly the dates from its start to its end, both included. */
  lemma CustomCoversDates(applied: AppliedRange, now: int, d: Date)
    requires Valid(d)
    requires ResolveRange(Custom, Some(applied), now).InRange?
    ensures IsValidDateString(applied.start) && IsValidDateString(applied.end)
    ensures var w := ResolveRange(Custom, Some(applied), now).window;
            w.firstDay <= DayNumber(d) <= w.lastDay
            <==> !Before(d, ParseDate(applied.start)) && !Before(ParseDate(applied.end), d)
  {
    DayNumberOrder(d, ParseDate(applied.start));
    DayNumberOrder(ParseDate(applied.end), d);
  }

  /** `rangeStart <= new Date(t.waktu_masuk) <= rangeEnd`. */
  predicate InWindow(w: Window, t: TxView)
  {
    DayStartMs(w.firstDay) <= t.waktuMasuk <= DayEndMs(w.lastDay)
  }

  /** A transaction is in the window exactly when the day it entered on is one of the window's days. */
  lemma InWindowByDay(w: Window, t: TxView)
    ensures InWindow(w, t) <==> w.firstDay <= DayOf(t.waktuMasuk) <= w.lastDay
  {
    WithinDays(t.waktuMasuk, w.firstDay, w.lastDay);
  }

  // ------------------------------------------------------------ the figures

  datatype Stats = Stats(totalTransaksi: int, totalPendapatan: int, kendaraanMasuk: int, kendaraanKeluar: int)

  /** The transactions in the window, in the order they were received. */
  function InRangeOf(ts: seq<TxView>, w: Window): (f: seq<TxView>)
  {
    Keep(ts, (t: TxView) => InWindow(w, t))
  }

  predicate HasLeft(t: TxView) { t.waktuKeluar.Some? }

  /**
   * The four counters: transactions and vehicles in are the rows in the
   * window, vehicles out those of them that have left, and the revenue the
   * positive amounts of those of them that are paid.
   */
  function StatsOf(ts: seq<TxView>, w: Window): (s: Stats)
    ensures s.totalTransaksi == s.kendaraanMasuk == CountWhere(ts, (t: TxView) => InWindow(w, t))
    ensures s.kendaraanKeluar == CountWhere(ts, (t: TxView) => InWindow(w, t) && HasLeft(t))
    ensures s.kendaraanKeluar <= s.kendaraanMasuk
    ensures s.totalPendapatan == SumWhere(ts, (t: TxView) => InWindow(w, t) && IsLunas(t))
  {
    var f := InRangeOf(ts, w);
    CountOfKept(ts, (t: TxView) => InWindow(w, t), HasLeft, (t: TxView) => InWindow(w, t) && HasLeft(t));
    SumOfKept(ts, (t: TxView) => InWindow(w, t), IsLunas, (t: TxView) => InWindow(w, t) && IsLunas(t));
    Stats(|f|, SumWhere(f, IsLunas), |f|, CountWhere(f, HasLeft))
  }

  datatype PaymentSummary = PaymentSummary(cash: int, qris: int)

  predicate PaidCash(t: TxView) { t.metodePembayaran == Some(Tunai) && IsLunas(t) }
  predicate PaidQris(t: TxView) { t.metodePembayaran == Some(Qris) && IsLunas(t) }

  /** The paid revenue in the window split by payment method. */
  function PaymentSummaryOf(ts: seq<TxView>, w: Window): (p: PaymentSummary)
    ensures p.cash >= 0 && p.qris >= 0
    ensures p.cash == SumWhere(ts, (t: TxView) => InWindow(w, t) && PaidCash(t))
    ensures p.qris == SumWhere(ts, (t: TxView) => InWindow(w, t) && PaidQris(t))
  {
    var f := InRangeOf(ts, w);
    SumOfKept(ts, (t: TxView) => InWindow(w, t), PaidCash, (t: TxView) => InWindow(w, t) && PaidCash(t));
    SumOfKept(ts, (t: TxView) => InWindow(w, t), PaidQris, (t: TxView) => InWindow(w, t) && PaidQris(t));
    PaymentSummary(SumWhere(f, PaidCash), SumWhere(f, PaidQris))
  }

  /** Cash and QRIS together never exceed the paid revenue of the window. */
  lemma MethodsWithinRevenue(ts: seq<TxView>, w: Window)
    ensures PaymentSummaryOf(ts, w).cash + PaymentSummaryOf(ts, w).qris <= StatsOf(ts, w).totalPendapatan
  {
    var f := InRangeOf(ts, w);
    SumWhereDisjoint(f, PaidCash, PaidQris, IsLunas);
  }

  // ------------------------------------------------------------ the newest rows

  datatype RecentRow = RecentRow(
    idTransaksi: int, waktuMasuk: int, platNomor: string, jenisKendaraan: string,
    areaParkir: string, totalBayar: int, metodePembayaran: string, statusPembayaran: string)

  /** `x || '-'` for an optional text. */
  function OrDash(x: Option<string>): (s: string)
    ensures s != ""
    ensures x.Some? && x.value != "" ==> s == x.value
  {
    if x.Some? && x.value != "" then x.value else "-"
  }

  /** One row of the recent list; a missing payment method shows as QRIS. */
  function RecentRowOf(t: TxView): (r: RecentRow)
    ensures r.idTransaksi == t.idTransaksi && r.waktuMasuk == t.waktuMasuk
    ensures r.metodePembayaran == "Tunai" <==> t.metodePembayaran == Some(Tunai)
    ensures r.metodePembayaran in {"Tunai", "QRIS"}
  {
    RecentRow(t.idTransaksi, t.waktuMasuk, OrDash(t.noPolisi), OrDash(t.namaJenis), OrDash(t.namaArea),
              if t.totalBayar.Some? then t.totalBayar.value else 0,
              if t.metodePembayaran == Some(Tunai) then "Tunai" else "QRIS",
              t.statusPembayaran)
  }

  function EntryTime(t: TxView): int { t.waktuMasuk }

  /** The rows of `f`, newest entry first, cut to twenty. */
  function RecentOf(f: seq<TxView>): (r: seq<RecentRow>)
    ensures |r| == Min(20, |f|)
    ensures forall i, j :: 0 <= i < j < |r| ==> r[i].waktuMasuk >= r[j].waktuMasuk
  {
    var s := SortDesc(f, EntryTime);
    var n := Min(20, |f|);
    seq(n, i requires 0 <= i < n => RecentRowOf(s[i]))
  }

  /**
   * The recent list holds the newest rows: every row of `f` is either shown
   * or entered no later than the last one shown.
   */
  lemma RecentAreNewest(f: seq<TxView>, t: TxView)
    requires t in f
    ensures var r := RecentOf(f);
            |r| > 0 && (RecentRowOf(t) in r || t.waktuMasuk <= r[|r| - 1].waktuMasuk)
  {
    var s := SortDesc(f, EntryTime);
    var r := RecentOf(f);
    SortDescSameElements(f, EntryTime, t);
    var j :| 0 <= j < |s| && s[j] == t;
    if j < |r| {
      assert r[j] == RecentRowOf(t);
    } else {
      assert r[|r| - 1] == RecentRowOf(s[|r| - 1]);
    }
  }

  /** Every row shown comes from a transaction of `f`. */
  lemma RecentComesFromRange(f: seq<TxView>, i: int)
    requires 0 <= i < |RecentOf(f)|
    ensures exists t :: t in f && RecentOf(f)[i] == RecentRowOf(t)
  {
    var s := SortDesc(f, EntryTime);
    SortDescSameElements(f, EntryTime, s[i]);
    assert RecentOf(f)[i] == RecentRowOf(s[i]);
  }

  // ------------------------------------------------------------ the last seven days

  datatype DayRevenue = DayRevenue(day: int, pendapatan: int)

  /** The positive amounts of the paid transactions that entered on `day`. */
  function RevenueOnDay(ts: seq<TxView>, day: int): (n: int)
    ensures n >= 0
  {
    SumWhere(ts, (t: TxView) => IsLunas(t) && DayOf(t.waktuMasuk) == day)
  }

  /**
   * The chart's seven bars, oldest day first, ending today. They are taken
   * over all the transactions received, whatever range is selected.
   */
  method Last7Days(ts: seq<TxView>, now: int) returns (rows: seq<DayRevenue>)
    ensures |rows| == 7
    ensures forall k :: 0 <= k < 7 ==> rows[k].day == DayOf(now) - 6 + k
    ensures forall k :: 0 <= k < 7 ==> rows[k].pendapatan == RevenueOnDay(ts, rows[k].day)
  {
    rows := [];
    var i := 6;
    while i >= 0
      invariant -1 <= i <= 6
      invariant |rows| == 6 - i
      invariant forall k :: 0 <= k < |rows| ==> rows[k] == DayRevenue(DayOf(now) - 6 + k, RevenueOnDay(ts, DayOf(now) - 6 + k))
    {
      var day := DayOf(now) - i;
      rows := rows + [DayRevenue(day, RevenueOnDay(ts, day))];
      i := i - 1;
    }
  }

  function ChartTotal(rows: seq<DayRevenue>): int
    decreases |rows|
  {
    if |rows| == 0 then 0 else rows[0].pendapatan + ChartTotal(rows[1..])
  }

  predicate PaidWithin(lo: int, hi: int, t: TxView) { IsLunas(t) && lo <= DayOf(t.waktuMasuk) <= hi }

  /** The bars for `n` consecutive days starting at `lo` add up to the paid revenue of those days. */
  lemma {:induction false} DaysAddUp(ts: seq<TxView>, rows: seq<DayRevenue>, lo: int)
    requires forall k :: 0 <= k < |rows| ==> rows[k] == DayRevenue(lo + k, RevenueOnDay(ts, lo + k))
    ensures ChartTotal(rows) == SumWhere(ts, (t: TxView) => PaidWithin(lo, lo + |rows| - 1, t))
    decreases |rows|
  {
    if |rows| == 0 {
      SumWhereNone(ts, (t: TxView) => PaidWithin(lo, lo - 1, t));
    } else {
      var rest := rows[1..];
      forall k | 0 <= k < |rest| ensures rest[k] == DayRevenue(lo + 1 + k, RevenueOnDay(ts, lo + 1 + k)) {
        assert rest[k] == rows[k + 1];
      }
      DaysAddUp(ts, rest, lo + 1);
      SumWhereUnion(ts, (t: TxView) => IsLunas(t) && DayOf(t.waktuMasuk) == lo,
                        (t: TxView) => PaidWithin(lo + 1, lo + |rows| - 1, t),
                        (t: TxView) => PaidWithin(lo, lo + |rows| - 1, t));
    }
  }

  /** The seven bars add up to the paid revenue of the transactions that entered in the last seven days. */
  lemma ChartTotalIsWeekRevenue(ts: seq<TxView>, now: int, rows: seq<DayRevenue>)
    requires |rows| == 7
    requires forall k :: 0 <= k < 7 ==> rows[k].day == DayOf(now) - 6 + k
    requires forall k :: 0 <= k < 7 ==> rows[k].pendapatan == RevenueOnDay(ts, rows[k].day)
    ensures ChartTotal(rows) == SumWhere(ts, (t: TxView) => PaidWithin(DayOf(now) - 6, DayOf(now), t))
    ensures ChartTotal(rows) <= SumWhere(ts, IsLunas)
  {
    DaysAddUp(ts, rows, DayOf(now) - 6);
    SumWhereMonotone(ts, (t: TxView) => PaidWithin(DayOf(now) - 6, DayOf(now), t), IsLunas);
  }

  // ------------------------------------------------------------ the custom range form

  /**
   * The date check of the Apply button and of the revenue chart: the first three `-`-separated parts
   * read as numbers name a date `new Date(y, m - 1, d)` gives back.
   */
  predicate DateFieldsOk(s: string)
  {
    var parts := Split(s, '-');
    |parts| >= 3 && NumberOf(parts[0]).Some? && NumberOf(parts[1]).Some? && NumberOf(parts[2]).Some?
    && JsDateExact(Date(NumberOf(parts[0]).value, NumberOf(parts[1]).value, NumberOf(parts[2]).value))
  }

  function DateFields(s: string): (d: Date)
    requires DateFieldsOk(s)
    ensures Valid(d)
  {
    var parts := Split(s, '-');
    Date(NumberOf(parts[0]).value, NumberOf(parts[1]).value, NumberOf(parts[2]).value)
  }

  /** What the fetch accepts as a date the Apply button accepts too, as the same date. */
  lemma ValidDateApplies(s: string)
    requires IsValidDateString(s)
    ensures DateFieldsOk(s) && DateFields(s) == ParseDate(s)
  {
  }

  /**
   * The Apply button's checks, in order: both dates picked, both real
   * calendar dates, and the start not after the end.
   */
  function ApplyError(start: string, end: string): (m: Option<string>)
    ensures start == "" || end == "" ==> m == Some(MsgPickBoth)
    ensures start != "" && end != "" && !(DateFieldsOk(start) && DateFieldsOk(end)) ==> m == Some(MsgApplyInvalid)
    ensures DateFieldsOk(start) && DateFieldsOk(end)
            ==> (m == Some(MsgStartAfterEnd) <==> Before(DateFields(end), DateFields(start)))
    ensures m.None? ==> DateFieldsOk(start) && DateFieldsOk(end) && DayNumber(DateFields(start)) <= DayNumber(DateFields(end))
  {
    if start == "" || end == "" then Some(MsgPickBoth)
    else if !DateFieldsOk(start) || !DateFieldsOk(end) then Some(MsgApplyInvalid)
    else
      var s, e := DateFields(start), DateFields(end);
      DayNumberOrder(e, s);
      if DayNumber(s) > DayNumber(e) then Some(MsgStartAfterEnd) else None
  }

  /** A range Apply accepts from two dates the fetch also reads resolves to a window at every instant. */
  lemma AppliedRangeResolves(start: string, end: string)
    requires IsValidDateString(start) && IsValidDateString(end) && ApplyError(start, end).None?
    ensures forall now :: ResolveRange(Custom, Some(AppliedRange(start, end)), now).InRange?
  {
    ValidDateApplies(start);
    ValidDateApplies(end);
    DayNumberOrder(ParseDate(end), ParseDate(start));
  }

  /** Everything the screen shows for one window. */
  datatype Figures = Figures(stats: Stats, revenueData: seq<DayRevenue>, summary: PaymentSummary, recent: seq<RecentRow>)

  const NoFigures := Figures(Stats(0, 0, 0, 0), [], PaymentSummary(0, 0), [])

  /** The seven bars of the chart at instant `now`. */
  predicate WeekChart(ts: seq<TxView>, now: int, rows: seq<DayRevenue>)
  {
    |rows| == 7
    && forall k :: 0 <= k < 7 ==> rows[k].day == DayOf(now) - 6 + k && rows[k].pendapatan == RevenueOnDay(ts, rows[k].day)
  }

  /** The figures shown for the transactions `ts` and window `w` at instant `now`. */
  predicate FiguresFor(f: Figures, ts: seq<TxView>, w: Window, now: int)
  {
    f.stats == StatsOf(ts, w) && f.summary == PaymentSummaryOf(ts, w)
    && f.recent == RecentOf(InRangeOf(ts, w)) && WeekChart(ts, now, f.revenueData)
  }

  /** The screen's state; `stored` is the browser's `owner-applied-range` entry. */
  class OwnerScreen {
    var selected: RangeChoice
    var startDate: string
    var endDate: string
    var applied: Option<AppliedRange>
    var dateError: Option<string>
    var error: Option<string>
    var figures: Figures
    var stored: Option<AppliedRange>

    /** The initial state, with whatever the browser has stored. */
    constructor(saved: Option<AppliedRange>)
      ensures selected == Days30 && startDate == "" && endDate == "" && applied.None?
      ensures dateError.None? && error.None? && figures == NoFigures && stored == saved
    {
      selected := Days30;
      startDate, endDate := "", "";
      applied := None;
      dateError, error := None, None;
      figures := NoFigures;
      stored := saved;
    }

    /** On mount: a stored range with both ends present becomes the applied custom range. */
    method LoadPersisted()
      modifies this
      ensures var ok := old(stored).Some? && old(stored).value.start != "" && old(stored).value.end != "";
              (ok ==> selected == Custom && applied == old(stored)
                      && startDate == old(stored).value.start && endDate == old(stored).value.end)
              && (!ok ==> selected == old(selected) && applied == old(applied)
                          && startDate == old(startDate) && endDate == old(endDate))
      ensures stored == old(stored) && error == old(error) && dateError == old(dateError) && figures == old(figures)
    {
      if stored.Some? && stored.value.start != "" && stored.value.end != "" {
        startDate, endDate := stored.value.start, stored.value.end;
        applied := stored;
        selected := Custom;
      }
    }

    /** One of the range buttons. */
    method SelectRange(c: RangeChoice)
      modifies this
      ensures selected == c
      ensures startDate == old(startDate) && endDate == old(endDate) && applied == old(applied) && stored == old(stored)
      ensures error == old(error) && dateError == old(dateError) && figures == old(figures)
    {
      selected := c;
    }

    /** Typing in the two date inputs. */
    method SetDates(start: string, end: string)
      modifies this
      ensures startDate == start && endDate == end
      ensures selected == old(selected) && applied == old(applied) && stored == old(stored)
      ensures error == old(error) && dateError == old(dateError) && figures == old(figures)
    {
      startDate, endDate := start, end;
    }

    /**
     * The Apply button: the typed range is checked; a good one becomes the
     * applied custom range and is stored; a bad one leaves its message,
     * which the screen also shows as its error.
     */
    method ApplyCustom()
      modifies this
      ensures dateError == ApplyError(old(startDate), old(endDate)) && error == dateError
      ensures dateError.None? ==> applied == Some(AppliedRange(old(startDate), old(endDate))) && stored == applied && selected == Custom
      ensures dateError.Some? ==> applied == old(applied) && stored == old(stored) && selected == old(selected)
      ensures dateError.None? && IsValidDateString(old(startDate)) && IsValidDateString(old(endDate))
              ==> forall now :: ResolveRange(selected, applied, now).InRange?
      ensures startDate == old(startDate) && endDate == old(endDate) && figures == old(figures)
    {
      dateError := ApplyError(startDate, endDate);
      error := dateError;
      if dateError.None? {
        applied := Some(AppliedRange(startDate, endDate));
        selected := Custom;
        stored := applied;
        if IsValidDateString(startDate) && IsValidDateString(endDate) {
          AppliedRangeResolves(startDate, endDate);
        }
      }
    }

    /** The clear button: back to the 30-day preset, with nothing applied or stored. */
    method ClearCustom()
      modifies this
      ensures dateError.None? && error.None? && applied.None? && stored.None?
      ensures startDate == "" && endDate == "" && selected == Days30 && figures == old(figures)
    {
      dateError, error := None, None;
      applied := None;
      startDate, endDate := "", "";
      selected := Days30;
      stored := None;
    }

    /**
     * `fetchDashboardData` at instant `now` with the answer to
     * `GET /transaksi?limit=1000`: every figure is recomputed for the
     * resolved window, or the range's message is shown and the figures kept.
     */
    method FetchDashboardData(answer: Answer<TxView>, now: int)
      modifies this
      ensures !answer.Resolves() ==> error == Some(FailureMessage(answer, MsgLoadFailed)) && figures == old(figures)
      ensures answer.Resolves() && Listing(answer.reply.body).None? ==> error.None? && figures == old(figures)
      ensures answer.Resolves() && Listing(answer.reply.body).Some? ==>
              var range := ResolveRange(old(selected), old(applied), now);
              (range.RangeError? ==> error == Some(range.message) && figures == old(figures))
              && (range.InRange? ==> error.None? && FiguresFor(figures, Listing(answer.reply.body).value, range.window, now))
      ensures selected == old(selected) && applied == old(applied) && stored == old(stored)
      ensures startDate == old(startDate) && endDate == old(endDate) && dateError == old(dateError)
    {
      error := None;
      if !answer.Resolves() {
        error := Some(FailureMessage(answer, MsgLoadFailed));
        return;
      }
      var listing := Listing(answer.reply.body);
      if listing.Some? {
        var ts := listing.value;
        var range := ResolveRange(selected, applied, now);
        if range.RangeError? {
          error := Some(range.message);
          return;
        }
        var w := range.window;
        var days := Last7Days(ts, now);
        figures := Figures(StatsOf(ts, w), days, PaymentSummaryOf(ts, w), RecentOf(InRangeOf(ts, w)));
      }
    }
  }

  /**
   * `response.data.success && response.data.data`, then the data when it is
   * an array and `[]` when it is not.
   */
  function Listing(body: Body<TxView>): (r: Option<seq<TxView>>)
    ensures body.PageBody? ==> r == Some(body.items)
    ensures body.ErrorBody? ==> r.None?
    ensures body.SuccessBody? ==> (r.Some? <==> body.data.Some?) && (r.Some? ==> r.value == [])
  {
    match body
    case PageBody(_, items, _) => Some(items)
    case SuccessBody(_, data) => if data.Some? then Some([]) else None
    case ErrorBody(_, _) => None
  }
}

=== FILE: register_page.dfy ===
/**
 * The sign-up screen (frontend/src/app/register/page.tsx): five form
 * fields with their validation rules, and `onSubmit`, which checks the
 * password confirmation, posts the registration and signs the new user
 * in through the session store.
 */
module RegisterPage {
  import opened Js
  import opened Response
  import opened Client
  import opened AuthStore

  datatype RegisterForm = RegisterForm(
    namaLengkap: string,
    username: string,
    email: string,
    noTelepon: string,
    password: string,
    confirmPassword: string)

  const MsgNamaRequired := "Nama lengkap wajib diisi"
  const MsgNamaShort := "Nama minimal 3 karakter"
  const MsgUsernameRequired := "Username wajib diisi"
  const MsgUsernameShort := "Username minimal 3 karakter"
  const MsgUsernameChars := "Username hanya boleh huruf, angka, dan underscore"
  const MsgEmailRequired := "Email wajib diisi"
  const MsgEmailInvalid := "Email tidak valid"
  const MsgPasswordRequired := "Password wajib diisi"
  const MsgPasswordShort := "Password minimal 6 karakter"
  const MsgConfirmRequired := "Konfirmasi password wajib diisi"
  const MsgMismatch := "Password tidak cocok"
  const MsgRefused := "Registrasi gagal"
  const MsgThrown := "Registrasi gagal. Silakan coba lagi."
  const MsgNoReply := "Registration failed"
  const DashboardRoute := "/dashboard"

  // ------------------------------------------------------------ the fields

  predicate Letter(c: char) { 'A' <= c <= 'Z' || 'a' <= c <= 'z' }

  /** `[a-zA-Z0-9_]`. */
  predicate WordChar(c: char) { Letter(c) || IsDigit(c) || c == '_' }

  /** `[A-Z0-9._%+-]` under the `i` flag. */
  predicate LocalChar(c: char) { Letter(c) || IsDigit(c) || c in "._%+-" }

  /** `[A-Z0-9.-]` under the `i` flag. */
  predicate DomainChar(c: char) { Letter(c) || IsDigit(c) || c == '.' || c == '-' }

  /**
   * The strings `/^[A-Z0-9._%+-]+@[A-Z0-9.-]+\.[A-Z]{2,}$/i` matches: a
   * non-empty local part, `@` at `a`, a non-empty domain, `.` at `d`, and
   * at least two letters after it.
   */
  ghost predicate EmailPattern(s: string)
  {
    exists a, d :: 0 < a && a + 1 < d && d + 3 <= |s| && s[a] == '@' && s[d] == '.'
      && (forall j :: 0 <= j < a ==> LocalChar(s[j]))
      && (forall j :: a < j < d ==> DomainChar(s[j]))
      && (forall j :: d < j < |s| ==> Letter(s[j]))
  }

  /** `s.indexOf(c)`. */
  function IndexOf(s: string, c: char): (i: int)
    ensures -1 <= i < |s|
    ensures i >= 0 ==> s[i] == c && forall j :: 0 <= j < i ==> s[j] != c
    ensures i == -1 ==> forall j :: 0 <= j < |s| ==> s[j] != c
    decreases |s|
  {
    if |s| == 0 then -1
    else if s[0] == c then 0
    else
      var r := IndexOf(s[1..], c);
      if r == -1 then -1 else r + 1
  }

  /** `s.lastIndexOf(c)`. */
  function LastIndexOf(s: string, c: char): (i: int)
    ensures -1 <= i < |s|
    ensures i >= 0 ==> s[i] == c && forall j :: i < j < |s| ==> s[j] != c
    ensures i == -1 ==> forall j :: 0 <= j < |s| ==> s[j] != c
    decreases |s|
  {
    if |s| == 0 then -1
    else if s[|s| - 1] == c then |s| - 1
    else LastIndexOf(s[..|s| - 1], c)
  }

  /** The email rule decided by looking at the first `@` and the last `.`. */
  predicate EmailShaped(s: string)
  {
    var a := IndexOf(s, '@');
    var d := LastIndexOf(s, '.');
    0 < a && a + 1 < d && d + 3 <= |s|
    && (forall j | 0 <= j < a :: LocalChar(s[j]))
    && (forall j | a < j < d :: DomainChar(s[j]))
    && (forall j | d < j < |s| :: Letter(s[j]))
  }

  lemma ShapedIsPattern(s: string)
    requires EmailShaped(s)
    ensures EmailPattern(s)
  {
    var a := IndexOf(s, '@');
    var d := LastIndexOf(s, '.');
    assert s[a] == '@' && s[d] == '.';
  }

  lemma PatternIsShaped(s: string, a: int, d: int)
    requires 0 < a && a + 1 < d && d + 3 <= |s| && s[a] == '@' && s[d] == '.'
    requires forall j :: 0 <= j < a ==> LocalChar(s[j])
    requires forall j :: a < j < d ==> DomainChar(s[j])
    requires forall j :: d < j < |s| ==> Letter(s[j])
    ensures IndexOf(s, '@') == a && LastIndexOf(s, '.') == d
    ensures EmailShaped(s)
  {
    // No character before `a` is `@`, none after `d` is `.`.
    assert !LocalChar('@') && !Letter('.');
  }

  lemma PatternShaped(s: string)
    requires EmailPattern(s)
    ensures EmailShaped(s)
  {
    var a, d :| 0 < a && a + 1 < d && d + 3 <= |s| && s[a] == '@' && s[d] == '.'
      && (forall j :: 0 <= j < a ==> LocalChar(s[j]))
      && (forall j :: a < j < d ==> DomainChar(s[j]))
      && (forall j :: d < j < |s| ==> Letter(s[j]));
    PatternIsShaped(s, a, d);
  }

  /** The decision agrees with the pattern on every string. */
  lemma EmailShapedIsPattern(s: string)
    ensures EmailShaped(s) <==> EmailPattern(s)
  {
    if EmailShaped(s) {
      ShapedIsPattern(s);
    }
    if EmailPattern(s) {
      PatternShaped(s);
    }
  }

  /** A one-letter top-level domain is refused, a two-letter one accepted. */
  lemma EmailNeedsTwoLetterTld()
    ensures !EmailPattern("a@b.c")
    ensures EmailPattern("a@b.co")
  {
    var s := "a@b.co";
    assert 0 < 1 && 1 + 1 < 3 && 3 + 3 <= |s| && s[1] == '@' && s[3] == '.'
      && (forall j :: 0 <= j < 1 ==> LocalChar(s[j]))
      && (forall j :: 1 < j < 3 ==> DomainChar(s[j]))
      && (forall j :: 3 < j < |s| ==> Letter(s[j]));
  }

  /** `nama_lengkap`: required, at least 3 characters. */
  function NamaLengkapError(s: string): (e: Option<string>)
    ensures e.None? <==> |s| >= 3
    ensures s == "" ==> e == Some(MsgNamaRequired)
    ensures 0 < |s| < 3 ==> e == Some(MsgNamaShort)
  {
    if s == "" then Some(MsgNamaRequired)
    else if |s| < 3 then Some(MsgNamaShort)
    else None
  }

  /** `username`: required, at least 3 characters, only `[a-zA-Z0-9_]`; the first rule broken is reported. */
  function UsernameError(s: string): (e: Option<string>)
    ensures e.None? <==> |s| >= 3 && forall j :: 0 <= j < |s| ==> WordChar(s[j])
    ensures s == "" ==> e == Some(MsgUsernameRequired)
    ensures 0 < |s| < 3 ==> e == Some(MsgUsernameShort)
    ensures |s| >= 3 && (exists j :: 0 <= j < |s| && !WordChar(s[j])) ==> e == Some(MsgUsernameChars)
  {
    if s == "" then Some(MsgUsernameRequired)
    else if |s| < 3 then Some(MsgUsernameShort)
    else if exists j | 0 <= j < |s| :: !WordChar(s[j]) then Some(MsgUsernameChars)
    else None
  }

  /** `email`: required, then the pattern. */
  function EmailError(s: string): (e: Option<string>)
    ensures e.None? <==> EmailPattern(s)
    ensures s == "" ==> e == Some(MsgEmailRequired)
    ensures s != "" && !EmailPattern(s) ==> e == Some(MsgEmailInvalid)
  {
    EmailShapedIsPattern(s);
    if s == "" then Some(MsgEmailRequired)
    else if !EmailShaped(s) then Some(MsgEmailInvalid)
    else None
  }

  /** `password`: required, at least 6 characters. */
  function PasswordError(s: string): (e: Option<string>)
    ensures e.None? <==> |s| >= 6
    ensures s == "" ==> e == Some(MsgPasswordRequired)
    ensures 0 < |s| < 6 ==> e == Some(MsgPasswordShort)
  {
    if s == "" then Some(MsgPasswordRequired)
    else if |s| < 6 then Some(MsgPasswordShort)
    else None
  }

  /** `confirmPassword`: required, then equal to the password field. */
  function ConfirmError(s: string, password: string): (e: Option<string>)
    ensures e.None? <==> s != "" && s == password
    ensures s == "" ==> e == Some(MsgConfirmRequired)
    ensures s != "" && s != password ==> e == Some(MsgMismatch)
  {
    if s == "" then Some(MsgConfirmRequired)
    else if s != password then Some(MsgMismatch)
    else None
  }

  /** The message each field shows; the phone number has no rule. */
  datatype FormErrors = FormErrors(
    namaLengkap: Option<string>,
    username: Option<string>,
    email: Option<string>,
    password: Option<string>,
    confirmPassword: Option<string>)
  {
    predicate None() {
      namaLengkap.None? && username.None? && email.None? && password.None? && confirmPassword.None?
    }
  }

  function ErrorsOf(f: RegisterForm): FormErrors
  {
    FormErrors(NamaLengkapError(f.namaLengkap), UsernameError(f.username), EmailError(f.email),
               PasswordError(f.password), ConfirmError(f.confirmPassword, f.password))
  }

  /** A form that passes every rule has a matching confirmation, so `onSubmit`'s own check never refuses it. */
  lemma ValidFormMatches(f: RegisterForm)
    requires ErrorsOf(f).None()
    ensures f.confirmPassword == f.password
    ensures |f.password| >= 6 && |f.username| >= 3 && |f.namaLengkap| >= 3 && EmailPattern(f.email)
  {
  }

  // ------------------------------------------------------------ submitting

  /** The `data` of a successful registration: the new user and a token. */
  datatype Session = Session(user: AuthUser, token: string)

  /** The reply signs the user in: a 2xx reply with `success: true` and its data. */
  predicate SignsIn(a: Answer<Session>)
  {
    a.Resolves() && a.reply.body.SuccessBody? && a.reply.body.data.Some?
  }

  /** The error text shown when the reply does not sign the user in. */
  function RegisterFailure(a: Answer<Session>): (m: string)
    requires !SignsIn(a)
    ensures m != ""
    ensures a.NoResponse? ==> m == MsgNoReply
    ensures a.Resolves() && a.reply.body.ErrorBody? ==>
              m == (if a.reply.body.message != "" then a.reply.body.message else MsgRefused)
    ensures a.Answered? && !a.Resolves() ==>
              m == (if a.reply.body.message != "" then a.reply.body.message else MsgThrown)
  {
    if a.NoResponse? then MsgNoReply
    else if a.Resolves() && a.reply.body.ErrorBody? then
      (if a.reply.body.message != "" then a.reply.body.message else MsgRefused)
    else if a.reply.body.message != "" then a.reply.body.message
    else MsgThrown
  }

  /**
   * `onSubmit`: a mismatched confirmation only sets the error; otherwise
   * the registration is posted, and its reply either signs the user in and
   * leads to `/dashboard` or sets the error. The loading flag ends off in
   * every case, as the `finally` block clears it.
   */
  method OnSubmit(store: Store, data: RegisterForm, answer: Answer<Session>) returns (posted: bool, route: Option<string>)
    modifies store
    ensures !store.isLoading
    ensures posted <==> data.password == data.confirmPassword
    ensures !posted ==> route.None? && store.error == Some(MsgMismatch)
                        && store.Saved() == old(store.Saved())
    ensures posted && SignsIn(answer) ==>
              route == Some(DashboardRoute) && store.error.None? && store.isAuthenticated
              && store.user == Some(answer.reply.body.data.value.user)
              && store.token == Some(answer.reply.body.data.value.token)
    ensures posted && !SignsIn(answer) ==>
              route.None? && store.error == Some(RegisterFailure(answer))
              && store.Saved() == old(store.Saved())
    ensures old(store.Consistent()) ==> store.Consistent()
  {
    store.ClearError();
    if data.password != data.confirmPassword {
      store.SetError(Some(MsgMismatch));
      store.SetLoading(false);
      return false, None;
    }
    store.SetLoading(true);
    if SignsIn(answer) {
      var session := answer.reply.body.data.value;
      store.Login(session.user, session.token);
      route := Some(DashboardRoute);
    } else {
      store.SetError(Some(RegisterFailure(answer)));
      route := None;
    }
    store.SetLoading(false);
    posted := true;
  }

  /**
   * `handleSubmit(onSubmit)`: the rules run first; a form that breaks one
   * shows the messages and posts nothing.
   */
  method HandleSubmit(store: Store, form: RegisterForm, answer: Answer<Session>)
    returns (errors: FormErrors, posted: bool, route: Option<string>)
    modifies store
    ensures errors == ErrorsOf(form)
    ensures posted <==> errors.None()
    ensures !posted ==> route.None? && store.Saved() == old(store.Saved()) && store.error == old(store.error)
    ensures posted && SignsIn(answer) ==> route == Some(DashboardRoute) && store.isAuthenticated
    ensures posted && !SignsIn(answer) ==> route.None? && store.error == Some(RegisterFailure(answer))
    ensures old(store.Consistent()) ==> store.Consistent()
  {
    errors := ErrorsOf(form);
    if !errors.None() {
      return errors, false, None;
    }
    ValidFormMatches(form);
    posted, route := OnSubmit(store, form, answer);
  }
}

=== FILE: response.dfy ===
/**
 * The three JSON envelopes every controller answers with
 * (backend/src/utils/responseFormatter.js): a success body, an error
 * body, and a paginated body. A reply pairs the HTTP status with the body.
 * Arguments the caller leaves out (`undefined`) are `None` and take the
 * formatter's defaults.
 */
module Response {
  import opened Js

  datatype FieldError = FieldError(field: string, message: string)

  datatype Pagination = Pagination(total: int, page: int, pages: int, perPage: int)

  datatype Body<T> =
    | SuccessBody(message: string, data: Option<T>)
    | ErrorBody(message: string, errors: Option<seq<FieldError>>)
    | PageBody(message: string, items: seq<T>, pagination: Pagination)
  {
    /** The `success` flag of the JSON object. */
    predicate Success() { !ErrorBody? }
  }

  datatype Reply<T> = Reply(status: int, body: Body<T>)

  /** `successResponse(res, statusCode = 200, data = null, message = 'Success')`. */
  function SuccessResponse<T>(statusCode: Option<int>, data: Option<T>, message: Option<string>): (r: Reply<T>)
    ensures r.body.SuccessBody? && r.body.Success()
    ensures statusCode.None? ==> r.status == 200
    ensures statusCode.Some? ==> r.status == statusCode.value
    ensures message.None? ==> r.body.message == "Success"
    ensures message.Some? ==> r.body.message == message.value
    ensures r.body.data == data
  {
    Reply(if statusCode.Some? then statusCode.value else 200,
          SuccessBody(if message.Some? then message.value else "Success", data))
  }

  /**
   * `errorResponse(res, statusCode = 400, message = 'Error', errors = null)`:
   * the `errors` key is present exactly when `errors` is truthy (any
   * array, even an empty one).
   */
  function ErrorResponse<T>(statusCode: Option<int>, message: Option<string>, errors: Option<seq<FieldError>>): (r: Reply<T>)
    ensures r.body.ErrorBody? && !r.body.Success()
    ensures statusCode.None? ==> r.status == 400
    ensures statusCode.Some? ==> r.status == statusCode.value
    ensures message.None? ==> r.body.message == "Error"
    ensures message.Some? ==> r.body.message == message.value
    ensures r.body.errors.Some? <==> errors.Some?
  {
    Reply(if statusCode.Some? then statusCode.value else 400,
          ErrorBody(if message.Some? then message.value else "Error", errors))
  }

  /**
   * `paginatedResponse(res, 200, data = [], totalItems = 0, currentPage = 1,
   * totalPages = 1, message = 'Success')`: `perPage` is the number of rows
   * actually sent, not the requested page size.
   */
  function PaginatedResponse<T>(statusCode: Option<int>, data: Option<seq<T>>, totalItems: Option<int>,
                                currentPage: Option<int>, totalPages: Option<int>, message: Option<string>): (r: Reply<T>)
    ensures r.body.PageBody? && r.body.Success()
    ensures statusCode.None? ==> r.status == 200
    ensures r.body.items == (if data.Some? then data.value else [])
    ensures r.body.pagination.perPage == |r.body.items|
    ensures statusCode.Some? ==> r.status == statusCode.value
    ensures totalItems.None? ==> r.body.pagination.total == 0
    ensures totalItems.Some? ==> r.body.pagination.total == totalItems.value
    ensures currentPage.None? ==> r.body.pagination.page == 1
    ensures currentPage.Some? ==> r.body.pagination.page == currentPage.value
    ensures totalPages.None? ==> r.body.pagination.pages == 1
    ensures totalPages.Some? ==> r.body.pagination.pages == totalPages.value
    ensures message.None? ==> r.body.message == "Success"
    ensures message.Some? ==> r.body.message == message.value
  {
    var items := if data.Some? then data.value else [];
    Reply(if statusCode.Some? then statusCode.value else 200,
          PageBody(if message.Some? then message.value else "Success", items,
                   Pagination(if totalItems.Some? then totalItems.value else 0,
                              if currentPage.Some? then currentPage.value else 1,
                              if totalPages.Some? then totalPages.value else 1,
                              |items|)))
  }

  /** The controllers' usual `errorResponse(res, status, message)`. */
  function Fail<T>(status: int, message: string): (r: Reply<T>)
    ensures r.status == status && r.body == ErrorBody(message, None)
  {
    ErrorResponse(Some(status), Some(message), None)
  }

  /** The controllers' usual `successResponse(res, status, data, message)`. */
  function Ok<T>(status: int, data: Option<T>, message: string): (r: Reply<T>)
    ensures r.status == status && r.body == SuccessBody(message, data)
  {
    SuccessResponse(Some(status), data, Some(message))
  }
}

=== FILE: revenue_chart_page.dfy ===
/**
 * The owner's revenue chart (frontend/src/app/dashboard/owner/grafik-pendapatan/page.tsx):
 * the paid transactions whose entry time falls in the chosen range are
 * grouped by the `YYYY-MM-DD` key of their day, and the chart has one bar
 * per day of the range, 0 for a day without any. The range is the last 7,
 * 30 or 90 days, or the custom range the owner's dashboard stored.
 */
module RevenueChartPage {
  import opened Js
  import opened Client
  import opened Calendar
  import opened TransaksiModel
  import opened TransaksiView
  import opened OwnerPage

  datatype ChartRange = Range7 | Range30 | Range90 | RangeCustom

  const MsgChartFailed := "Gagal memuat data grafik pendapatan"

  /** `parseInt(selectedRange)` for the three preset buttons. */
  function RangeDays(c: ChartRange): (n: nat)
    requires !c.RangeCustom?
    ensures n in {7, 30, 90}
  {
    match c
    case Range7 => 7
    case Range30 => 30
    case Range90 => 90
  }

  /**
   * The range of days the chart covers, or `None` when the custom range is
   * selected but nothing usable is stored: `parseInt('custom')` is NaN and
   * so are both ends, which no date compares with. Unlike the dashboard,
   * the chart does not refuse a stored range whose start is after its end.
   */
  function ChartWindow(c: ChartRange, stored: Option<AppliedRange>, now: int): (r: Option<Window>)
    ensures !c.RangeCustom? ==> r == Some(Window(DayOf(now) - RangeDays(c) + 1, DayOf(now)))
    ensures c.RangeCustom? && r.Some? ==>
              stored.Some? && DateFieldsOk(stored.value.start) && DateFieldsOk(stored.value.end)
              && r.value == Window(DayNumber(DateFields(stored.value.start)), DayNumber(DateFields(stored.value.end)))
    ensures c.RangeCustom? && stored.Some? && DateFieldsOk(stored.value.start) && DateFieldsOk(stored.value.end) ==> r.Some?
  {
    if c.RangeCustom? then
      if stored.Some? && stored.value.start != "" && stored.value.end != ""
         && DateFieldsOk(stored.value.start) && DateFieldsOk(stored.value.end)
      then Some(Window(DayNumber(DateFields(stored.value.start)), DayNumber(DateFields(stored.value.end))))
      else None
    else
      Some(Window(DayOf(now) - RangeDays(c) + 1, DayOf(now)))
  }

  /** A stored range the dashboard accepts gives the chart the same days. */
  lemma SameRangeAsDashboard(stored: AppliedRange, now: int)
    requires ResolveRange(Custom, Some(stored), now).InRange?
    ensures ChartWindow(RangeCustom, Some(stored), now) == Some(ResolveRange(Custom, Some(stored), now).window)
  {
    ValidDateApplies(stored.start);
    ValidDateApplies(stored.end);
  }

  /** `Number(t.total_bayar) || 0`: unlike the dashboard's sums, a negative amount counts too. */
  function ChartAmount(t: TxView): int
  {
    if t.totalBayar.Some? then t.totalBayar.value else 0
  }

  /** The amounts of the rows satisfying `p`, added up from the last row back. */
  function AmountWhere(ts: seq<TxView>, p: TxView -> bool): int
    decreases |ts|
  {
    if |ts| == 0 then 0
    else AmountWhere(ts[..|ts| - 1], p) + (if p(ts[|ts| - 1]) then ChartAmount(ts[|ts| - 1]) else 0)
  }

  lemma {:induction false} AmountWhereNone(ts: seq<TxView>, p: TxView -> bool)
    requires forall t :: !p(t)
    ensures AmountWhere(ts, p) == 0
    decreases |ts|
  {
    if |ts| > 0 {
      AmountWhereNone(ts[..|ts| - 1], p);
    }
  }

  lemma {:induction false} AmountWhereUnion(ts: seq<TxView>, p1: TxView -> bool, p2: TxView -> bool, q: TxView -> bool)
    requires forall t :: q(t) <==> p1(t) || p2(t)
    requires forall t :: !(p1(t) && p2(t))
    ensures AmountWhere(ts, p1) + AmountWhere(ts, p2) == AmountWhere(ts, q)
    decreases |ts|
  {
    if |ts| > 0 {
      AmountWhereUnion(ts[..|ts| - 1], p1, p2, q);
    }
  }

  /** A transaction the chart counts: paid and entered within the range. */
  predicate Counted(w: Option<Window>, t: TxView)
  {
    IsLunas(t) && w.Some? && InWindow(w.value, t)
  }

  /** The chart's revenue for one day: the amounts of the counted transactions of that day. */
  function DayAmount(ts: seq<TxView>, w: Option<Window>, day: int): int
  {
    AmountWhere(ts, (t: TxView) => Counted(w, t) && DayOf(t.waktuMasuk) == day)
  }

  /** `formatISOLocal`: the `YYYY-MM-DD` key of a day. */
  function DayKey(day: int): string
  {
    FormatISO(DateOfDay(day))
  }

  /** `revenueMap[iso] || 0`. */
  function Get(m: map<string, int>, k: string): int
  {
    if k in m then m[k] else 0
  }

  /** One more transaction changes a day's amount by its own amount, when it is counted on that day. */
  lemma DayAmountStep(ts: seq<TxView>, w: Option<Window>, i: int, d: int)
    requires 0 <= i < |ts|
    ensures DayAmount(ts[..i + 1], w, d)
            == DayAmount(ts[..i], w, d) + (if Counted(w, ts[i]) && DayOf(ts[i].waktuMasuk) == d then ChartAmount(ts[i]) else 0)
  {
    assert ts[..i + 1][..i] == ts[..i];
  }

  /** Distinct days have distinct keys. */
  ghost predicate Injective(key: int -> string)
  {
    forall a, b :: key(a) == key(b) ==> a == b
  }

  /**
   * The `forEach` over the transactions: each counted one adds its amount
   * under its day's key. Every key is that of a day of the range.
   */
  method BuildRevenueMap(ts: seq<TxView>, w: Option<Window>, key: int -> string) returns (m: map<string, int>)
    requires Injective(key)
    ensures forall d :: Get(m, key(d)) == DayAmount(ts, w, d)
    ensures forall k :: k in m ==> exists d :: k == key(d) && w.Some? && w.value.firstDay <= d <= w.value.lastDay
  {
    m := map[];
    var i := 0;
    while i < |ts|
      invariant 0 <= i <= |ts|
      invariant forall d :: Get(m, key(d)) == DayAmount(ts[..i], w, d)
      invariant forall k :: k in m ==> exists d :: k == key(d) && w.Some? && w.value.firstDay <= d <= w.value.lastDay
    {
      var t := ts[i];
      forall d ensures DayAmount(ts[..i + 1], w, d)
                       == DayAmount(ts[..i], w, d) + (if Counted(w, t) && DayOf(t.waktuMasuk) == d then ChartAmount(t) else 0) {
        DayAmountStep(ts, w, i, d);
      }
      if IsLunas(t) && w.Some? && InWindow(w.value, t) {
        var d0 := DayOf(t.waktuMasuk);
        var iso := key(d0);
        InWindowByDay(w.value, t);
        m := m[iso := Get(m, iso) + ChartAmount(t)];
      }
      i := i + 1;
    }
    assert ts[..i] == ts;
  }

  /** One bar: the day and its revenue; its `toLocaleDateString` label is not modelled. */
  datatype ChartPoint = ChartPoint(day: int, pendapatan: int)

  /** The `for` over the days from `lo` to `hi`, both included. */
  method BuildChart(m: map<string, int>, lo: int, hi: int, key: int -> string) returns (chart: seq<ChartPoint>)
    ensures |chart| == Max(0, hi - lo + 1)
    ensures forall k :: 0 <= k < |chart| ==> chart[k] == ChartPoint(lo + k, Get(m, key(lo + k)))
  {
    chart := [];
    var cur := lo;
    while cur <= hi
      invariant lo <= cur <= Max(lo, hi + 1)
      invariant |chart| == cur - lo
      invariant forall k :: 0 <= k < |chart| ==> chart[k] == ChartPoint(lo + k, Get(m, key(lo + k)))
      decreases hi - cur
    {
      chart := chart + [ChartPoint(cur, Get(m, key(cur)))];
      cur := cur + 1;
    }
  }

  function ChartSum(chart: seq<ChartPoint>): int
    decreases |chart|
  {
    if |chart| == 0 then 0 else chart[0].pendapatan + ChartSum(chart[1..])
  }

  predicate CountedFrom(w: Option<Window>, lo: int, hi: int, t: TxView)
  {
    Counted(w, t) && lo <= DayOf(t.waktuMasuk) <= hi
  }

  /** Bars for consecutive days starting at `lo` add up to the counted amounts of those days. */
  lemma {:induction false} BarsAddUp(ts: seq<TxView>, w: Option<Window>, chart: seq<ChartPoint>, lo: int)
    requires forall k :: 0 <= k < |chart| ==> chart[k] == ChartPoint(lo + k, DayAmount(ts, w, lo + k))
    ensures ChartSum(chart) == AmountWhere(ts, (t: TxView) => CountedFrom(w, lo, lo + |chart| - 1, t))
    decreases |chart|
  {
    if |chart| == 0 {
      AmountWhereNone(ts, (t: TxView) => CountedFrom(w, lo, lo - 1, t));
    } else {
      var rest := chart[1..];
      forall k | 0 <= k < |rest| ensures rest[k] == ChartPoint(lo + 1 + k, DayAmount(ts, w, lo + 1 + k)) {
        assert rest[k] == chart[k + 1];
      }
      BarsAddUp(ts, w, rest, lo + 1);
      AmountWhereUnion(ts, (t: TxView) => Counted(w, t) && DayOf(t.waktuMasuk) == lo,
                           (t: TxView) => CountedFrom(w, lo + 1, lo + |chart| - 1, t),
                           (t: TxView) => CountedFrom(w, lo, lo + |chart| - 1, t));
    }
  }

  /** Every counted transaction lands on a bar: the bars add up to all counted amounts. */
  lemma ChartCoversRevenue(ts: seq<TxView>, w: Option<Window>, chart: seq<ChartPoint>)
    requires w.Some? ==> |chart| == Max(0, w.value.lastDay - w.value.firstDay + 1)
    requires w.None? ==> chart == []
    requires forall k :: w.Some? && 0 <= k < |chart| ==> chart[k] == ChartPoint(w.value.firstDay + k, DayAmount(ts, w, w.value.firstDay + k))
    ensures ChartSum(chart) == AmountWhere(ts, (t: TxView) => Counted(w, t))
  {
    if w.None? {
      AmountWhereNone(ts, (t: TxView) => Counted(w, t));
    } else {
      var lo := w.value.firstDay;
      BarsAddUp(ts, w, chart, lo);
      forall t ensures CountedFrom(w, lo, lo + |chart| - 1, t) <==> Counted(w, t) {
        InWindowByDay(w.value, t);
      }
      AmountWhereUnion(ts, (t: TxView) => CountedFrom(w, lo, lo + |chart| - 1, t), (t: TxView) => false,
                           (t: TxView) => Counted(w, t));
      AmountWhereNone(ts, (t: TxView) => false);
    }
  }

  /** The chart's state. */
  class RevenueChartScreen {
    var selected: ChartRange
    var error: Option<string>
    var revenueData: seq<ChartPoint>

    constructor()
      ensures selected == Range7 && error.None? && revenueData == []
    {
      selected := Range7;
      error := None;
      revenueData := [];
    }

    /** One of the range buttons. */
    method SelectRange(c: ChartRange)
      modifies this
      ensures selected == c && error == old(error) && revenueData == old(revenueData)
    {
      selected := c;
    }

    /** The dashboard applied a custom range: the chart switches to it. */
    method OnRangeApplied()
      modifies this
      ensures selected == RangeCustom && error == old(error) && revenueData == old(revenueData)
    {
      selected := RangeCustom;
    }

    /** The dashboard cleared its custom range: a chart showing it goes back to 7 days. */
    method OnRangeCleared()
      modifies this
      ensures old(selected) == RangeCustom ==> selected == Range7
      ensures old(selected) != RangeCustom ==> selected == old(selected)
      ensures error == old(error) && revenueData == old(revenueData)
    {
      if selected == RangeCustom {
        selected := Range7;
      }
    }

    /**
     * `fetchRevenueData` at instant `now`, with the browser's stored custom
     * range: one bar per day of the range carrying that day's paid revenue.
     */
    method FetchRevenueData(answer: Answer<TxView>, stored: Option<AppliedRange>, now: int)
      modifies this
      ensures !answer.Resolves() ==> error == Some(FailureMessage(answer, MsgChartFailed)) && revenueData == old(revenueData)
      ensures answer.Resolves() ==> error.None?
      ensures answer.Resolves() && Listing(answer.reply.body).None? ==> revenueData == old(revenueData)
      ensures answer.Resolves() && Listing(answer.reply.body).Some? ==>
                var ts := Listing(answer.reply.body).value;
                var w := ChartWindow(old(selected), stored, now);
                (w.None? ==> revenueData == [])
                && (w.Some? ==> |revenueData| == Max(0, w.value.lastDay - w.value.firstDay + 1))
                && (forall k :: w.Some? && 0 <= k < |revenueData| ==>
                      revenueData[k] == ChartPoint(w.value.firstDay + k, DayAmount(ts, w, w.value.firstDay + k)))
      ensures selected == old(selected)
    {
      error := None;
      if !answer.Resolves() {
        error := Some(FailureMessage(answer, MsgChartFailed));
        return;
      }
      var listing := Listing(answer.reply.body);
      if listing.Some? {
        var w := ChartWindow(selected, stored, now);
        forall a, b | DayKey(a) == DayKey(b) ensures a == b {
          DayKeyInjective(a, b);
        }
        var m := BuildRevenueMap(listing.value, w, DayKey);
        if w.Some? {
          revenueData := BuildChart(m, w.value.firstDay, w.value.lastDay, DayKey);
        } else {
          revenueData := [];
        }
      }
    }
  }
}

=== FILE: setup_database.dfy ===
/**
 * The statement splitter of the schema installer (backend/setup-database.js):
 * the schema text is cut at every `;`, each piece is trimmed, and the
 * empty pieces and the pieces starting with `--` are dropped; what is left
 * is executed one statement at a time, in order.
 */
module SetupDatabase {
  import opened Js

  /** The filter `stmt.length > 0 && !stmt.startsWith('--')`. */
  predicate Executable(stmt: string)
  {
    |stmt| > 0 && !StartsWith(stmt, "--")
  }

  /** `.map(stmt => stmt.trim())`. */
  function TrimAll(pieces: seq<string>): (r: seq<string>)
    ensures |r| == |pieces| && forall k :: 0 <= k < |r| ==> r[k] == Trim(pieces[k])
  {
    if pieces == [] then [] else [Trim(pieces[0])] + TrimAll(pieces[1..])
  }

  /** A piece of a string without `c` has no `c` either. */
  lemma PieceFree(s: string, part: string, c: char)
    requires Includes(s, part) && c !in s
    ensures c !in part
  {
    var i :| 0 <= i <= |s| - |part| && OccursAt(s, part, i);
    assert part == s[i..i + |part|];
  }

  /** The trimmed pieces that pass the filter, in their order. */
  function Kept(pieces: seq<string>): seq<string>
  {
    Filter(TrimAll(pieces), Executable)
  }

  /** Keeping from a list whose head is `a`: `a` trimmed comes first if it passes. */
  lemma KeptCons(a: string, pieces: seq<string>)
    ensures Kept([a] + pieces) == (if Executable(Trim(a)) then [Trim(a)] else []) + Kept(pieces)
  {
    TrimAllCons(a, pieces);
    FilterCons(Trim(a), TrimAll(pieces), Executable);
  }

  lemma TrimAllCons(a: string, pieces: seq<string>)
    ensures TrimAll([a] + pieces) == [Trim(a)] + TrimAll(pieces)
  {
    assert ([a] + pieces)[1..] == pieces;
  }

  lemma FilterCons(x: string, s: seq<string>, p: string -> bool)
    ensures Filter([x] + s, p) == (if p(x) then [x] else []) + Filter(s, p)
  {
    assert ([x] + s)[1..] == s;
  }

  /** The statements the installer executes, in order. */
  function Statements(schema: string): (r: seq<string>)
    ensures |r| <= |Split(schema, ';')|
    ensures forall k :: 0 <= k < |r| ==>
              Executable(r[k]) && ';' !in r[k] && !IsSpace(r[k][0]) && !IsSpace(r[k][|r[k]| - 1])
  {
    var pieces := Split(schema, ';');
    SplitPiecesFree(schema, ';');
    var r := Kept(pieces);
    forall k | 0 <= k < |r|
      ensures Executable(r[k]) && ';' !in r[k] && !IsSpace(r[k][0]) && !IsSpace(r[k][|r[k]| - 1])
    {
      KeptShape(pieces, k);
    }
    r
  }

  /** One kept statement: it passes the filter, is trimmed, and comes from a piece without `;`. */
  lemma KeptShape(pieces: seq<string>, k: int)
    requires forall j :: 0 <= j < |pieces| ==> ';' !in pieces[j]
    requires 0 <= k < |Kept(pieces)|
    ensures var t := Kept(pieces)[k];
      Executable(t) && ';' !in t && !IsSpace(t[0]) && !IsSpace(t[|t| - 1])
  {
    var trimmed := TrimAll(pieces);
    var t := Kept(pieces)[k];
    assert Executable(t) && t in trimmed;
    var x :| 0 <= x < |trimmed| && trimmed[x] == t;
    assert t == Trim(pieces[x]);
    PieceFree(pieces[x], t, ';');
  }

  /** The statements are the kept pieces of the split. */
  lemma StatementsAreKept(schema: string)
    ensures Statements(schema) == Kept(Split(schema, ';'))
  {
  }

  /** The first chunk of the schema is executed first, if it survives the filter, and the rest follows in order. */
  lemma StatementThenRest(a: string, rest: string)
    requires ';' !in a
    ensures Statements(a + [';'] + rest) ==
              (if Executable(Trim(a)) then [Trim(a)] else []) + Statements(rest)
  {
    SplitAfter(a, rest, ';');
    StatementsAreKept(a + [';'] + rest);
    StatementsAreKept(rest);
    KeptCons(a, Split(rest, ';'));
  }

  /** Trimming keeps the `--` a chunk opens with, so the filter drops it. */
  lemma CommentNotExecutable(chunk: string)
    requires StartsWith(chunk, "--")
    ensures !Executable(Trim(chunk))
  {
    var t := TrimStart(chunk);
    assert t == chunk by {
      assert !IsSpace(chunk[0]);
    }
    var r := TrimEnd(t);
    assert |r| >= 2 by {
      assert !IsSpace(t[1]);
    }
    assert r[..2] == chunk[..2];
  }

  /** A chunk that opens with a comment line is dropped whole, with any statement written after the comment. */
  lemma CommentHidesStatement(comment: string, stmt: string, rest: string)
    requires StartsWith(comment, "--") && ';' !in comment + "\n" + stmt
    ensures Statements(comment + "\n" + stmt + [';'] + rest) == Statements(rest)
  {
    var chunk := comment + "\n" + stmt;
    assert StartsWith(chunk, "--") by {
      assert chunk[..2] == comment[..2];
    }
    CommentNotExecutable(chunk);
    StatementThenRest(chunk, rest);
  }

  /** A chunk holding only white space is skipped. */
  lemma BlankChunkSkipped(blank: string, rest: string)
    requires forall k :: 0 <= k < |blank| ==> IsSpace(blank[k])
    ensures Statements(blank + [';'] + rest) == Statements(rest)
  {
    assert !IsSpace(';');
    BlankNotExecutable(blank);
    StatementThenRest(blank, rest);
  }

  /** White space trims to nothing, which the filter drops. */
  lemma BlankNotExecutable(blank: string)
    requires forall k :: 0 <= k < |blank| ==> IsSpace(blank[k])
    ensures !Executable(Trim(blank))
  {
    var r := Trim(blank);
    var i :| 0 <= i <= |blank| - |r| && OccursAt(blank, r, i);
    assert r == blank[i..i + |r|];
  }
}

=== FILE: sorting.dfy ===
/**
 * `Array.prototype.sort` with a comparator that orders by a numeric key,
 * largest first, as the log listing (`ORDER BY waktu_aksi DESC`) and the
 * owner dashboard's recent list use it. The model is an insertion sort;
 * its contracts state that the result is ordered and a permutation of the
 * input, and say nothing about the relative order of equal keys.
 */
module Sorting {

  /** `s` is ordered by `key`, largest first. */
  predicate SortedDesc<T>(s: seq<T>, key: T -> int)
  {
    forall i, j :: 0 <= i < j < |s| ==> key(s[i]) >= key(s[j])
  }

  /** Puts `x` in front of the first element whose key is not larger than its own. */
  function InsertDesc<T>(x: T, s: seq<T>, key: T -> int): (r: seq<T>)
    ensures multiset(r) == multiset(s) + multiset{x}
    ensures |r| == |s| + 1
    decreases |s|
  {
    if |s| == 0 then [x]
    else if key(s[0]) <= key(x) then [x] + s
    else
      assert s == [s[0]] + s[1..];
      [s[0]] + InsertDesc(x, s[1..], key)
  }

  /** Inserting an element no larger than a bound keeps every key within it. */
  lemma {:induction false} InsertDescBounded<T>(x: T, s: seq<T>, key: T -> int, k: int)
    requires key(x) <= k && forall i :: 0 <= i < |s| ==> key(s[i]) <= k
    ensures forall i :: 0 <= i < |InsertDesc(x, s, key)| ==> key(InsertDesc(x, s, key)[i]) <= k
    decreases |s|
  {
    if |s| > 0 && key(s[0]) > key(x) {
      InsertDescBounded(x, s[1..], key, k);
    }
  }

  /** Insertion keeps a sorted sequence sorted. */
  lemma {:induction false} InsertDescSorted<T>(x: T, s: seq<T>, key: T -> int)
    requires SortedDesc(s, key)
    ensures SortedDesc(InsertDesc(x, s, key), key)
    decreases |s|
  {
    if |s| > 0 && key(s[0]) > key(x) {
      InsertDescSorted(x, s[1..], key);
      InsertDescBounded(x, s[1..], key, key(s[0]));
      var rest := InsertDesc(x, s[1..], key);
      assert InsertDesc(x, s, key) == [s[0]] + rest;
    }
  }

  /** The elements of `s` ordered by `key`, largest first. */
  function SortDesc<T>(s: seq<T>, key: T -> int): (r: seq<T>)
    ensures SortedDesc(r, key)
    ensures multiset(r) == multiset(s)
    ensures |r| == |s|
    decreases |s|
  {
    if |s| == 0 then []
    else
      assert s == [s[0]] + s[1..];
      InsertDescSorted(s[0], SortDesc(s[1..], key), key);
      InsertDesc(s[0], SortDesc(s[1..], key), key)
  }

  /** Every element of a sorted permutation is an element of the input, and back. */
  lemma SortDescSameElements<T>(s: seq<T>, key: T -> int, e: T)
    ensures e in SortDesc(s, key) <==> e in s
  {
    var r := SortDesc(s, key);
    assert e in r <==> e in multiset(r);
    assert e in s <==> e in multiset(s);
  }

  /** No element of the input has a larger key than the head of the sorted sequence. */
  lemma SortDescHeadIsMax<T>(s: seq<T>, key: T -> int, i: int)
    requires 0 <= i < |s|
    ensures |SortDesc(s, key)| > 0 && key(SortDesc(s, key)[0]) >= key(s[i])
  {
    var r := SortDesc(s, key);
    SortDescSameElements(s, key, s[i]);
    var j :| 0 <= j < |r| && r[j] == s[i];
  }

  /** Every slice of a sorted sequence is sorted. */
  lemma SortedSlice<T>(s: seq<T>, key: T -> int, lo: int, hi: int)
    requires SortedDesc(s, key) && 0 <= lo <= hi <= |s|
    ensures SortedDesc(s[lo..hi], key)
  {
    var t := s[lo..hi];
    forall i, j | 0 <= i < j < |t| ensures key(t[i]) >= key(t[j]) {
      assert t[i] == s[lo + i] && t[j] == s[lo + j];
    }
  }
  /** No element occurs twice. */
  predicate Distinct<T(==)>(s: seq<T>)
  {
    forall i, j :: 0 <= i < j < |s| ==> s[i] != s[j]
  }

  /** In a sequence without repeats every element occurs at most once. */
  lemma {:induction false} DistinctOnce<T>(s: seq<T>, x: T)
    requires Distinct(s)
    ensures multiset(s)[x] <= 1
    decreases |s|
  {
    if |s| > 0 {
      assert s == [s[0]] + s[1..];
      assert Distinct(s[1..]) by {
        forall i, j | 0 <= i < j < |s[1..]| ensures s[1..][i] != s[1..][j] {
          assert s[1..][i] == s[i + 1] && s[1..][j] == s[j + 1];
        }
      }
      DistinctOnce(s[1..], x);
      if s[0] == x {
        assert x !in s[1..] by {
          forall k | 0 <= k < |s[1..]| ensures s[1..][k] != x {
            assert s[1..][k] == s[k + 1];
          }
        }
      }
    }
  }

  /** An element found at two positions occurs at least twice. */
  lemma Twice<T>(s: seq<T>, i: int, j: int)
    requires 0 <= i < j < |s| && s[i] == s[j]
    ensures multiset(s)[s[i]] >= 2
  {
    assert s == s[..j] + s[j..];
    assert s[i] in s[..j];
    assert s[j..][0] == s[j];
  }

  /** A permutation of a sequence without repeats has none either. */
  lemma DistinctPermutation<T>(a: seq<T>, b: seq<T>)
    requires Distinct(a) && multiset(a) == multiset(b)
    ensures Distinct(b)
  {
    forall i, j | 0 <= i < j < |b| ensures b[i] != b[j] {
      if b[i] == b[j] {
        Twice(b, i, j);
        DistinctOnce(a, b[i]);
      }
    }
  }
}

=== FILE: transaksi_controller.dfy ===
/**
 * The parking-session endpoints (backend/src/controllers/transaksiController.js):
 * listing, lookup, the open sessions of a plate, check-in, check-out,
 * payment-status update and deletion. Each endpoint is a method over the
 * database; the clock is the `now` parameter (milliseconds), and request
 * dates arrive already converted to milliseconds.
 */
module TransaksiController {
  import opened Js
  import opened Response
  import opened ErrorHandler
  import opened TransaksiModel
  import opened KendaraanModel
  import opened ArfModel
  import opened JenisParkirModel
  import opened Database

  const HourMs: int := 1000 * 60 * 60

  datatype CheckInRequest = CheckInRequest(
    nomorPlat: Field<string>, idJenisParkir: Field<int>, idArf: Field<int>, waktuMasuk: Field<int>)

  datatype CheckOutRequest = CheckOutRequest(
    waktuKeluar: Field<int>, totalBayar: Field<int>, metodePembayaran: Field<string>)

  /** A transaction together with its primary key, as the endpoints return it. */
  datatype TransaksiRow = TransaksiRow(id: int, row: Transaksi)

  /** One entry of the open-sessions lookup, shaped for the check-out screen. */
  datatype AktifView = AktifView(idTransaksi: int, nomorPlat: string, jenisParkir: string,
                                 waktuMasuk: int, areaParkir: string)

  // ------------------------------------------------------------ billing

  /**
   * `Math.ceil(durasiMs / (1000 * 60 * 60))`: the stay in hours, every
   * started hour counting in full.
   */
  function BilledHours(durasiMs: int): (h: int)
    ensures (h - 1) * HourMs < durasiMs <= h * HourMs
  {
    CeilDiv(durasiMs, HourMs)
  }

  /**
   * A stay of 0 ms bills 0 hours, any stay up to one hour bills 1, and a
   * stay of `n` whole hours plus one millisecond bills `n + 1`; an exit
   * before the entry is not rejected and bills 0 or fewer hours.
   */
  lemma BilledHoursFacts(durasiMs: int, n: nat)
    ensures durasiMs == 0 ==> BilledHours(durasiMs) == 0
    ensures 0 < durasiMs <= HourMs ==> BilledHours(durasiMs) == 1
    ensures BilledHours(n * HourMs + 1) == n + 1
    ensures durasiMs <= 0 ==> BilledHours(durasiMs) <= 0
    ensures durasiMs > 0 ==> BilledHours(durasiMs) >= 1
  {
    var h := BilledHours(n * HourMs + 1);
    if h < n + 1 { MulMono(h, n, HourMs); }
    if h > n + 1 { MulMono(n + 1, h - 1, HourMs); }
  }

  /** A longer stay never bills fewer hours. */
  lemma BilledHoursMonotone(d1: int, d2: int)
    requires d1 <= d2
    ensures BilledHours(d1) <= BilledHours(d2)
  {
    var h1, h2 := BilledHours(d1), BilledHours(d2);
    if h1 > h2 { MulMono(h2, h1 - 1, HourMs); }
  }

  lemma MulMono(a: int, b: int, c: int)
    requires a <= b && c > 0
    ensures a * c <= b * c
  {
  }

  // ---------------------------------------------------------- check-in

  /** The kind check-in derives from the category id: 2 is "motor", any other id "mobil". */
  function KindKey(idJenisParkir: int): string
  {
    if idJenisParkir == 2 then "motor" else "mobil"
  }

  /**
   * `(arf.jenis_parkir_yang_didukung || ['mobil']).includes(key)`: a
   * missing list accepts only "mobil"; stored text that is not a JSON
   * array is a string, so `includes` is a substring test on it.
   */
  predicate AreaAccepts(s: Supported, key: string)
  {
    match s
    case NoList => key == "mobil"
    case List(kinds) => key in kinds
    case Unparsable(raw) => if raw == "" then key == "mobil" else Includes(raw, key)
  }

  /** Some open transaction belongs to a vehicle whose plate is `plate`. */
  ghost predicate PlateParked(t: map<int, Transaksi>, k: map<int, Kendaraan>, plate: string)
  {
    exists i :: i in t && t[i].Open() && t[i].idKendaraan in k && k[t[i].idKendaraan].noPolisi == plate
  }

  /** Everything check-in verifies before it stores a session. */
  ghost predicate CheckInAllowed(t: map<int, Transaksi>, k: map<int, Kendaraan>, j: map<int, JenisParkir>,
                                 a: map<int, Area>, req: CheckInRequest)
  {
    Truthy(req.nomorPlat) && TruthyInt(req.idJenisParkir) && req.idJenisParkir.value in j
    && (TruthyInt(req.idArf) ==>
          req.idArf.value in a && AreaAccepts(a[req.idArf.value].supported, KindKey(req.idJenisParkir.value)))
    && !PlateParked(t, k, ToUpper(req.nomorPlat.value))
  }

  /** The session check-in stores for vehicle `idKendaraan`. */
  function OpenedSession(req: CheckInRequest, idKendaraan: int, now: int): (s: Transaksi)
    requires TruthyInt(req.idJenisParkir)
    ensures s.Open() && s.statusPembayaran == BelumBayar && s.idKendaraan == idKendaraan
    ensures s.idJenisParkir == req.idJenisParkir.value
    ensures s.idArf == (if TruthyInt(req.idArf) then Some(req.idArf.value) else None)
    ensures s.waktuMasuk == (if TruthyInt(req.waktuMasuk) then req.waktuMasuk.value else now)
    ensures !TruthyInt(req.waktuMasuk) ==> s.waktuMasuk == now
  {
    NewTransaksi(idKendaraan, req.idJenisParkir.value,
                 if TruthyInt(req.idArf) then Some(req.idArf.value) else None,
                 IntOr(req.waktuMasuk, now))
  }

  /** An open session of a vehicle carrying `plate` means the plate is parked. */
  lemma ParkedWhenActive(t: map<int, Transaksi>, k: map<int, Kendaraan>, plate: string, v: int, i: int)
    requires v in k && k[v].noPolisi == plate
    requires i in t && t[i].Open() && t[i].idKendaraan == v
    ensures PlateParked(t, k, plate)
  {
  }

  /**
   * With unique plates, a plate is parked only through the one vehicle that
   * carries it; a plate no vehicle carries is not parked.
   */
  lemma NotParkedUnlessActive(t: map<int, Transaksi>, k: map<int, Kendaraan>, plate: string, v: Option<int>)
    requires PlatesUnique(k)
    requires v.Some? ==> v.value in k && k[v.value].noPolisi == plate
    requires v.None? ==> forall u :: u in k ==> k[u].noPolisi != plate
    requires v.Some? ==> forall i :: i in t && t[i].Open() ==> t[i].idKendaraan != v.value
    ensures !PlateParked(t, k, plate)
  {
    forall i | i in t && t[i].Open() && t[i].idKendaraan in k
      ensures k[t[i].idKendaraan].noPolisi != plate
    {
    }
  }

  /** Adding an open session for a vehicle that has none keeps one open session per vehicle. */
  lemma OpenKeepsOnePerVehicle(t: map<int, Transaksi>, id: int, s: Transaksi)
    requires OneOpenPerVehicle(t) && id !in t
    requires forall i :: i in t && t[i].Open() ==> t[i].idKendaraan != s.idKendaraan
    ensures OneOpenPerVehicle(t[id := s])
  {
  }

  /**
   * `Kendaraan.findOne({ where: { no_polisi } })`, then `Kendaraan.create`
   * when there is none: the vehicle carrying `plate` afterwards.
   */
  method FindOrRegisterVehicle(db: Db, plate: string, kind: string) returns (v: int)
    requires db.Valid()
    modifies db`kendaraan, db`nextKendaraanId
    ensures db.Valid()
    ensures v in db.kendaraan && db.kendaraan[v].noPolisi == plate
    ensures v in old(db.kendaraan) ==>
      db.kendaraan == old(db.kendaraan) && db.nextKendaraanId == old(db.nextKendaraanId)
    ensures v !in old(db.kendaraan) ==>
      v == old(db.nextKendaraanId) && db.nextKendaraanId == v + 1
      && db.kendaraan == old(db.kendaraan)[v := PlateOnly(plate, kind)]
      && (forall u :: u in old(db.kendaraan) ==> old(db.kendaraan)[u].noPolisi != plate)
  {
    var found := FirstMatch(db.kendaraan, 1, db.nextKendaraanId, (k: Kendaraan) => k.noPolisi == plate);
    if found.Some? {
      v := found.value;
    } else {
      v := db.nextKendaraanId;
      db.kendaraan := db.kendaraan[v := PlateOnly(plate, kind)];
      db.nextKendaraanId := db.nextKendaraanId + 1;
    }
  }

  /**
   * `checkIn`: validates plate and category, the optional area and the
   * kinds it accepts, finds or registers the vehicle by its upper-cased
   * plate, refuses a vehicle that is already parked, and stores a new open
   * session. Every refusal leaves the database as it was.
   */
  method CheckIn(db: Db, req: CheckInRequest, now: int) returns (r: Reply<TransaksiRow>)
    requires db.Valid()
    modifies db`transaksi, db`nextTransaksiId, db`kendaraan, db`nextKendaraanId
    ensures db.Valid()
    ensures r.status == 201 <==> CheckInAllowed(old(db.transaksi), old(db.kendaraan), old(db.jenisParkir), old(db.areas), req)
    ensures !Truthy(req.nomorPlat) || !TruthyInt(req.idJenisParkir) ==>
      r == Fail(400, "Nomor plat dan jenis parkir wajib diisi")
    ensures Truthy(req.nomorPlat) && TruthyInt(req.idJenisParkir) && req.idJenisParkir.value !in old(db.jenisParkir) ==>
      r == Fail(404, "Jenis parkir tidak ditemukan")
    ensures r.status != 201 ==> r.status in {400, 404}
    ensures r.status != 201 ==>
      db.transaksi == old(db.transaksi) && db.nextTransaksiId == old(db.nextTransaksiId)
      && db.kendaraan == old(db.kendaraan) && db.nextKendaraanId == old(db.nextKendaraanId)
    ensures r.status == 201 ==> old(db.nextTransaksiId) in db.transaksi
    ensures r.status == 201 ==>
      var id := old(db.nextTransaksiId);
      var v := db.transaksi[id].idKendaraan;
      r == Ok(201, Some(TransaksiRow(id, db.transaksi[id])), "Check-in berhasil")
      && db.transaksi == old(db.transaksi)[id := OpenedSession(req, v, now)]
      && v in db.kendaraan && db.kendaraan[v].noPolisi == ToUpper(req.nomorPlat.value)
      && (v in old(db.kendaraan) ==> db.kendaraan == old(db.kendaraan))
      && (v !in old(db.kendaraan) ==>
            v == old(db.nextKendaraanId)
            && db.kendaraan == old(db.kendaraan)[v := PlateOnly(ToUpper(req.nomorPlat.value), KindKey(req.idJenisParkir.value))])
  {
    if !Truthy(req.nomorPlat) || !TruthyInt(req.idJenisParkir) {
      return Fail(400, "Nomor plat dan jenis parkir wajib diisi");
    }
    var idJenis := req.idJenisParkir.value;
    if idJenis !in db.jenisParkir {
      return Fail(404, "Jenis parkir tidak ditemukan");
    }
    if TruthyInt(req.idArf) {
      var idArf := req.idArf.value;
      if idArf !in db.areas {
        return Fail(404, "Area parkir tidak ditemukan");
      }
      var area := db.areas[idArf];
      if !AreaAccepts(area.supported, KindKey(idJenis)) {
        return Fail(400, "Area " + area.namaArea + " tidak mendukung parkir jenis " + db.jenisParkir[idJenis].namaJenis);
      }
    }

    r := Admit(db, req, now);
  }

  /**
   * The part of `checkIn` after the request passed its checks: find or
   * register the vehicle, refuse it when it is parked, else store the session.
   */
  method Admit(db: Db, req: CheckInRequest, now: int) returns (r: Reply<TransaksiRow>)
    requires db.Valid()
    requires Truthy(req.nomorPlat) && TruthyInt(req.idJenisParkir) && req.idJenisParkir.value in db.jenisParkir
    requires TruthyInt(req.idArf) ==> req.idArf.value in db.areas
    modifies db`transaksi, db`nextTransaksiId, db`kendaraan, db`nextKendaraanId
    ensures db.Valid()
    ensures r.status == 201 <==> !PlateParked(old(db.transaksi), old(db.kendaraan), ToUpper(req.nomorPlat.value))
    ensures r.status != 201 ==>
      r == Fail(400, "Kendaraan sudah melakukan check-in, lakukan check-out terlebih dahulu")
      && db.transaksi == old(db.transaksi) && db.nextTransaksiId == old(db.nextTransaksiId)
      && db.kendaraan == old(db.kendaraan) && db.nextKendaraanId == old(db.nextKendaraanId)
    ensures r.status == 201 ==>
      var id := old(db.nextTransaksiId);
      id in db.transaksi
      && var v := db.transaksi[id].idKendaraan;
      r == Ok(201, Some(TransaksiRow(id, db.transaksi[id])), "Check-in berhasil")
      && db.transaksi == old(db.transaksi)[id := OpenedSession(req, v, now)]
      && v in db.kendaraan && db.kendaraan[v].noPolisi == ToUpper(req.nomorPlat.value)
      && (v in old(db.kendaraan) ==> db.kendaraan == old(db.kendaraan))
      && (v !in old(db.kendaraan) ==>
            v == old(db.nextKendaraanId)
            && db.kendaraan == old(db.kendaraan)[v := PlateOnly(ToUpper(req.nomorPlat.value), KindKey(req.idJenisParkir.value))])
  {
    var plate := ToUpper(req.nomorPlat.value);
    var idKendaraan := FindOrRegisterVehicle(db, plate, KindKey(req.idJenisParkir.value));

    var active := FirstMatch(db.transaksi, 1, db.nextTransaksiId,
                             (t: Transaksi) => t.idKendaraan == idKendaraan && t.Open());
    if active.Some? {
      ParkedWhenActive(old(db.transaksi), old(db.kendaraan), plate, idKendaraan, active.value);
      return Fail(400, "Kendaraan sudah melakukan check-in, lakukan check-out terlebih dahulu");
    }
    NotParkedUnlessActive(old(db.transaksi), old(db.kendaraan), plate,
                          if idKendaraan in old(db.kendaraan) then Some(idKendaraan) else None);
    var id := StoreSession(db, OpenedSession(req, idKendaraan, now));
    r := Ok(201, Some(TransaksiRow(id, db.transaksi[id])), "Check-in berhasil");
  }

  /** `Transaksi.create`: stores an open session of a vehicle that has none under the next id. */
  method StoreSession(db: Db, s: Transaksi) returns (id: int)
    requires db.Valid() && s.Open()
    requires s.idKendaraan in db.kendaraan && s.idJenisParkir in db.jenisParkir
    requires s.idArf.Some? ==> s.idArf.value in db.areas
    requires forall i :: i in db.transaksi && db.transaksi[i].Open() ==> db.transaksi[i].idKendaraan != s.idKendaraan
    modifies db`transaksi, db`nextTransaksiId
    ensures db.Valid()
    ensures id == old(db.nextTransaksiId) && db.nextTransaksiId == id + 1
    ensures db.transaksi == old(db.transaksi)[id := s]
  {
    id := db.nextTransaksiId;
    OpenKeepsOnePerVehicle(db.transaksi, id, s);
    db.transaksi := db.transaksi[id := s];
    db.nextTransaksiId := id + 1;
  }

  // ------------------------------------------------------------ check-out

  /** The exit time check-out uses: a truthy one sent, or the clock (a sent 0 is falsy). */
  function ExitTime(req: CheckOutRequest, now: int): (t: int)
    ensures TruthyInt(req.waktuKeluar) ==> t == req.waktuKeluar.value
    ensures !TruthyInt(req.waktuKeluar) ==> t == now
  {
    IntOr(req.waktuKeluar, now)
  }

  /** The method label check-out writes: `metode_pembayaran || 'tunai'`. */
  function MetodeLabel(req: CheckOutRequest): string
  {
    StrOr(req.metodePembayaran, "tunai")
  }

  /** MySQL in strict mode refuses a method label outside the ENUM. */
  const BadMetode: Thrown :=
    Thrown("SequelizeDatabaseError", Undefined, Val("Data truncated for column 'metode_pembayaran' at row 1"), None)

  /** The client's method, as an ENUM value, is what check-out stores. */
  lemma MetodeRoundTrip(m: MetodePembayaran)
    ensures ParseMetode(MetodeName(m)) == Some(m)
  {
  }

  /**
   * The session as check-out leaves it: closed at the exit time, the stay
   * stored in minutes as whole billed hours, the client's amount stored
   * verbatim as both tariff and total (0 when falsy), the method defaulting
   * to cash, and the status `lunas`. Only a method label the ENUM accepts
   * can be stored.
   */
  function ClosedSession(t: Transaksi, req: CheckOutRequest, now: int): (c: Transaksi)
    requires ParseMetode(MetodeLabel(req)).Some?
    ensures !c.Open() && c.waktuKeluar == Some(ExitTime(req, now)) && c.statusPembayaran == Lunas
    ensures c.lamaParkir == Some(BilledHours(ExitTime(req, now) - t.waktuMasuk) * 60)
    ensures c.tarifParkir == Some(IntOr(req.totalBayar, 0)) && c.totalBayar == c.tarifParkir
    ensures c.metodePembayaran.Some? && MetodeName(c.metodePembayaran.value) == MetodeLabel(req)
    ensures !Truthy(req.metodePembayaran) ==> c.metodePembayaran == Some(Tunai)
    ensures c.idKendaraan == t.idKendaraan && c.idJenisParkir == t.idJenisParkir
    ensures c.idArf == t.idArf && c.waktuMasuk == t.waktuMasuk
  {
    var exit := ExitTime(req, now);
    t.(waktuKeluar := Some(exit),
       lamaParkir := Some(BilledHours(exit - t.waktuMasuk) * 60),
       tarifParkir := Some(IntOr(req.totalBayar, 0)),
       totalBayar := Some(IntOr(req.totalBayar, 0)),
       metodePembayaran := ParseMetode(MetodeLabel(req)),
       statusPembayaran := Lunas)
  }

  /**
   * The stored stay covers the real one: it is a whole number of hours in
   * minutes, at least the elapsed time and less than an hour more.
   */
  lemma StoredStayCoversElapsed(t: Transaksi, req: CheckOutRequest, now: int)
    requires ParseMetode(MetodeLabel(req)).Some?
    ensures var c := ClosedSession(t, req, now);
      var elapsed := ExitTime(req, now) - t.waktuMasuk;
      c.lamaParkir.value % 60 == 0
      && (c.lamaParkir.value - 60) * 60000 < elapsed <= c.lamaParkir.value * 60000
  {
    var h := BilledHours(ExitTime(req, now) - t.waktuMasuk);
    assert h * 60 * 60000 == h * HourMs;
    assert (h * 60 - 60) * 60000 == (h - 1) * HourMs;
  }

  /** Closing an open session keeps at most one open session per vehicle. */
  lemma CloseKeepsOnePerVehicle(t: map<int, Transaksi>, id: int, c: Transaksi)
    requires OneOpenPerVehicle(t) && !c.Open()
    ensures OneOpenPerVehicle(t[id := c])
  {
  }

  /**
   * `checkOut`: 404 for an unknown id, 400 for a session already closed;
   * a method label outside the ENUM makes the update fail in the
   * database; otherwise the session is closed as `ClosedSession`
   * describes and nothing else changes.
   */
  method CheckOut(db: Db, id: int, req: CheckOutRequest, now: int) returns (r: Settled<TransaksiRow>)
    requires db.Valid()
    modifies db`transaksi
    ensures db.Valid()
    ensures id !in old(db.transaksi) ==>
      r == Resolved(Fail(404, "Transaksi tidak ditemukan")) && db.transaksi == old(db.transaksi)
    ensures id in old(db.transaksi) && !old(db.transaksi)[id].Open() ==>
      r == Resolved(Fail(400, "Kendaraan sudah melakukan check-out")) && db.transaksi == old(db.transaksi)
    ensures id in old(db.transaksi) && old(db.transaksi)[id].Open() && ParseMetode(MetodeLabel(req)).None? ==>
      r == Rejected(BadMetode) && db.transaksi == old(db.transaksi)
    ensures id in old(db.transaksi) && old(db.transaksi)[id].Open() && ParseMetode(MetodeLabel(req)).Some? ==>
      var c := ClosedSession(old(db.transaksi)[id], req, now);
      db.transaksi == old(db.transaksi)[id := c] && r == Resolved(Ok(200, Some(TransaksiRow(id, c)), "Check-out berhasil"))
  {
    if id !in db.transaksi {
      return Resolved(Fail(404, "Transaksi tidak ditemukan"));
    }
    var t := db.transaksi[id];
    if !t.Open() {
      return Resolved(Fail(400, "Kendaraan sudah melakukan check-out"));
    }
    if ParseMetode(MetodeLabel(req)).None? {
      return Rejected(BadMetode);
    }
    var c := ClosedSession(t, req, now);
    CloseKeepsOnePerVehicle(db.transaksi, id, c);
    db.transaksi := db.transaksi[id := c];
    r := Resolved(Ok(200, Some(TransaksiRow(id, c)), "Check-out berhasil"));
  }

  // ------------------------------------------------------- payment status

  /**
   * `updatePaymentStatus`: the label is checked against the five ENUM
   * labels before the id is looked up; only the status changes, open or
   * closed session alike.
   */
  method UpdatePaymentStatus(db: Db, id: int, status: Field<string>) returns (r: Reply<TransaksiRow>)
    requires db.Valid()
    modifies db`transaksi
    ensures db.Valid()
    ensures !(status.Val? && status.value in StatusNames) ==>
      r == Fail(400, "Status pembayaran tidak valid") && db.transaksi == old(db.transaksi)
    ensures status.Val? && status.value in StatusNames && id !in old(db.transaksi) ==>
      r == Fail(404, "Transaksi tidak ditemukan") && db.transaksi == old(db.transaksi)
    ensures status.Val? && status.value in StatusNames && id in old(db.transaksi) ==>
      var u := old(db.transaksi)[id].(statusPembayaran := ParseStatus(status.value).value);
      StatusName(u.statusPembayaran) == status.value
      && db.transaksi == old(db.transaksi)[id := u]
      && r == Ok(200, Some(TransaksiRow(id, u)), "Status pembayaran berhasil diupdate")
  {
    if !(status.Val? && status.value in StatusNames) {
      return Fail(400, "Status pembayaran tidak valid");
    }
    if id !in db.transaksi {
      return Fail(404, "Transaksi tidak ditemukan");
    }
    var u := db.transaksi[id].(statusPembayaran := ParseStatus(status.value).value);
    db.transaksi := db.transaksi[id := u];
    r := Ok(200, Some(TransaksiRow(id, u)), "Status pembayaran berhasil diupdate");
  }

  // ----------------------------------------------------------------- delete

  /** `deleteTransaksi`: only an open session can be deleted. */
  method DeleteTransaksi(db: Db, id: int) returns (r: Reply<TransaksiRow>)
    requires db.Valid()
    modifies db`transaksi
    ensures db.Valid()
    ensures id !in old(db.transaksi) ==>
      r == Fail(404, "Transaksi tidak ditemukan") && db.transaksi == old(db.transaksi)
    ensures id in old(db.transaksi) && !old(db.transaksi)[id].Open() ==>
      r == Fail(400, "Tidak dapat menghapus transaksi yang sudah check-out") && db.transaksi == old(db.transaksi)
    ensures id in old(db.transaksi) && old(db.transaksi)[id].Open() ==>
      r == Ok(200, None, "Transaksi berhasil dihapus") && db.transaksi == old(db.transaksi) - {id}
  {
    if id !in db.transaksi {
      return Fail(404, "Transaksi tidak ditemukan");
    }
    if !db.transaksi[id].Open() {
      return Fail(400, "Tidak dapat menghapus transaksi yang sudah check-out");
    }
    db.transaksi := db.transaksi - {id};
    r := Ok(200, None, "Transaksi berhasil dihapus");
  }

  // ------------------------------------------------------------------ reads

  /** `getTransaksiById`. */
  function GetTransaksiById(db: Db, id: int): (r: Reply<TransaksiRow>)
    reads db
    ensures id !in db.transaksi ==> r == Fail(404, "Transaksi tidak ditemukan")
    ensures id in db.transaksi ==> r.status == 200 && r.body.SuccessBody? && r.body.data == Some(TransaksiRow(id, db.transaksi[id]))
  {
    if id !in db.transaksi then Fail(404, "Transaksi tidak ditemukan")
    else Ok(200, Some(TransaksiRow(id, db.transaksi[id])), "Transaksi retrieved")
  }

  /** The `where.status_pembayaran` filter of the listing: none, or an exact label. */
  predicate StatusFilter(status: Field<string>, t: Transaksi)
  {
    !Truthy(status) || StatusName(t.statusPembayaran) == status.value
  }

  /** All rows the listing's filter keeps, newest key first. */
  function MatchingRows(t: map<int, Transaksi>, next: int, status: Field<string>): (rows: seq<TransaksiRow>)
    ensures forall x :: 0 <= x < |rows| ==>
      rows[x].id in t && rows[x].row == t[rows[x].id] && StatusFilter(status, rows[x].row)
    ensures forall x, y :: 0 <= x < y < |rows| ==> rows[x].id > rows[y].id
    ensures forall id :: 1 <= id < next && id in t && StatusFilter(status, t[id]) ==>
      exists x :: 0 <= x < |rows| && rows[x].id == id
  {
    var ks := KeysDesc(t, next, (row: Transaksi) => StatusFilter(status, row));
    var rows := seq(|ks|, x requires 0 <= x < |ks| => TransaksiRow(ks[x], t[ks[x]]));
    assert forall id :: id in ks ==> exists x :: 0 <= x < |rows| && rows[x].id == id by {
      forall id | id in ks ensures exists x :: 0 <= x < |rows| && rows[x].id == id {
        var x :| 0 <= x < |ks| && ks[x] == id;
        assert rows[x].id == id;
      }
    }
    rows
  }

  /**
   * `getAllTransaksi`: one page of the matching sessions, newest first;
   * the pagination counts every matching session.
   */
  function GetAllTransaksi(db: Db, page: int, limit: int, status: Field<string>): (r: Reply<TransaksiRow>)
    reads db
    requires page >= 1 && limit >= 1
    ensures r.status == 200 && r.body.PageBody? && |r.body.items| <= limit
    ensures var all := MatchingRows(db.transaksi, db.nextTransaksiId, status);
      r.body.items == Page(all, page, limit)
      && r.body.pagination == Pagination(|all|, page, TotalPages(|all|, limit), |r.body.items|)
  {
    var all := MatchingRows(db.transaksi, db.nextTransaksiId, status);
    PaginatedResponse(Some(200), Some(Page(all, page, limit)), Some(|all|), Some(page),
                      Some(TotalPages(|all|, limit)), Some("Transaksi retrieved"))
  }

  // ----------------------------------------------------- open sessions by plate

  /** The view of one open session: `area_parkir` falls back to "N/A". */
  function AktifOf(id: int, t: Transaksi, k: map<int, Kendaraan>, j: map<int, JenisParkir>, a: map<int, Area>): AktifView
  {
    AktifView(id,
              if t.idKendaraan in k then k[t.idKendaraan].noPolisi else "",
              if t.idJenisParkir in j then j[t.idJenisParkir].namaJenis else "",
              t.waktuMasuk,
              if t.idArf.Some? && t.idArf.value in a && a[t.idArf.value].namaArea != "" then a[t.idArf.value].namaArea else "N/A")
  }

  /**
   * The keys of the open sessions whose vehicle carries `plate`, largest
   * id first. The lookup itself orders by entry time (which a check-in may
   * set), but under the one-open-session invariant at most one key is
   * found (`OpenKeysAtMostOne`), so the order is never observed.
   */
  function OpenKeysForPlate(t: map<int, Transaksi>, next: int, k: map<int, Kendaraan>, plate: string): (ks: seq<int>)
    ensures forall x :: 0 <= x < |ks| ==>
      ks[x] in t && t[ks[x]].Open() && t[ks[x]].idKendaraan in k && k[t[ks[x]].idKendaraan].noPolisi == plate
    ensures forall x, y :: 0 <= x < y < |ks| ==> ks[x] > ks[y]
    ensures forall id :: (1 <= id < next && id in t && t[id].Open() && t[id].idKendaraan in k
                          && k[t[id].idKendaraan].noPolisi == plate) ==> id in ks
  {
    KeysDesc(t, next, (s: Transaksi) => s.Open() && s.idKendaraan in k && k[s.idKendaraan].noPolisi == plate)
  }

  /** The lookup finds something exactly when the plate is parked. */
  lemma OpenKeysFindParked(t: map<int, Transaksi>, next: int, k: map<int, Kendaraan>, plate: string)
    requires KeysBelow(t, next)
    ensures |OpenKeysForPlate(t, next, k, plate)| > 0 <==> PlateParked(t, k, plate)
  {
    var ks := OpenKeysForPlate(t, next, k, plate);
    if |ks| > 0 {
      ParkedWhenActive(t, k, plate, t[ks[0]].idKendaraan, ks[0]);
    }
    if PlateParked(t, k, plate) {
      var i :| i in t && t[i].Open() && t[i].idKendaraan in k && k[t[i].idKendaraan].noPolisi == plate;
      assert i in ks;
    }
  }

  /** Unique plates and one open session per vehicle leave at most one match. */
  lemma OpenKeysAtMostOne(t: map<int, Transaksi>, next: int, k: map<int, Kendaraan>, plate: string)
    requires PlatesUnique(k) && OneOpenPerVehicle(t)
    ensures |OpenKeysForPlate(t, next, k, plate)| <= 1
  {
    var ks := OpenKeysForPlate(t, next, k, plate);
    if |ks| > 1 {
      SamePlateSameSession(t, k, plate, ks[0], ks[1]);
    }
  }

  /** Two open sessions for one plate are the same session. */
  lemma SamePlateSameSession(t: map<int, Transaksi>, k: map<int, Kendaraan>, plate: string, i: int, j: int)
    requires PlatesUnique(k) && OneOpenPerVehicle(t)
    requires i in t && t[i].Open() && t[i].idKendaraan in k && k[t[i].idKendaraan].noPolisi == plate
    requires j in t && t[j].Open() && t[j].idKendaraan in k && k[t[j].idKendaraan].noPolisi == plate
    ensures i == j
  {
  }

  /**
   * `getAktifTransaksi`: 400 without a plate, 404 when the upper-cased
   * plate has no open session, otherwise its open sessions; with unique
   * plates and one open session per vehicle there is exactly one.
   */
  function GetAktifTransaksi(db: Db, nomorPlat: Field<string>): (r: Reply<seq<AktifView>>)
    reads db
    requires db.Valid()
    ensures !Truthy(nomorPlat) ==> r == Fail(400, "Nomor plat harus diisi")
    ensures Truthy(nomorPlat) && !PlateParked(db.transaksi, db.kendaraan, ToUpper(nomorPlat.value)) ==>
      r == Fail(404, "Tidak ada transaksi aktif untuk nomor plat ini")
    ensures r.status == 200 <==> Truthy(nomorPlat) && PlateParked(db.transaksi, db.kendaraan, ToUpper(nomorPlat.value))
    ensures r.status == 200 ==>
      r.body.SuccessBody? && r.body.data.Some? && |r.body.data.value| == 1
      && r.body.data.value[0].idTransaksi in db.transaksi
      && db.transaksi[r.body.data.value[0].idTransaksi].Open()
      && r.body.data.value[0].nomorPlat == ToUpper(nomorPlat.value)
  {
    if !Truthy(nomorPlat) then Fail(400, "Nomor plat harus diisi")
    else
      var t, k, j, a := db.transaksi, db.kendaraan, db.jenisParkir, db.areas;
      var plate := ToUpper(nomorPlat.value);
      var ks := OpenKeysForPlate(t, db.nextTransaksiId, k, plate);
      OpenKeysFindParked(t, db.nextTransaksiId, k, plate);
      OpenKeysAtMostOne(t, db.nextTransaksiId, k, plate);
      if |ks| == 0 then Fail(404, "Tidak ada transaksi aktif untuk nomor plat ini")
      else
        Ok(200, Some(seq(|ks|, x requires 0 <= x < |ks| => AktifOf(ks[x], t[ks[x]], k, j, a))),
           "Aktif transaksi retrieved")
  }
}

=== FILE: transaksi_model.dfy ===
/**
 * A parking transaction row (backend/src/models/Transaksi.js): which
 * vehicle, which parking category and which area, entry and exit times
 * (milliseconds), the stay in minutes, the amounts, the payment method
 * and the payment status. The row's primary key is the key under which
 * the database stores it.
 */
module TransaksiModel {
  import opened Js

  datatype MetodePembayaran = Tunai | Qris

  datatype StatusPembayaran = BelumBayar | Lunas | Paid | Unpaid | Pending

  datatype Transaksi = Transaksi(
    idKendaraan: int,
    idJenisParkir: int,
    idArf: Option<int>,
    waktuMasuk: int,
    waktuKeluar: Option<int>,
    lamaParkir: Option<int>,
    tarifParkir: Option<int>,
    totalBayar: Option<int>,
    metodePembayaran: Option<MetodePembayaran>,
    statusPembayaran: StatusPembayaran)
  {
    /** The vehicle is still parked: no exit time yet. */
    predicate Open() { waktuKeluar.None? }
  }

  const StatusNames: seq<string> := ["belum_bayar", "lunas", "paid", "unpaid", "pending"]

  /** The ENUM label of a payment status. */
  function StatusName(s: StatusPembayaran): (n: string)
    ensures n in StatusNames
  {
    match s
    case BelumBayar => "belum_bayar"
    case Lunas => "lunas"
    case Paid => "paid"
    case Unpaid => "unpaid"
    case Pending => "pending"
  }

  /** The status an ENUM label denotes; exactly the five labels denote one. */
  function ParseStatus(s: string): (r: Option<StatusPembayaran>)
    ensures r.Some? <==> s in StatusNames
    ensures r.Some? ==> StatusName(r.value) == s
  {
    if s == "belum_bayar" then Some(BelumBayar)
    else if s == "lunas" then Some(Lunas)
    else if s == "paid" then Some(Paid)
    else if s == "unpaid" then Some(Unpaid)
    else if s == "pending" then Some(Pending)
    else None
  }

  /** Label and status are in one-to-one correspondence. */
  lemma StatusRoundTrip(s: StatusPembayaran)
    ensures ParseStatus(StatusName(s)) == Some(s)
  {
  }

  /** The ENUM label of a payment method. */
  function MetodeName(m: MetodePembayaran): (n: string)
    ensures n == "tunai" || n == "qris"
  {
    match m
    case Tunai => "tunai"
    case Qris => "qris"
  }

  /** The payment method an ENUM label denotes: only "tunai" and "qris". */
  function ParseMetode(s: string): (r: Option<MetodePembayaran>)
    ensures r.Some? <==> (s == "tunai" || s == "qris")
    ensures r.Some? ==> MetodeName(r.value) == s
  {
    if s == "tunai" then Some(Tunai) else if s == "qris" then Some(Qris) else None
  }

  /**
   * The row `Transaksi.create` stores when given the three references and
   * the entry time: still open, nothing charged, status at its default
   * `belum_bayar`.
   */
  function NewTransaksi(idKendaraan: int, idJenisParkir: int, idArf: Option<int>, waktuMasuk: int): (t: Transaksi)
    ensures t.Open() && t.statusPembayaran == BelumBayar
    ensures t.idKendaraan == idKendaraan && t.idJenisParkir == idJenisParkir && t.idArf == idArf
    ensures t.waktuMasuk == waktuMasuk
    ensures t.lamaParkir.None? && t.tarifParkir.None? && t.totalBayar.None? && t.metodePembayaran.None?
  {
    Transaksi(idKendaraan, idJenisParkir, idArf, waktuMasuk, None, None, None, None, None, BelumBayar)
  }
}

=== FILE: transaksi_page.dfy ===
/**
 * The transaction list screen (frontend/src/app/dashboard/transaksi/page.tsx):
 * one page of `GET /transaksi` at a time, a status badge and label per row,
 * the paid and unpaid counts, the confirm-payment action and the page
 * buttons.
 */
module TransaksiPage {
  import opened Js
  import opened Response
  import opened Client
  import opened Database
  import opened TransaksiModel
  import opened TransaksiController
  import opened TransaksiView

  const PageSize := 20
  const MsgPaymentFailed := "Gagal memproses pembayaran"

  // ------------------------------------------------------------ rows

  /** The row label. */
  function StatusLabel(status: string): (l: string)
    ensures l in {"Lunas", "Pending", "Belum Bayar"}
    ensures l == "Lunas" <==> status == "paid" || status == "lunas"
    ensures l == "Pending" <==> status == "pending"
  {
    if status == "paid" || status == "lunas" then "Lunas"
    else if status == "pending" then "Pending"
    else "Belum Bayar"
  }

  datatype Badge = Green | Yellow | Red

  /** `getStatusColor`. */
  function StatusColor(status: string): Badge
  {
    match status
    case "paid" => Green
    case "lunas" => Green
    case "pending" => Yellow
    case _ => Red
  }

  /** The badge colour and the label always agree. */
  lemma ColorMatchesLabel(status: string)
    ensures StatusColor(status) == Green <==> StatusLabel(status) == "Lunas"
    ensures StatusColor(status) == Yellow <==> StatusLabel(status) == "Pending"
    ensures StatusColor(status) == Red <==> StatusLabel(status) == "Belum Bayar"
  {
  }

  /** The stored statuses the screen shows as paid are exactly `lunas` and `paid`. */
  lemma StoredStatusLabel(s: StatusPembayaran)
    ensures StatusLabel(StatusName(s)) == "Lunas" <==> s == Lunas || s == Paid
    ensures StatusLabel(StatusName(s)) == "Belum Bayar" <==> s == BelumBayar || s == Unpaid
  {
  }

  predicate IsPaid(t: TxView) { t.statusPembayaran == "paid" || t.statusPembayaran == "lunas" }
  predicate NotPaid(t: TxView) { t.statusPembayaran != "paid" && t.statusPembayaran != "lunas" }

  /** The "Pembayaran Lunas" and "Belum Bayar" cards add up to the rows shown. */
  lemma PaidPlusUnpaid(rows: seq<TxView>)
    ensures CountWhere(rows, IsPaid) + CountWhere(rows, NotPaid) == |rows|
  {
    CountWhereSplit(rows, IsPaid, NotPaid);
  }

  /**
   * `item.total_bayar || item.biaya`: the amount is a DECIMAL the backend
   * sends as text, so any amount present is truthy; `biaya` is never sent.
   */
  predicate HasAmount(t: TxView)
  {
    t.totalBayar.Some? || (t.biaya.Some? && t.biaya.value != 0)
  }

  /** The confirm-payment button: an unpaid row that has an amount. */
  predicate ShowsPaymentAction(t: TxView)
  {
    NotPaid(t) && HasAmount(t)
  }

  /** The body of the confirm-payment request. */
  const PaymentStatus := "lunas"

  datatype PaymentRequest = PaymentRequest(idTransaksi: int, statusPembayaran: string)

  /**
   * The confirm-payment request passes the backend's status check and
   * stores `lunas`, after which the row shows as paid and the action is gone.
   */
  lemma PaymentRequestMarksPaid(t: TxView)
    ensures PaymentStatus in StatusNames && ParseStatus(PaymentStatus) == Some(Lunas)
    ensures var paid := t.(statusPembayaran := StatusName(Lunas));
            IsPaid(paid) && StatusLabel(paid.statusPembayaran) == "Lunas" && !ShowsPaymentAction(paid)
  {
  }

  /** No row stored as `lunas` (what check-out stores) matches the "Lunas" filter, which sends `paid`. */
  lemma PaidFilterMissesLunas(t: Transaksi)
    requires t.statusPembayaran == Lunas
    ensures !StatusFilter(Val("paid"), t)
  {
  }

  // ------------------------------------------------------------ pages

  /** The JSON keys of the pagination object: `total`, `page`, `pages`, `perPage`. */
  function PaginationField(p: Pagination, key: string): (v: Option<int>)
    ensures v.Some? <==> key in {"total", "page", "pages", "perPage"}
  {
    match key
    case "total" => Some(p.total)
    case "page" => Some(p.page)
    case "pages" => Some(p.pages)
    case "perPage" => Some(p.perPage)
    case _ => None
  }

  /** `x || 1` for a page count read from the reply. */
  function OrOne(v: Option<int>): (n: int)
    ensures v.Some? && v.value != 0 ==> n == v.value
    ensures v.None? || v.value == 0 ==> n == 1
  {
    if v.Some? && v.value != 0 then v.value else 1
  }

  /** `response.data?.pagination?.totalPages || 1`, as written: a key the backend never sends. */
  function TotalPagesAsWritten<T>(body: Body<T>): (n: int)
  {
    OrOne(if body.PageBody? then PaginationField(body.pagination, "totalPages") else None)
  }

  /** As written, the page count is 1 whatever the reply says. */
  lemma TotalPagesAsWrittenIsOne<T>(body: Body<T>)
    ensures TotalPagesAsWritten(body) == 1
  {
  }

  /**
   * 45 matching rows make three pages of 20, but as written the screen
   * counts one page, and "next" from page 1 stays on page 1.
   */
  lemma NextStuckAsWritten(items: seq<TxView>)
    ensures var body := PageBody("Transaksi retrieved", items, Pagination(45, 1, TotalPages(45, PageSize), |items|));
            body.pagination.pages == 3 && TotalPagesAsWritten(body) == 1
            && NextPage(1, TotalPagesAsWritten(body)) == 1
  {
    assert TotalPages(45, PageSize) == 3;
  }

  /** The page count read from the `pages` key the backend sends, 1 when it is missing or 0. */
  function TotalPagesOf<T>(body: Body<T>): (n: int)
  {
    OrOne(if body.PageBody? then PaginationField(body.pagination, "pages") else None)
  }

  /** For the backend's listing, the corrected count is the number of pages of matching rows, at least 1. */
  lemma TotalPagesOfListing(db: Db, page: int, status: Field<string>)
    requires page >= 1
    ensures var all := MatchingRows(db.transaksi, db.nextTransaksiId, status);
            TotalPagesOf(GetAllTransaksi(db, page, PageSize, status).body) == Max(1, TotalPages(|all|, PageSize))
            && (TotalPagesOf(GetAllTransaksi(db, page, PageSize, status).body) - 1) * PageSize < Max(1, |all|)
  {
  }

  /** With the corrected count "next" walks through every page: page 2 of the 45-row listing is reachable. */
  lemma NextReachesSecondPage(items: seq<TxView>)
    ensures var body := PageBody("Transaksi retrieved", items, Pagination(45, 1, TotalPages(45, PageSize), |items|));
            TotalPagesOf(body) == 3 && NextPage(1, TotalPagesOf(body)) == 2
  {
    assert TotalPages(45, PageSize) == 3;
  }

  /** "Sebelumnya": `Math.max(1, page - 1)`. */
  function PrevPage(page: int): (p: int)
    ensures p >= 1 && (page > 1 ==> p == page - 1) && (page <= 1 ==> p == 1)
  {
    Max(1, page - 1)
  }

  /** "Selanjutnya": `Math.min(totalPages, page + 1)`. */
  function NextPage(page: int, totalPages: int): (p: int)
    ensures page < totalPages ==> p == page + 1
    ensures page >= totalPages ==> p == totalPages
  {
    Min(totalPages, page + 1)
  }

  /** Both buttons keep a page that is within [1, totalPages] within it. */
  lemma PageButtonsStayInRange(page: int, totalPages: int)
    requires 1 <= page <= totalPages
    ensures 1 <= PrevPage(page) <= totalPages && 1 <= NextPage(page, totalPages) <= totalPages
  {
  }

  /** The query of one fetch: `page`, `limit`, `search`, and `status` unless the filter is `all`. */
  datatype ListRequest = ListRequest(page: int, limit: int, search: string, status: Option<string>)

  /** `response.data?.data || []`: the rows of a listing. */
  function ListedRows(body: Body<TxView>): seq<TxView>
  {
    if body.PageBody? then body.items else []
  }

  /** The screen's state, with the requests it has sent. */
  class TransaksiScreen {
    var transaksi: seq<TxView>
    var search: string
    var page: int
    var totalPages: int
    var filterStatus: string
    var showPaymentModal: bool
    var selected: Option<TxView>
    var alert: Option<string>
    var requests: seq<ListRequest>
    var payments: seq<PaymentRequest>

    constructor()
      ensures transaksi == [] && search == "" && page == 1 && totalPages == 1 && filterStatus == "all"
      ensures !showPaymentModal && selected.None? && alert.None? && requests == [] && payments == []
    {
      transaksi := [];
      search := "";
      page, totalPages := 1, 1;
      filterStatus := "all";
      showPaymentModal := false;
      selected := None;
      alert := None;
      requests, payments := [], [];
    }

    /** The query the next fetch sends. */
    function Query(): (q: ListRequest)
      reads this
      ensures q.page == page && q.limit == PageSize && q.search == search
      ensures q.status.Some? <==> filterStatus != "all"
      ensures q.status.Some? ==> q.status.value == filterStatus
    {
      ListRequest(page, PageSize, search, if filterStatus != "all" then Some(filterStatus) else None)
    }

    /**
     * `fetchTransaksi`: a 200 reply replaces the rows and the page count,
     * read as written from `totalPages` and so always 1; a failed call
     * empties the list, any other 2xx reply changes nothing.
     */
    method FetchTransaksi(answer: Answer<TxView>)
      modifies this
      ensures requests == old(requests) + [old(Query())]
      ensures answer.Answered? && answer.reply.status == 200 ==>
                transaksi == ListedRows(answer.reply.body) && totalPages == TotalPagesAsWritten(answer.reply.body)
                && totalPages == 1
      ensures !answer.Resolves() ==> transaksi == [] && totalPages == old(totalPages)
      ensures answer.Resolves() && answer.reply.status != 200 ==> transaksi == old(transaksi) && totalPages == old(totalPages)
      ensures page == old(page) && search == old(search) && filterStatus == old(filterStatus)
      ensures showPaymentModal == old(showPaymentModal) && selected == old(selected) && alert == old(alert) && payments == old(payments)
    {
      requests := requests + [Query()];
      if !answer.Resolves() {
        transaksi := [];
      } else if answer.reply.status == 200 {
        transaksi := ListedRows(answer.reply.body);
        totalPages := TotalPagesAsWritten(answer.reply.body);
        TotalPagesAsWrittenIsOne(answer.reply.body);
      }
    }

    /** Typing in the search box goes back to page 1. */
    method SetSearch(s: string)
      modifies this
      ensures search == s && page == 1
      ensures filterStatus == old(filterStatus) && transaksi == old(transaksi) && totalPages == old(totalPages)
      ensures showPaymentModal == old(showPaymentModal) && selected == old(selected) && alert == old(alert)
      ensures requests == old(requests) && payments == old(payments)
    {
      search := s;
      page := 1;
    }

    /** Choosing a status filter goes back to page 1. */
    method SetFilter(f: string)
      modifies this
      ensures filterStatus == f && page == 1
      ensures search == old(search) && transaksi == old(transaksi) && totalPages == old(totalPages)
      ensures showPaymentModal == old(showPaymentModal) && selected == old(selected) && alert == old(alert)
      ensures requests == old(requests) && payments == old(payments)
    {
      filterStatus := f;
      page := 1;
    }

    /** The previous-page button. */
    method Prev()
      modifies this
      ensures page == PrevPage(old(page))
      ensures old(1 <= page <= totalPages) ==> 1 <= page <= totalPages
      ensures search == old(search) && filterStatus == old(filterStatus) && transaksi == old(transaksi) && totalPages == old(totalPages)
      ensures showPaymentModal == old(showPaymentModal) && selected == old(selected) && alert == old(alert)
      ensures requests == old(requests) && payments == old(payments)
    {
      page := PrevPage(page);
    }

    /** The next-page button. */
    method Next()
      modifies this
      ensures page == NextPage(old(page), totalPages)
      ensures old(1 <= page <= totalPages) ==> 1 <= page <= totalPages
      ensures search == old(search) && filterStatus == old(filterStatus) && transaksi == old(transaksi) && totalPages == old(totalPages)
      ensures showPaymentModal == old(showPaymentModal) && selected == old(selected) && alert == old(alert)
      ensures requests == old(requests) && payments == old(payments)
    {
      page := NextPage(page, totalPages);
    }

    /** The confirm-payment button of a row; rows without the action have no button. */
    method OpenPayment(t: TxView)
      modifies this
      ensures ShowsPaymentAction(t) ==> selected == Some(t) && showPaymentModal
      ensures !ShowsPaymentAction(t) ==> selected == old(selected) && showPaymentModal == old(showPaymentModal)
      ensures search == old(search) && filterStatus == old(filterStatus) && transaksi == old(transaksi)
      ensures page == old(page) && totalPages == old(totalPages) && alert == old(alert)
      ensures requests == old(requests) && payments == old(payments)
    {
      if ShowsPaymentAction(t) {
        selected := Some(t);
        showPaymentModal := true;
      }
    }

    /**
     * `handlePayment`: sends `status_pembayaran: 'lunas'` for the selected
     * row; success closes the dialog, failure raises an alert. The list
     * fetch the source runs after a success is not part of this method: it
     * is a separate `FetchTransaksi` call, so `requests` is unchanged here.
     */
    method HandlePayment(answer: Answer<TransaksiRow>)
      modifies this
      ensures old(selected).None? ==> payments == old(payments) && selected == old(selected)
                                      && showPaymentModal == old(showPaymentModal) && alert == old(alert)
      ensures old(selected).Some? ==> payments == old(payments) + [PaymentRequest(old(selected).value.idTransaksi, PaymentStatus)]
      ensures old(selected).Some? && answer.Resolves() ==> !showPaymentModal && selected.None? && alert == old(alert)
      ensures old(selected).Some? && !answer.Resolves() ==> alert == Some(MsgPaymentFailed)
                                                            && selected == old(selected) && showPaymentModal == old(showPaymentModal)
      ensures search == old(search) && filterStatus == old(filterStatus) && transaksi == old(transaksi)
      ensures page == old(page) && totalPages == old(totalPages) && requests == old(requests)
    {
      if selected.None? {
        return;
      }
      payments := payments + [PaymentRequest(selected.value.idTransaksi, PaymentStatus)];
      if answer.Resolves() {
        showPaymentModal := false;
        selected := None;
      } else {
        alert := Some(MsgPaymentFailed);
      }
    }
  }
}

=== FILE: transaksi_view.dfy ===
/**
 * A transaction as the dashboard screens receive it from `GET /transaksi`:
 * the stored row with the names its vehicle, category and area joins
 * bring along, and the status as the text the screens compare. The
 * amount sums every dashboard computes (`Number(total_bayar)` counted
 * only when positive) are defined here once.
 */
module TransaksiView {
  import opened Js
  import opened TransaksiModel
  import opened TransaksiController

  datatype TxView = TxView(
    idTransaksi: int,
    waktuMasuk: int,
    waktuKeluar: Option<int>,
    totalBayar: Option<int>,
    tarifParkir: Option<int>,
    /** A column the transaction screen reads that the backend never sends. */
    biaya: Option<int>,
    metodePembayaran: Option<MetodePembayaran>,
    statusPembayaran: string,
    noPolisi: Option<string>,
    namaJenis: Option<string>,
    namaArea: Option<string>)

  /** The JSON of a stored row joined with its vehicle plate, category name and area name. */
  function ViewOf(r: TransaksiRow, noPolisi: Option<string>, namaJenis: Option<string>, namaArea: Option<string>): (v: TxView)
    ensures v.idTransaksi == r.id && v.waktuMasuk == r.row.waktuMasuk && v.waktuKeluar == r.row.waktuKeluar
    ensures v.totalBayar == r.row.totalBayar && v.biaya.None?
    ensures ParseStatus(v.statusPembayaran) == Some(r.row.statusPembayaran)
  {
    StatusRoundTrip(r.row.statusPembayaran);
    TxView(r.id, r.row.waktuMasuk, r.row.waktuKeluar, r.row.totalBayar, r.row.tarifParkir, None,
           r.row.metodePembayaran, StatusName(r.row.statusPembayaran), noPolisi, namaJenis, namaArea)
  }

  predicate IsLunas(t: TxView) { t.statusPembayaran == "lunas" }

  /** `Number(t.total_bayar)` when it is a positive number, else nothing (0) towards a sum. */
  function PositiveAmount(t: TxView): (a: int)
    ensures a >= 0
    ensures a > 0 <==> t.totalBayar.Some? && t.totalBayar.value > 0
  {
    if t.totalBayar.Some? && t.totalBayar.value > 0 then t.totalBayar.value else 0
  }

  /** The positive amounts of the rows satisfying `p`, added up. */
  function SumWhere(ts: seq<TxView>, p: TxView -> bool): (s: int)
    ensures s >= 0
    decreases |ts|
  {
    if |ts| == 0 then 0
    else (if p(ts[0]) then PositiveAmount(ts[0]) else 0) + SumWhere(ts[1..], p)
  }

  /** The number of rows satisfying `p`. */
  function CountWhere(ts: seq<TxView>, p: TxView -> bool): (n: nat)
    ensures n <= |ts|
    decreases |ts|
  {
    if |ts| == 0 then 0 else (if p(ts[0]) then 1 else 0) + CountWhere(ts[1..], p)
  }

  /** Summing over rows that satisfy `p` never exceeds summing over rows that satisfy a weaker `q`. */
  lemma {:induction false} SumWhereMonotone(ts: seq<TxView>, p: TxView -> bool, q: TxView -> bool)
    requires forall t :: p(t) ==> q(t)
    ensures SumWhere(ts, p) <= SumWhere(ts, q)
    decreases |ts|
  {
    if |ts| > 0 {
      SumWhereMonotone(ts[1..], p, q);
    }
  }

  /** Two sums over disjoint parts of the rows satisfying `q` add up to at most the sum over `q`. */
  lemma {:induction false} SumWhereDisjoint(ts: seq<TxView>, p1: TxView -> bool, p2: TxView -> bool, q: TxView -> bool)
    requires forall t :: p1(t) ==> q(t)
    requires forall t :: p2(t) ==> q(t)
    requires forall t :: !(p1(t) && p2(t))
    ensures SumWhere(ts, p1) + SumWhere(ts, p2) <= SumWhere(ts, q)
    decreases |ts|
  {
    if |ts| > 0 {
      SumWhereDisjoint(ts[1..], p1, p2, q);
    }
  }

  /** Nothing satisfies `p`: the sum is 0. */
  lemma {:induction false} SumWhereNone(ts: seq<TxView>, p: TxView -> bool)
    requires forall t :: !p(t)
    ensures SumWhere(ts, p) == 0
    decreases |ts|
  {
    if |ts| > 0 {
      SumWhereNone(ts[1..], p);
    }
  }

  /** Summing over two disjoint conditions is summing over either of them. */
  lemma {:induction false} SumWhereUnion(ts: seq<TxView>, p1: TxView -> bool, p2: TxView -> bool, q: TxView -> bool)
    requires forall t :: q(t) <==> p1(t) || p2(t)
    requires forall t :: !(p1(t) && p2(t))
    ensures SumWhere(ts, p1) + SumWhere(ts, p2) == SumWhere(ts, q)
    decreases |ts|
  {
    if |ts| > 0 {
      SumWhereUnion(ts[1..], p1, p2, q);
    }
  }

  /** Counting rows that satisfy `p` never exceeds counting rows that satisfy a weaker `q`. */
  lemma {:induction false} CountWhereMonotone(ts: seq<TxView>, p: TxView -> bool, q: TxView -> bool)
    requires forall t :: p(t) ==> q(t)
    ensures CountWhere(ts, p) <= CountWhere(ts, q)
    decreases |ts|
  {
    if |ts| > 0 {
      CountWhereMonotone(ts[1..], p, q);
    }
  }

  /** Rows satisfying one of two exclusive conditions are never more than all rows. */
  lemma {:induction false} CountWhereDisjoint(ts: seq<TxView>, p1: TxView -> bool, p2: TxView -> bool)
    requires forall t :: !(p1(t) && p2(t))
    ensures CountWhere(ts, p1) + CountWhere(ts, p2) <= |ts|
    decreases |ts|
  {
    if |ts| > 0 {
      CountWhereDisjoint(ts[1..], p1, p2);
    }
  }

  /** Rows satisfying `p` and rows failing it make up all rows. */
  lemma {:induction false} CountWhereSplit(ts: seq<TxView>, p: TxView -> bool, q: TxView -> bool)
    requires forall t :: q(t) <==> !p(t)
    ensures CountWhere(ts, p) + CountWhere(ts, q) == |ts|
    decreases |ts|
  {
    if |ts| > 0 {
      CountWhereSplit(ts[1..], p, q);
    }
  }

  /** Keeping the rows that satisfy `p`, in order. */
  function Keep(ts: seq<TxView>, p: TxView -> bool): (r: seq<TxView>)
    ensures |r| == CountWhere(ts, p)
    ensures forall x :: 0 <= x < |r| ==> p(r[x]) && r[x] in ts
    ensures forall x :: 0 <= x < |ts| && p(ts[x]) ==> ts[x] in r
    decreases |ts|
  {
    if |ts| == 0 then []
    else
      assert forall x :: 1 <= x < |ts| ==> ts[x] == ts[1..][x - 1];
      if p(ts[0]) then [ts[0]] + Keep(ts[1..], p) else Keep(ts[1..], p)
  }

  /** Summing over the kept rows is summing over the rows that satisfy both conditions. */
  lemma {:induction false} SumOfKept(ts: seq<TxView>, p: TxView -> bool, q: TxView -> bool, both: TxView -> bool)
    requires forall t :: both(t) <==> p(t) && q(t)
    ensures SumWhere(Keep(ts, p), q) == SumWhere(ts, both)
    decreases |ts|
  {
    if |ts| > 0 {
      SumOfKept(ts[1..], p, q, both);
      if p(ts[0]) {
        var rest := Keep(ts[1..], p);
        assert ([ts[0]] + rest)[1..] == rest;
      }
    }
  }

  /** Counting among the kept rows is counting the rows that satisfy both conditions. */
  lemma {:induction false} CountOfKept(ts: seq<TxView>, p: TxView -> bool, q: TxView -> bool, both: TxView -> bool)
    requires forall t :: both(t) <==> p(t) && q(t)
    ensures CountWhere(Keep(ts, p), q) == CountWhere(ts, both)
    decreases |ts|
  {
    if |ts| > 0 {
      CountOfKept(ts[1..], p, q, both);
      if p(ts[0]) {
        var rest := Keep(ts[1..], p);
        assert ([ts[0]] + rest)[1..] == rest;
      }
    }
  }
}

=== FILE: user_controller.dfy ===
/**
 * The staff-account endpoints (backend/src/controllers/userController.js):
 * listing and lookup without the password column, creation with a unique
 * username and the model's validators, a merge update that never touches
 * the username or the password, a delete that refuses the caller's own
 * account, and a password reset.
 *
 * Password hashing and the e-mail validator are opaque functions passed
 * in. Sequelize's validation error is not the `ValidationError` name the
 * error handler recognises, so a failed validator reaches the client as a
 * 500 carrying Sequelize's message.
 */
module UserController {
  import opened Js
  import opened Response
  import opened ErrorHandler
  import opened UserModel
  import opened Database

  /** The body of `createUser`. */
  datatype CreateBody = CreateBody(username: Field<string>, password: Field<string>, namaLengkap: Field<string>,
                                   email: Field<string>, noTelepon: Field<string>, role: Field<string>)

  /** The body of `updateUser`. */
  datatype UpdateBody = UpdateBody(namaLengkap: Field<string>, email: Field<string>, noTelepon: Field<string>,
                                   role: Field<string>, statusAktif: Field<bool>)

  /** The object `createUser` answers with. */
  datatype CreatedView = CreatedView(idUser: int, username: string, namaLengkap: string, email: Option<string>, role: Role)

  /** The object `updateUser` answers with. */
  datatype UpdatedView = UpdatedView(idUser: int, username: string, namaLengkap: string, email: Option<string>,
                                     role: Role, statusAktif: Option<bool>)

  // ------------------------------------------------------- errors on save

  /** One failed validator, as Sequelize reports it. */
  function ValidatorItem(attribute: string, validator: string): (item: ErrorItem)
    ensures item.path == Some(attribute)
  {
    ErrorItem(Some(attribute), "Validation " + validator + " on " + attribute + " failed")
  }

  /** Sequelize's validation message: each item as `Validation error: <message>`, joined by ",\n". */
  function ValidationMessage(items: seq<ErrorItem>): string
  {
    if |items| == 0 then ""
    else if |items| == 1 then "Validation error: " + items[0].message
    else "Validation error: " + items[0].message + ",\n" + ValidationMessage(items[1..])
  }

  /** The validators of the attributes being saved: `len: [3, 50]` on the username, `isEmail` on a non-null e-mail. */
  function FailedValidators(username: Option<string>, email: Option<string>, isEmail: string -> bool): (items: seq<ErrorItem>)
    ensures |items| <= 2
    ensures ValidatorItem("username", "len") in items <==> username.Some? && !UsernameLengthOk(username.value)
    ensures ValidatorItem("email", "isEmail") in items <==> email.Some? && !isEmail(email.value)
    ensures forall x :: 0 <= x < |items| ==> items[x] == ValidatorItem("username", "len") || items[x] == ValidatorItem("email", "isEmail")
  {
    var badName := username.Some? && !UsernameLengthOk(username.value);
    var badEmail := email.Some? && !isEmail(email.value);
    var u := ValidatorItem("username", "len");
    var e := ValidatorItem("email", "isEmail");
    assert u.path != e.path by {
      assert |"username"| != |"email"|;
    }
    if badName && badEmail then [u, e]
    else if badName then [u]
    else if badEmail then [e]
    else []
  }

  /** The error a failed validation throws. */
  function ValidationFailure(items: seq<ErrorItem>): Thrown
  {
    Thrown("SequelizeValidationError", Undefined, Val(ValidationMessage(items)), Some(items))
  }

  /** MySQL in strict mode refuses a label outside the ENUM. */
  const BadRole: Thrown :=
    Thrown("SequelizeDatabaseError", Undefined, Val("Data truncated for column 'role' at row 1"), None)

  /** The UNIQUE index on `email` refuses a duplicate. */
  const DuplicateEmail: Thrown :=
    Thrown("SequelizeUniqueConstraintError", Undefined, Val("Validation error"),
           Some([ErrorItem(Some("email"), "email must be unique")]))

  /** The handler answers a duplicate e-mail with 400 "email sudah digunakan". */
  lemma DuplicateEmailReply()
    ensures Handle(DuplicateEmail) == Some(HandlerReply(400, "email sudah digunakan", RawErrors(DuplicateEmail.errors.value)))
  {
    assert FirstPathText(DuplicateEmail.errors.value) + " sudah digunakan" == "email sudah digunakan";
  }

  /** A failed validator reaches the client as a 500 with Sequelize's message. */
  lemma ValidationFailureReply(items: seq<ErrorItem>)
    ensures Handle(ValidationFailure(items)).Some?
    ensures Handle(ValidationFailure(items)).value.status == 500
  {
    assert !KnownName(ValidationFailure(items).name);
    UnknownNameDefaults(ValidationFailure(items));
  }

  /** Another account already holds the e-mail. */
  predicate EmailTaken(u: map<int, User>, email: Option<string>, except: int)
  {
    email.Some? && exists i | i in u :: i != except && u[i].email == email
  }

  /** Some account already holds the username. */
  predicate UsernameTaken(u: map<int, User>, username: string)
  {
    exists i | i in u :: u[i].username == username
  }

  // ---------------------------------------------------------------- listing

  /** The listing's role filter: none, or the role's label equals it. */
  predicate RoleFilter(role: Field<string>, u: User)
  {
    !Truthy(role) || RoleName(u.role) == role.value
  }

  /** The rows of a user listing, each without its password. */
  function PublicRows(rows: seq<Keyed<User>>): (p: seq<PublicUser>)
    ensures |p| == |rows|
    ensures forall x :: 0 <= x < |rows| ==> p[x] == Public(rows[x].id, rows[x].row)
  {
    seq(|rows|, x requires 0 <= x < |rows| => Public(rows[x].id, rows[x].row))
  }

  /**
   * `getAllUsers`: one page of the accounts the role filter keeps, newest
   * key first, passwords excluded; the pagination counts them all.
   */
  function GetAllUsers(db: Db, page: int, limit: int, role: Field<string>): (r: Reply<PublicUser>)
    reads db
    requires page >= 1 && limit >= 1
    ensures r.status == 200 && r.body.PageBody? && |r.body.items| <= limit
    ensures var all := ListDesc(db.users, db.nextUserId, (u: User) => RoleFilter(role, u));
      r.body.items == PublicRows(Page(all, page, limit))
      && r.body.pagination == Pagination(|all|, page, TotalPages(|all|, limit), |r.body.items|)
  {
    var all := ListDesc(db.users, db.nextUserId, (u: User) => RoleFilter(role, u));
    PaginatedResponse(Some(200), Some(PublicRows(Page(all, page, limit))), Some(|all|), Some(page),
                      Some(TotalPages(|all|, limit)), Some("Users retrieved"))
  }

  /** `getUserById`: 404, or the account without its password. */
  function GetUserById(db: Db, id: int): (r: Reply<PublicUser>)
    reads db
    ensures id !in db.users ==> r == Fail(404, "User tidak ditemukan")
    ensures id in db.users ==> r.status == 200 && r.body.SuccessBody? && r.body.data == Some(Public(id, db.users[id]))
  {
    if id !in db.users then Fail(404, "User tidak ditemukan")
    else Ok(200, Some(Public(id, db.users[id])), "User retrieved")
  }

  // ----------------------------------------------------------------- create

  /** The role a new account gets: the one sent, or "operator". */
  function RoleLabel(role: Field<string>): string
  {
    StrOr(role, "operator")
  }

  /** The required fields of `createUser`. */
  predicate CreateRequired(body: CreateBody)
  {
    Truthy(body.username) && Truthy(body.password) && Truthy(body.namaLengkap)
  }

  /** The row `createUser` inserts, for a role label that the ENUM accepts. */
  function CreatedUser(body: CreateBody, hash: string -> string): (u: User)
    requires CreateRequired(body) && ParseRole(RoleLabel(body.role)).Some?
    ensures u.username == body.username.value && u.password == hash(body.password.value)
    ensures u.namaLengkap == body.namaLengkap.value
    ensures u.email == (if body.email.Val? then Some(body.email.value) else None)
    ensures u.noTelepon == (if body.noTelepon.Val? then Some(body.noTelepon.value) else None)
    ensures !Truthy(body.role) ==> u.role == Operator
    ensures RoleName(u.role) == RoleLabel(body.role)
    ensures u.statusAktif == Some(true)
  {
    User(body.username.value, hash(body.password.value), body.namaLengkap.value,
         IfDefined(body.email, None), IfDefined(body.noTelepon, None),
         ParseRole(RoleLabel(body.role)).value, Some(true))
  }

  /**
   * `createUser`: 400 for a missing required field, 400 for a taken
   * username; then the insert, which a failed validator, a role outside
   * the ENUM or a taken e-mail rejects; otherwise the new account (without
   * password or phone) and 201. A rejected request stores nothing.
   */
  method CreateUser(db: Db, body: CreateBody, hash: string -> string, isEmail: string -> bool)
    returns (r: Settled<CreatedView>)
    requires db.Valid()
    modifies db`users, db`nextUserId
    ensures db.Valid()
    ensures !CreateRequired(body) ==> r == Resolved(Fail(400, "Username, password, dan nama_lengkap wajib diisi"))
    ensures CreateRequired(body) && UsernameTaken(old(db.users), body.username.value) ==>
      r == Resolved(Fail(400, "Username sudah terdaftar"))
    ensures CreateRequired(body) && !UsernameTaken(old(db.users), body.username.value) ==>
      var items := FailedValidators(Some(body.username.value), IfDefined(body.email, None), isEmail);
      (|items| > 0 ==> r == Rejected(ValidationFailure(items)))
      && (|items| == 0 && ParseRole(RoleLabel(body.role)).None? ==> r == Rejected(BadRole))
      && (|items| == 0 && ParseRole(RoleLabel(body.role)).Some? && EmailTaken(old(db.users), IfDefined(body.email, None), 0) ==>
            r == Rejected(DuplicateEmail))
      && (|items| == 0 && ParseRole(RoleLabel(body.role)).Some? && !EmailTaken(old(db.users), IfDefined(body.email, None), 0) ==>
            r.Resolved? && r.reply.status == 201)
    ensures !(r.Resolved? && r.reply.status == 201) ==>
      db.users == old(db.users) && db.nextUserId == old(db.nextUserId)
    ensures r.Resolved? && r.reply.status == 201 ==>
      CreateRequired(body) && ParseRole(RoleLabel(body.role)).Some?
      && var u := CreatedUser(body, hash);
      var id := old(db.nextUserId);
      id !in old(db.users)
      && db.users == old(db.users)[id := u] && db.nextUserId == id + 1
      && r.reply == Ok(201, Some(CreatedView(id, u.username, u.namaLengkap, u.email, u.role)), "User berhasil ditambahkan")
  {
    if !CreateRequired(body) {
      return Resolved(Fail(400, "Username, password, dan nama_lengkap wajib diisi"));
    }
    if UsernameTaken(db.users, body.username.value) {
      return Resolved(Fail(400, "Username sudah terdaftar"));
    }
    var email := IfDefined(body.email, None);
    var items := FailedValidators(Some(body.username.value), email, isEmail);
    if |items| > 0 {
      return Rejected(ValidationFailure(items));
    }
    var role := ParseRole(RoleLabel(body.role));
    if role.None? {
      return Rejected(BadRole);
    }
    if EmailTaken(db.users, email, 0) {
      return Rejected(DuplicateEmail);
    }
    var id := db.nextUserId;
    var u := CreatedUser(body, hash);
    db.users := db.users[id := u];
    db.nextUserId := id + 1;
    r := Resolved(Ok(201, Some(CreatedView(id, u.username, u.namaLengkap, u.email, u.role)), "User berhasil ditambahkan"));
  }

  // ----------------------------------------------------------------- update

  /**
   * The attributes `updateUser` assigns: name, e-mail, phone and role are
   * replaced only by truthy values, the active flag by anything defined;
   * the username and the password are never touched.
   */
  function Merged(u: User, body: UpdateBody, role: Role): (m: User)
    ensures m.username == u.username && m.password == u.password
    ensures m.namaLengkap == StrOr(body.namaLengkap, u.namaLengkap)
    ensures m.email == (if Truthy(body.email) then Some(body.email.value) else u.email)
    ensures m.noTelepon == (if Truthy(body.noTelepon) then Some(body.noTelepon.value) else u.noTelepon)
    ensures m.role == role
    ensures m.statusAktif == IfDefined(body.statusAktif, u.statusAktif)
  {
    u.(namaLengkap := StrOr(body.namaLengkap, u.namaLengkap),
       email := if Truthy(body.email) then Some(body.email.value) else u.email,
       noTelepon := if Truthy(body.noTelepon) then Some(body.noTelepon.value) else u.noTelepon,
       role := role,
       statusAktif := IfDefined(body.statusAktif, u.statusAktif))
  }

  /** The role label the merge assigns: the one sent, or the current one. */
  function MergedRoleLabel(u: User, body: UpdateBody): string
  {
    StrOr(body.role, RoleName(u.role))
  }

  /** A label the merge assigns is always accepted when none is sent. */
  lemma KeptRoleIsValid(u: User, body: UpdateBody)
    requires !Truthy(body.role)
    ensures ParseRole(MergedRoleLabel(u, body)) == Some(u.role)
  {
  }

  /**
   * `updateUser`: 404 for an unknown id; saving validates a changed
   * e-mail, and the database refuses a role outside the ENUM or an
   * e-mail another account holds; otherwise the merged row and 200.
   * Validation runs before the database sees the row, so a bad e-mail
   * is reported even when the role is bad too.
   */
  method UpdateUser(db: Db, id: int, body: UpdateBody, isEmail: string -> bool) returns (r: Settled<UpdatedView>)
    requires db.Valid()
    modifies db`users
    ensures db.Valid()
    ensures id !in old(db.users) ==> r == Resolved(Fail(404, "User tidak ditemukan"))
    ensures !(r.Resolved? && r.reply.status == 200) ==> db.users == old(db.users)
    ensures id in old(db.users) && Truthy(body.email) && !isEmail(body.email.value) ==>
      r == Rejected(ValidationFailure(FailedValidators(None, Some(body.email.value), isEmail)))
    ensures id in old(db.users) && !(Truthy(body.email) && !isEmail(body.email.value)) ==>
      var u := old(db.users)[id];
      var role := ParseRole(MergedRoleLabel(u, body));
      (role.None? ==> r == Rejected(BadRole))
      && (role.Some? && EmailTaken(old(db.users), Merged(u, body, role.value).email, id) ==> r == Rejected(DuplicateEmail))
      && (role.Some? && !EmailTaken(old(db.users), Merged(u, body, role.value).email, id) ==>
            r.Resolved? && r.reply.status == 200)
    ensures r.Resolved? && r.reply.status == 200 ==>
      id in old(db.users)
      && var u := old(db.users)[id];
      ParseRole(MergedRoleLabel(u, body)).Some?
      && var m := Merged(u, body, ParseRole(MergedRoleLabel(u, body)).value);
      db.users == old(db.users)[id := m]
      && r.reply == Ok(200, Some(UpdatedView(id, m.username, m.namaLengkap, m.email, m.role, m.statusAktif)), "User berhasil diupdate")
  {
    if id !in db.users {
      return Resolved(Fail(404, "User tidak ditemukan"));
    }
    var u := db.users[id];
    if Truthy(body.email) && !isEmail(body.email.value) {
      return Rejected(ValidationFailure(FailedValidators(None, Some(body.email.value), isEmail)));
    }
    var role := ParseRole(MergedRoleLabel(u, body));
    if role.None? {
      return Rejected(BadRole);
    }
    var m := Merged(u, body, role.value);
    if EmailTaken(db.users, m.email, id) {
      return Rejected(DuplicateEmail);
    }
    db.users := db.users[id := m];
    r := Resolved(Ok(200, Some(UpdatedView(id, m.username, m.namaLengkap, m.email, m.role, m.statusAktif)), "User berhasil diupdate"));
  }

  // ----------------------------------------------------------------- delete

  /**
   * `deleteUser`: the caller's own id is refused before any lookup; then
   * 404 for an unknown id; otherwise the account is removed.
   */
  method DeleteUser(db: Db, callerId: int, id: int) returns (r: Reply<PublicUser>)
    requires db.Valid()
    modifies db`users
    ensures db.Valid()
    ensures callerId == id ==> r == Fail(400, "Tidak dapat menghapus akun Anda sendiri") && db.users == old(db.users)
    ensures callerId != id && id !in old(db.users) ==> r == Fail(404, "User tidak ditemukan") && db.users == old(db.users)
    ensures callerId != id && id in old(db.users) ==>
      r == Ok(200, None, "User berhasil dihapus") && db.users == old(db.users) - {id}
  {
    if callerId == id {
      return Fail(400, "Tidak dapat menghapus akun Anda sendiri");
    }
    if id !in db.users {
      return Fail(404, "User tidak ditemukan");
    }
    db.users := db.users - {id};
    r := Ok(200, None, "User berhasil dihapus");
  }

  // ---------------------------------------------------------- reset password

  /**
   * `resetPassword`: 400 without a new password, 404 for an unknown id;
   * otherwise only the password changes, to the new password's hash.
   */
  method ResetPassword(db: Db, id: int, newPassword: Field<string>, hash: string -> string) returns (r: Reply<PublicUser>)
    requires db.Valid()
    modifies db`users
    ensures db.Valid()
    ensures !Truthy(newPassword) ==> r == Fail(400, "Password baru wajib diisi") && db.users == old(db.users)
    ensures Truthy(newPassword) && id !in old(db.users) ==> r == Fail(404, "User tidak ditemukan") && db.users == old(db.users)
    ensures Truthy(newPassword) && id in old(db.users) ==>
      db.users == old(db.users)[id := old(db.users)[id].(password := hash(newPassword.value))]
      && r == Ok(200, None, "Password user berhasil direset")
  {
    if !Truthy(newPassword) {
      return Fail(400, "Password baru wajib diisi");
    }
    if id !in db.users {
      return Fail(404, "User tidak ditemukan");
    }
    db.users := db.users[id := db.users[id].(password := hash(newPassword.value))];
    r := Ok(200, None, "Password user berhasil direset");
  }
}

=== FILE: user_model.dfy ===
/**
 * A staff account (backend/src/models/User.js): unique username of 3 to
 * 50 characters, password hash, full name, optional unique e-mail and
 * phone, role (default "operator") and a nullable active flag (default
 * true).
 */
module UserModel {
  import opened Js

  datatype Role = Admin | Operator | Manager | Owner | Petugas

  datatype User = User(
    username: string,
    password: string,
    namaLengkap: string,
    email: Option<string>,
    noTelepon: Option<string>,
    role: Role,
    statusAktif: Option<bool>)

  /** A user as every read endpoint returns it: the password column excluded. */
  datatype PublicUser = PublicUser(
    idUser: int,
    username: string,
    namaLengkap: string,
    email: Option<string>,
    noTelepon: Option<string>,
    role: Role,
    statusAktif: Option<bool>)

  function RoleName(r: Role): string
  {
    match r
    case Admin => "admin"
    case Operator => "operator"
    case Manager => "manager"
    case Owner => "owner"
    case Petugas => "petugas"
  }

  /** The role an ENUM label denotes; exactly the five labels denote one. */
  function ParseRole(s: string): (r: Option<Role>)
    ensures r.Some? <==> s in ["admin", "operator", "manager", "owner", "petugas"]
    ensures r.Some? ==> RoleName(r.value) == s
  {
    if s == "admin" then Some(Admin)
    else if s == "operator" then Some(Operator)
    else if s == "manager" then Some(Manager)
    else if s == "owner" then Some(Owner)
    else if s == "petugas" then Some(Petugas)
    else None
  }

  /** The `len: [3, 50]` validator on `username`. */
  predicate UsernameLengthOk(username: string)
  {
    3 <= |username| <= 50
  }

  /** The row without its password. */
  function Public(id: int, u: User): (p: PublicUser)
    ensures p.idUser == id && p.username == u.username && p.namaLengkap == u.namaLengkap
    ensures p.email == u.email && p.noTelepon == u.noTelepon && p.role == u.role && p.statusAktif == u.statusAktif
  {
    PublicUser(id, u.username, u.namaLengkap, u.email, u.noTelepon, u.role, u.statusAktif)
  }
}
